=== FILE: README.md ===
# gren, modelled in Dafny

gren is a chat application for a local language model. A Python server keeps
the dialogs. A browser page shows them in a sidebar and talks back to the server
through a hidden textarea. This project models the core of both sides as pure
Dafny functions over immutable datatypes and proves what the code promises.

The server side covers:

- the dialog record and the dialog store: create, load, save, delete, and the
  choice of the current dialog;
- pinning and unpinning, with the pinned positions kept contiguous;
- grouping the chat list by day for the sidebar;
- the textarea command protocol between page and server, and its routing;
- context compression: chunking history, first-level (L1) and second-level
  (L2) summaries, the cumulative context, the context builder, the
  compression triggers, and the cleaning of summarizer output;
- the background task scheduler;
- the web-search decision and result formatting;
- chat text utilities and chat naming;
- the rewriter for "thinking" blocks;
- the partial-output cache and the stream batcher;
- generation parameters and user configuration.

The browser side covers:

- the chat list render;
- the chat switch with its debounce;
- the context menu;
- the rename and delete dialogs, which settle a promise once;
- the send and stop buttons.

Dialogs keyed by id are sequences with unique ids. Times are integers. The
following are function parameters with only the properties the code relies on:

- the clock;
- md5;
- JSON encoding and decoding;
- URL encoding and decoding;
- the regular-expression word-character test;
- the model's output.

## Model

| member | source | states |
|---|---|---|
| Dialogs.NewDialog | services/dialogs/operations.py:24-30 | a new dialog carries the given id and name, an empty history, creation and update time now, the "active" status and no pin |
| Dialogs.GetMessageCount | models/dialog.py:60-62 | the count is the history's length, zero exactly when there is no last message |
| Dialogs.RoleFromValue | ui/models/enums.py:4-7 | reading a role from its string gives back a role whose value is that string |
| Dialogs.RoleValueRoundTrip | ui/models/enums.py:4-7 | every role's string value reads back as the same role |
| Dialogs.Pin | models/dialog.py:26-30 | pinning sets the flag and the position and leaves every other field, `updated` included, as it was |
| Dialogs.Unpin | models/dialog.py:32-35 | unpinning clears the flag and the position and touches nothing else |
| Dialogs.GetLastMessage | models/dialog.py:54-58 | the last message is absent exactly for an empty history, otherwise it is the final entry |
| Dialogs.AddMessage | models/dialog.py:37-42 | adding a message appends exactly that message, stamped now, keeps the earlier history and changes only history and `updated` |
| Dialogs.ClearHistory | models/dialog.py:44-47 | clearing leaves no message, stamps `updated` and changes nothing else |
| Dialogs.Rename | models/dialog.py:49-52 | renaming sets the name, stamps `updated` and changes nothing else |
| Dialogs.ToUiFormat | models/dialog.py:64-69 | one entry per message in order, each carrying the message's role value and content |
| Dialogs.ToUiFormatAddMessage | models/dialog.py:37-42 | adding a message appends exactly its entry to the page format |
| Dialogs.GetSummary | models/dialog.py:71-89 | an empty dialog gives "Пустой диалог"; otherwise the last user message, or the last message when no user message exists, cut to the limit with "..." |
| Dialogs.LastIndexOfRole | models/dialog.py:77-78 | the backwards search finds the last message with the role, and fails only when no message has it |
| Dialogs.ShortenContent | models/dialog.py:79-88 | content within the limit is kept; longer content becomes its first `max_length` characters followed by "...", three longer than the limit |
| Dialogs.JsonSerialize | models/dialog.py:95-113 | the serialized form keeps one entry per message and the pin flag and position |
| Dialogs.DeserializeHistory | services/dialogs/storage.py:69-73 | reading a stored history fails exactly when some entry's role is not a known role value; otherwise one message per entry, in order, with that role, content and timestamp |
| Dialogs.Deserialize | services/dialogs/storage.py:64-80 | reading a stored dialog fails exactly when a message has an unknown role; otherwise every field is as stored and the history keeps its length |
| Dialogs.DeserializeHistoryRoundTrip | models/dialog.py:100-107 | the serialized history reads back to the same messages, roles, contents and timestamps in order |
| Dialogs.JsonSerializeRoundTrip | models/dialog.py:95-113 | serialization loses nothing: reading it back gives the same dialog |
| DialogStore.Find | services/dialogs/manager.py:125-126 | the lookup finds the first entry under the key, and fails exactly when no entry carries it |
| DialogStore.Get | services/dialogs/manager.py:125-126 | `dialogs.get(id)` returns a dialog exactly when the key is present, and that dialog carries the id |
| DialogStore.Put | services/dialogs/operations.py:32 | storing under a key makes it read back the new dialog, leaves every other key's dialog as it was, keeps the key order (appending a new key last) and keeps keys unique |
| DialogStore.Remove | services/dialogs/operations.py:50 | deleting a key keeps only entries of other keys and keeps every such entry |
| DialogStore.RemoveRemovesKey | services/dialogs/operations.py:50 | after `del` the key is absent |
| DialogStore.RemoveUnique | services/dialogs/operations.py:50 | deleting a present key removes exactly one entry and the keys stay unique |
| DialogStore.RemoveKeys | services/dialogs/operations.py:50 | the remaining keys are the old keys, in order, without the deleted one |
| DialogStore.RemoveGet | services/dialogs/operations.py:50 | lookups of other keys are unaffected by a deletion |
| DialogManager.MaxId | services/dialogs/manager.py:43 | over keys that `int()` reads, the largest value read, bounding every key and attained by one (negative keys included), 0 for an empty map |
| DialogManager.Init | services/dialogs/manager.py:37-48 | loading fails exactly when `int()` rejects some key (surrounding whitespace, a sign and single underscores between digits are accepted); an empty map gives next id 1 and no current dialog; otherwise the dialogs are kept, next id is the largest key read plus one and the current dialog is the first of the sorted list |
| DialogManager.InitValid | services/dialogs/manager.py:37-48 | a loaded map with unique keys that `int()` reads yields a manager whose current id is a key and whose next id exceeds the value of every key |
| DialogManager.NewDialogName | services/dialogs/operations.py:20-22 | a non-empty given name is kept; otherwise the configured default name (or "Новый чат") followed by the id |
| DialogManager.CreateDialog | services/dialogs/manager.py:52-65 | the new dialog is stored under `str(next id)` (a minus sign for a negative counter), becomes current, the counter advances and every other key is unchanged |
| DialogManager.CreateDialogFresh | services/dialogs/operations.py:15-33 | on a valid manager the new id was not a key, it is appended to the keys, and the manager stays valid |
| DialogManager.SwitchDialog | services/dialogs/manager.py:73-77 | switching succeeds exactly for a present key and then only the current id changes; otherwise nothing changes |
| DialogManager.SwitchValid | services/dialogs/manager.py:73-77 | switching keeps the manager valid |
| DialogManager.DeleteDialog | services/dialogs/manager.py:79-95 | deletion succeeds exactly for a present key; the current dialog moves to the first remaining key (or none) only when it was the deleted one |
| DialogManager.DeleteValid | services/dialogs/operations.py:36-52 | deletion keeps the manager valid and the key is gone |
| DialogManager.CleanNewName | services/dialogs/operations.py:74-91 | a name is refused exactly when its stripped form is empty or shorter than the minimum; an accepted one is the stripped name cut to the maximum, not starting with whitespace |
| DialogManager.RenameDialog | services/dialogs/operations.py:55-106 | renaming succeeds exactly for a present key and an accepted name, and then only that dialog changes, renamed to the cleaned name |
| DialogManager.RenameValid | services/dialogs/operations.py:55-106 | renaming keeps the manager valid |
| DialogManager.AddMessage | services/dialogs/operations.py:116-124 | adding succeeds exactly for a present key, appends the message to that dialog alone and keeps keys and current id |
| DialogManager.AddMessageValid | services/dialogs/operations.py:116-124 | adding a message keeps the manager valid |
| DialogManager.GetCurrentDialog | services/dialogs/operations.py:108-114 | a dialog is returned exactly when the current id is non-empty and a key, and it is the dialog under that id |
| DialogManager.PinDialog | services/dialogs/manager.py:97-102 | the manager delegates to pinning, which succeeds exactly for a present key |
| DialogManager.UnpinDialog | services/dialogs/manager.py:104-109 | the manager delegates to the unpinning as written: it raises `TypeError` exactly for a present, pinned dialog without a position, otherwise reports whether the key is present with the store the corrected unpin gives; it never raises while every pinned dialog has a position |
| DialogManager.PinValid | services/dialogs/manager.py:97-109 | pinning, and unpinning as written (whether or not it raises), keep the manager valid |
| Text.IntToString | services/dialogs/operations.py:18 | `str()` of a number is never empty: a non-negative number gives its decimal digits, a negative one a minus sign before the digits of its magnitude |
| Text.IntToStringInjective | services/dialogs/operations.py:18 | different counters give different key strings |
| Text.PyIntOfIntToString | services/dialogs/manager.py:43 | `int(str(n)) == n` for every integer, negative ones included: a key the manager made reads back as its counter |
| Text.PyIntOfDigits | services/dialogs/manager.py:43 | `int()` of a non-empty decimal digit string is its decimal value |
| Text.PyIntPadded | services/dialogs/manager.py:43 | `int()` ignores any whitespace around the number |
| Text.PyIntChars | services/dialogs/manager.py:43 | a string `int()` accepts holds only whitespace, signs, digits and underscores, so never a parenthesis |
| Text.PyIntStripsSpace | services/dialogs/manager.py:43 | `int(" 7\n")` is 7 |
| Text.PyIntSigned | services/dialogs/manager.py:43 | `int("-1")` is -1 |
| Text.PyIntUnderscore | services/dialogs/manager.py:43 | `int("1_0")` is 10: a single underscore between digits is allowed |
| Text.PyIntDoubleUnderscore | services/dialogs/manager.py:43 | `int("1__0")` is refused: two underscores in a row are not |
| Pinning.PinAll | services/dialogs/pinning.py:25-34 | every entry is processed by the same per-dialog rule, in order, with nothing added or dropped |
| Pinning.PinDialog | services/dialogs/pinning.py:13-37 | a missing key fails and an already pinned dialog succeeds unchanged; otherwise the dialog goes to position 0, every other pinned dialog moves one down (a missing position counting as 0), unpinned ones are untouched, and no field but the pin state changes |
| Pinning.UnpinDialogAsWritten | services/dialogs/pinning.py:40-66 | the code as written: a missing key fails, an unpinned dialog succeeds unchanged, and a pinned dialog without a position makes the comparison raise `TypeError` |
| Pinning.UnpinAsWrittenAgrees | services/dialogs/pinning.py:40-66 | the written code raises only for a pinned dialog without a position, and otherwise returns what the corrected unpin returns |
| Pinning.UnpinAsWrittenSameIds | services/dialogs/pinning.py:40-66 | the written unpin, even when it raises part-way, keeps the same dialogs under the same keys in the same order |
| Pinning.UnpinAsWrittenWellPinned | services/dialogs/pinning.py:51-63 | on a store where every pinned dialog has a position, the written code never raises |
| Pinning.UnpinMissingPositionRaises | services/dialogs/pinning.py:51-62 | a concrete store where unpinning a position-less pinned dialog raises |
| Pinning.UnpinDialog | services/dialogs/pinning.py:40-66 | a missing key fails and an unpinned dialog succeeds unchanged; otherwise the dialog loses flag and position, pinned dialogs below it move one up, everything else is untouched |
| Pinning.UnpinMissingPositionCorrected | services/dialogs/pinning.py:51-63 | the corrected unpin of a position-less pinned dialog succeeds and changes no other dialog |
| Pinning.PinKeepsWellPinned | services/dialogs/pinning.py:13-37 | pinning keeps the positions of the pinned dialogs exactly 0..n-1 and adds one pinned dialog |
| Pinning.UnpinKeepsWellPinned | services/dialogs/pinning.py:40-66 | unpinning keeps the positions of the pinned dialogs exactly 0..n-1 and removes one pinned dialog |
| Pinning.UnpinAfterPin | services/dialogs/pinning.py:13-66 | pinning an unpinned dialog and unpinning it again restores the store exactly |
| Grouper.Info | services/dialogs/grouper.py:18-27 | an entry carries its dialog's id and is marked current exactly when that id is the current one |
| Grouper.Infos | services/dialogs/grouper.py:16-28 | one entry per dialog, in dict order |
| Grouper.KeyOf | services/dialogs/grouper.py:31-35 | the key's group is negative exactly for pinned dialogs, its position is the pin position when there is one and 999 otherwise, and its time is the update time |
| Grouper.RanksAboveStrict | services/dialogs/grouper.py:31-35 | the reversed sort key is a strict order, so the sort is well defined |
| Grouper.GetDialogList | services/dialogs/grouper.py:13-37 | the list is a permutation of the per-dialog entries, each marked current exactly for the current id |
| Grouper.DialogListStable | services/dialogs/grouper.py:31-35 | dialogs with the same sort key (pinned group, pinned position, update time) appear in the list in the order the store holds them |
| Grouper.DialogListOrder | services/dialogs/grouper.py:31-35 | because of `reverse=True`, unpinned entries come first, newest first, and pinned ones follow with the largest position first |
| Grouper.DialogListIds | services/dialogs/grouper.py:13-37 | an id appears in the list exactly when it is a key of the dialog map |
| Grouper.DateBucket | services/dialogs/grouper.py:45-80 | the day difference decides the group: 0 today, 1 yesterday, 2-7 week, 8-30 month, anything else (the future included) older |
| Grouper.BucketOf | services/dialogs/grouper.py:60-62 | an entry goes to the pinned group exactly when it is pinned, whatever its date |
| Grouper.LabelsDistinct | services/dialogs/grouper.py:88-95 | the six group titles are pairwise different, so no group overwrites another in the result dict |
| Grouper.InBucket | services/dialogs/grouper.py:59-80 | a group's entries are exactly the list entries falling into it |
| Grouper.InBucketCount | services/dialogs/grouper.py:59-80 | a group holds each of its entries as often as the list does |
| Grouper.SortPinned | services/dialogs/grouper.py:83-84 | the pinned group is reordered ascending by position, as a permutation |
| Grouper.SortPinnedAsWritten | services/dialogs/grouper.py:83-84 | the written sort key fails exactly when two or more pinned entries exist and one lacks a position (None against int); otherwise it returns the intended sort, a permutation ascending by position |
| Grouper.AllGroups | services/dialogs/grouper.py:50-57 | six groups in dict order, titled pinned, today, yesterday, week, month, older |
| Grouper.AllGroupsEntries | services/dialogs/grouper.py:59-84 | each of the six groups holds exactly its bucket's entries, counted with multiplicity |
| Grouper.AllGroupsMembers | services/dialogs/grouper.py:59-80 | an entry lies in a group exactly when it is in the list and falls into that group's bucket |
| Grouper.GroupDialogs | services/dialogs/grouper.py:40-101 | empty groups are left out of the result |
| Grouper.GroupPresent | services/dialogs/grouper.py:97-99 | a group is present exactly when some entry falls into it, and then it holds exactly those entries |
| Grouper.GroupDialogsAsWritten | services/dialogs/grouper.py:40-101 | the grouping as written raises exactly when the written pinned sort fails on the pinned bucket, and otherwise equals the intended grouping |
| Grouper.GroupDialogsRaises | services/dialogs/grouper.py:84 | two pinned dialogs, one without a position, make the written grouping raise |
| Grouper.GroupsPartitionList | services/dialogs/grouper.py:59-99 | the groups together hold every listed dialog exactly as often as the list does: nothing is lost or duplicated |
| Grouper.DateGroupsKeepOrder | services/dialogs/grouper.py:59-80 | each date group keeps the list's order |
| Sorting.Sort | services/dialogs/grouper.py:31-35 | the sort returns a permutation of its input |
| Sorting.SortSorted | services/dialogs/grouper.py:31-35 | under a strict order no later element ranks above an earlier one |
| Sorting.SortStable | services/dialogs/grouper.py:31-35 | under a strict weak order, the elements tied with any given element leave the sort in the order they entered it, as Python's stable sort (also with `reverse=True`) promises |
| Sorting.FilterMultiset | services/dialogs/grouper.py:97-99 | filtering keeps each kept element exactly as often as the input holds it |
| LegacyDialogs.ServiceCreate | ui/services/dialog_service.py:24-44 | the new dialog is stored under the decimal next id with the given or configured default name, becomes current, and the counter advances; other keys are untouched |
| LegacyDialogs.ManagerCreate | ui/classes/dialog_manager.py:19-37 | as above, with the fixed default name "Чат <id>" |
| LegacyDialogs.ServiceRename | ui/services/dialog_service.py:75-81 | renaming accepts any name for a present key and changes that dialog alone; a missing key changes nothing |
| LegacyDialogs.ServiceClear | ui/services/dialog_service.py:118-124 | clearing empties that dialog's history alone and succeeds exactly for a present key |
| LegacyDialogs.ServiceList | ui/services/dialog_service.py:93-108 | the older list is a permutation of the entries, most recently updated first, each marked current exactly for the current id |
| LegacyDialogs.ServiceListHead | ui/services/dialog_service.py:106-108 | the list's head is a stored key updated no earlier than any other dialog |
| LegacyDialogs.MostRecent | ui/services/dialog_service.py:226-229 | after loading the current dialog is none exactly for an empty store, otherwise the most recently updated key |
| LegacyDialogs.Advance | ui/services/dialog_service.py:214-217 | the counter never decreases, ends above a numeric id, and moves only to that id plus one |
| LegacyDialogs.AdvanceAll | ui/services/dialog_service.py:183-217 | after loading, the counter is at least 1, above every numeric id, and either 1 or one past a loaded id |
| LegacyDialogs.ServiceLoad | ui/services/dialog_service.py:161-233 | the store holds each loaded id with its last file, a non-numeric id is kept but does not move the counter, and the most recent dialog becomes current |
| LegacyDialogs.StoreAll | ui/services/dialog_service.py:210-212 | storing files one after another leaves each id with the last file that carried it |
| LegacyDialogs.FirstBad | ui/classes/dialog_manager.py:138 | the first file whose id `int()` rejects, every earlier one parsing |
| LegacyDialogs.ManagerLoad | ui/classes/dialog_manager.py:124-148 | a non-numeric id aborts loading after storing that file and leaves no current dialog; otherwise every file is stored, the counter passes every id, the most recent dialog is current and the manager is valid |
| Commands.ParsePin | handlers/commands.py:11-20 | a pin command is accepted exactly when it splits into three parts whose first and last agree; it yields the middle part as the id and pins exactly for "pin" |
| Commands.ParseDelete | handlers/commands.py:47-52 | a delete command is accepted exactly when it splits into three parts starting with "delete"; the flag is set exactly for "active" |
| Commands.ParseRename | handlers/commands.py:90-95 | a rename command is accepted exactly when a two-split gives three parts starting with "rename"; the name is the decoded remainder, colons included |
| Commands.RenameCommand | static/js/modules/context-menu.js:167 | the browser's rename command starts with "rename:" and ends with ":" and the encoded new name |
| Commands.DeleteCommand | static/js/modules/context-menu.js:208 | the browser's delete command starts with "delete:" and ends with ":active" exactly for an active chat, ":inactive" otherwise |
| Commands.RenameRoundTrip | static/js/modules/context-menu.js:167 | a rename command built by the browser parses back to the same id and name whenever decoding undoes encoding and the id has no colon |
| Commands.DeleteRoundTrip | static/js/modules/context-menu.js:208 | a delete command built by the browser parses back to the same id and active flag |
| Commands.PinRoundTrip | handlers/commands.py:11-29 | a well-formed pin command parses back to the same id and action |
| Commands.HandlePinning | handlers/commands.py:8-42 | malformed commands and unknown ids change nothing; otherwise the dialog is pinned or unpinned as written; when the unpin raises `TypeError` the reply is the empty one of line 42 (the store as the raise left it), otherwise it carries the dialog's history and id |
| Commands.HandleDeletion | handlers/commands.py:44-85 | malformed commands and unknown ids change nothing; otherwise the dialog is deleted, and a non-empty reply id names the dialog now current |
| Commands.HandleRename | handlers/commands.py:87-127 | malformed, unknown or blank names change nothing; otherwise the name is cut to the limit and passed to the manager's validating rename |
| Commands.RenameStoresCleanName | handlers/commands.py:87-124 | an accepted rename stores a non-empty name within the limit that does not start with whitespace, and changes no other dialog |
| Commands.CommandsKeepValid | handlers/commands.py:8-127 | none of the three commands breaks the manager's invariant |
| Handlers.CheckDebounce | handlers/base.py:41-47 | a switch is allowed exactly when 300 ms have passed since the last recorded one, and only an allowed switch records the new time |
| Handlers.DebounceStamp | handlers/base.py:41-47 | over a run of attempts the recorded time is that of the last allowed attempt, or the start when none was allowed |
| Handlers.DebounceSpacing | handlers/base.py:41-47 | after an allowed attempt, the next attempt is allowed exactly when it is at least 300 ms later |
| Handlers.DebounceFirst | handlers/base.py:41-47 | before any allowed attempt, an attempt is allowed exactly when it is at least 300 ms after the start time |
| Handlers.CurrentReply | handlers/chat_operations.py:10-18 | a debounced switch answers with the current dialog's history and id, or with an empty reply when there is none |
| Handlers.HandleChatSwitch | handlers/chat_operations.py:8-30 | a too-early switch answers with the current dialog and records nothing; a blank, "null" or "undefined" id is refused; a known id becomes current and its history is sent; an unknown id is echoed with no history and no change |
| Handlers.SwitchNamesCurrent | handlers/chat_operations.py:8-30 | switching keeps the manager valid, and a reply naming a stored dialog names the current one |
| Handlers.CreateChat | handlers/chat_operations.py:32-47 | a new empty dialog under the next id, named with the default name and the id, becomes current and the page scrolls to "today" |
| Handlers.CreateChatValid | handlers/chat_operations.py:32-47 | creating keeps the manager valid and appends exactly the new key |
| Handlers.LoadUserSettings | handlers/naming_utils.py:21-37 | the generation section's values are read with defaults 512, 0.7 and false; a failing config falls back to the default config's values |
| Handlers.DefaultRegistry | handlers/mediator.py:9-25 | the mediator starts with the six named events registered |
| Handlers.Register | handlers/mediator.py:27-28 | registering adds the event name to the known events |
| Handlers.Dispatch | handlers/mediator.py:30-33 | dispatch finds exactly the registered events, returning their handler, and raises `ValueError` for any other |
| Handlers.RegisterThenDispatch | handlers/mediator.py:27-33 | a registered handler is what dispatch returns for its event, and other events are unaffected |
| Handlers.RouteOf | handlers/mediator.py:35-52 | an empty value routes nowhere; a plain switch is routed only when no command prefix matches |
| Handlers.BuiltCommandsRoute | handlers/mediator.py:38-43 | rename, delete and pin commands as built reach their handlers, and a decimal id reaches the chat switch |
| Handlers.HandleChatSelection | handlers/mediator.py:35-52 | each prefix goes to its handler; the "thinking:" prefix calls a handler the command class lacks and fails with `AttributeError`; only a switch can record a new switch time |
| Handlers.SelectionKeepsValid | handlers/mediator.py:35-52 | any routed command that returns keeps the manager valid |
| ChatList.ToJs | handlers/chat_list.py:25-33 | a payload entry keeps the id and the current flag and has line breaks in the name replaced by spaces |
| ChatList.ToJsAll | handlers/chat_list.py:24-35 | one payload entry per dialog entry, in order |
| ChatList.JsGroups | handlers/chat_list.py:22-37 | one payload group per date group, in order |
| ChatList.ChatListData | handlers/chat_list.py:8-41 | a failure gives the empty payload with scroll "none"; otherwise the groups are converted in order, the flat list is their concatenation and the scroll target is passed on |
| ChatList.JsFlattenGroups | handlers/chat_list.py:22-37 | the flat list equals converting the groups' concatenated entries |
| ChatList.FlatCoversList | handlers/chat_list.py:22-37 | the flat list has one entry per listed dialog and holds exactly the converted list entries |
| ChatList.ParseChats | static/js/modules/chat-list.js:19-29 | unparsable data becomes no groups and an empty flat list; otherwise groups and flat list are taken as sent |
| ChatList.Lookup | static/js/modules/chat-list.js:52 | looking up a group title fails exactly when no group carries it |
| ChatList.Rows | static/js/modules/chat-list.js:60-62 | without `escapeHtml` no row is drawn; with it one row per chat, carrying the id and the 'active' class exactly for the current chat |
| ChatList.RenderChatList | static/js/modules/chat-list.js:10-71 | with no group at all, only the "Нет чатов" placeholder is drawn |
| ChatList.DividersFromOrder | static/js/modules/chat-list.js:49-64 | every divider drawn names a group from the display order |
| ChatList.PinnedNeverDrawn | static/js/modules/chat-list.js:49 | the pinned group's divider is never drawn, since its title is missing from the display order |
| ChatList.OnlyPinnedRendersNothing | static/js/modules/chat-list.js:34-64 | a list holding one pinned chat draws nothing at all: neither the chat nor the placeholder |
| ChatList.RenderChatListCorrected | static/js/modules/chat-list.js:10-71 | with the pinned title added to the display order, no group still gives the placeholder |
| ChatList.RenderCorrectedDrawsAll | static/js/modules/chat-list.js:34-64 | for any server list, the corrected renderer draws the placeholder exactly when there are no dialogs and otherwise every group with its divider and rows |
| ChatList.FirstCurrent | static/js/modules/chat-list.js:67 | the chat selected after rendering is absent exactly when no entry is current, otherwise a current entry's id |
| ChatList.FirstCurrentOfList | static/js/modules/chat-list.js:67-70 | a flat list covering the server's list selects the current id exactly when a listed dialog has it |
| ChatList.SelectedAfterRender | handlers/chat_list.py:8-41 | end to end, the browser selects the server's current dialog exactly when it is stored, and nothing otherwise |
| UiLogic.DisplayName | logic/ui_handlers.py:40-45 | the displayed name has no line breaks and single spaces, fits the limit, equals the cleaned name when that fits, and is otherwise its first characters followed by "..." |
| UiLogic.DisplayNameIdempotent | logic/ui_handlers.py:40-45 | cleaning and cutting an already displayed name changes nothing |
| UiLogic.HeaderName | handlers/naming_utils.py:7-19 | an empty or unknown id gives "Чат"; otherwise the dialog's name cleaned and cut to 30 characters with 27 kept |
| UiLogic.IdFromSelection | logic/ui_handlers.py:102 | the id read from a selection never ends in a closing parenthesis |
| UiLogic.IdFromLabel | logic/ui_handlers.py:46 | the id read back out of any label is the id it was built with, whatever parentheses the name holds |
| UiLogic.Label | logic/ui_handlers.py:80 | a label starts with the chat name and ends with " (" + id + ")" |
| UiLogic.DropdownLabel | logic/ui_handlers.py:38-46 | a dropdown entry is at most 50 characters of name plus the id suffix, and the id reads back out of it when the id holds no parenthesis |
| UiLogic.NameFromSelection | logic/ui_handlers.py:60-64 | as written, the name read back never holds `(` and has no surrounding whitespace, and a selection without `(` reads back as itself stripped |
| UiLogic.NameFromSelectionCorrected | logic/ui_handlers.py:64 | the corrected reading also yields a name without surrounding whitespace and agrees with the written one on selections without `(` |
| UiLogic.NameFromSelectionCutsAtParen | logic/ui_handlers.py:64 | the name "a (b)" read back from its label comes out as "a" |
| UiLogic.NameFromSelectionCutsAtFirstParen | logic/ui_handlers.py:64 | as written, any name whose first `(` follows a space reads back as the part before that space |
| UiLogic.NameFromSelectionWithoutParen | logic/ui_handlers.py:64 | a stripped name without parenthesis reads back unchanged with the code as written |
| UiLogic.NameFromSelectionCorrectedRoundTrip | logic/ui_handlers.py:64 | cutting at the last " (" instead reads back every stripped name, parentheses included |
| UiLogic.CurrentIndex | logic/ui_handlers.py:52-56 | the index is that of the first entry with the id, or 0 when no entry has it |
| UiLogic.DropdownFor | logic/ui_handlers.py:32-58 | one label per listed dialog, in order; a value is selected exactly when a current dialog exists and the list is non-empty, and it is the current dialog's label |
| UiLogic.DropdownSelectsCurrent | logic/ui_handlers.py:32-58 | on a valid manager with a current dialog, the selected label reads back to the current id |
| UiLogic.HeaderAfterSend | logic/ui_handlers.py:179-191 | as written (through `get_chat_name_from_selection`), the header after a send is set exactly when the list is non-empty |
| UiLogic.HeaderAfterSendNamesChat | logic/ui_handlers.py:179-191 | as written, the header after a send is the sent-to chat's own name whenever every name is stripped and holds no `(` |
| UiLogic.HeaderAfterSendCutsName | logic/ui_handlers.py:189 | as written, sending to a chat named "a (b)" sets the header to "a" |
| UiLogic.HeaderAfterSendCorrected | logic/ui_handlers.py:179-191 | with the corrected reading the header is still set exactly when the list is non-empty |
| UiLogic.HeaderAfterSendCorrectedNamesChat | logic/ui_handlers.py:179-191 | with the corrected reading the header is the sent-to chat's own name for every stripped name, parentheses included |
| ContextUtils.FormatForSummary | services/context/utils.py:161-163 | the summary format of an interaction is the same string as its `text` property, so its length is the interaction's `char_count` |
| ContextUtils.CharCountPositive | services/context/utils.py:29-32 | every interaction counts at least the two labels' characters |
| ContextUtils.GroupFoldInv | services/context/utils.py:118-154 | the loop invariant: closed chunks plus the open chunk are the interactions seen, in order; every closed chunk is non-empty and, holding two or more, within the target; the running size is the open chunk's |
| ContextUtils.GroupIntoChunks | services/context/utils.py:106-159 | the chunks concatenate back to the input, each is non-empty and within the target unless it holds a single interaction, and there are no chunks exactly when there is no input |
| ContextUtils.OversizedAlone | services/context/utils.py:125-153 | an interaction larger than the target always ends up in a chunk of its own, with or without overflow allowed |
| ContextUtils.SortedSet | services/context/utils.py:171 | `sorted(set(...))` is strictly increasing and holds exactly the set's elements |
| ContextUtils.ExtractIndices | services/context/utils.py:166-171 | the indices come out strictly increasing, and an index is present exactly when some interaction carries it |
| ContextUtils.FirstFromSpec | services/context/utils.py:49 | the forward scan for a literal returns a position where it occurs, with no occurrence between the start and that position, and finds nothing only when it occurs nowhere from the start on |
| ContextUtils.LastBelowSpec | services/context/utils.py:49 | the backward scan returns the last occurrence below the bound, and finds nothing only when there is none below it |
| ContextUtils.LeadSpaceSpec | services/context/utils.py:49 | a greedy `\s*` takes a run of whitespace that ends before a non-whitespace character or at the end of the text |
| ContextUtils.QuestionGroupSpec | services/context/utils.py:49 | the question group exists exactly when `\nАссистент:` occurs after the user label; only whitespace precedes it, `\nАссистент:` follows it and none occurs inside it |
| ContextUtils.AnswerGroupSpec | services/context/utils.py:49 | the answer group follows whitespace only, ends at the end of the text or before a blank line and the user label, and holds no such blank line and label inside |
| ContextUtils.MatchAtExists | services/context/utils.py:49-51 | a match starts at a position exactly when the text there begins with the user label and `\nАссистент:` occurs later; it ends at the end of the text or right before the lookahead's blank line and user label |
| ContextUtils.MatchEndsWithAnswer | services/context/utils.py:49-51 | the answer group is the last text a match consumes |
| ContextUtils.FindAll | services/context/utils.py:51 | `re.findall` yields at most one pair per character of the text, since every match consumes the user label |
| ContextUtils.FindAllNoLabel | services/context/utils.py:51 | a text without the user label yields no pair |
| ContextUtils.KeptIsStripped | services/context/utils.py:53-62 | a kept interaction is exactly one whose sides are non-empty and unchanged by stripping, with no message indices |
| ContextUtils.KeepMatches | services/context/utils.py:53-62 | the regular-expression pass keeps stripped pairs whose sides are both non-empty, with no message indices |
| ContextUtils.KeepStripped | services/context/utils.py:53-62 | pairs that strip to kept interactions, the answer possibly followed by a blank line, are kept one-for-one and in order |
| ContextUtils.ParseLines | services/context/utils.py:66-94 | after any lines, a question is pending exactly when some line started with the user label and then has an answer, the closed pairs plus the pending one number the user-label lines, and no pair carries indices |
| ContextUtils.FallbackParse | services/context/utils.py:65-101 | the line-based pass yields one interaction per line starting with the user label, none with indices |
| ContextUtils.ParseTextToInteractions | services/context/utils.py:34-103 | the line-based pass runs exactly when the regular-expression pass kept nothing |
| ContextUtils.ParsedCarryNoIndices | services/context/utils.py:34-103 | a chunk of interactions parsed from text yields no message indices |
| ContextUtils.FallbackRoundTrip | services/context/utils.py:24-27 | an interaction's text, with single-line stripped sides, parses back to the same interaction with the line-based pass |
| Context.SummaryId | models/context/chunk.py:34 | the id is the md5 digest's first 16 characters: a prefix of the digest, of length 16 for a full digest |
| Context.Ratio | models/context/chunk.py:31 | the compression ratio times the summary length (1 for an empty summary) gives back the original count |
| Context.CreateChunk | models/context/chunk.py:27-40 | an L1 chunk keeps the summary, its length, the original count and the indices, and its ratio is the original count over the summary length, at least 1 |
| Context.CreateBlock | models/context/chunk.py:65-78 | an L2 block keeps the chunk ids, the summary, its length and the original count, with the same ratio rule |
| Context.IdDependsOnSummary | models/context/chunk.py:34-72 | chunk and block ids depend on the summary alone: equal summaries give equal ids whatever the other arguments |
| Context.AddBlock | models/context/cumulative.py:21-35 | the cumulative string only grows: the old content is kept as a prefix and the block's text appended, the character total grows by the same amount, and one block record is appended |
| Context.AddBlocksContent | models/context/cumulative.py:21-35 | from empty, adding blocks yields exactly their texts in order, one record per block, with the total matching the content |
| Context.GetFormatted | models/context/cumulative.py:37-41 | the formatted string is empty exactly for empty content, otherwise the header followed by the content |
| Context.NewTrigger | services/context/trigger.py:11-17 | the tail limit defaults to 2000 and the L2 threshold to 4 |
| Context.ShouldTriggerL1 | services/context/trigger.py:19-21 | L1 fires when the tail holds at least one character more than the limit; an empty tail fires only under a negative limit |
| Context.ShouldTriggerL2 | services/context/trigger.py:23-25 | L2 fires once the chunk count is no longer below the threshold, so any count fires under a threshold of zero or less |
| Context.TriggersMonotone | services/context/trigger.py:19-25 | a longer tail and more chunks never switch a trigger off, and a tail within the limit never triggers L1 |
| Context.InitialState | services/context/manager.py:64-67 | a new context has the configured or default limits, and empty tail, chunks, blocks and counters |
| Context.AddInteraction | services/context/manager.py:146-197 | an overflowing tail is sent to summarization and replaced by the new entry; otherwise the entry is appended even past the limit; the counters advance by one interaction and its text length |
| Context.AddInteractionConserves | services/context/manager.py:146-197 | no text is lost: the old tail plus the new entry equals the part sent plus the new tail; a part is sent exactly when the L1 trigger fires, and the new tail exceeds the limit by at most one entry |
| Context.TriggerOf | services/context/manager.py:163 | the manager's own tests, the tail over its limit here and the chunk count at the threshold at line 274, decide exactly as the trigger built from its state |
| Context.ReportedSet | services/context/manager.py:121-144 | exactly the indices of user and assistant messages, plus the last index when either role is missing |
| Context.CurrentMessageIndices | services/context/manager.py:121-144 | the indices come out strictly increasing and are exactly the reported ones |
| Context.CurrentIndicesInRange | services/context/manager.py:121-144 | every index lies in the history, a system message is reported only as the last one when a role is missing, and a non-empty history reports something |
| Context.L1Requests | services/context/manager.py:199-248 | a tail yields no request exactly when nothing is parsed from it, and never more requests than interactions |
| Context.L1RequestsCover | services/context/manager.py:199-248 | one request per chunk carrying that chunk's text; the chunks cover the parsed interactions in order, there are requests exactly when something was parsed, and none carries indices |
| Context.OnL1Complete | services/context/manager.py:250-278 | the new chunk is appended after the existing ones, the L1 counter advances, L2 is triggered exactly when the threshold is reached, and the tail, blocks and cumulative string are untouched |
| Context.HalfCount | services/context/manager.py:283 | `max(1, n // 2)` takes at least one chunk and never more than half of two or more |
| Context.Oldest | services/context/manager.py:283-284 | the oldest half is a prefix, empty exactly when there are no chunks |
| Context.TriggerL2 | services/context/manager.py:280-308 | a request exists exactly when chunks exist; it names the oldest half's ids, sums their original counts and joins their summaries with "\n---\n" |
| Context.RemoveIds | services/context/manager.py:329-332 | the remaining chunks are exactly those whose id is not listed |
| Context.OnL2Complete | services/context/manager.py:310-341 | the block is added to the cumulative string and the block list, the named chunks are removed, the L2 counter advances, and the tail is untouched |
| Context.EqualSummariesLeaveTogether | services/context/manager.py:329-332 | two chunks with equal summaries share an id, so removal takes both or neither |
| Context.RemoveIdsSubsequence | services/context/manager.py:329-332 | removal keeps the remaining chunks in their original order |
| Context.L2RoundRemovesOldest | services/context/manager.py:280-341 | a completed L2 round removes every chunk of the oldest half, adds one block and keeps the cumulative string consistent |
| ContextBuilder.Parts | services/context/builder.py:17-46 | the parts always start with the instruction and end with the separator |
| ContextBuilder.Build | services/context/builder.py:11-47 | the context is empty exactly for a history shorter than two messages, and otherwise starts with the instruction and ends with the separator |
| ContextBuilder.ManagerContext | services/context/manager.py:343-382 | the manager's context starts with the instruction and ends with the separator even for a short history; an empty state gives just those two, a blank line apart |
| ContextBuilder.ManagerMatchesBuilder | services/context/manager.py:343-382 | the manager's own assembly builds exactly the builder's string for any history of two or more messages |
| ContextBuilder.L1SectionAppend | services/context/builder.py:34-38 | appending a chunk appends exactly its numbered entry to the L1 section |
| ContextBuilder.EntriesNumbered | services/context/builder.py:36-37 | the L1 entries are the chunk summaries in order, numbered from 1 |
| ContextBuilder.BuildAllLevels | services/context/builder.py:17-47 | with all three levels present the context is instruction, cumulative string, L1 section, raw tail and separator, separated by blank lines |
| ContextBuilder.BuildInitial | services/context/builder.py:17-47 | a fresh context state yields only the instruction and the separator |
| Scheduler.Less | models/summary_task.py:22-27 | a task with equal priority and sequence number never precedes another; higher priority always comes first and lower priority never does; on equal priority the smaller sequence number comes first |
| Scheduler.LessIsStrictOrder | models/summary_task.py:22-34 | task order is a strict order, total on distinct sequence numbers, puts higher priority first, and equal tasks are unordered |
| Scheduler.EntryOrderIsTaskOrder | services/context/scheduler.py:25 | the queue's `(-priority, task)` pairs are ordered exactly as the tasks themselves |
| Scheduler.NewScheduler | services/context/scheduler.py:15-18 | a new scheduler is empty and valid |
| Scheduler.Put | services/context/scheduler.py:20-25 | the task is stamped with the counter, the counter advances by one, and the queue gains exactly that task |
| Scheduler.MinIndex | services/context/scheduler.py:27-33 | the index of an entry no other entry precedes |
| Scheduler.Get | services/context/scheduler.py:27-33 | an empty queue returns nothing; otherwise the first entry in order is returned and removed, and the counter is unchanged |
| Scheduler.GetTakesHighestOldest | services/context/scheduler.py:27-33 | the task taken has the highest priority and, among equal priorities, the smallest sequence number |
| Scheduler.FirstInFirstOut | services/context/scheduler.py:20-33 | of two tasks of equal priority, the one put later is not taken first |
| Summarizers.TruncateText | services/context/summarizers.py:187-209 | the text is returned unchanged whatever the limit, so a text longer than a non-negative limit stays longer: the cutting code is commented out |
| Summarizers.Find | services/context/summarizers.py:331-334 | the first position where a tag occurs, or none when it occurs nowhere, as `re.sub` scans for `<think>` |
| Summarizers.RemoveThinkBlocks | services/context/summarizers.py:331-334 | removing `<think>…</think>` blocks never lengthens the response |
| Summarizers.RemoveThinkBlocksNoTag | services/context/summarizers.py:331-334 | a response without an opening `<think>` is left as it is |
| Summarizers.RemoveOneBlock | services/context/summarizers.py:331-334 | a block from the first opening tag to the first closing tag after it is cut out and the rest is cleaned the same way |
| Summarizers.DropPrompt | services/context/summarizers.py:321-322 | the echoed prompt is cut exactly when the response starts with it, so prompt plus result gives back the response |
| Summarizers.CleanBase | services/context/summarizers.py:318-336 | the base cleaning returns a text with no surrounding whitespace |
| Summarizers.CleanDropsPrompt | services/context/summarizers.py:321-322 | a response that repeats the prompt is cleaned, by the base and by the L1 cleaner, exactly as the text after the prompt would be on its own |
| Summarizers.PlainTextCleaned | services/context/summarizers.py:318-336 | text with no repeated prompt, no whitespace or quote at either end and no think tag comes out of the base cleaner unchanged |
| Summarizers.PlainTextCleanedL1 | services/context/summarizers.py:318-336 | such text without chat-template tokens also comes out of the L1 cleaner unchanged |
| Summarizers.CleanL1Core | services/context/summarizers.py:388-407 | the level-1 cleaning before the marker also returns a stripped text |
| Summarizers.Mark | services/context/summarizers.py:408-409 | the marker is added in front, separated by a space, only to a non-empty text that lacks it; the original text follows it intact |
| Summarizers.MarkIdempotent | services/context/summarizers.py:408-409 | marking a marked summary changes nothing |
| Summarizers.CleanL1 | services/context/summarizers.py:388-411 | a level-1 summary is empty only when the cleaned text is, otherwise it starts with `[L1 Summary]`, and it is stripped |
| Summarizers.MarkStripped | services/context/summarizers.py:408-411 | marking a stripped text keeps it stripped |
| Summarizers.CleanL2 | services/context/summarizers.py:451-473 | a level-2 summary is empty exactly when the base cleaning is, otherwise starts with `[L2 Summary]`, and one that already does is kept |
| Summarizers.RelabelStrip | services/context/summarizers.py:466-473 | relabelling `[L1 Summary]` as level 2 and adding the marker gives a text starting with the level-2 marker, unchanged if it already had only that marker |
| Summarizers.MarkersDiffer | services/context/summarizers.py:408-409 | a text starting with the level-2 marker never starts with the level-1 one |
| Summarizers.FailedCountsFailures | services/context/summarizers.py:92-95 | `failed_requests` equals the number of calls that did not succeed, and the total counts every call |
| Summarizers.DropLevelLabel | services/chat/naming_service.py:55 | removing a leading `[L<n> Summary]` label leaves a suffix of the text, and a text without the label is unchanged |
| Summarizers.DropLevelLabelOf | services/search/decision.py:115 | a label for an accepted level followed by spaces is removed together with the spaces, leaving the rest |
| SearchFormat.ClipContent | services/search/formatter.py:37-39 | the stripped content is kept when it fits; when it is longer than a non-negative limit the result is exactly its first `maxContent` characters followed by "..." |
| SearchFormat.NumberedBlocks | services/search/formatter.py:35-50 | one block per result, in order, numbered from 1 |
| SearchFormat.FitCount | services/search/formatter.py:52-58 | the blocks emitted are the longest prefix whose running total stays within the budget; the next block would pass it |
| SearchFormat.EmitLoopShape | services/search/formatter.py:35-58 | the loop emits exactly the blocks that fit and, if one does not, a note naming that block's number, then stops |
| SearchFormat.FormatResults | services/search/formatter.py:12-60 | no results give the empty string and results always give a non-empty text: the header, the fitting blocks and the skip note |
| SearchFormat.SkippedBlockOverflows | services/search/formatter.py:53-55 | a block is skipped only when adding it to what was emitted passes the total limit |
| SearchFormat.LastUser | services/search/formatter.py:80-84 | the index of the last user message, or none exactly when no message is from the user |
| SearchFormat.Augment | services/search/formatter.py:63-96 | with a context and a user message, the system message is inserted right before the last user message and nothing else moves; otherwise the list comes back unchanged |
| SearchFormat.AugmentInverse | services/search/formatter.py:74-96 | removing the inserted message gives the original list back, and the user message after it is still the last one |
| SearchDecision.NextBrace | services/search/decision.py:117 | the scan stops at the first brace at or after the start, or at the end of the text |
| SearchDecision.MatchAtIff | services/search/decision.py:117 | a match of `\{[^{}]+\}` at a position is an opening brace, at least one brace-free character and a closing brace |
| SearchDecision.FindBlock | services/search/decision.py:117 | the JSON block found is the leftmost match, and none is found only when no position matches |
| SearchDecision.NoBraceNoBlock | services/search/decision.py:117-120 | a text without an opening brace has no JSON block |
| SearchDecision.DropL1Prefix | services/search/decision.py:115 | dropping the prefix leaves a suffix of the text and changes nothing unless the text starts with `[L1` |
| SearchDecision.DropL1PrefixOfLabel | services/search/decision.py:115 | an `[L1 Summary]` label is removed together with the whitespace after it |
| SearchDecision.DropL1PrefixKeepsL2 | services/search/decision.py:115 | an `[L2 Summary]` label is not removed |
| SearchDecision.ReadFields | services/search/decision.py:124-128 | a search is asked for exactly when `search` is truthy and the stripped `query` is not empty; the query is the stripped string form of `data["query"]`, or empty when the key is absent |
| SearchDecision.DecideOn | services/search/decision.py:116-138 | when the first block decodes to an object, the decision and the query are the ones read from that object's `search` and `query` fields; otherwise no search and an empty query; the raw text is reported unchanged |
| SearchDecision.ParseResponse | services/search/decision.py:113-138 | the reported raw response is the stripped text without the level-1 label; the decision and the query are read from the first block of that text when it decodes, and are no search with an empty query otherwise |
| SearchDecision.BlankQueryDemoted | services/search/decision.py:127-128 | a set search flag with a blank query is turned off |
| SearchDecision.ShouldSearch | services/search/decision.py:63-111 | an exception gives no search with raw `error`, a failed call gives no search with the error text, a success is parsed; only a successful call with a query asks for a search |
| SearchDecision.NoJsonNoSearch | services/search/decision.py:101-120 | a summary with no opening brace never asks for a search and reports the cleaned text |
| ChatCore.ValidateMessage | services/chat/core.py:10-19 | a message passes exactly when it is not blank and at most 5000 characters once stripped; blank and long ones are refused with their own warning |
| ChatCore.RemoveWhere | services/chat/core.py:26 | removing characters keeps exactly the characters not matched, in a text no longer than before |
| ChatCore.RemoveWhereAppend | services/chat/core.py:26 | `re.sub` with a character class works character by character: removing from a concatenation is removing from each part |
| ChatCore.RemoveWhereOne | services/chat/core.py:26 | a single character is deleted exactly when it is in the class, and kept otherwise |
| ChatCore.RemoveWhereCount | services/chat/core.py:26 | the text shrinks by exactly the number of matched characters |
| ChatCore.SanitizeUserInput | services/chat/core.py:20-28 | the cleaned input is stripped, holds no control character, no line break or tab, and no whitespace but the plain space; it keeps every other character of the input in order (with whitespace removed from both sides, the output equals the input minus whitespace and control characters); whitespace runs are collapsed before control characters are deleted, so deleting one can leave two adjacent spaces |
| ChatCore.SanitizeKeepsCleanText | services/chat/core.py:22-30 | a single-spaced text without control characters is left unchanged |
| ChatFormatter.FormatHistory | services/chat/formatter.py:10-23 | one entry per message, in order, with the role's value (which maps back to the role) and the content |
| ChatFormatter.FormattersAgree | services/chat/formatter.py:18-23 | formatting for the interface gives the same list as the dialog's own `to_ui_format` |
| ChatFormatter.CutWord | services/chat/formatter.py:36-37 | a word longer than the limit becomes its first limit-3 characters and an ellipsis, exactly the limit long; a word within the limit is kept |
| ChatFormatter.CleanTextForName | services/chat/formatter.py:26-40 | the result is single-spaced and its words are the input's words, each cut to the limit |
| ChatFormatter.CleanTextIdempotent | services/chat/formatter.py:26-40 | cleaning a cleaned name changes nothing |
| ChatFormatter.FirstSentence | services/chat/formatter.py:46-50 | the first sentence is a prefix ending at the first `.`, `!` or `?`, or the whole text exactly when it has none |
| ChatFormatter.ExtractFirstSentence | services/chat/formatter.py:43-56 | the first sentence of the stripped text is kept when it fits; when it is longer than a limit of at least three, the result is its first `maxLength - 3` characters followed by "...", and never exceeds the limit |
| ChatFormatter.TruncateWithEllipsis | services/chat/formatter.py:59-63 | a text within the limit is kept; a longer one becomes exactly the limit long, its own prefix followed by an ellipsis |
| ChatFormatter.TruncateIdempotent | services/chat/formatter.py:59-63 | truncating twice is truncating once |
| ChatNaming.GenerateSimpleName | services/chat/naming.py:11-30 | a prompt whose first cleaned sentence is blank gets the default name; otherwise the name is that sentence, already within the length limit, so the final truncation changes nothing |
| ChatNaming.BlankPromptGivesDefaultName | services/chat/naming.py:22-25 | a blank prompt always gives a name that `is_default_name` recognises |
| ChatNaming.IsDefaultName | services/chat/naming.py:73-79 | a name is a default name exactly when it is empty or holds the default name somewhere (starting with it included); a non-empty default name is at least as long as the default |
| ChatNaming.CountSpecial | services/chat/naming.py:64 | the number of special characters is zero exactly when none occurs |
| ChatNaming.CheckRest | services/chat/naming.py:51-70 | the checks after the minimum length pass exactly when the name fits the maximum, has no forbidden character when those are disallowed, and its share of special characters is not over the percentage |
| ChatNaming.ValidateChatNameAsWritten | services/chat/naming.py:33-70 | as written: an empty name is refused, and a name passes exactly when, stripped, it is long enough and passes the remaining checks; the whitespace-only test runs on the stripped name |
| ChatNaming.StrippedIsNeverSpaceOnly | services/chat/naming.py:38-48 | a stripped name is never whitespace only, so the check at line 48 can never refuse anything |
| ChatNaming.BlankNameAccepted | services/chat/naming.py:48 | with whitespace-only names disallowed and a minimum length of 0, the name of three spaces is accepted |
| ChatNaming.ValidateChatName | services/chat/naming.py:33-70 | the corrected check refuses whitespace-only names when so configured; an accepted name is, stripped, between the minimum and the maximum length |
| ChatNaming.ValidateChatNameRefusesBlank | services/chat/naming.py:47-49 | the corrected check refuses every blank name when configured to, and agrees with the code as written on every other name |
| ChatNaming.FirstLabel | services/chat/naming_service.py:54 | the leading label found is one of the listed words, compared ignoring case, and none is found only when no listed label starts the text |
| ChatNaming.DropNameLabel | services/chat/naming_service.py:54 | dropping the label never lengthens the name, and a name without a colon is unchanged |
| ChatNaming.DropNameLabelOf | services/chat/naming_service.py:54 | a label from the list, spelled in any case, with its colon and the whitespace after it is removed, leaving exactly the text that follows |
| ChatNaming.JoinLines | services/chat/naming_service.py:59 | after the lines are joined no line boundary is left, and a single-line name is unchanged |
| ChatNaming.FirstLine | services/chat/naming_service.py:52-53 | the result holds no line feed, and a name without a line break is kept |
| ChatNaming.FirstLineOf | services/chat/naming_service.py:51-53 | for a stripped summary whose first line `a` is not blank, the result is `a` stripped, whatever follows the first line feed |
| ChatNaming.CleanName | services/chat/naming_service.py:52-57 | the cleaned name is stripped: stripping it again changes nothing |
| ChatNaming.CleanNameOf | services/chat/naming_service.py:51-56 | a summary whose first line is an answer label in any case, an optional `[L1 Summary]` or `[L2 Summary]` label and a name wrapped in quotes, followed by further lines, is cleaned down to exactly the name |
| ChatNaming.PostProcessName | services/chat/naming_service.py:50-61 | a name that comes back is non-empty, has no line boundary and is within the length limit |
| ChatNaming.PostProcessNameOf | services/chat/naming_service.py:50-61 | the whole post-processing of such a labelled, quoted, multi-line summary returns exactly the name when it fits the limit |
| ChatNaming.GenerateName | services/chat/naming_service.py:15-61 | naming switched off or a failed call gives no name; otherwise the summary is post-processed |
| ChatNaming.CleanNameKept | services/chat/naming_service.py:50-61 | a summary that is already a clean one-line name within the limit comes back unchanged |
| PartialCache.Get | services/chat/partial_cache.py:14-18 | the first read of a key stores a copy of the base history and returns it; later reads return the stored history and change nothing |
| PartialCache.Clear | services/chat/partial_cache.py:20-23 | clearing removes exactly that key, keeps every other entry, and a missing key is harmless |
| PartialCache.GetIgnoresLaterBase | services/chat/partial_cache.py:16-18 | once a key is cached, a later base history is ignored |
| PartialCache.ClearThenGet | services/chat/partial_cache.py:14-23 | after a clear, the next read starts again from the base history it is given |
| PartialCache.GetKeepsOtherKeys | services/chat/partial_cache.py:14-18 | reading one key leaves every other key's entry as it was |
| Batcher.NewBatcher | services/model/fast_batcher.py:33-42 | a new batcher has an empty buffer whose size is zero and is not stopped |
| Batcher.Stop | services/model/fast_batcher.py:48-51 | stopping sets the flag and leaves the buffer and flush time alone |
| Batcher.ShouldFlush | services/model/fast_batcher.py:90-109 | a flush is due exactly when the maximum size is reached, the longest wait has passed, the target size is reached after the shortest wait, or a short chunk has waited 30 ms with the minimum size reached; below every size and before the longest wait nothing is flushed |
| Batcher.Put | services/model/fast_batcher.py:58-114 | an empty chunk or a stopped batcher is refused without change; otherwise the chunk is appended, the size grows by its length, the answer is the four flush rules, and only a yes records the flush time |
| Batcher.PutFlushesWhenDue | services/model/fast_batcher.py:92-103 | a buffer at the maximum size, or a pause of the longest wait, always asks for a flush |
| Batcher.CurrentBatch | services/model/fast_batcher.py:130-133 | the current batch is as long as the running buffer size |
| Batcher.TakeBatch | services/model/fast_batcher.py:116-128 | taking a batch returns the buffered text and empties the buffer, or changes nothing when it is empty |
| Batcher.PutAllKeepsOrder | services/model/fast_batcher.py:58-133 | after any run of puts the current batch is the earlier batch followed by the chunks in the order they came |
| Batcher.StoppedBatcherIgnoresPuts | services/model/fast_batcher.py:63-68 | once stopped, no put changes the batcher |
| Thinking.WrapLine | services/model/thinking_handler.py:22-27 | a blank line becomes empty and any other line its stripped text inside a thinking span |
| Thinking.WrapLines | services/model/thinking_handler.py:20-29 | one wrapped line per line of the block, in order |
| Thinking.SpanBlock | services/model/thinking_handler.py:15-17 | a blank think block is replaced by nothing |
| Thinking.SpanBlockLines | services/model/thinking_handler.py:15-29 | the lines of a non-blank block's replacement are exactly the wrapped lines of the stripped block |
| Thinking.Substitute | services/model/thinking_handler.py:12-31 | a text with no `<think>`, or whose first `<think>` has no `</think>` after it, comes back unchanged; otherwise the text before the first `<think>` is kept as it is |
| Thinking.SubstituteOneBlock | services/model/thinking_handler.py:12-31 | a block from the first `<think>` to the first `</think>` after it is replaced by its spans and the rest is rewritten the same way |
| Thinking.BlankBlockRemoved | services/model/thinking_handler.py:15-17 | a blank think block disappears with its tags |
| Thinking.CollapseBreaks | services/model/thinking_handler.py:37 | after collapsing, no three line breaks are in a row, the text is empty only if it was, it starts with a break exactly when it did, and every character other than a line feed is kept, in order |
| Thinking.CollapseRun | services/model/thinking_handler.py:37 | a run of `k` line feeds becomes two when `k` is three or more and is kept when shorter, and the text after the run is collapsed on its own |
| Thinking.CollapseChar | services/model/thinking_handler.py:37 | a character other than a line feed is kept in front of the collapsed rest |
| Thinking.CollapseKeepsClean | services/model/thinking_handler.py:37 | a text without three breaks in a row is left as it is |
| Thinking.StripNoTriple | services/model/thinking_handler.py:39 | stripping keeps a text free of three breaks in a row |
| Thinking.Process | services/model/thinking_handler.py:10-39 | the processed text has no three breaks in a row and no surrounding whitespace |
| Thinking.NoTagsOnlyCollapse | services/model/thinking_handler.py:31-39 | without either tag the text is only collapsed and stripped |
| Thinking.PlainTextKept | services/model/thinking_handler.py:10-39 | a stripped text without tags or runs of three breaks is returned unchanged |
| Params.Pick | services/model/parameters.py:25-42 | a value given by the caller wins, then the configured one, then the built-in default |
| Params.GetGenerationParameters | services/model/parameters.py:13-51 | every parameter is chosen on its own from the caller, the configuration or its default (512, 0.7, 0.8, 1.1, 40, thinking off) |
| Params.ThinkingIsIndependent | services/model/parameters.py:24-50 | the thinking flag changes no other parameter |
| Params.HardDefaults | services/model/parameters.py:29-42 | with nothing given or configured the parameters are 512 tokens, temperature 0.7, top_p 0.8, penalty 1.1, top_k 40, no thinking |
| Params.ServiceParameters | services/model_service.py:130-168 | thinking mode picks the thinking temperature and top_p, which a caller's temperature overrides but not its top_p; penalty and top_k always come from the configuration |
| Params.ServiceAgreesOutsideThinking | services/model_service.py:150-168 | outside thinking mode the service picks the same parameters as the parameter class with no top_p, top_k or penalty given |
| Params.ServiceThinkingOverrides | services/model_service.py:146-149 | in thinking mode with no thinking settings the temperature is 0.6 and top_p 0.95 |
| Config.MergeValues | services/config_service.py:143-149 | two dictionaries merge into one holding the keys of both; anything else is replaced by the new value |
| Config.MergeDicts | services/config_service.py:143-149 | the merged dictionary has the keys of both; a key only in the target keeps its value, a new value wins unless both are dictionaries, which merge recursively |
| Config.MergeSelf | services/config_service.py:143-149 | merging a value into itself changes nothing |
| Config.MergeIdempotent | services/config_service.py:143-149 | merging the same source a second time changes nothing |
| Config.MergeDictsIdempotent | services/config_service.py:29-34 | loading the same file twice gives the same configuration as loading it once |
| Config.GenerationEntries | models/user_config_models.py:50-57 | exactly the generation fields the user set appear, under their own names |
| Config.ToDict | models/user_config_models.py:46-62 | the saved form holds a generation section exactly when some field is set, and nothing else |
| Config.GenerationFromDict | models/user_config_models.py:7-14 | a generation section is accepted only with known keys and values within the field bounds |
| Config.FromDict | models/user_config_models.py:22-28 | an accepted config has valid generation fields, and a file with only a `ui` dictionary gives the empty config |
| Config.ToDictRoundTrip | services/user_config_service.py:22-32 | loading what was saved for a valid config gives the same config back |
| Config.OverrideGeneration | models/user_config_models.py:34-42 | the set fields overwrite `default_max_tokens`, `default_temperature` and `default_enable_thinking`; every other key is kept |
| Config.ModelMergeWithDefaults | models/user_config_models.py:30-44 | with no field set the defaults come back; otherwise only the generation section changes, by the overrides, and a missing section is an error |
| Config.ServiceMergeAsWritten | services/user_config_service.py:85-99 | as written: the result is the corrected merge, but whenever the defaults had a generation section and a field is set, the caller's defaults end up equal to the result |
| Config.ServiceMergeChangesDefaults | services/user_config_service.py:87-91 | merging a token limit of 100 into defaults of 512 rewrites the defaults, so a merge after a reset still yields 100 |
| Config.ServiceMerge | services/user_config_service.py:85-99 | the corrected merge: no field set gives the defaults; otherwise every other key is kept and the generation section, created if missing, carries the overrides; a non-dictionary section is an error |
| Config.ServiceMergeAfterReset | services/user_config_service.py:85-99 | merging an empty user config gives the defaults back, and the service agrees with the model's merge whenever a generation section exists |
| Config.GetUserConfig | services/user_config_service.py:77-83 | the cached config is returned as is; otherwise what a load finds, or an empty config, is returned and kept |
| Config.SetGeneration | services/user_config_service.py:70-72 | a field takes the value without validation, an attribute that is not a field raises, and any other key is skipped |
| Config.SetGenerationSkipsValidation | services/user_config_service.py:72 | a token limit of 10000, outside the model's bounds, is stored |
| Config.UpdateUserSetting | services/user_config_service.py:64-75 | only the generation section is changed and the answer is whether the save succeeded |
| Config.UpdateChangesOneField | services/user_config_service.py:70-72 | an update changes at most the named field |
| Config.ResetToDefaults | services/user_config_service.py:101-113 | a successful reset leaves an empty user config and no merged config; a failed one changes nothing |
| Config.GetConfig | services/config_service.py:48-58 | a cached merged config is returned unchanged; otherwise the computed one is returned and cached |
| Config.UpdateSetting | services/config_service.py:60-68 | the user config after the update is the one the user-config update computes, and the update succeeds exactly when that one does; a successful update drops the cached merged config; a failed save keeps it |
| Config.ApplyAll | services/config_service.py:79-81 | without an error the settings leave each field at the last value given for it, or as it was |
| Config.LastValue | services/config_service.py:79-81 | no value is found exactly when the key is never given |
| Config.ApplySections | services/config_service.py:77-81 | sections other than generation change nothing, and a single generation section applies all its keys in order |
| Config.UpdateSettingsBatch | services/config_service.py:70-93 | the stored user config is the loaded one with its generation section replaced by the result of applying the batch; the answer is true exactly when the save succeeded and no key failed, in which case the cache was dropped; otherwise the cache is kept |
| Config.BatchIgnoresOtherSections | services/config_service.py:77-78 | a batch without a generation section leaves the user config as loaded |
| Config.ResetSettings | services/config_service.py:100-107 | a successful reset empties the user config and drops the cache; a failed one changes nothing |
| Config.ChangeForcesRecompute | services/config_service.py:64-66 | after a successful batch update or reset the next read computes the merged config again |
| ChatPage.Submit | static/js/main.js:22-34 | with the field present its value becomes the text and the text is sent once more; with no field nothing happens |
| ChatPage.FirstWithId | static/js/main.js:17 | the first row carrying the id, or none exactly when no row carries it |
| ChatPage.SelectChat | static/js/main.js:6-35 | a click within 300 ms of the last accepted one changes nothing; otherwise the click time is kept, only the first row with the id is active, the id is sent, and the menu flags are untouched |
| ChatPage.SelectLeavesOneActive | static/js/main.js:13-20 | after an accepted click at most one row is active, it carries the id, and one is active exactly when some row carries the id |
| ChatPage.SecondClickIgnored | static/js/main.js:8-10 | any second click less than 300 ms after an accepted one is ignored |
| ChatPage.ReselectKeepsRows | static/js/main.js:6-35 | clicking the selected chat again later leaves the rows as they were and sends the id again |
| ChatPage.SelectionSendsSwitch | static/js/main.js:22-24 | the numeric id an accepted click sends is routed by the server as a chat switch |
| ContextMenu.FirstShown | static/js/modules/context-menu.js:245 | the first shown menu of the chat, or none exactly when no shown menu belongs to it |
| ContextMenu.RemoveMenu | static/js/modules/context-menu.js:246-248 | removing a menu drops that one element and keeps the others in order |
| ContextMenu.HideAll | static/js/modules/context-menu.js:259-262 | every menu loses 'show' and nothing else changes |
| ContextMenu.ClearFlags | static/js/modules/context-menu.js:255-257 | every row loses its open-menu flag and nothing else changes |
| ContextMenu.Toggle | static/js/modules/context-menu.js:239-306 | a row with an open menu closes it and its shown menu; otherwise every flag is cleared, the menus are hidden, and a new shown menu is added with only this row flagged; without selectors nothing changes |
| ContextMenu.ToggleKeepsOneOpen | static/js/modules/context-menu.js:239-306 | at most one row has an open menu and at most one menu is shown, before and after any toggle |
| ContextMenu.ToggleTwiceCloses | static/js/modules/context-menu.js:239-306 | opening and then closing a row's menu leaves no row flagged and no menu shown |
| ContextMenu.Position | static/js/modules/context-menu.js:308-350 | the menu is never placed closer than 10 px to the top or left edge, is centred on the row when that fits, and sits to its right unless that overflows, in which case it sits to its left |
| ContextMenu.MenuInsideViewport | static/js/modules/context-menu.js:321-345 | when the viewport has room, the menu lies fully inside it with a 10 px margin and never overlaps the row |
| ContextMenu.CloseFrom | static/js/modules/context-menu.js:84-92 | an item closes its menu: the menu leaves the page and only the chat's row loses its flag |
| ContextMenu.OnRename | static/js/modules/context-menu.js:81-107 | the rename item closes the menu and sends `rename:<id>:<encoded name>` only for a non-empty new name different from the old, and through the prompt fallback also not blank |
| ContextMenu.OnPin | static/js/modules/context-menu.js:109-123 | the pin item only closes the menu and sends no command |
| ContextMenu.IsActive | static/js/modules/context-menu.js:139 | the chat counts as active exactly when its first row has the 'active' class |
| ContextMenu.OnDelete | static/js/modules/context-menu.js:125-154 | the delete item closes the menu and, only when confirmed, sends `delete:<id>:active` or `:inactive` according to the row |
| ContextMenu.RenameSentReadsBack | static/js/modules/context-menu.js:157-176 | a rename sent for an id without ':' is read back by the server as that id and the new name |
| ContextMenu.DeleteSentReadsBack | static/js/modules/context-menu.js:198-217 | a delete sent for an id without ':' is read back by the server as that id and whether it was active |
| RenameModal.UpdateCharCounter | static/js/modules/rename-modal.js:156-169 | the counter reads `<length>/50`, warns from 45 to 50 characters, shows the over-limit error exactly above 50 (never both warnings), and changes nothing else |
| RenameModal.Show | static/js/modules/rename-modal.js:92-113 | the dialog opens on the old name with a new promise waiting, confirm disabled exactly for a blank name, and an error only for a name over 50 characters |
| RenameModal.Hide | static/js/modules/rename-modal.js:115-126 | the dialog closes, a waiting promise is settled with the name when confirmed and null otherwise, and nothing is settled when none waits |
| RenameModal.Confirm | static/js/modules/rename-modal.js:128-144 | the promise receives the trimmed name exactly when it is not blank, differs from the old name and is at most 50 characters; blank and long names are refused with their error, an unchanged one settles null |
| RenameModal.OnKeyUp | static/js/modules/rename-modal.js:146-154 | Enter confirms, Escape cancels, and any other key re-enables confirm exactly for a non-blank input |
| RenameModal.Step | static/js/modules/rename-modal.js:73-89 | opening always leaves a promise waiting; only a waiting promise is settled, and settling it clears it; a disabled confirm ignores clicks |
| RenameModal.EachPromiseSettledOnce | static/js/modules/rename-modal.js:119-122 | over any run of actions, no more answers are given than promises were created |
| RenameModal.HideTwiceSettlesOnce | static/js/modules/rename-modal.js:85-89 | Escape pressed and then released settles the promise only once |
| RenameModal.ConfirmedNameIsRenamed | static/js/modules/rename-modal.js:128-144 | a name the dialog settles is one the context menu goes on to rename |
| RenameModal.ConfirmUnchangedSettlesNull | static/js/modules/rename-modal.js:135-138 | confirming the unchanged name settles null and closes the dialog |
| RenameModal.ConfirmBlankRefused | static/js/modules/rename-modal.js:130-134 | a blank name is refused with its error and the dialog stays open with the promise waiting |
| RenameModal.TypeAndConfirm | static/js/modules/rename-modal.js:146-154 | typing a new valid name and pressing Enter, or clicking confirm once a key has enabled it, settles the trimmed name |
| RenameModal.CounterAgreesWithConfirm | static/js/modules/rename-modal.js:139-169 | an input the counter shows within the limit is never refused as too long |
| DeleteModal.QuestionNamesChat | static/js/modules/delete-modal.js:82 | the question contains the chat's name |
| DeleteModal.Show | static/js/modules/delete-modal.js:75-86 | the dialog opens for the chat, naming it, with a new promise waiting |
| DeleteModal.Hide | static/js/modules/delete-modal.js:88-100 | the dialog closes and forgets the chat; a waiting promise is settled with the answer, and nothing is settled when none waits |
| DeleteModal.Step | static/js/modules/delete-modal.js:58-73 | the promise is settled with true exactly by a confirm click while one waits; Escape does nothing while hidden |
| DeleteModal.EachPromiseSettledOnce | static/js/modules/delete-modal.js:92-95 | over any run of actions no promise is answered twice, and no more confirmations are given than confirm clicks |
| DeleteModal.OpenedDialogAnswers | static/js/modules/delete-modal.js:58-100 | an open dialog answers true for confirm and false for cancel, the overlay and Escape |
| DeleteModal.HideTwiceSettlesOnce | static/js/modules/delete-modal.js:92-95 | a second close answers nothing |
| GenerationControl.UpdateSendButtonState | static/js/modules/generation-control.js:170-181 | send is disabled exactly for a blank input, unless generating or an element is missing, when nothing changes |
| GenerationControl.Toggle | static/js/modules/generation-control.js:35-78 | with both buttons, starting hides and disables send and shows stop; stopping shows send, enabled exactly for non-blank input; with either button missing nothing changes |
| GenerationControl.Step | static/js/modules/generation-control.js:184-264 | the stop click only acts while generating, and a disabled send button ignores clicks |
| GenerationControl.ToggleMakesConsistent | static/js/modules/generation-control.js:266-267 | after the initial toggle, the visible buttons agree with the generating flag |
| GenerationControl.StepKeepsConsistent | static/js/modules/generation-control.js:184-264 | every user action and server toggle keeps the buttons in agreement with the flag |
| GenerationControl.RunKeepsConsistent | static/js/modules/generation-control.js:184-267 | whatever happens after start-up, the buttons agree with the flag |
| GenerationControl.StartNeedsText | static/js/modules/generation-control.js:207-232 | a generation starts only from the server, an enabled send click with text, or Enter without Shift with text |
| GenerationControl.MissingButtonsNeverGenerate | static/js/modules/generation-control.js:40-42 | with a button missing no action changes the generating flag |
| GenerationControl.SendThenStop | static/js/modules/generation-control.js:211-262 | send then stop returns to idle buttons with send enabled |

## Left out

- File and database persistence, the language model itself, asyncio, threads and locks: the store, the summarizers and the scheduler are modelled as pure state changes. The model's replies and summaries are parameters.
- Trigger configuration keys: the manager reads `summarization.l2_trigger_count` and the trigger module reads `structure.thresholds`. Each is modelled with its own reader, and the two are not reconciled.
- L1 chunks read back from summary text always carry empty message indices. This is what the parser does, so the model keeps it.
- The `thinking:` command routes to a handler method that does not exist and so raises `AttributeError`. It is modelled as an error route.
- The dialog manager's `clear_dialog` and `update_dialog_timestamp` call operations methods that do not exist, so they are not modelled.
- `get_merged_config` does not exist, so `Config.GetConfig` takes the merged value as a parameter.
- Comments that disagree with the code: `sanitize_user_input` says newlines are kept, but the code removes them; the grouper says pinned dialogs come first, but the sort key puts unpinned dialogs first. The model follows the code in both cases.
- Batcher: the clock is in integer milliseconds. The adaptive mode, the lock and the `_total_chars` counter are not modelled.
- Pydantic's type coercion is not modelled. Reading a configuration accepts only well-typed values, and assignment after construction is not validated.
- Configuration values are `Option`s, so a key that is absent and a key that holds JSON `null` read the same: both take the default. In Python, `dict.get(key, default)` returns `None` for a key that is present with a null value. The members below state the default-taking behaviour and are weaker than the source on that input:
- Params.Pick: a present `null` in the configuration gives the hard default here, but `None` in services/model/parameters.py:24-36.
- Params.GetGenerationParameters: as `Params.Pick`, for each of its values.
- Params.ServiceParameters: a present `null` under `generation` or `thinking_params` gives the hard default here, but `None` in services/model_service.py:130-168.
- Handlers.LoadUserSettings: a present `null` for `max_tokens`, `temperature` or `enable_thinking` gives 512, 0.7 or false here, but `None` in handlers/naming_utils.py:21-37.
- ChatNaming.GenerateSimpleName, ChatNaming.CheckRest, ChatNaming.ValidateChatNameAsWritten and ChatNaming.GenerateName: a present `null` among the `chat_naming` settings takes the default here. In the source it becomes `None`: a `null` length limit makes `len(name) < None` raise `TypeError` (services/chat/naming.py:43-44), and a `null` flag reads as false.
- DialogManager.CreateDialog: a present `null` for `default_name` names the dialog "Новый чат 3" here, but "None 3" in services/dialogs/operations.py:20-21.
- Handlers.CreateChat: as `DialogManager.CreateDialog`, through which it creates the dialog.
- ChatNaming.DefaultName: a present `null` for `dialogs.default_name` gives "Новый чат" here, but the string "None" in services/chat/naming.py:24-25.
- ChatNaming.IsDefaultName: a present `null` for `dialogs.default_name` tests against "Новый чат" here, while services/chat/naming.py:78-79 raises `TypeError` on `None in name`.
- Text.PyInt accepts ASCII digits only. Python's `int()` also accepts other Unicode decimal digits, such as Arabic-Indic digits. Whitespace, a sign and single underscores between digits are modelled as `int()` handles them. The members below inherit this gap:
- DialogManager.Init: a key such as "١" makes loading fail here, while services/dialogs/manager.py:43 reads it as 1.
- DialogManager.InitValid: covers only keys made of ASCII digits, as `DialogManager.Init`.
- LegacyDialogs.Advance: an id of non-ASCII digits leaves the counter alone here, while ui/services/dialog_service.py:214-217 moves it.
- LegacyDialogs.AdvanceAll: as `LegacyDialogs.Advance`, over all loaded files.
- LegacyDialogs.ServiceLoad: as `LegacyDialogs.Advance`.
- LegacyDialogs.FirstBad: reports an id of non-ASCII digits as the first bad file, which ui/classes/dialog_manager.py:138 accepts.
- LegacyDialogs.ManagerLoad: aborts on an id of non-ASCII digits, where the source keeps loading.
- `_clean_thinking_tags` in services/model_service.py (lines 248-279) is a copy of the thinking handler's `process`. It is modelled once, as `Thinking.Process`.
- JavaScript string lengths are counted in Unicode code points, not UTF-16 code units.
- Browser timers of 10 ms run in the order they were set, so a step applies them at once.
- Browser details not modelled:
  - the outside-click handler that closes the context menu;
  - the `maxlength` of the rename input;
  - `findGenerationButtons` with its retries;
  - the MutationObserver;
  - the SVG icons;
  - `alert` calls.
- `renderChatList` returns at once when `window.SELECTORS` is missing, and retries after 50 ms when the chat-list container is not in the page yet (static/js/modules/chat-list.js:11-17). Both depend on script load order and the DOM, so the model renders as if both were present.
- SearchFormat.ClipContent: for a negative limit the contract states only that the result ends in "..." after a prefix of the stripped content. Python then slices from the end (`c[:-k]`); a negative `max_content_chars` is not a configuration the service expects.
- ChatFormatter.ExtractFirstSentence: for a limit below three the contract states nothing about a long sentence. Python's `text[:max_length-3]` then slices from the end, and the result can exceed the limit.
- A `show` while a promise is still waiting drops that promise unsettled. The model counts it as never answered.
- The `prompt` fallback for renaming sends the name untrimmed. The dialog path is the one modelled.
- ContextMenu.RenameSentReadsBack: assumes the input field is found. No script assigns `window.getChatInputField`: static/js/modules/utils.js:38 only exports it, and static/js/main.js imports it without publishing it. So static/js/modules/context-menu.js:160 finds a field only if page code outside these scripts sets that global; otherwise the request throws and nothing is sent. `ContextMenu.OnRename` models that case with a `Missing` field.
- ContextMenu.DeleteSentReadsBack: as `ContextMenu.RenameSentReadsBack`, for static/js/modules/context-menu.js:201.
- ContextMenu.ToggleKeepsOneOpen: the at-most-one-shown-menu conclusion holds only when `window.closeAllContextMenus` exists, which no script assigns (static/js/modules/utils.js:31 only exports it). Without it, static/js/modules/context-menu.js:260-262 closes nothing, so `closeAll` is a parameter.
- `window.isGenerating` is never updated by the scripts, so it is not part of the state.
- A row click that lands on the control hotspot or inside the context menu does not select the chat (static/js/modules/chat-list.js:96-103). This depends on DOM event targets, so only `selectChat` is modelled.
- The Gradio handlers in logic/ui_handlers.py are modelled through their pure helpers only. Widget updates are not modelled.
- The legacy `add_message` in ui/classes returns `None`. Only its effect on the history is modelled.
- The context-usage percentage is computed exactly, on reals, with no floating-point rounding.
- Context.Ratio: the compression ratio is an exact real quotient, while the source divides two integers into a float (models/context/chunk.py:31). The two differ in the last bits for most inputs.
- ChatNaming.TooSpecial: the share of special characters is compared exactly, as `count * 100 > max * len`. The source compares the float `count / len * 100`, which can round up. With 7 special characters out of 25 and a limit of 28, `7 / 25 * 100` is 28.000000000000004 in IEEE doubles, so the source refuses the name and the model accepts it.
- ChatNaming.CheckRest: inherits the exact comparison of `ChatNaming.TooSpecial`, so it accepts names at exactly the limit that the float comparison can refuse.
- ChatNaming.ValidateChatNameAsWritten: as `ChatNaming.CheckRest`.
- ChatNaming.ValidateChatName: as `ChatNaming.CheckRest`.
- Summarizers.CleanL1Core: the contract does not state that no `<|im_start|>` or `<|im_end|>` marker survives. Removing a think block after the markers can join two halves into a new marker, so the code does not guarantee it either.
- ContextUtils.ParseTextToInteractions: the model does not prove that the regular-expression pass reads a history text back into the interactions it was written from. `re.findall` is modelled as `ContextUtils.FindAll` over `ContextUtils.MatchAt` and is characterised by the lemmas on its groups and matches, and `ContextUtils.KeepStripped` covers the stripping step. The round trip is proved for the line-based pass only, by `ContextUtils.FallbackRoundTrip`.
- The partial cache returns copies so that callers cannot change its contents. With immutable values this holds by construction and needs no contract.

## Findings

| source | as written | input that shows it | evidently intended | confidence | as-written member | corrected member |
|---|---|---|---|---|---|---|
| services/dialogs/pinning.py:51-62 | unpinning a pinned dialog whose position is `None` compares the other positions with `None` | two pinned dialogs, the one unpinned having position `None`, the other position 0: `0 > None` raises `TypeError` | skip the shift when there was no position | not executed | Pinning.UnpinDialogAsWritten, Pinning.UnpinMissingPositionRaises, DialogManager.UnpinDialog | Pinning.UnpinDialog, Pinning.UnpinMissingPositionCorrected |
| services/dialogs/grouper.py:84 | the sort key `x.get("pinned_position", 999)` yields `None` for a pinned dialog stored with position `None` | two pinned dialogs, one with position 0 and one with `None`: sorting compares `None` with 0 and raises `TypeError`, and the chat list comes back empty | dialogs without a position sort last, at 999 | not executed | Grouper.GroupDialogsAsWritten, Grouper.GroupDialogsRaises | Grouper.GroupDialogs, Grouper.GroupsPartitionList |
| static/js/modules/chat-list.js:49 | only the five date groups are drawn; the pinned group "Закрепленные" is never drawn | any list with a pinned chat: that chat is not shown at all, and a list of only pinned chats shows an empty sidebar | draw the pinned group first | not executed | ChatList.RenderChatList, ChatList.OnlyPinnedRendersNothing, ChatList.PinnedNeverDrawn | ChatList.RenderChatListCorrected, ChatList.RenderCorrectedDrawsAll |
| logic/ui_handlers.py:64 | the chat name is cut at the first `(` | the entry for the chat "a (b)" reads back as "a" | cut at the last ` (` that opens the id suffix | not executed | UiLogic.NameFromSelection, UiLogic.NameFromSelectionCutsAtParen, UiLogic.HeaderAfterSendCutsName | UiLogic.NameFromSelectionCorrected, UiLogic.NameFromSelectionCorrectedRoundTrip, UiLogic.HeaderAfterSendCorrectedNamesChat |
| services/chat/naming.py:48 | the whitespace-only test runs on the already stripped name, where `isspace()` is always false | the name "   " with `min_length` 0 and `allow_whitespace_only` false is accepted | refuse names made only of whitespace | not executed | ChatNaming.ValidateChatNameAsWritten, ChatNaming.BlankNameAccepted | ChatNaming.ValidateChatName, ChatNaming.ValidateChatNameRefusesBlank |
| services/user_config_service.py:87 | `default_config.copy()` is shallow, so writing into `result["generation"]` changes the caller's defaults | defaults with a generation section and a user `max_tokens` set: after the merge the defaults hold the user's value | deep-copy the generation section | not executed | Config.ServiceMergeAsWritten, Config.ServiceMergeChangesDefaults | Config.ServiceMerge, Config.ServiceMergeAfterReset |

=== FILE: batcher.dfy ===
/** The buffer and flush decision of the streaming batcher
    (services/model/fast_batcher.py). The clock is a parameter in whole
    milliseconds, the lock is not modelled (every operation is atomic
    here), and adaptive mode is off, so the thresholds are the fixed
    integers of the configuration. */
module Batcher {
  import opened Text

  /** `BatchConfig` without the adaptive settings; waits in milliseconds. */
  datatype BatchConfig = BatchConfig(minChars: int, targetChars: int, maxChars: int, minWaitMs: int, maxWaitMs: int)

  const DefaultConfig: BatchConfig := BatchConfig(6, 16, 24, 20, 60)

  /** A chunk this short after this long a pause may flush on its own. */
  const MicroChunkChars: int := 2
  const MicroWaitMs: int := 30

  /** The batcher state: the buffered chunks, their running size, the stop
      flag and the time of the last flush. */
  datatype Batcher = Batcher(config: BatchConfig, buffer: seq<string>, bufferSize: int, stopRequested: bool, lastFlushMs: int)

  /** The running size is the summed length of the buffered chunks. */
  predicate Valid(b: Batcher) {
    b.bufferSize == TotalLength(b.buffer)
  }

  /** `__init__` at time `nowMs`. */
  function NewBatcher(config: BatchConfig, nowMs: int): (b: Batcher)
    ensures Valid(b) && b.buffer == [] && !b.stopRequested
  {
    Batcher(config, [], 0, false, nowMs)
  }

  /** `stop`. */
  function Stop(b: Batcher): (r: Batcher)
    ensures r.stopRequested
    ensures r.buffer == b.buffer && r.bufferSize == b.bufferSize && r.lastFlushMs == b.lastFlushMs
  {
    b.(stopRequested := true)
  }

  /** The four flush rules of `put`, for the buffer size after the chunk
      went in and the time since the last flush: too much buffered, enough
      buffered after the minimum wait, the maximum wait reached, or a tiny
      chunk after a short pause with the minimum buffered. A buffer below
      every size threshold waits for the maximum wait. */
  function ShouldFlush(cfg: BatchConfig, size: int, chunkLength: int, sinceMs: int): (r: bool)
    ensures size >= cfg.maxChars ==> r
    ensures sinceMs >= cfg.maxWaitMs ==> r
    ensures size >= cfg.targetChars && sinceMs >= cfg.minWaitMs ==> r
    ensures chunkLength <= MicroChunkChars && sinceMs >= MicroWaitMs && size >= cfg.minChars ==> r
    ensures r && size < cfg.maxChars && sinceMs < cfg.maxWaitMs && (size < cfg.targetChars || sinceMs < cfg.minWaitMs) ==>
      chunkLength <= MicroChunkChars && sinceMs >= MicroWaitMs && size >= cfg.minChars
    ensures size < cfg.minChars && size < cfg.targetChars && size < cfg.maxChars && sinceMs < cfg.maxWaitMs ==> !r
  {
    || size >= cfg.maxChars
    || (size >= cfg.targetChars && sinceMs >= cfg.minWaitMs)
    || sinceMs >= cfg.maxWaitMs
    || (chunkLength <= MicroChunkChars && sinceMs >= MicroWaitMs && size >= cfg.minChars)
  }

  /** `put`: an empty chunk, or any chunk after `stop`, is refused and
      changes nothing. Otherwise the chunk is appended, and the answer says
      whether a batch should go out now; a yes records `nowMs` as the last
      flush. */
  function Put(b: Batcher, chunk: string, nowMs: int): (r: (Batcher, bool))
    ensures chunk == [] || b.stopRequested ==> r == (b, false)
    ensures chunk != [] && !b.stopRequested ==>
      && r.0.buffer == b.buffer + [chunk]
      && r.0.bufferSize == b.bufferSize + |chunk|
      && r.0.config == b.config && !r.0.stopRequested
      && (r.1 <==> ShouldFlush(b.config, r.0.bufferSize, |chunk|, nowMs - b.lastFlushMs))
    ensures r.1 ==> r.0.lastFlushMs == nowMs
    ensures !r.1 ==> r.0.lastFlushMs == b.lastFlushMs
    ensures Valid(b) ==> Valid(r.0)
  {
    if chunk == [] || b.stopRequested then (b, false)
    else
      TotalLengthAppend(b.buffer, chunk);
      var size := b.bufferSize + |chunk|;
      var flush := ShouldFlush(b.config, size, |chunk|, nowMs - b.lastFlushMs);
      var b' := b.(buffer := b.buffer + [chunk], bufferSize := size);
      (if flush then b'.(lastFlushMs := nowMs) else b', flush)
  }

  /** A full buffer, or a pause as long as the longest wait, always asks for
      a flush. */
  lemma PutFlushesWhenDue(b: Batcher, chunk: string, nowMs: int)
    requires chunk != [] && !b.stopRequested
    requires b.bufferSize + |chunk| >= b.config.maxChars || nowMs - b.lastFlushMs >= b.config.maxWaitMs
    ensures Put(b, chunk, nowMs).1
  {
  }

  /** `get_current_batch`: the buffered chunks in the order they came. */
  function CurrentBatch(b: Batcher): (r: string)
    ensures Valid(b) ==> |r| == b.bufferSize
  {
    JoinLength(b.buffer);
    Join(b.buffer, "")
  }

  /** `take_batch`: the buffered text, with the buffer emptied; "" and no
      change when the buffer is empty. */
  function TakeBatch(b: Batcher): (r: (Batcher, string))
    ensures r.1 == CurrentBatch(b)
    ensures (r.0.buffer == [] && r.0.bufferSize == 0) || (b.buffer == [] && r.0 == b)
    ensures r.0.config == b.config && r.0.stopRequested == b.stopRequested && r.0.lastFlushMs == b.lastFlushMs
    ensures Valid(b) ==> Valid(r.0) && r.0.buffer == []
  {
    if b.buffer == [] then (b, "")
    else (b.(buffer := [], bufferSize := 0), Join(b.buffer, ""))
  }

  lemma {:induction false} JoinLength(ss: seq<string>)
    ensures |Join(ss, "")| == TotalLength(ss)
    decreases |ss|
  {
    if |ss| > 1 {
      JoinLength(ss[1..]);
      assert TotalLength(ss[1..]) == |Join(ss[1..], "")|;
    } else if |ss| == 1 {
      assert ss[1..] == [];
    }
  }

  lemma JoinEmptyAppend(ss: seq<string>, s: string)
    ensures Join(ss + [s], "") == Join(ss, "") + s
  {
    if ss == [] {
      assert ss + [s] == [s];
    } else {
      JoinAppend(ss, s, "");
    }
  }

  /** The chunks of a sequence of `put` calls, each with its time. */
  function PutAll(b: Batcher, chunks: seq<(string, int)>): Batcher
    decreases |chunks|
  {
    if chunks == [] then b
    else PutAll(Put(b, chunks[0].0, chunks[0].1).0, chunks[1..])
  }

  function Texts(chunks: seq<(string, int)>): (r: seq<string>)
    ensures |r| == |chunks| && forall i :: 0 <= i < |r| ==> r[i] == chunks[i].0
  {
    seq(|chunks|, i requires 0 <= i < |chunks| => chunks[i].0)
  }

  /** Nothing put into a running batcher is lost or reordered: the next
      batch is what was buffered followed by every chunk in order, and the
      running size still matches. */
  lemma {:induction false} PutAllKeepsOrder(b: Batcher, chunks: seq<(string, int)>)
    requires !b.stopRequested
    ensures CurrentBatch(PutAll(b, chunks)) == CurrentBatch(b) + Join(Texts(chunks), "")
    ensures Valid(b) ==> Valid(PutAll(b, chunks))
    ensures !PutAll(b, chunks).stopRequested
    decreases |chunks|
  {
    if chunks != [] {
      var (c, t) := chunks[0];
      var b1 := Put(b, c, t).0;
      PutAppends(b, c, t);
      PutAllKeepsOrder(b1, chunks[1..]);
      TextsCons(chunks);
      JoinEmptyCons(c, Texts(chunks[1..]));
    }
  }

  /** A `put` into a running batcher adds the chunk at the end of the batch. */
  lemma PutAppends(b: Batcher, c: string, t: int)
    requires !b.stopRequested
    ensures CurrentBatch(Put(b, c, t).0) == CurrentBatch(b) + c
  {
    if c != [] {
      JoinEmptyAppend(b.buffer, c);
    } else {
      assert CurrentBatch(b) + c == CurrentBatch(b);
    }
  }

  lemma TextsCons(chunks: seq<(string, int)>)
    requires chunks != []
    ensures Texts(chunks) == [chunks[0].0] + Texts(chunks[1..])
  {
  }

  lemma JoinEmptyCons(c: string, rest: seq<string>)
    ensures Join([c] + rest, "") == c + Join(rest, "")
  {
    if rest == [] {
      assert [c] + rest == [c];
      assert c + Join(rest, "") == c;
    } else {
      assert ([c] + rest)[1..] == rest;
    }
  }

  /** After `stop` no chunk gets in. */
  lemma {:induction false} StoppedBatcherIgnoresPuts(b: Batcher, chunks: seq<(string, int)>)
    requires b.stopRequested
    ensures PutAll(b, chunks) == b
    decreases |chunks|
  {
    if chunks != [] {
      StoppedBatcherIgnoresPuts(b, chunks[1..]);
    }
  }
}

=== FILE: builder.dfy ===
/** The context string handed to the model (services/context/builder.py and
    the manager's own copy, `get_context_for_generation` in
    services/context/manager.py): an instruction, the cumulative string, the
    numbered L1 summaries and the raw tail, each present only when not
    empty, then a separator, joined by blank lines. */
module ContextBuilder {
  import opened Wrappers
  import opened Text
  import opened ContextUtils
  import opened Context

  /** The instruction that opens every context: what the three levels are,
      and to read all of it before answering. */
  const SystemText: string := SystemIntro + "\n\n" + SystemLevels + "\n\n" + SystemAdvice
  const SystemIntro: string := "Ты получаешь контекст диалога в нескольких частях:"
  const SystemLevels: string := LevelOne + "\n" + LevelTwo + "\n" + LevelThree
  const LevelOne: string := "1. <sum_block>...</sum_block> - кумулятивные суммаризации всего диалога (высший уровень обобщения)"
  const LevelTwo: string := "2. ## Чанк: - конспекты групп сообщений среднего уровня детализации"
  const LevelThree: string := "3. Последние сообщения - полный текст последней части диалога (максимальная детализация)"
  const SystemAdvice: string := "Внимательно изучи ВЕСЬ предоставленный контекст перед ответом." + " " + "Особое внимание уделяй последним сообщениям."

  const L1Header: string := "# Конспекты недавних обсуждений (средний уровень детализации):\n"
  const RawHeader: string := "# Последние сообщения (полный текст, максимальная детализация):\n"

  /** `"\n" + "=" * 50 + "\n"`: fifty equals signs between line breaks. */
  const Rule: string := "=================================================="
  const Separator: string := "\n" + Rule + "\n"

  const PartSeparator: string := "\n\n"

  /** `f"\n## Чанк {i}:\n{summary}\n"`. */
  function Entry(i: nat, summary: string): string {
    "\n## Чанк " + NatToString(i) + ":\n" + summary + "\n"
  }

  /** The entries of the L1 section, numbered from 1 in list order. */
  function Entries(cs: seq<InteractionChunk>): string {
    if cs == [] then "" else Entries(cs[..|cs| - 1]) + Entry(|cs|, cs[|cs| - 1].summary)
  }

  function L1Section(cs: seq<InteractionChunk>): string {
    L1Header + Entries(cs)
  }

  function RawSection(tail: string): string {
    RawHeader + tail
  }

  /** The parts in order: the instruction, each non-empty level, the
      separator. */
  function Parts(st: ContextState): (r: seq<string>)
    ensures |r| >= 2 && r[0] == SystemText && r[|r| - 1] == Separator
  {
    [SystemText]
    + (if st.cumulative.content != [] then [GetFormatted(st.cumulative)] else [])
    + (if st.l1Chunks != [] then [L1Section(st.l1Chunks)] else [])
    + (if st.rawTail != [] then [RawSection(st.rawTail)] else [])
    + [Separator]
  }

  /** `ContextBuilder.build`: nothing for a history shorter than two
      messages. */
  function Build(st: ContextState, historyLength: int): (r: string)
    ensures historyLength < 2 <==> r == []
    ensures historyLength >= 2 ==> StartsWith(r, SystemText) && EndsWith(r, Separator)
  {
    if historyLength < 2 then ""
    else
      var parts := Parts(st);
      JoinEnds(parts, PartSeparator);
      assert |SystemText| > 0;
      Join(parts, PartSeparator)
  }

  /** `get_context_for_generation`: the same parts, without the history
      check. */
  function ManagerContext(st: ContextState): (r: string)
    ensures StartsWith(r, SystemText) && EndsWith(r, Separator)
    ensures st.cumulative.content == [] && st.l1Chunks == [] && st.rawTail == [] ==> r == SystemText + PartSeparator + Separator
  {
    var l1 := if st.l1Chunks != [] then [L1Header + Entries(st.l1Chunks)] else [];
    var raw := if st.rawTail != [] then [RawHeader + st.rawTail] else [];
    var cumulative := if st.cumulative.content != [] then [GetFormatted(st.cumulative)] else [];
    var parts := [SystemText] + cumulative + l1 + raw + ["\n" + Rule + "\n"];
    JoinEnds(parts, "\n\n");
    Join(parts, "\n\n")
  }

  /** The manager and the builder assemble the same context whenever the
      builder does not refuse a short history. */
  lemma ManagerMatchesBuilder(st: ContextState, historyLength: int)
    requires historyLength >= 2
    ensures ManagerContext(st) == Build(st, historyLength)
  {
  }

  /** Adding an L1 chunk adds one entry at the end of the section, numbered
      one past the previous count. */
  lemma L1SectionAppend(cs: seq<InteractionChunk>, c: InteractionChunk)
    ensures L1Section(cs + [c]) == L1Section(cs) + Entry(|cs| + 1, c.summary)
  {
    assert (cs + [c])[..|cs|] == cs;
  }

  /** The section's entries are the chunks' summaries numbered 1 to n in
      list order. */
  lemma {:induction false} EntriesNumbered(cs: seq<InteractionChunk>)
    ensures Entries(cs) == Concat(seq(|cs|, i requires 0 <= i < |cs| => Entry(i + 1, cs[i].summary)))
    decreases |cs|
  {
    if cs != [] {
      var n := |cs| - 1;
      var all := seq(|cs|, i requires 0 <= i < |cs| => Entry(i + 1, cs[i].summary));
      var init := seq(n, i requires 0 <= i < n => Entry(i + 1, cs[..n][i].summary));
      EntriesNumbered(cs[..n]);
      assert all[..n] == init;
    }
  }

  /** With every level present the context is the four sections and the
      separator, blank-line separated. */
  lemma BuildAllLevels(st: ContextState, historyLength: int)
    requires historyLength >= 2
    requires st.cumulative.content != [] && st.l1Chunks != [] && st.rawTail != []
    ensures Build(st, historyLength) ==
      SystemText + "\n\n" + GetFormatted(st.cumulative) + "\n\n" + L1Section(st.l1Chunks) + "\n\n" + RawSection(st.rawTail) + "\n\n" + Separator
  {
    var a, b, c := GetFormatted(st.cumulative), L1Section(st.l1Chunks), RawSection(st.rawTail);
    PartsAllLevels(st);
    JoinFive(SystemText, a, b, c, Separator, PartSeparator);
  }

  lemma PartsAllLevels(st: ContextState)
    requires st.cumulative.content != [] && st.l1Chunks != [] && st.rawTail != []
    ensures Parts(st) == [SystemText, GetFormatted(st.cumulative), L1Section(st.l1Chunks), RawSection(st.rawTail), Separator]
  {
    FiveSingles(SystemText, GetFormatted(st.cumulative), L1Section(st.l1Chunks), RawSection(st.rawTail), Separator);
  }

  lemma FiveSingles<T>(a: T, b: T, c: T, d: T, e: T)
    ensures [a] + [b] + [c] + [d] + [e] == [a, b, c, d, e]
  {
  }

  lemma JoinFive(a: string, b: string, c: string, d: string, e: string, sep: string)
    ensures Join([a, b, c, d, e], sep) == a + sep + b + sep + c + sep + d + sep + e
  {
    var p := [a, b, c, d, e];
    assert p[1..] == [b, c, d, e];
    assert [b, c, d, e][1..] == [c, d, e];
    assert [c, d, e][1..] == [d, e];
    assert [d, e][1..] == [e];
    assert Join([d, e], sep) == d + sep + e;
    assert Join([c, d, e], sep) == c + sep + (d + sep + e);
    assert Join([b, c, d, e], sep) == b + sep + (c + sep + (d + sep + e));
  }

  /** A fresh state gives just the instruction and the separator. */
  lemma BuildInitial(charLimit: Option<int>, triggerCount: Option<int>, historyLength: int)
    requires historyLength >= 2
    ensures Build(InitialState(charLimit, triggerCount), historyLength) == SystemText + "\n\n" + Separator
  {
    var p := [SystemText, Separator];
    assert Parts(InitialState(charLimit, triggerCount)) == p;
    assert p[1..] == [Separator];
  }
}

=== FILE: chat_core.dfy ===
/** Checking and cleaning what the user typed before it is sent to the
    model (services/chat/core.py). */
module ChatCore {
  import opened Text

  const MaxMessageChars: int := 5000
  const EmptyMessageWarning: string := "⚠️ Введите сообщение"
  const LongMessageWarning: string := "Сообщение слишком длинное (максимум 5000 символов)"

  /** `validate_message`: blank input and input longer than 5000 characters
      once stripped are refused with their warning; anything else passes
      with an empty message. */
  function ValidateMessage(prompt: string): (r: (bool, string))
    ensures r.0 <==> !AllSpace(prompt, IsPySpace) && |PyStrip(prompt)| <= MaxMessageChars
    ensures r.0 ==> r.1 == ""
    ensures AllSpace(prompt, IsPySpace) ==> r == (false, EmptyMessageWarning)
    ensures !AllSpace(prompt, IsPySpace) && |PyStrip(prompt)| > MaxMessageChars ==> r == (false, LongMessageWarning)
  {
    if prompt == [] || PyStrip(prompt) == [] then (false, EmptyMessageWarning)
    else if |PyStrip(prompt)| > MaxMessageChars then (false, LongMessageWarning)
    else (true, "")
  }

  /** The characters `[\x00-\x08\x0B\x0C\x0E-\x1F\x7F]` the cleaner deletes. */
  predicate IsControl(c: char) {
    ('\U{0}' <= c <= '\U{8}') || c == '\U{b}' || c == '\U{c}' || ('\U{e}' <= c <= '\U{1f}') || c == '\U{7f}'
  }

  /** The characters of `s` that `drop` does not select, in order. */
  function RemoveWhere(s: string, drop: char -> bool): (r: string)
    ensures |r| <= |s|
    ensures forall c :: c in r <==> c in s && !drop(c)
  {
    if s == [] then []
    else
      var rest := RemoveWhere(s[1..], drop);
      assert s == [s[0]] + s[1..];
      if drop(s[0]) then rest else [s[0]] + rest
  }

  /** Deleting distributes over concatenation: the kept characters keep
      their order. */
  lemma {:induction false} RemoveWhereAppend(a: string, b: string, drop: char -> bool)
    ensures RemoveWhere(a + b, drop) == RemoveWhere(a, drop) + RemoveWhere(b, drop)
    decreases |a|
  {
    if a != [] {
      assert (a + b)[1..] == a[1..] + b;
      RemoveWhereAppend(a[1..], b, drop);
    } else {
      assert a + b == b;
    }
  }

  /** One character is kept exactly when `drop` does not select it. */
  lemma RemoveWhereOne(c: char, drop: char -> bool)
    ensures RemoveWhere([c], drop) == if drop(c) then [] else [c]
  {
    assert [c][1..] == [];
  }

  /** The number of characters kept is the length less those dropped. */
  lemma {:induction false} RemoveWhereCount(s: string, drop: char -> bool)
    ensures |RemoveWhere(s, drop)| == |s| - DropCount(s, drop)
    decreases |s|
  {
    if s != [] {
      RemoveWhereCount(s[1..], drop);
    }
  }

  function DropCount(s: string, drop: char -> bool): nat {
    if s == [] then 0 else (if drop(s[0]) then 1 else 0) + DropCount(s[1..], drop)
  }

  /** `sanitize_user_input`: whitespace runs collapsed to one space, control
      characters deleted, ends stripped. Line breaks and tabs do not
      survive the collapse, whatever the comment on the control-character
      step says. */
  function SanitizeUserInput(text: string): (r: string)
    ensures PyStrip(r) == r
    ensures forall c :: c in r ==> !IsControl(c) && (IsPySpace(c) ==> c == ' ')
    ensures '\n' !in r && '\t' !in r && '\r' !in r
    ensures RemoveWhere(r, IsPySpace) == RemoveWhere(RemoveWhere(text, IsPySpace), IsControl)
  {
    SanitizeChars(text);
    SanitizeStripped(text);
    SanitizeKeepsWords(text);
    PyStrip(RemoveWhere(CollapseSpaces(text), IsControl))
  }

  /** Apart from whitespace, the cleaned text is the input without its
      control characters, in the same order. */
  lemma SanitizeKeepsWords(text: string)
    ensures RemoveWhere(PyStrip(RemoveWhere(CollapseSpaces(text), IsControl)), IsPySpace)
         == RemoveWhere(RemoveWhere(text, IsPySpace), IsControl)
  {
    var c := CollapseSpaces(text);
    RemoveStripped(RemoveWhere(c, IsControl), IsPySpace);
    RemoveWhereCommutes(c, IsControl, IsPySpace);
    RemoveCollapsed(text);
  }

  /** Deleting everything `drop` selects from a string made only of such
      characters leaves nothing. */
  lemma {:induction false} RemoveAll(s: string, drop: char -> bool)
    requires AllSpace(s, drop)
    ensures RemoveWhere(s, drop) == []
    decreases |s|
  {
    if s != [] {
      RemoveAll(s[1..], drop);
    }
  }

  /** A string with nothing to delete is kept whole. */
  lemma {:induction false} RemoveNone(s: string, drop: char -> bool)
    requires forall i :: 0 <= i < |s| ==> !drop(s[i])
    ensures RemoveWhere(s, drop) == s
    decreases |s|
  {
    if s != [] {
      RemoveNone(s[1..], drop);
      assert s == [s[0]] + s[1..];
    }
  }

  /** Two deletions can be done in either order. */
  lemma {:induction false} RemoveWhereCommutes(s: string, a: char -> bool, b: char -> bool)
    ensures RemoveWhere(RemoveWhere(s, a), b) == RemoveWhere(RemoveWhere(s, b), a)
    decreases |s|
  {
    if s != [] {
      RemoveWhereCommutes(s[1..], a, b);
      var ra := RemoveWhere(s[1..], a);
      var rb := RemoveWhere(s[1..], b);
      if !a(s[0]) {
        assert ([s[0]] + ra)[1..] == ra;
      }
      if !b(s[0]) {
        assert ([s[0]] + rb)[1..] == rb;
      }
    }
  }

  /** Trimming characters that are deleted anyway changes nothing once
      they are deleted. */
  lemma RemoveStripped(s: string, sp: char -> bool)
    ensures RemoveWhere(Trim(s, sp), sp) == RemoveWhere(s, sp)
  {
    RemoveLeading(s, sp);
    RemoveTrailing(TrimStart(s, sp), sp);
  }

  /** Trailing characters that are deleted anyway may be trimmed first. */
  lemma RemoveTrailing(s: string, sp: char -> bool)
    ensures RemoveWhere(TrimEnd(s, sp), sp) == RemoveWhere(s, sp)
  {
    var r := TrimEnd(s, sp);
    assert s == r + s[|r|..];
    RemoveWhereAppend(r, s[|r|..], sp);
    RemoveAll(s[|r|..], sp);
    assert r + [] == r;
  }

  /** Collapsing whitespace changes nothing once whitespace is deleted. */
  lemma {:induction false} RemoveCollapsed(s: string)
    ensures RemoveWhere(CollapseSpaces(s), IsPySpace) == RemoveWhere(s, IsPySpace)
    decreases |s|
  {
    var t := TrimStart(s, IsPySpace);
    RemoveLeading(s, IsPySpace);
    if t == [] {
      assert Words(s) == [];
    } else {
      var k := SpanUntil(t, IsPySpace);
      var u := t[k..];
      WordsStep(s);
      RemoveWordThen(t, k);
      RemoveCollapsed(u);
      CollapseStep(t[..k], u);
    }
  }

  /** Leading characters that are deleted anyway may be trimmed first. */
  lemma RemoveLeading(s: string, sp: char -> bool)
    ensures RemoveWhere(TrimStart(s, sp), sp) == RemoveWhere(s, sp)
  {
    var t := TrimStart(s, sp);
    assert s == s[..|s| - |t|] + t;
    RemoveWhereAppend(s[..|s| - |t|], t, sp);
    RemoveAll(s[..|s| - |t|], sp);
  }

  /** The words of a string that is not blank: the first run after the
      leading whitespace, then the words of the rest. */
  lemma WordsStep(s: string)
    requires TrimStart(s, IsPySpace) != []
    ensures var t := TrimStart(s, IsPySpace);
      var k := SpanUntil(t, IsPySpace);
      Words(s) == [t[..k]] + Words(t[k..]) && IsWord(t[..k])
  {
    SpanIsWord(TrimStart(s, IsPySpace));
  }

  /** A run of non-space characters survives the deletion whole. */
  lemma RemoveWordThen(t: string, k: nat)
    requires k <= |t| && forall i :: 0 <= i < k ==> !IsPySpace(t[i])
    ensures RemoveWhere(t, IsPySpace) == t[..k] + RemoveWhere(t[k..], IsPySpace)
  {
    assert t == t[..k] + t[k..];
    RemoveWhereAppend(t[..k], t[k..], IsPySpace);
    RemoveNone(t[..k], IsPySpace);
  }

  /** Deleting the whitespace of a collapsed text that starts with a word. */
  lemma CollapseStep(w: string, u: string)
    requires IsWord(w)
    ensures RemoveWhere(Join([w] + Words(u), " "), IsPySpace) == w + RemoveWhere(CollapseSpaces(u), IsPySpace)
  {
    RemoveNone(w, IsPySpace);
    JoinCons(w, Words(u));
    if Words(u) == [] {
      assert CollapseSpaces(u) == [];
      assert w + [] == w;
    } else {
      var rest := CollapseSpaces(u);
      RemoveWhereAppend(w + " ", rest, IsPySpace);
      RemoveWhereAppend(w, " ", IsPySpace);
      RemoveWhereOne(' ', IsPySpace);
      assert w + [] == w;
    }
  }

  /** Joining a word in front of further words. */
  lemma JoinCons(w: string, ws: seq<string>)
    ensures Join([w] + ws, " ") == if ws == [] then w else w + " " + Join(ws, " ")
  {
    assert ([w] + ws)[1..] == ws;
  }

  lemma SanitizeChars(text: string)
    ensures var r := PyStrip(RemoveWhere(CollapseSpaces(text), IsControl));
      && (forall c :: c in r ==> !IsControl(c) && (IsPySpace(c) ==> c == ' '))
      && '\n' !in r && '\t' !in r && '\r' !in r
  {
    var collapsed := CollapseSpaces(text);
    CollapsedSpaces(text);
    var kept := RemoveWhere(collapsed, IsControl);
    TrimKeepsChars(kept, IsPySpace);
    var r := PyStrip(kept);
    CharsThrough(r, kept, collapsed, IsPySpace, IsControl);
    OnlySpaces(r, IsPySpace);
  }

  lemma SanitizeStripped(text: string)
    ensures var r := PyStrip(RemoveWhere(CollapseSpaces(text), IsControl));
      PyStrip(r) == r
  {
    TrimIdempotent(RemoveWhere(CollapseSpaces(text), IsControl), IsPySpace);
  }

  /** Characters pass from the collapsed text through the deletion to the
      stripped result, keeping what each step guarantees. */
  lemma CharsThrough(r: string, kept: string, collapsed: string, sp: char -> bool, drop: char -> bool)
    requires forall c :: c in r ==> c in kept
    requires forall c :: c in kept <==> c in collapsed && !drop(c)
    requires forall c :: c in collapsed ==> (sp(c) ==> c == ' ')
    ensures forall c :: c in r ==> !drop(c) && (sp(c) ==> c == ' ')
  {
  }

  /** A text whose only whitespace is the space has no line break or tab. */
  lemma OnlySpaces(r: string, sp: char -> bool)
    requires forall c :: c in r ==> (sp(c) ==> c == ' ')
    requires sp('\n') && sp('\t') && sp('\r')
    ensures '\n' !in r && '\t' !in r && '\r' !in r
  {
  }

  /** Collapsing leaves no whitespace but single spaces. */
  lemma CollapsedSpaces(text: string)
    ensures forall c :: c in CollapseSpaces(text) ==> (IsPySpace(c) ==> c == ' ')
  {
    var r := CollapseSpaces(text);
    assert SingleSpaced(r);
    forall c | c in r && IsPySpace(c)
      ensures c == ' '
    {
      var i :| 0 <= i < |r| && r[i] == c;
    }
  }

  /** Text that is already single-spaced and free of control characters
      comes back unchanged; the cleaner does not alter a clean message. */
  lemma SanitizeKeepsCleanText(text: string)
    requires SingleSpaced(text)
    requires forall c :: c in text ==> !IsControl(c)
    ensures SanitizeUserInput(text) == text
  {
    CollapseSingleSpaced(text);
    RemoveNothing(text, IsControl);
    TrimOfTrimmed(text, IsPySpace);
  }

  lemma {:induction false} RemoveNothing(s: string, drop: char -> bool)
    requires forall c :: c in s ==> !drop(c)
    ensures RemoveWhere(s, drop) == s
    decreases |s|
  {
    if s != [] {
      assert s[0] in s;
      assert forall c :: c in s[1..] ==> c in s;
      RemoveNothing(s[1..], drop);
      assert [s[0]] + s[1..] == s;
    }
  }
}

=== FILE: chat_formatter.dfy ===
/** Formatting for the chat (services/chat/formatter.py): history entries
    for the model and the page, and the text helpers chat names are built
    from. */
module ChatFormatter {
  import opened Wrappers
  import opened Text
  import opened Dialogs

  /** `format_history_for_model` and `format_history_for_ui`, which are the
      same comprehension: role value and content of each message, in
      order. */
  function FormatHistory(history: seq<Message>): (r: seq<UiMessage>)
    ensures |r| == |history|
    ensures forall i :: 0 <= i < |r| ==>
      RoleFromValue(r[i].role) == Some(history[i].role) && r[i].content == history[i].content
  {
    seq(|history|, i requires 0 <= i < |history| => UiMessage(RoleValue(history[i].role), history[i].content))
  }

  /** The formatters agree with the dialog's own `to_ui_format`. */
  lemma FormattersAgree(d: Dialog)
    ensures FormatHistory(d.history) == ToUiFormat(d)
  {
  }

  /** `word[:max_word_length-3] + "..."` for a word that is too long. */
  function CutWord(w: string, maxWord: int): (r: string)
    ensures IsWord(w) ==> IsWord(r)
    ensures |w| <= maxWord ==> r == w
    ensures |w| > maxWord && maxWord >= 3 ==> |r| == maxWord && r == w[..maxWord - 3] + "..."
  {
    if |w| > maxWord then
      var r := PySliceTo(w, maxWord - 3) + "...";
      assert forall i :: 0 <= i < |r| - 3 ==> r[i] == w[i];
      r
    else w
  }

  function CutWords(ws: seq<string>, maxWord: int): (r: seq<string>)
    ensures |r| == |ws|
    ensures forall i :: 0 <= i < |ws| ==> r[i] == CutWord(ws[i], maxWord)
  {
    seq(|ws|, i requires 0 <= i < |ws| => CutWord(ws[i], maxWord))
  }

  /** `clean_text_for_name`: the words of the text, each cut to
      `maxWord` characters with an ellipsis when longer, joined by single
      spaces. */
  function CleanTextForName(text: string, maxWord: int): (r: string)
    ensures SingleSpaced(r)
    ensures Words(r) == CutWords(Words(text), maxWord)
    ensures maxWord >= 3 ==> forall i :: 0 <= i < |Words(r)| ==> |Words(r)[i]| <= maxWord
  {
    var collapsed := CollapseSpaces(text);
    WordsOfJoin(Words(text));
    var cut := CutWords(Words(collapsed), maxWord);
    JoinWordsSingleSpaced(cut);
    WordsOfJoin(cut);
    TrimOfTrimmed(Join(cut, " "), IsPySpace);
    PyStrip(Join(cut, " "))
  }

  /** Cleaning twice is cleaning once. */
  lemma CleanTextIdempotent(text: string, maxWord: int)
    requires maxWord >= 3
    ensures CleanTextForName(CleanTextForName(text, maxWord), maxWord) == CleanTextForName(text, maxWord)
  {
    var once := CleanTextForName(text, maxWord);
    var twice := CleanTextForName(once, maxWord);
    CutWordsShort(Words(once), maxWord);
    SameWordsSame(twice, once);
  }

  /** Words that already fit are not cut. */
  lemma CutWordsShort(ws: seq<string>, maxWord: int)
    requires forall i :: 0 <= i < |ws| ==> |ws[i]| <= maxWord
    ensures CutWords(ws, maxWord) == ws
  {
  }

  /** Two single-spaced texts with the same words are the same text. */
  lemma SameWordsSame(a: string, b: string)
    requires SingleSpaced(a) && SingleSpaced(b) && Words(a) == Words(b)
    ensures a == b
  {
    CollapseSingleSpaced(a);
    CollapseSingleSpaced(b);
  }

  predicate IsTerminator(c: char) {
    c == '.' || c == '!' || c == '?'
  }

  /** `re.match(r'^[^.!?]*[.!?]', t)`: the text through its first
      terminator, or the whole text when it has none. */
  function FirstSentence(t: string): (r: string)
    ensures StartsWith(t, r)
    ensures forall i :: 0 <= i < |r| - 1 ==> !IsTerminator(r[i])
    ensures r == t || (r != [] && IsTerminator(r[|r| - 1]))
    ensures (forall i :: 0 <= i < |t| ==> !IsTerminator(t[i])) <==> r == t && (t == [] || !IsTerminator(t[|t| - 1]))
  {
    var k := SpanUntil(t, IsTerminator);
    if k < |t| then t[..k + 1] else t
  }

  /** `extract_first_sentence`: the first sentence of the stripped text,
      cut to `maxLength` characters with an ellipsis when longer. */
  function ExtractFirstSentence(text: string, maxLength: int): (r: string)
    ensures |FirstSentence(PyStrip(text))| <= maxLength ==> r == FirstSentence(PyStrip(text))
    ensures maxLength >= 3 ==> |r| <= maxLength
    ensures var f := FirstSentence(PyStrip(text));
      |f| > maxLength >= 3 ==> r == f[..maxLength - 3] + "..."
  {
    var f := FirstSentence(PyStrip(text));
    var r := TruncateWithEllipsis(f, maxLength);
    assert |f| > maxLength >= 3 ==> r == r[..maxLength - 3] + r[maxLength - 3..];
    r
  }

  /** `truncate_with_ellipsis`. */
  function TruncateWithEllipsis(text: string, maxLength: int): (r: string)
    ensures |text| <= maxLength ==> r == text
    ensures |text| > maxLength && maxLength >= 3 ==>
      |r| == maxLength && EndsWith(r, "...") && r[..maxLength - 3] == text[..maxLength - 3]
  {
    if |text| <= maxLength then text
    else
      var r := PySliceTo(text, maxLength - 3) + "...";
      assert r[|r| - 3..] == "...";
      r
  }

  /** Truncating to a length that fits changes nothing, so truncation is
      idempotent. */
  lemma TruncateIdempotent(text: string, maxLength: int)
    requires maxLength >= 3
    ensures TruncateWithEllipsis(TruncateWithEllipsis(text, maxLength), maxLength) == TruncateWithEllipsis(text, maxLength)
  {
  }
}

=== FILE: chat_list.dfy ===
/** The chat list as it travels to the browser: the payload built by
    handlers/chat_list.py and the nodes static/js/modules/chat-list.js
    renders from it. JSON encoding and decoding are left abstract: the
    browser receives the payload's groups and flat list, or nothing when
    `JSON.parse` fails. The DOM is the sequence of nodes the renderer
    appends. */
module ChatList {
  import opened Wrappers
  import opened Text
  import opened Dialogs
  import opened DialogStore
  import opened Sorting
  import opened Grouper

  // ---------------------------------------------------------------------------
  // Server side: `ChatListHandler.get_chat_list_data`

  /** One dialog as the browser receives it. */
  datatype JsDialog = JsDialog(
    id: string,
    name: string,
    historyLength: nat,
    updated: int,
    isCurrent: bool,
    pinned: bool,
    pinnedPosition: Option<int>)

  datatype JsGroup = JsGroup(title: string, entries: seq<JsDialog>)

  datatype Payload = Payload(groups: seq<JsGroup>, flat: seq<JsDialog>, scrollTarget: string)

  const ScrollNone: string := "none"

  /** The payload sent when building it raised. */
  const EmptyPayload: Payload := Payload([], [], ScrollNone)

  function ToJs(x: DialogInfo): (r: JsDialog)
    ensures r.id == x.id && r.isCurrent == x.isCurrent && r.name == LineBreaksToSpaces(x.name)
  {
    JsDialog(x.id, LineBreaksToSpaces(x.name), x.historyLength, x.updated, x.isCurrent, x.pinned, x.pinnedPosition)
  }

  function ToJsAll(xs: seq<DialogInfo>): (r: seq<JsDialog>)
    ensures |r| == |xs|
    ensures forall i :: 0 <= i < |xs| ==> r[i] == ToJs(xs[i])
  {
    seq(|xs|, i requires 0 <= i < |xs| => ToJs(xs[i]))
  }

  function JsGroupOf(g: Group): JsGroup {
    JsGroup(g.title, ToJsAll(g.entries))
  }

  function JsGroups(gs: seq<Group>): (r: seq<JsGroup>)
    ensures |r| == |gs|
    ensures forall i :: 0 <= i < |gs| ==> r[i] == JsGroupOf(gs[i])
  {
    seq(|gs|, i requires 0 <= i < |gs| => JsGroupOf(gs[i]))
  }

  /** The entries of the groups one group after the other. */
  function JsFlatten(gs: seq<JsGroup>): seq<JsDialog> {
    if gs == [] then [] else JsFlatten(gs[..|gs| - 1]) + gs[|gs| - 1].entries
  }

  /** `get_chat_list_data`: one browser group per group, in order, each
      dialog also appended to `flat`; any exception while grouping yields
      the empty payload with scroll target "none". */
  method ChatListData(grouped: Result<seq<Group>, string>, scrollTarget: string) returns (p: Payload)
    ensures grouped.Failure? ==> p == EmptyPayload
    ensures grouped.Success? ==> p.scrollTarget == scrollTarget && p.groups == JsGroups(grouped.value)
    ensures grouped.Success? ==> p.flat == JsFlatten(p.groups)
  {
    if grouped.Failure? {
      return EmptyPayload;
    }
    var gs := grouped.value;
    var groups: seq<JsGroup> := [];
    var flat: seq<JsDialog> := [];
    var n := 0;
    while n < |gs|
      invariant 0 <= n <= |gs|
      invariant groups == JsGroups(gs[..n])
      invariant flat == JsFlatten(groups)
    {
      var es := gs[n].entries;
      var groupDialogs: seq<JsDialog> := [];
      var k := 0;
      while k < |es|
        invariant 0 <= k <= |es|
        invariant groupDialogs == ToJsAll(es[..k])
        invariant flat == JsFlatten(groups) + groupDialogs
      {
        groupDialogs := groupDialogs + [ToJs(es[k])];
        flat := flat + [ToJs(es[k])];
        k := k + 1;
      }
      assert es[..k] == es;
      var groups' := groups + [JsGroup(gs[n].title, groupDialogs)];
      assert groups'[..|groups'| - 1] == groups;
      assert gs[..n + 1] == gs[..n] + [gs[n]];
      groups := groups';
      n := n + 1;
    }
    assert gs[..n] == gs;
    p := Payload(groups, flat, scrollTarget);
  }

  /** `flat` of a payload is the browser form of the flattened groups. */
  lemma {:induction false} JsFlattenGroups(gs: seq<Group>)
    ensures JsFlatten(JsGroups(gs)) == ToJsAll(Flatten(gs))
    decreases |gs|
  {
    if gs != [] {
      var init := gs[..|gs| - 1];
      JsFlattenGroups(init);
      assert JsGroups(gs)[..|gs| - 1] == JsGroups(init);
      assert ToJsAll(Flatten(gs)) == ToJsAll(Flatten(init)) + ToJsAll(gs[|gs| - 1].entries);
    }
  }

  /** A rearrangement of the list, in browser form, holds one entry per
      listed dialog. */
  lemma JsOfRearranged(f: seq<DialogInfo>, list: seq<DialogInfo>)
    requires multiset(f) == multiset(list)
    ensures |ToJsAll(f)| == |list|
    ensures forall y :: y in list ==> ToJs(y) in ToJsAll(f)
    ensures forall x :: x in ToJsAll(f) ==> exists i :: 0 <= i < |list| && x == ToJs(list[i])
  {
    assert |f| == |multiset(f)| == |multiset(list)| == |list|;
    var jf := ToJsAll(f);
    forall y | y in list
      ensures ToJs(y) in jf
    {
      assert y in multiset(f);
      var k :| 0 <= k < |f| && f[k] == y;
      assert jf[k] == ToJs(y);
    }
    forall x | x in jf
      ensures exists i :: 0 <= i < |list| && x == ToJs(list[i])
    {
      var k :| 0 <= k < |f| && jf[k] == x;
      assert f[k] in multiset(list);
      var i :| 0 <= i < |list| && list[i] == f[k];
    }
  }

  /** The payload of a dialog list grouped as intended holds each listed
      dialog exactly once: as many entries as dialogs, and each dialog's
      entry is present. */
  lemma FlatCoversList(list: seq<DialogInfo>, today: int)
    ensures |JsFlatten(JsGroups(GroupDialogs(list, today)))| == |list|
    ensures forall y :: y in list ==> ToJs(y) in JsFlatten(JsGroups(GroupDialogs(list, today)))
    ensures forall x :: x in JsFlatten(JsGroups(GroupDialogs(list, today))) ==>
      exists i :: 0 <= i < |list| && x == ToJs(list[i])
  {
    var gs := GroupDialogs(list, today);
    JsFlattenGroups(gs);
    GroupsPartitionList(list, today);
    JsOfRearranged(Flatten(gs), list);
  }

  // ---------------------------------------------------------------------------
  // Browser side: `renderChatList`

  /** What the browser holds after parsing: `chats.groups` and `chats.flat`. */
  datatype ClientData = ClientData(groups: seq<JsGroup>, flat: seq<JsDialog>)

  /** The payload as parsed by the browser; `None` stands for a string that
      `JSON.parse` rejects, which is treated as empty groups and list. */
  function ParseChats(parsed: Option<Payload>): (r: ClientData)
    ensures parsed.None? ==> r.groups == [] && r.flat == []
    ensures parsed.Some? ==> r.groups == parsed.value.groups && r.flat == parsed.value.flat
  {
    match parsed
    case None => ClientData([], [])
    case Some(p) => ClientData(p.groups, p.flat)
  }

  /** A node appended to the list container. */
  datatype Node = Placeholder | Divider(title: string) | Row(id: string, active: bool)

  /** The date groups the renderer walks, in this order. */
  const DisplayOrder: seq<string> := ["Сегодня", "Вчера", "7 дней", "Месяц", "Более месяца"]

  /** `chatGroups[title]`: a later key with the same title wins, as in
      `JSON.parse`. */
  function Lookup(gs: seq<JsGroup>, title: string): (r: Option<seq<JsDialog>>)
    ensures r.None? <==> forall i :: 0 <= i < |gs| ==> gs[i].title != title
  {
    if gs == [] then None
    else if gs[|gs| - 1].title == title then Some(gs[|gs| - 1].entries)
    else Lookup(gs[..|gs| - 1], title)
  }

  /** `createChatElement` for each chat; without `window.escapeHtml` no row
      is created. A row is active iff the chat is current. */
  function Rows(es: seq<JsDialog>, escapeHtml: bool): (r: seq<Node>)
    ensures !escapeHtml ==> r == []
    ensures escapeHtml ==> |r| == |es| && forall i :: 0 <= i < |es| ==> r[i] == Row(es[i].id, es[i].isCurrent)
  {
    if escapeHtml then seq(|es|, i requires 0 <= i < |es| => Row(es[i].id, es[i].isCurrent)) else []
  }

  /** One step of the walk: a divider and the rows when the group is present
      and non-empty, nothing otherwise. */
  function Section(gs: seq<JsGroup>, title: string, escapeHtml: bool): seq<Node> {
    match Lookup(gs, title)
    case Some(es) => if |es| > 0 then [Divider(title)] + Rows(es, escapeHtml) else []
    case None => []
  }

  function RenderOver(order: seq<string>, gs: seq<JsGroup>, escapeHtml: bool): seq<Node> {
    if order == [] then []
    else RenderOver(order[..|order| - 1], gs, escapeHtml) + Section(gs, order[|order| - 1], escapeHtml)
  }

  /** `renderChatList` as written: a placeholder when there are no groups,
      otherwise the five date groups in their fixed order. */
  function RenderChatList(data: ClientData, escapeHtml: bool): (r: seq<Node>)
    ensures data.groups == [] ==> r == [Placeholder]
  {
    if data.groups == [] then [Placeholder] else RenderOver(DisplayOrder, data.groups, escapeHtml)
  }

  /** Every divider the walk produces carries a title of the walked order. */
  lemma {:induction false} DividersFromOrder(order: seq<string>, gs: seq<JsGroup>, escapeHtml: bool)
    ensures forall i :: 0 <= i < |RenderOver(order, gs, escapeHtml)| && RenderOver(order, gs, escapeHtml)[i].Divider? ==>
      RenderOver(order, gs, escapeHtml)[i].title in order
    decreases |order|
  {
    if order != [] {
      var init := order[..|order| - 1];
      DividersFromOrder(init, gs, escapeHtml);
      var a: seq<Node> := RenderOver(init, gs, escapeHtml);
      var b: seq<Node> := Section(gs, order[|order| - 1], escapeHtml);
      var ab: seq<Node> := a + b;
      forall i | 0 <= i < |ab| && ab[i].Divider?
        ensures ab[i].title in order
      {
        if i < |a| {
          assert ab[i] == a[i];
          assert a[i].title in init;
        } else {
          assert ab[i] == b[i - |a|];
        }
      }
    }
  }

  const PinnedTitle: string := "Закрепленные"

  /** The pinned group is never drawn by the renderer as written: no divider
      carries its title. */
  lemma PinnedNeverDrawn(data: ClientData, escapeHtml: bool)
    ensures forall i :: 0 <= i < |RenderChatList(data, escapeHtml)| ==>
      RenderChatList(data, escapeHtml)[i] != Divider(PinnedTitle)
  {
    if data.groups != [] {
      DividersFromOrder(DisplayOrder, data.groups, escapeHtml);
    }
  }

  /** The server payload of a single pinned dialog: the renderer as written
      draws nothing at all, not even the placeholder, although `flat` holds
      the dialog. */
  lemma OnlyPinnedRendersNothing()
    ensures var x: JsDialog := JsDialog("1", "a", 0, 0, true, true, Some(0));
      var data: ClientData := ClientData([JsGroup(PinnedTitle, [x])], [x]);
      && |data.flat| == 1
      && RenderChatList(data, true) == []
  {
    var x := JsDialog("1", "a", 0, 0, true, true, Some(0));
    var gs := [JsGroup(PinnedTitle, [x])];
    var o := DisplayOrder;
    forall k | 0 <= k < |o|
      ensures Section(gs, o[k], true) == []
    {
      assert gs[..0] == [];
      assert Lookup(gs, o[k]) == None;
    }
    assert o[..1][..0] == [];
    assert RenderOver(o[..1], gs, true) == [];
    assert o[..2][..1] == o[..1];
    assert RenderOver(o[..2], gs, true) == [];
    assert o[..3][..2] == o[..2];
    assert RenderOver(o[..3], gs, true) == [];
    assert o[..4][..3] == o[..3];
    assert RenderOver(o[..4], gs, true) == [];
    assert o[..5][..4] == o[..4];
    assert RenderOver(o[..5], gs, true) == [];
    assert o[..5] == o;
  }

  /** The walk with the pinned group first, the order in which the server
      builds its groups. */
  const FullDisplayOrder: seq<string> := [PinnedTitle] + DisplayOrder

  function RenderChatListCorrected(data: ClientData, escapeHtml: bool): (r: seq<Node>)
    ensures data.groups == [] ==> r == [Placeholder]
  {
    if data.groups == [] then [Placeholder] else RenderOver(FullDisplayOrder, data.groups, escapeHtml)
  }

  /** Every group, in the order given: its divider, then its rows. */
  function Expected(gs: seq<JsGroup>, escapeHtml: bool): seq<Node> {
    if gs == [] then []
    else Expected(gs[..|gs| - 1], escapeHtml) + [Divider(gs[|gs| - 1].title)] + Rows(gs[|gs| - 1].entries, escapeHtml)
  }

  function TitlesOf(gs: seq<JsGroup>): (r: seq<string>)
    ensures |r| == |gs|
    ensures forall i :: 0 <= i < |gs| ==> r[i] == gs[i].title
  {
    seq(|gs|, i requires 0 <= i < |gs| => gs[i].title)
  }

  /** `ts` is a subsequence of `order`, matched from the end. */
  predicate Follows(ts: seq<string>, order: seq<string>)
    decreases |order|
  {
    if ts == [] then true
    else if order == [] then false
    else if ts[|ts| - 1] == order[|order| - 1] then Follows(ts[..|ts| - 1], order[..|order| - 1])
    else Follows(ts, order[..|order| - 1])
  }

  predicate Distinct(order: seq<string>) {
    forall i, j :: 0 <= i < j < |order| ==> order[i] != order[j]
  }

  lemma {:induction false} FollowsIn(ts: seq<string>, order: seq<string>)
    requires Follows(ts, order)
    ensures forall t :: t in ts ==> t in order
    decreases |order|
  {
    if ts != [] {
      var init := order[..|order| - 1];
      if ts[|ts| - 1] == order[|order| - 1] {
        FollowsIn(ts[..|ts| - 1], init);
        assert ts == ts[..|ts| - 1] + [ts[|ts| - 1]];
      } else {
        FollowsIn(ts, init);
      }
    }
  }

  lemma {:induction false} FollowsDropLast(ts: seq<string>, order: seq<string>)
    requires ts != [] && Follows(ts, order)
    ensures Follows(ts[..|ts| - 1], order)
    decreases |order|, 0
  {
    var init := order[..|order| - 1];
    if ts[|ts| - 1] == order[|order| - 1] {
      FollowsWeaken(ts[..|ts| - 1], init, order[|order| - 1]);
      assert init + [order[|order| - 1]] == order;
    } else {
      FollowsDropLast(ts, init);
      FollowsWeaken(ts[..|ts| - 1], init, order[|order| - 1]);
      assert init + [order[|order| - 1]] == order;
    }
  }

  lemma {:induction false} FollowsWeaken(ts: seq<string>, order: seq<string>, t: string)
    requires Follows(ts, order)
    ensures Follows(ts, order + [t])
    decreases |order|, 1
  {
    var o := order + [t];
    assert o[..|o| - 1] == order;
    if ts != [] && ts[|ts| - 1] == t {
      FollowsDropLast(ts, order);
    }
  }

  /** Dropping the last group changes no section whose title differs from it. */
  lemma {:induction false} RenderDropLast(order: seq<string>, gs: seq<JsGroup>, escapeHtml: bool)
    requires gs != []
    requires forall t :: t in order ==> t != gs[|gs| - 1].title
    ensures RenderOver(order, gs, escapeHtml) == RenderOver(order, gs[..|gs| - 1], escapeHtml)
    decreases |order|
  {
    if order != [] {
      var init := order[..|order| - 1];
      var t := order[|order| - 1];
      assert forall u :: u in init ==> u in order;
      assert t in order;
      RenderDropLast(init, gs, escapeHtml);
      assert Lookup(gs, t) == Lookup(gs[..|gs| - 1], t);
    }
  }

  /** Walking an order that the groups' titles follow draws every group in
      turn, each with its divider and rows. */
  lemma {:induction false} RenderFollowing(order: seq<string>, gs: seq<JsGroup>, escapeHtml: bool)
    requires Distinct(order)
    requires Follows(TitlesOf(gs), order)
    requires forall i :: 0 <= i < |gs| ==> |gs[i].entries| > 0
    ensures RenderOver(order, gs, escapeHtml) == Expected(gs, escapeHtml)
    decreases |order|, 1
  {
    if order == [] {
      assert gs == [];
    } else if gs != [] && gs[|gs| - 1].title == order[|order| - 1] {
      RenderFollowingMatch(order, gs, escapeHtml);
    } else {
      RenderFollowingSkip(order, gs, escapeHtml);
    }
  }

  /** The last title in the order is the last group's: its section is drawn
      last, after the sections of the other groups. */
  lemma {:induction false} RenderFollowingMatch(order: seq<string>, gs: seq<JsGroup>, escapeHtml: bool)
    requires Distinct(order) && order != [] && gs != [] && gs[|gs| - 1].title == order[|order| - 1]
    requires Follows(TitlesOf(gs), order)
    requires forall i :: 0 <= i < |gs| ==> |gs[i].entries| > 0
    ensures RenderOver(order, gs, escapeHtml) == Expected(gs, escapeHtml)
    decreases |order|, 0
  {
    var o := order[..|order| - 1];
    var t := order[|order| - 1];
    DistinctInit(order, o);
    var ts := TitlesOf(gs);
    var init := gs[..|gs| - 1];
    assert TitlesOf(init) == ts[..|ts| - 1];
    assert Follows(TitlesOf(init), o);
    assert Lookup(gs, t) == Some(gs[|gs| - 1].entries);
    RenderFollowing(o, init, escapeHtml);
    RenderDropLast(o, gs, escapeHtml);
    var rows := Rows(gs[|gs| - 1].entries, escapeHtml);
    assert Section(gs, t, escapeHtml) == [Divider(t)] + rows;
    assert RenderOver(order, gs, escapeHtml) == Expected(init, escapeHtml) + ([Divider(t)] + rows);
    Assoc(Expected(init, escapeHtml), [Divider(t)], rows);
  }

  /** The last title in the order names no group: it draws nothing. */
  lemma {:induction false} RenderFollowingSkip(order: seq<string>, gs: seq<JsGroup>, escapeHtml: bool)
    requires Distinct(order) && order != [] && !(gs != [] && gs[|gs| - 1].title == order[|order| - 1])
    requires Follows(TitlesOf(gs), order)
    requires forall i :: 0 <= i < |gs| ==> |gs[i].entries| > 0
    ensures RenderOver(order, gs, escapeHtml) == Expected(gs, escapeHtml)
    decreases |order|, 0
  {
    var o := order[..|order| - 1];
    var t := order[|order| - 1];
    DistinctInit(order, o);
    var ts := TitlesOf(gs);
    assert Follows(ts, o);
    TitlesAbsent(gs, o, t);
    assert Section(gs, t, escapeHtml) == [];
    RenderFollowing(o, gs, escapeHtml);
  }

  lemma DistinctInit(order: seq<string>, o: seq<string>)
    requires Distinct(order) && order != [] && o == order[..|order| - 1]
    ensures Distinct(o)
    ensures forall u :: u in o ==> u != order[|order| - 1]
  {
  }

  /** A title outside the order that the groups follow names no group. */
  lemma TitlesAbsent(gs: seq<JsGroup>, o: seq<string>, t: string)
    requires Follows(TitlesOf(gs), o)
    requires forall u :: u in o ==> u != t
    ensures forall i :: 0 <= i < |gs| ==> gs[i].title != t
  {
    var ts := TitlesOf(gs);
    FollowsIn(ts, o);
    forall i | 0 <= i < |gs|
      ensures gs[i].title != t
    {
      assert ts[i] in ts;
    }
  }

  /** The titles of the non-empty groups follow the titles of all groups. */
  lemma {:induction false} FilterFollows(gs: seq<Group>)
    ensures Follows(TitlesOf(JsGroups(Filter(gs, NonEmptyGroup))), TitlesOf(JsGroups(gs)))
    decreases |gs|
  {
    if gs != [] {
      var init := gs[..|gs| - 1];
      var last := gs[|gs| - 1];
      FilterFollows(init);
      var fi := Filter(init, NonEmptyGroup);
      var oi := TitlesOf(JsGroups(init));
      var o := TitlesOf(JsGroups(gs));
      TitlesSnoc(gs);
      if NonEmptyGroup(last) {
        var f := fi + [last];
        assert f[..|f| - 1] == fi;
        TitlesSnoc(f);
        var ts := TitlesOf(JsGroups(f));
        assert ts[..|ts| - 1] == TitlesOf(JsGroups(fi));
        assert o[..|o| - 1] == oi;
      } else {
        FollowsWeaken(TitlesOf(JsGroups(fi)), oi, last.title);
      }
    }
  }

  /** The titles of groups with one more at the end. */
  lemma TitlesSnoc(gs: seq<Group>)
    requires gs != []
    ensures TitlesOf(JsGroups(gs)) == TitlesOf(JsGroups(gs[..|gs| - 1])) + [gs[|gs| - 1].title]
  {
  }

  /** Groups with entries flatten to nothing only when there are none. */
  lemma JsFlattenEmpty(gs: seq<JsGroup>)
    requires forall i :: 0 <= i < |gs| ==> |gs[i].entries| > 0
    ensures JsFlatten(gs) == [] <==> gs == []
  {
    if gs != [] {
      assert |gs[|gs| - 1].entries| > 0;
    }
  }

  /** The six server group titles are the full walk order. */
  lemma AllGroupsTitles(list: seq<DialogInfo>, today: int)
    ensures TitlesOf(JsGroups(AllGroups(list, today))) == FullDisplayOrder
  {
    var all := AllGroups(list, today);
    var ts := TitlesOf(JsGroups(all));
    LabelsAreDisplayOrder();
    assert |ts| == |FullDisplayOrder|;
    forall i | 0 <= i < |ts|
      ensures ts[i] == FullDisplayOrder[i]
    {
      assert ts[i] == all[i].title == Label(BucketOrder[i]);
    }
  }

  /** The server's group labels, in dict order, are the walk order. */
  lemma LabelsAreDisplayOrder()
    ensures |FullDisplayOrder| == |BucketOrder|
    ensures forall i :: 0 <= i < |BucketOrder| ==> Label(BucketOrder[i]) == FullDisplayOrder[i]
  {
    assert FullDisplayOrder == [Label(PinnedGroup), Label(Today), Label(Yesterday), Label(Week), Label(Month), Label(Older)];
  }

  /** Non-empty groups whose titles are the walk order, filtered, are drawn
      in full. */
  lemma RenderFilteredGroups(all: seq<Group>, escapeHtml: bool)
    requires TitlesOf(JsGroups(all)) == FullDisplayOrder
    ensures var gs := JsGroups(Filter(all, NonEmptyGroup));
      gs != [] ==> RenderOver(FullDisplayOrder, gs, escapeHtml) == Expected(gs, escapeHtml)
  {
    var gs := JsGroups(Filter(all, NonEmptyGroup));
    FilterFollows(all);
    FullOrderDistinct();
    FilteredJsGroupsNonEmpty(all);
    RenderFollowing(FullDisplayOrder, gs, escapeHtml);
  }

  lemma FullOrderDistinct()
    ensures Distinct(FullDisplayOrder)
  {
  }

  /** Filtering out the empty groups leaves only groups with rows. */
  lemma FilteredJsGroupsNonEmpty(all: seq<Group>)
    ensures var gs := JsGroups(Filter(all, NonEmptyGroup));
      forall i :: 0 <= i < |gs| ==> |gs[i].entries| > 0
  {
    var f := Filter(all, NonEmptyGroup);
    var gs := JsGroups(f);
    forall i | 0 <= i < |gs|
      ensures |gs[i].entries| > 0
    {
      assert NonEmptyGroup(f[i]);
    }
  }

  /** With the pinned group in the walk, the browser draws every group of a
      server payload in the server's order: each divider followed by its
      rows, and a dialog list with entries never shows only the placeholder. */
  lemma RenderCorrectedDrawsAll(list: seq<DialogInfo>, today: int, escapeHtml: bool)
    ensures var gs := JsGroups(GroupDialogs(list, today));
      && (gs == [] <==> list == [])
      && RenderChatListCorrected(ClientData(gs, JsFlatten(gs)), escapeHtml) ==
         (if gs == [] then [Placeholder] else Expected(gs, escapeHtml))
  {
    var all := AllGroups(list, today);
    var f := GroupDialogs(list, today);
    var gs := JsGroups(f);
    FlatCoversList(list, today);
    forall i | 0 <= i < |gs|
      ensures |gs[i].entries| > 0
    {
      assert f[i] in f;
    }
    JsFlattenEmpty(gs);
    AllGroupsTitles(list, today);
    RenderFilteredGroups(all, escapeHtml);
  }

  // ---------------------------------------------------------------------------
  // The chat selected after rendering

  /** `chatListData.find(chat => chat.is_current)`. */
  function FirstCurrent(flat: seq<JsDialog>): (r: Option<string>)
    ensures r.None? <==> forall i :: 0 <= i < |flat| ==> !flat[i].isCurrent
    ensures r.Some? ==> exists i :: 0 <= i < |flat| && flat[i].isCurrent && flat[i].id == r.value
  {
    if flat == [] then None
    else if flat[0].isCurrent then Some(flat[0].id)
    else
      var r := FirstCurrent(flat[1..]);
      assert forall i :: 1 <= i < |flat| ==> flat[i] == flat[1..][i - 1];
      r
  }

  /** The first current entry of a browser list holding exactly the
      entries of a dialog list is the current id when some entry carries it. */
  lemma FirstCurrentOfList(flat: seq<JsDialog>, list: seq<DialogInfo>, current: Option<string>)
    requires forall y :: y in list ==> ToJs(y) in flat
    requires forall x :: x in flat ==> exists i :: 0 <= i < |list| && x == ToJs(list[i])
    requires forall y :: y in list ==> (y.isCurrent <==> current == Some(y.id))
    ensures FirstCurrent(flat) == (if exists k :: 0 <= k < |list| && current == Some(list[k].id) then current else None)
  {
    forall i | 0 <= i < |flat| && flat[i].isCurrent
      ensures current == Some(flat[i].id)
    {
      assert flat[i] in flat;
      var k :| 0 <= k < |list| && flat[i] == ToJs(list[k]);
      assert list[k] in list;
    }
    if exists k :: 0 <= k < |list| && current == Some(list[k].id) {
      var k :| 0 <= k < |list| && current == Some(list[k].id);
      assert list[k] in list;
      assert list[k].isCurrent;
      assert ToJs(list[k]) in flat;
      var j :| 0 <= j < |flat| && flat[j] == ToJs(list[k]);
      assert flat[j].isCurrent;
      assert FirstCurrent(flat).Some?;
    } else {
      forall i | 0 <= i < |flat|
        ensures !flat[i].isCurrent
      {
        assert flat[i] in flat;
        var k :| 0 <= k < |list| && flat[i] == ToJs(list[k]);
        assert list[k] in list;
      }
    }
  }

  /** After rendering a payload of the store, the chat passed to `selectChat`
      is the current dialog, and none is passed when no dialog is current. */
  lemma SelectedAfterRender(s: Store, current: Option<string>, today: int)
    ensures var flat := JsFlatten(JsGroups(GroupDialogs(GetDialogList(s, current), today)));
      FirstCurrent(flat) == (if current.Some? && HasKey(s, current.value) then current else None)
  {
    var list := GetDialogList(s, current);
    var flat := JsFlatten(JsGroups(GroupDialogs(list, today)));
    FlatCoversList(list, today);
    DialogListIds(s, current);
    FirstCurrentOfList(flat, list, current);
    if current.Some? && HasKey(s, current.value) {
      var i :| 0 <= i < |s| && list[i].id == current.value;
      assert current == Some(list[i].id);
      assert FirstCurrent(flat) == current;
    } else {
      assert !exists k :: 0 <= k < |list| && current == Some(list[k].id);
      assert FirstCurrent(flat) == None;
    }
  }
}

=== FILE: chat_naming.dfy ===
/** Chat names: the simple name taken from the first prompt, name
    validation (services/chat/naming.py), and the clean-up of a name the
    summarizer model proposes (services/chat/naming_service.py). The model
    call is outside the model: its outcome is a parameter. */
module ChatNaming {
  import opened Wrappers
  import opened Text
  import opened ChatFormatter
  import Summarizers

  /** The keys read from the `chat_naming` section (and `default_name` from
      the `dialogs` section); an absent key is None. */
  datatype NamingConfig = NamingConfig(
    enabled: Option<bool>,
    maxNameLength: Option<int>,
    minNameLength: Option<int>,
    allowWhitespaceOnly: Option<bool>,
    allowSpecialChars: Option<bool>,
    maxSpecialCharsPercent: Option<int>,
    defaultName: Option<string>)

  const DefaultChatName: string := "Новый чат"

  function MaxLength(cfg: NamingConfig): int { cfg.maxNameLength.GetOr(50) }
  function MinLength(cfg: NamingConfig): int { cfg.minNameLength.GetOr(1) }
  function DefaultName(cfg: NamingConfig): string { cfg.defaultName.GetOr(DefaultChatName) }

  /** Longest word kept whole by `clean_text_for_name` when called with its
      default. */
  const NameWordLength: int := 30

  // ---------------------------------------------------------------------------
  // generate_simple_name and is_default_name

  /** `generate_simple_name`: the first sentence of the cleaned prompt, or
      the default name when that is blank. The second truncation never
      changes a name that the first one produced with a limit of at least
      three. */
  function GenerateSimpleName(prompt: string, cfg: NamingConfig): (r: string)
    ensures var name := ExtractFirstSentence(CleanTextForName(prompt, NameWordLength), MaxLength(cfg));
      && (AllSpace(name, IsPySpace) ==> r == DefaultName(cfg))
      && (!AllSpace(name, IsPySpace) && MaxLength(cfg) >= 3 ==> r == name && |r| <= MaxLength(cfg))
  {
    var maxLength := MaxLength(cfg);
    var name := ExtractFirstSentence(CleanTextForName(prompt, NameWordLength), maxLength);
    if name == [] || AllSpace(name, IsPySpace) then DefaultName(cfg)
    else TruncateWithEllipsis(name, maxLength)
  }

  /** `is_default_name`: true exactly for an empty name or one containing
      the default anywhere; a non-empty default name is at least as long
      as the default. */
  function IsDefaultName(name: string, cfg: NamingConfig): (r: bool)
    ensures name == [] ==> r
    ensures StartsWith(name, DefaultName(cfg)) ==> r
    ensures forall a, b :: name == a + DefaultName(cfg) + b ==> r
    ensures r ==> name == [] || exists a, b :: name == a + DefaultName(cfg) + b
    ensures r && name != [] ==> |name| >= |DefaultName(cfg)|
  {
    ContainsAsSplit(name, DefaultName(cfg));
    name == [] || Contains(name, DefaultName(cfg))
  }

  /** `d in s` in Python: `s` splits around some occurrence of `d`. */
  lemma ContainsAsSplit(s: string, d: string)
    ensures StartsWith(s, d) ==> Contains(s, d)
    ensures forall a, b :: s == a + d + b ==> Contains(s, d)
    ensures Contains(s, d) ==> |s| >= |d| && exists a, b :: s == a + d + b
  {
    assert StartsWith(s, d) ==> StartsWith(s[0..], d);
    forall a, b | s == a + d + b
      ensures Contains(s, d)
    {
      assert StartsWith(s[|a|..], d);
    }
    if Contains(s, d) {
      var i :| 0 <= i <= |s| && StartsWith(s[i..], d);
      assert s[i..][..|d|] == d;
      assert s == s[..i] + d + s[i + |d|..];
    }
  }

  /** A name generated from a blank prompt is recognised as a default
      name (for any maximum length that is not negative). */
  lemma BlankPromptGivesDefaultName(prompt: string, cfg: NamingConfig)
    requires AllSpace(prompt, IsPySpace)
    ensures MaxLength(cfg) >= 0 ==> IsDefaultName(GenerateSimpleName(prompt, cfg), cfg)
  {
    var clean := CleanTextForName(prompt, NameWordLength);
    assert Words(clean) == [];
    assert clean == [];
    assert PyStrip(clean) == [];
    assert FirstSentence([]) == [];
    if MaxLength(cfg) >= 0 {
      assert ExtractFirstSentence(clean, MaxLength(cfg)) == [];
      var d := DefaultName(cfg);
      assert GenerateSimpleName(prompt, cfg) == d;
      assert d[0..] == d;
      assert StartsWith(d[0..], d);
    }
  }

  // ---------------------------------------------------------------------------
  // validate_chat_name

  /** Why a name is refused; the source reports each as a message. */
  datatype NameError =
    | EmptyName
    | TooShort(minLength: int)
    | WhitespaceOnly
    | TooLong(maxLength: int)
    | ForbiddenChars
    | TooManySpecial(specialCount: nat, length: nat)

  /** `А-Яа-яЁё`. */
  predicate IsCyrillic(c: char) {
    ('А' <= c <= 'я') || c == 'Ё' || c == 'ё'
  }

  /** `[^\w\sА-Яа-яЁё]`, with `isWordChar` standing for Unicode `\w`. */
  predicate IsSpecial(c: char, isWordChar: char -> bool) {
    !isWordChar(c) && !IsPySpace(c) && !IsCyrillic(c)
  }

  /** `[^\w\sА-Яа-яЁё\-.,!?]`. */
  predicate IsForbidden(c: char, isWordChar: char -> bool) {
    IsSpecial(c, isWordChar) && c != '-' && c != '.' && c != ',' && c != '!' && c != '?'
  }

  function CountSpecial(s: string, isWordChar: char -> bool): (n: nat)
    ensures n <= |s|
    ensures n == 0 <==> forall i :: 0 <= i < |s| ==> !IsSpecial(s[i], isWordChar)
  {
    if s == [] then 0
    else (if IsSpecial(s[0], isWordChar) then 1 else 0) + CountSpecial(s[1..], isWordChar)
  }

  /** More special characters than the allowed percentage: the source's
      `count / len * 100 > max` in exact arithmetic. */
  predicate TooSpecial(s: string, cfg: NamingConfig, isWordChar: char -> bool) {
    var maxPercent := cfg.maxSpecialCharsPercent.GetOr(30);
    var count := CountSpecial(s, isWordChar);
    maxPercent < 100 && count > 0 && count * 100 > maxPercent * |s|
  }

  /** The checks after the whitespace test: the maximum length, forbidden
      characters when special characters are not allowed, and the share of
      special characters. */
  function CheckRest(s: string, cfg: NamingConfig, isWordChar: char -> bool): (r: Option<NameError>)
    ensures r.None? <==>
      && |s| <= MaxLength(cfg)
      && (cfg.allowSpecialChars.GetOr(true) || forall i :: 0 <= i < |s| ==> !IsForbidden(s[i], isWordChar))
      && !TooSpecial(s, cfg, isWordChar)
  {
    if |s| > MaxLength(cfg) then Some(TooLong(MaxLength(cfg)))
    else if !cfg.allowSpecialChars.GetOr(true) && exists i :: 0 <= i < |s| && IsForbidden(s[i], isWordChar) then
      Some(ForbiddenChars)
    else if TooSpecial(s, cfg, isWordChar) then
      Some(TooManySpecial(CountSpecial(s, isWordChar), |s|))
    else None
  }

  /** Python's `str.isspace()`: not empty and all whitespace. */
  predicate IsSpaceOnly(s: string) {
    s != [] && AllSpace(s, IsPySpace)
  }

  /** `validate_chat_name` as written: the whitespace-only test runs on the
      already stripped name, so it can never fire. */
  function ValidateChatNameAsWritten(name: string, cfg: NamingConfig, isWordChar: char -> bool): (r: Option<NameError>)
    ensures name == [] ==> r == Some(EmptyName)
    ensures r.None? <==> name != [] && |PyStrip(name)| >= MinLength(cfg) && CheckRest(PyStrip(name), cfg, isWordChar).None?
  {
    if name == [] then Some(EmptyName)
    else
      var s := PyStrip(name);
      if |s| < MinLength(cfg) then Some(TooShort(MinLength(cfg)))
      else if !cfg.allowWhitespaceOnly.GetOr(true) && IsSpaceOnly(s) then Some(WhitespaceOnly)
      else CheckRest(s, cfg, isWordChar)
  }

  /** A stripped name is never whitespace only, so the as-written check
      cannot refuse a name for being blank. */
  lemma StrippedIsNeverSpaceOnly(name: string)
    ensures !IsSpaceOnly(PyStrip(name))
  {
  }

  /** With a minimum length of 0 and whitespace-only names disallowed, a
      name of three spaces is accepted. */
  lemma BlankNameAccepted()
    ensures ValidateChatNameAsWritten("   ", NamingConfig(None, None, Some(0), Some(false), None, None, None), c => false) == None
  {
    var cfg := NamingConfig(None, None, Some(0), Some(false), None, None, None);
    var noWord: char -> bool := c => false;
    assert AllSpace("   ", IsPySpace);
    assert PyStrip("   ") == [];
    assert CountSpecial([], noWord) == 0;
    assert CheckRest([], cfg, noWord) == None;
  }

  /** `validate_chat_name` with the whitespace-only test applied to the
      name as given, as the configuration key intends. */
  function ValidateChatName(name: string, cfg: NamingConfig, isWordChar: char -> bool): (r: Option<NameError>)
    ensures name == [] ==> r == Some(EmptyName)
    ensures r.None? <==>
      && name != []
      && |PyStrip(name)| >= MinLength(cfg)
      && (cfg.allowWhitespaceOnly.GetOr(true) || !IsSpaceOnly(name))
      && CheckRest(PyStrip(name), cfg, isWordChar).None?
    ensures r.None? ==> MinLength(cfg) <= |PyStrip(name)| <= MaxLength(cfg)
  {
    if name == [] then Some(EmptyName)
    else
      var s := PyStrip(name);
      if |s| < MinLength(cfg) then Some(TooShort(MinLength(cfg)))
      else if !cfg.allowWhitespaceOnly.GetOr(true) && IsSpaceOnly(name) then Some(WhitespaceOnly)
      else CheckRest(s, cfg, isWordChar)
  }

  /** The corrected check refuses every blank name when blank names are
      disallowed, and otherwise agrees with the code as written. */
  lemma ValidateChatNameRefusesBlank(name: string, cfg: NamingConfig, isWordChar: char -> bool)
    ensures !cfg.allowWhitespaceOnly.GetOr(true) && AllSpace(name, IsPySpace) ==> ValidateChatName(name, cfg, isWordChar).Some?
    ensures !IsSpaceOnly(name) || cfg.allowWhitespaceOnly.GetOr(true) ==>
      ValidateChatName(name, cfg, isWordChar) == ValidateChatNameAsWritten(name, cfg, isWordChar)
  {
  }

  // ---------------------------------------------------------------------------
  // Post-processing of a generated name (naming_service.py)

  /** The labels `^(название|title|name|ответ|answer|assistant|ai):` looks
      for, in the order the alternation tries them. */
  const NameLabels: seq<string> := ["название", "title", "name", "ответ", "answer", "assistant", "ai"]

  /** `tag:` starts `s`, ignoring case; `lower` folds a character to
      lower case. */
  predicate LabelAt(s: string, tag: string, lower: char -> char) {
    |s| > |tag| && (forall i :: 0 <= i < |tag| ==> lower(s[i]) == tag[i]) && s[|tag|] == ':'
  }

  /** The first label in `labels` that starts `s`. */
  function FirstLabel(s: string, labels: seq<string>, lower: char -> char): (r: Option<string>)
    ensures r.Some? ==> r.value in labels && LabelAt(s, r.value, lower)
    ensures r.None? <==> forall l :: l in labels ==> !LabelAt(s, l, lower)
  {
    if labels == [] then None
    else if LabelAt(s, labels[0], lower) then Some(labels[0])
    else FirstLabel(s, labels[1..], lower)
  }

  /** `re.sub(r'^(название|…|ai):\s*', '', s, flags=re.IGNORECASE)`. */
  function DropNameLabel(s: string, lower: char -> char): (r: string)
    ensures |r| <= |s|
    ensures (forall i :: 0 <= i < |s| ==> s[i] != ':') ==> r == s
  {
    match FirstLabel(s, NameLabels, lower)
    case None => s
    case Some(l) => TrimStart(s[|l| + 1..], IsPySpace)
  }

  /** `u` spells the label `l` in some mix of cases. */
  predicate Spells(u: string, l: string, lower: char -> char) {
    |u| == |l| && forall i :: 0 <= i < |l| ==> lower(u[i]) == l[i]
  }

  /** A label spelled in any case, its colon and the whitespace after it
      are dropped, whatever follows. No label holds a colon, so no other
      label can match in its place. */
  lemma DropNameLabelOf(u: string, l: string, ws: string, t: string, lower: char -> char)
    requires l in NameLabels && Spells(u, l, lower)
    requires lower(':') == ':'
    requires AllSpace(ws, IsPySpace)
    requires t == [] || !IsPySpace(t[0])
    ensures DropNameLabel(u + ":" + ws + t, lower) == t
  {
    LabelsHaveNoColon();
    LabelDropped(u, l, ws, t, NameLabels, lower);
  }

  lemma LabelDropped(u: string, l: string, ws: string, t: string, labels: seq<string>, lower: char -> char)
    requires l in labels && Spells(u, l, lower)
    requires forall x :: x in labels ==> ':' !in x
    requires lower(':') == ':'
    requires AllSpace(ws, IsPySpace)
    requires t == [] || !IsPySpace(t[0])
    ensures var s := u + ":" + ws + t;
      var m := FirstLabel(s, labels, lower);
      m.Some? && |s| > |m.value| && TrimStart(s[|m.value| + 1..], IsPySpace) == t
  {
    var rest := ws + t;
    var s := u + ":" + ws + t;
    assert s == u + ":" + rest;
    LabelAtOf(u, l, rest, lower);
    var m := FirstLabel(s, labels, lower).value;
    SameLabelLength(s, l, m, lower);
    Summarizers.TrimStartOfSpaces(ws, t);
  }

  lemma LabelAtOf(u: string, l: string, rest: string, lower: char -> char)
    requires Spells(u, l, lower)
    ensures LabelAt(u + ":" + rest, l, lower)
    ensures (u + ":" + rest)[|l| + 1..] == rest
  {
    var s := u + ":" + rest;
    assert forall i :: 0 <= i < |l| ==> s[i] == u[i];
  }

  lemma LabelsHaveNoColon()
    ensures forall x :: x in NameLabels ==> ':' !in x
  {
  }

  /** Two colon-free labels that both start `s` have the same length, as
      long as folding leaves the colon alone. */
  lemma SameLabelLength(s: string, l: string, m: string, lower: char -> char)
    requires LabelAt(s, l, lower) && LabelAt(s, m, lower)
    requires ':' !in l && ':' !in m && lower(':') == ':'
    ensures |m| == |l|
  {
  }

  /** The line boundaries of Python's `str.splitlines`. */
  predicate IsLineBoundary(c: char) {
    c == '\n' || c == '\r' || c == '\U{b}' || c == '\U{c}' || c == '\U{1c}' || c == '\U{1d}' || c == '\U{1e}'
    || c == '\U{85}' || c == '\U{2028}' || c == '\U{2029}'
  }

  /** `" ".join(s.splitlines())`: every line break ("\r\n" counting as one)
      becomes a space, except a break that ends the text, which goes. */
  function JoinLines(s: string): (r: string)
    ensures |r| <= |s|
    ensures forall i :: 0 <= i < |r| ==> !IsLineBoundary(r[i])
    ensures (forall i :: 0 <= i < |s| ==> !IsLineBoundary(s[i])) ==> r == s
  {
    if s == [] then []
    else if |s| >= 2 && s[0] == '\r' && s[1] == '\n' then
      (if |s| == 2 then [] else " " + JoinLines(s[2..]))
    else if IsLineBoundary(s[0]) then
      (if |s| == 1 then [] else " " + JoinLines(s[1..]))
    else
      var rest := JoinLines(s[1..]);
      assert forall i :: 1 <= i < |s| ==> s[1..][i - 1] == s[i];
      [s[0]] + rest
  }

  const NameQuotes: set<char> := {'"', '\'', '`'}

  /** The first line of a stripped text, stripped again. */
  function FirstLine(name: string): (r: string)
    ensures '\n' !in r
    ensures '\n' !in name ==> r == name
  {
    if '\n' in name then
      var line := name[..IndexOf(name, '\n')];
      TrimKeepsChars(line, IsPySpace);
      PyStrip(line)
    else name
  }

  /** The first line of a stripped summary is its first line stripped,
      provided that line is not blank (a blank first line is stripped away
      with the leading whitespace, so the next line counts instead). */
  lemma FirstLineOf(a: string, b: string)
    requires '\n' !in a && !AllSpace(a, IsPySpace)
    ensures FirstLine(PyStrip(a + "\n" + b)) == PyStrip(a)
  {
    var y := "\n" + b;
    assert a + "\n" + b == a + y;
    TrimStartAppend(a, y, IsPySpace);
    var a1 := TrimStart(a, IsPySpace);
    TrimEndAppend(a1, y, IsPySpace);
    if !AllSpace(y, IsPySpace) {
      assert '\n' !in a1 by {
        forall i | 0 <= i < |a1|
          ensures a1[i] != '\n'
        {
          assert a1[i] == a[|a| - |a1| + i];
        }
      }
      FirstLineAt(a1, TrimEnd(y, IsPySpace));
      StripStarted(a);
    } else {
      TrimKeepsChars(a, IsPySpace);
    }
  }

  lemma FirstLineAt(a: string, e: string)
    requires '\n' !in a && e != [] && e[0] == '\n'
    ensures FirstLine(a + e) == PyStrip(a)
  {
    assert a + e == a + "\n" + e[1..];
    IndexOfAfterPrefix(a, '\n', e[1..]);
    assert (a + "\n" + e[1..])[..|a|] == a;
  }

  lemma StripStarted(a: string)
    ensures PyStrip(TrimStart(a, IsPySpace)) == PyStrip(a)
  {
    var a1 := TrimStart(a, IsPySpace);
    assert LeadCount(a1, IsPySpace) == 0;
    assert TrimStart(a1, IsPySpace) == a1;
  }

  /** The stripped first line of the summary without an answer label, a
      summary label or surrounding quotes. */
  function CleanName(summary: string, lower: char -> char): (r: string)
    ensures PyStrip(r) == r
  {
    var name := DropNameLabel(FirstLine(PyStrip(summary)), lower);
    var t := StripChars(Summarizers.DropLevelLabel(name, {'1', '2'}), NameQuotes);
    TrimIdempotent(t, IsPySpace);
    PyStrip(t)
  }

  /** The post-processing of `generate_name`: the cleaned name cut to the
      maximum length, line breaks turned into spaces; None when nothing is
      left. */
  function PostProcessName(summary: string, maxLength: int, lower: char -> char): (r: Option<string>)
    ensures r.Some? ==> r.value != [] && forall i :: 0 <= i < |r.value| ==> !IsLineBoundary(r.value[i])
    ensures r.Some? && maxLength >= 3 ==> |r.value| <= maxLength
  {
    var cut := TruncateWithEllipsis(CleanName(summary, lower), maxLength);
    TruncateBound(CleanName(summary, lower), maxLength);
    var name := JoinLines(cut);
    if name != [] then Some(name) else None
  }

  lemma TruncateBound(text: string, maxLength: int)
    ensures maxLength >= 3 ==> |TruncateWithEllipsis(text, maxLength)| <= maxLength
  {
  }

  /** `generate_name`: nothing when naming is disabled or the summarizer
      failed (`outcome` None), otherwise the post-processed summary. */
  function GenerateName(cfg: NamingConfig, outcome: Option<string>, lower: char -> char): (r: Option<string>)
    ensures !cfg.enabled.GetOr(true) || outcome.None? ==> r.None?
    ensures r.Some? ==> r == PostProcessName(outcome.value, MaxLength(cfg), lower)
  {
    if !cfg.enabled.GetOr(true) then None
    else
      match outcome
      case None => None
      case Some(summary) => PostProcessName(summary, MaxLength(cfg), lower)
  }

  /** A proposed name that is already clean (one line without a colon,
      no whitespace, quote or '[' at the start, no whitespace or quote at
      the end, within the limit) is kept as it is. */
  lemma CleanNameKept(s: string, maxLength: int, lower: char -> char)
    requires s != [] && !IsPySpace(s[0]) && !IsPySpace(s[|s| - 1])
    requires forall i :: 0 <= i < |s| ==> !IsLineBoundary(s[i]) && s[i] != ':'
    requires s[0] != '[' && s[0] !in NameQuotes && s[|s| - 1] !in NameQuotes
    requires |s| <= maxLength
    ensures PostProcessName(s, maxLength, lower) == Some(s)
  {
    CleanNameOfClean(s, lower);
    assert JoinLines(TruncateWithEllipsis(s, maxLength)) == s;
  }

  lemma CleanNameOfClean(s: string, lower: char -> char)
    requires s != [] && !IsPySpace(s[0]) && !IsPySpace(s[|s| - 1])
    requires forall i :: 0 <= i < |s| ==> !IsLineBoundary(s[i]) && s[i] != ':'
    requires s[0] != '[' && s[0] !in NameQuotes && s[|s| - 1] !in NameQuotes
    ensures CleanName(s, lower) == s
  {
    TrimOfTrimmed(s, IsPySpace);
    NoNewline(s);
    var t := FirstLine(PyStrip(s));
    assert t == s;
    var u := DropNameLabel(t, lower);
    assert u == s;
    NoLevelLabel(u, {'1', '2'});
    QuotesKept(s);
  }

  /** An optional `[L<level> Summary]` label and the whitespace after it. */
  function LevelLabelText(level: Option<char>, spaces: string): string {
    if level.None? then [] else "[L" + [level.value] + " Summary]" + spaces
  }

  predicate AllQuotes(q: string) {
    forall i :: 0 <= i < |q| ==> q[i] in NameQuotes
  }

  /** What a clean name looks like: not empty, one line, with no
      whitespace or quote at either end. */
  predicate CleanShape(n: string) {
    && n != [] && !IsPySpace(n[0]) && !IsPySpace(n[|n| - 1])
    && n[0] !in NameQuotes && n[|n| - 1] !in NameQuotes
    && forall i :: 0 <= i < |n| ==> !IsLineBoundary(n[i])
  }

  /** A summary whose first line is an answer label (in any case), an
      optional summary label and a quoted name, followed by further lines,
      is cleaned down to the name. */
  lemma CleanNameOf(u: string, l: string, ws: string, level: Option<char>, spaces: string,
                    qa: string, n: string, qb: string, rest: string, lower: char -> char)
    requires l in NameLabels && Spells(u, l, lower) && lower(':') == ':'
    requires u != [] && !IsPySpace(u[0]) && '\n' !in u
    requires AllSpace(ws, IsPySpace) && '\n' !in ws
    requires level.Some? ==> level.value in {'1', '2'}
    requires AllSpace(spaces, IsPySpace) && '\n' !in spaces
    requires AllQuotes(qa) && AllQuotes(qb)
    requires CleanShape(n)
    requires level.Some? || qa != [] || n[0] != '['
    ensures CleanName(u + ":" + ws + LevelLabelText(level, spaces) + qa + n + qb + "\n" + rest, lower) == n
  {
    var lab := LevelLabelText(level, spaces);
    var x := lab + qa + n + qb;
    var line := u + ":" + ws + x;
    SummaryParts(u + ":" + ws, lab, qa, n, qb, rest);
    NameLineShape(u, ws, level, spaces, qa, n, qb);
    FirstLineOfClean(line, rest);
    DropNameLabelOf(u, l, ws, x, lower);
    QuotedName(qa, n, qb);
    LevelLabelDropped(level, spaces, qa + n + qb);
  }

  lemma SummaryParts(h: string, lab: string, qa: string, n: string, qb: string, rest: string)
    ensures h + lab + qa + n + qb + "\n" + rest == h + (lab + qa + n + qb) + "\n" + rest
    ensures lab + qa + n + qb == lab + (qa + n + qb)
  {
  }

  /** The first line of a text whose first line is already stripped. */
  lemma FirstLineOfClean(line: string, rest: string)
    requires '\n' !in line && line != [] && !IsPySpace(line[0]) && !IsPySpace(line[|line| - 1])
    ensures FirstLine(PyStrip(line + "\n" + rest)) == line
  {
    FirstLineOf(line, rest);
    TrimOfTrimmed(line, IsPySpace);
  }

  /** The first line of such a summary: no line feed, and no whitespace at
      either end; the text after the answer label starts with no
      whitespace. */
  lemma NameLineShape(u: string, ws: string, level: Option<char>, spaces: string, qa: string, n: string, qb: string)
    requires u != [] && !IsPySpace(u[0]) && '\n' !in u && '\n' !in ws
    requires level.Some? ==> level.value in {'1', '2'}
    requires '\n' !in spaces
    requires AllQuotes(qa) && AllQuotes(qb)
    requires CleanShape(n)
    ensures var x := LevelLabelText(level, spaces) + qa + n + qb;
      var line := u + ":" + ws + x;
      && '\n' !in line && line != [] && !IsPySpace(line[0]) && !IsPySpace(line[|line| - 1])
      && !AllSpace(line, IsPySpace) && x != [] && !IsPySpace(x[0])
  {
    var lab := LevelLabelText(level, spaces);
    var x := lab + qa + n + qb;
    var line := u + ":" + ws + x;
    assert '\n' !in lab by {
      if level.Some? {
        assert forall i :: 0 <= i < |lab| - |spaces| ==> lab[i] != '\n';
        assert forall i :: |lab| - |spaces| <= i < |lab| ==> lab[i] == spaces[i - (|lab| - |spaces|)];
      }
    }
    assert '\n' !in n by {
      NoNewline(n);
    }
    assert '\n' !in qa && '\n' !in qb;
    assert line[0] == u[0];
    assert line[|line| - 1] == if qb == [] then n[|n| - 1] else qb[|qb| - 1];
    assert x[0] == if lab != [] then '[' else if qa != [] then qa[0] else n[0];
  }

  /** The summary label, if any, goes, and so does the whitespace after it. */
  lemma LevelLabelDropped(level: Option<char>, spaces: string, y: string)
    requires level.Some? ==> level.value in {'1', '2'}
    requires AllSpace(spaces, IsPySpace)
    requires y != [] && !IsPySpace(y[0])
    requires level.Some? || y[0] != '['
    ensures Summarizers.DropLevelLabel(LevelLabelText(level, spaces) + y, {'1', '2'}) == y
  {
    if level.Some? {
      Summarizers.DropLevelLabelOf(level.value, {'1', '2'}, spaces, y);
    } else {
      assert LevelLabelText(level, spaces) + y == y;
      NoLevelLabel(y, {'1', '2'});
    }
  }

  /** Stripping the quotes and then whitespace from a quoted clean name
      leaves the name. */
  lemma QuotedName(qa: string, n: string, qb: string)
    requires AllQuotes(qa) && AllQuotes(qb)
    requires CleanShape(n)
    ensures PyStrip(StripChars(qa + n + qb, NameQuotes)) == n
    ensures var y := qa + n + qb;
      && y != [] && !IsPySpace(y[0])
      && (qa != [] || n[0] != '[' ==> y[0] != '[')
  {
    QuotesStripped(qa, n, qb);
    TrimOfTrimmed(n, IsPySpace);
    QuotedStart(qa, n, qb);
  }

  lemma QuotesStripped(qa: string, n: string, qb: string)
    requires AllSpace(qa, c => c in NameQuotes) && AllSpace(qb, c => c in NameQuotes)
    requires n != [] && n[0] !in NameQuotes && n[|n| - 1] !in NameQuotes
    ensures StripChars(qa + n + qb, NameQuotes) == n
  {
    TrimPadded(qa, n, qb, c => c in NameQuotes);
  }

  lemma QuotedStart(qa: string, n: string, qb: string)
    requires AllQuotes(qa)
    requires n != [] && !IsPySpace(n[0])
    ensures var y := qa + n + qb;
      && y != [] && !IsPySpace(y[0])
      && (qa != [] || n[0] != '[' ==> y[0] != '[')
  {
    assert (qa + n + qb)[0] == if qa != [] then qa[0] else n[0];
  }

  /** The end-to-end post-processing of such a summary: the name, as long
      as it fits. */
  lemma PostProcessNameOf(u: string, l: string, ws: string, level: Option<char>, spaces: string,
                          qa: string, n: string, qb: string, rest: string, maxLength: int, lower: char -> char)
    requires l in NameLabels && Spells(u, l, lower) && lower(':') == ':'
    requires u != [] && !IsPySpace(u[0]) && '\n' !in u
    requires AllSpace(ws, IsPySpace) && '\n' !in ws
    requires level.Some? ==> level.value in {'1', '2'}
    requires AllSpace(spaces, IsPySpace) && '\n' !in spaces
    requires AllQuotes(qa) && AllQuotes(qb)
    requires CleanShape(n)
    requires level.Some? || qa != [] || n[0] != '['
    requires |n| <= maxLength
    ensures PostProcessName(u + ":" + ws + LevelLabelText(level, spaces) + qa + n + qb + "\n" + rest, maxLength, lower) == Some(n)
  {
    CleanNameOf(u, l, ws, level, spaces, qa, n, qb, rest, lower);
    NameKept(n, maxLength);
  }

  lemma NameKept(n: string, maxLength: int)
    requires CleanShape(n) && |n| <= maxLength
    ensures JoinLines(TruncateWithEllipsis(n, maxLength)) == n
  {
  }

  lemma NoLevelLabel(s: string, levels: set<char>)
    requires s == [] || s[0] != '['
    ensures Summarizers.DropLevelLabel(s, levels) == s
  {
  }

  lemma NoNewline(s: string)
    requires forall i :: 0 <= i < |s| ==> !IsLineBoundary(s[i])
    ensures '\n' !in s
  {
  }

  lemma QuotesKept(s: string)
    requires s != [] && PyStrip(s) == s
    requires s[0] !in NameQuotes && s[|s| - 1] !in NameQuotes
    ensures PyStrip(StripChars(s, NameQuotes)) == s
  {
    TrimOfTrimmed(s, c => c in NameQuotes);
  }
}

=== FILE: chat_page.dfy ===
/** The part of the page the browser scripts act on (static/js/main.js and
    static/js/modules/utils.js): the chat rows with their 'active' and
    'context-menu-open' classes, the hidden textarea that carries commands to
    the server, and `selectChat`, which switches chats from a row click. The
    clock is a parameter. */
module ChatPage {
  import opened Wrappers
  import opened Text
  import Handlers

  /** A `.chat-item` row: its `data-chat-id` and the two classes the scripts
      toggle. */
  datatype ChatRow = ChatRow(id: string, active: bool, menuOpen: bool)

  /** The hidden textarea of `getChatInputField`: absent, or present with
      its value and the values the `input` events dispatched on it carried
      to the server, oldest first. */
  datatype Field = Missing | Field(value: string, sent: seq<string>)

  /** Writing `v` into the field and dispatching `input`; with no field
      nothing happens. */
  function Submit(f: Field, v: string): (r: Field)
    ensures f.Missing? <==> r.Missing?
    ensures r.Field? ==> r.value == v && r.sent == f.sent + [v]
  {
    match f
    case Missing => Missing
    case Field(_, sent) => Field(v, sent + [v])
  }

  /** `document.querySelector('[data-chat-id="<id>"]')`: the first row with
      the id. */
  function FirstWithId(rows: seq<ChatRow>, id: string): (r: Option<nat>)
    ensures r.None? <==> forall i :: 0 <= i < |rows| ==> rows[i].id != id
    ensures r.Some? ==> r.value < |rows| && rows[r.value].id == id
    ensures r.Some? ==> forall i :: 0 <= i < r.value ==> rows[i].id != id
  {
    if rows == [] then None
    else if rows[0].id == id then Some(0)
    else
      match FirstWithId(rows[1..], id)
      case None => None
      case Some(k) => Some(k + 1)
  }

  predicate AtMostOneActive(rows: seq<ChatRow>) {
    forall i, j :: 0 <= i < j < |rows| && rows[i].active ==> !rows[j].active
  }

  /** `SWITCH_DEBOUNCE_MS`. */
  const SwitchDebounceMs: int := 300

  /** What `selectChat` reads and writes: the rows, the field and
      `window.lastChatClick` (0 or absent before the first click, both
      falsy). */
  datatype Selector = Selector(rows: seq<ChatRow>, field: Field, lastClick: int)

  /** A click at `now` is ignored when an earlier accepted click is on
      record and less than 300 ms old. */
  predicate Debounced(lastClick: int, now: int) {
    lastClick != 0 && now - lastClick < SwitchDebounceMs
  }

  /** `selectChat(chatId)` at time `now`: an ignored click changes nothing;
      otherwise the click time is recorded, every row loses 'active', the
      first row with the id gains it, and the id is written to the field
      with an `input` event. The context-menu flags are not touched. */
  function SelectChat(s: Selector, chatId: string, now: int): (r: Selector)
    ensures Debounced(s.lastClick, now) ==> r == s
    ensures !Debounced(s.lastClick, now) ==>
      && r.lastClick == now
      && r.field == Submit(s.field, chatId)
      && |r.rows| == |s.rows|
      && forall i :: 0 <= i < |s.rows| ==>
           r.rows[i].id == s.rows[i].id && r.rows[i].menuOpen == s.rows[i].menuOpen
           && (r.rows[i].active <==> FirstWithId(s.rows, chatId) == Some(i))
  {
    if Debounced(s.lastClick, now) then s
    else
      var first := FirstWithId(s.rows, chatId);
      var rows := seq(|s.rows|, i requires 0 <= i < |s.rows| => s.rows[i].(active := first == Some(i)));
      Selector(rows, Submit(s.field, chatId), now)
  }

  /** After an accepted click at most one row is active; an active row
      carries the clicked id, and some row is active whenever one carries
      it. */
  lemma SelectLeavesOneActive(s: Selector, chatId: string, now: int)
    requires !Debounced(s.lastClick, now)
    ensures var r := SelectChat(s, chatId, now);
      && AtMostOneActive(r.rows)
      && (forall i :: 0 <= i < |r.rows| && r.rows[i].active ==> r.rows[i].id == chatId)
      && ((exists i :: 0 <= i < |s.rows| && s.rows[i].id == chatId) <==>
          (exists i :: 0 <= i < |r.rows| && r.rows[i].active))
  {
    var r := SelectChat(s, chatId, now);
    var first := FirstWithId(s.rows, chatId);
    if first.Some? {
      assert r.rows[first.value].active;
    }
  }

  /** A second click less than 300 ms after an accepted one is ignored,
      whatever chat it names. `Date.now()` is never 0, so the first click
      is on record. */
  lemma SecondClickIgnored(s: Selector, a: string, b: string, now: int, later: int)
    requires now > 0 && now <= later < now + SwitchDebounceMs
    requires !Debounced(s.lastClick, now)
    ensures SelectChat(SelectChat(s, a, now), b, later) == SelectChat(s, a, now)
  {
  }

  /** Clicking the chat that is already selected once the window has passed
      leaves the rows as they were and sends the id again. */
  lemma ReselectKeepsRows(s: Selector, chatId: string, now: int, later: int)
    requires now > 0 && later >= now + SwitchDebounceMs
    requires !Debounced(s.lastClick, now)
    ensures var once := SelectChat(s, chatId, now);
      var twice := SelectChat(once, chatId, later);
      twice.rows == once.rows && twice.lastClick == later
      && twice.field == Submit(once.field, chatId)
  {
    var once := SelectChat(s, chatId, now);
    var twice := SelectChat(once, chatId, later);
    assert FirstWithId(once.rows, chatId) == FirstWithId(s.rows, chatId) by {
      SameIdsSameFirst(s.rows, once.rows, chatId);
    }
    assert twice.rows == once.rows;
  }

  /** Rows with the same ids in the same order have the same first row for
      every id. */
  lemma {:induction false} SameIdsSameFirst(a: seq<ChatRow>, b: seq<ChatRow>, id: string)
    requires |a| == |b| && forall i :: 0 <= i < |a| ==> a[i].id == b[i].id
    ensures FirstWithId(a, id) == FirstWithId(b, id)
    decreases |a|
  {
    if a != [] && a[0].id != id {
      SameIdsSameFirst(a[1..], b[1..], id);
    }
  }

  /** A numeric chat id written by an accepted click reaches the server's
      chat switch (handlers/mediator.py). */
  lemma SelectionSendsSwitch(s: Selector, n: nat, now: int)
    requires !Debounced(s.lastClick, now) && s.field.Field?
    ensures var r := SelectChat(s, NatToString(n), now);
      r.field.Field? && r.field.sent[|r.field.sent| - 1] == NatToString(n)
      && Handlers.RouteOf(r.field.sent[|r.field.sent| - 1]) == Handlers.SwitchRoute
  {
    Handlers.BuiltCommandsRoute("", "", x => x, false, false, n);
  }
}

=== FILE: commands.dfy ===
/** The textarea command protocol between the browser and the server. The
    browser writes `rename:<id>:<encoded name>` and `delete:<id>:active` or
    `delete:<id>:inactive` into a hidden field (static/js/modules/context-menu.js);
    handlers/commands.py parses such strings and applies them to the dialog
    store. URL encoding and decoding are parameters: the round trip needs
    only that decoding undoes encoding. */
module Commands {
  import opened Wrappers
  import opened Text
  import opened Dialogs
  import opened DialogStore
  import opened DialogManager

  // ---------------------------------------------------------------------------
  // The strings the browser builds

  const RenamePrefix: string := "rename"
  const DeletePrefix: string := "delete"
  const PinAction: string := "pin"
  const UnpinAction: string := "unpin"

  /** `renameChatRequest`: `rename:<id>:<encodeURIComponent(name)>`. */
  function RenameCommand(chatId: string, name: string, encode: string -> string): (r: string)
    ensures StartsWith(r, RenamePrefix + ":")
    ensures EndsWith(r, ":" + encode(name))
  {
    RenamePrefix + ":" + chatId + ":" + encode(name)
  }

  /** `deleteChatRequest`: the flag comes from the row's 'active' class. */
  function DeleteCommand(chatId: string, isActive: bool): (r: string)
    ensures StartsWith(r, DeletePrefix + ":")
    ensures EndsWith(r, if isActive then ":active" else ":inactive")
  {
    DeletePrefix + ":" + chatId + ":" + (if isActive then "active" else "inactive")
  }

  /** The pin command the server accepts: the action both first and last. The
      browser's pin item sends nothing, so only the server side exists. */
  function PinCommand(chatId: string, pin: bool): string {
    var a := if pin then PinAction else UnpinAction;
    a + ":" + chatId + ":" + a
  }

  // ---------------------------------------------------------------------------
  // Parsing (handlers/commands.py)

  /** A pin command: exactly three colon-separated parts whose first and last
      agree; "pin" pins and any other agreeing action unpins. */
  function ParsePin(cmd: string): (r: Option<(string, bool)>)
    ensures r.Some? <==> |Split(cmd, ':')| == 3 && Split(cmd, ':')[0] == Split(cmd, ':')[2]
    ensures r.Some? ==> r.value.0 == Split(cmd, ':')[1] && ':' !in r.value.0
    ensures r.Some? ==> (r.value.1 <==> Split(cmd, ':')[2] == PinAction)
  {
    var parts := Split(cmd, ':');
    if |parts| != 3 || parts[0] != parts[2] then None
    else
      assert parts[1] in parts;
      Some((parts[1], parts[2] == PinAction))
  }

  /** A delete command: exactly three parts, the first "delete"; the flag is
      whether the third part is "active". */
  function ParseDelete(cmd: string): (r: Option<(string, bool)>)
    ensures r.Some? <==> |Split(cmd, ':')| == 3 && Split(cmd, ':')[0] == DeletePrefix
    ensures r.Some? ==> r.value.0 == Split(cmd, ':')[1] && ':' !in r.value.0
    ensures r.Some? ==> (r.value.1 <==> Split(cmd, ':')[2] == "active")
  {
    var parts := Split(cmd, ':');
    if |parts| != 3 || parts[0] != DeletePrefix then None
    else
      assert parts[1] in parts;
      Some((parts[1], parts[2] == "active"))
  }

  /** A rename command: split on the first two colons only, so the name part
      may hold colons; the name is URL-decoded. */
  function ParseRename(cmd: string, decode: string -> string): (r: Option<(string, string)>)
    ensures r.Some? <==> |SplitN(cmd, ':', 2)| == 3 && SplitN(cmd, ':', 2)[0] == RenamePrefix
    ensures r.Some? ==> r.value.0 == SplitN(cmd, ':', 2)[1] && ':' !in r.value.0
    ensures r.Some? ==> r.value.1 == decode(SplitN(cmd, ':', 2)[2])
  {
    var parts := SplitN(cmd, ':', 2);
    if |parts| != 3 || parts[0] != RenamePrefix then None
    else Some((parts[1], decode(parts[2])))
  }

  /** Every rename command the browser builds for an id without ':' parses
      back to that id and name, whatever colons the encoded name holds. */
  lemma RenameRoundTrip(chatId: string, name: string, encode: string -> string, decode: string -> string)
    requires ':' !in chatId
    requires forall x :: decode(encode(x)) == x
    ensures ParseRename(RenameCommand(chatId, name, encode), decode) == Some((chatId, name))
  {
    SplitTwiceOf(RenamePrefix, chatId, encode(name), ':');
    assert RenameCommand(chatId, name, encode) == RenamePrefix + [':'] + chatId + [':'] + encode(name);
  }

  /** Every delete command the browser builds for an id without ':' parses
      back to that id and flag. */
  lemma DeleteRoundTrip(chatId: string, isActive: bool)
    requires ':' !in chatId
    ensures ParseDelete(DeleteCommand(chatId, isActive)) == Some((chatId, isActive))
  {
    var flag := if isActive then "active" else "inactive";
    SplitThree(DeletePrefix, chatId, flag, ':');
    assert Split(DeleteCommand(chatId, isActive), ':') == [DeletePrefix, chatId, flag];
    assert flag == "active" <==> isActive;
  }

  lemma PinRoundTrip(chatId: string, pin: bool)
    requires ':' !in chatId
    ensures ParsePin(PinCommand(chatId, pin)) == Some((chatId, pin))
  {
    var a := if pin then PinAction else UnpinAction;
    SplitThree(a, chatId, a, ':');
  }

  // ---------------------------------------------------------------------------
  // Applying the commands

  /** What a handler returns to the page besides the chat list: the history
      to show, the chat id, and where the list should scroll. */
  datatype Reply = Reply(history: seq<UiMessage>, chatId: string, scroll: string)

  /** The reply for a refused command: nothing shown, no id, no scrolling. */
  const Refused: Reply := Reply([], "", "none")

  function HistoryOf(m: Manager, id: string): seq<UiMessage> {
    match Get(m.dialogs, id)
    case Some(d) => ToUiFormat(d)
    case None => []
  }

  /** `handle_chat_pinning`. A `TypeError` escaping the unpinning is caught
      and answered as a refused command, the map already changed. */
  function HandlePinning(m: Manager, cmd: string): (r: (Reply, Manager))
    ensures ParsePin(cmd).None? || !HasKey(m.dialogs, ParsePin(cmd).value.0) ==> r == (Refused, m)
    ensures ParsePin(cmd).Some? && HasKey(m.dialogs, ParsePin(cmd).value.0) ==>
      var (id, pin) := ParsePin(cmd).value;
      && r.1 == (if pin then DialogManager.PinDialog(m, id).1 else DialogManager.UnpinDialog(m, id).1)
      && r.0 == (if !pin && DialogManager.UnpinDialog(m, id).0.Failure? then Refused
                 else Reply(HistoryOf(r.1, id), id, "none"))
  {
    match ParsePin(cmd)
    case None => (Refused, m)
    case Some((id, pin)) =>
      if !HasKey(m.dialogs, id) then (Refused, m)
      else if pin then
        var m' := DialogManager.PinDialog(m, id).1;
        (Reply(HistoryOf(m', id), id, "none"), m')
      else
        var (res, m') := DialogManager.UnpinDialog(m, id);
        if res.Failure? then (Refused, m') else (Reply(HistoryOf(m', id), id, "none"), m')
  }

  /** `handle_chat_deletion`: the flag in the command is not used; the
      current dialog after deletion is shown. */
  function HandleDeletion(m: Manager, cmd: string): (r: (Reply, Manager))
    ensures ParseDelete(cmd).None? || !HasKey(m.dialogs, ParseDelete(cmd).value.0) ==> r == (Refused, m)
    ensures ParseDelete(cmd).Some? && HasKey(m.dialogs, ParseDelete(cmd).value.0) ==>
      && r.1 == DeleteDialog(m, ParseDelete(cmd).value.0).1
      && !HasKey(r.1.dialogs, ParseDelete(cmd).value.0)
    ensures r.0.chatId != [] ==> GetCurrentDialog(r.1).Some? && r.0.chatId == r.1.current.value
    ensures r.0.scroll == "none"
  {
    match ParseDelete(cmd)
    case None => (Refused, m)
    case Some((id, _)) =>
      if !HasKey(m.dialogs, id) then (Refused, m)
      else
        var m' := DeleteDialog(m, id).1;
        RemoveRemovesKey(m.dialogs, id);
        match GetCurrentDialog(m')
        case Some(d) => (Reply(ToUiFormat(d), d.id, "none"), m')
        case None => (Reply([], "", "none"), m')
  }

  /** The name handed to the store: `new_name[:max_length]` when longer. */
  function CutName(name: string, maxLength: int): string {
    if |name| > maxLength then PySliceTo(name, maxLength) else name
  }

  /** The command parses, names a dialog, and carries a non-blank name. */
  predicate Renamable(m: Manager, cmd: string, decode: string -> string) {
    && ParseRename(cmd, decode).Some?
    && HasKey(m.dialogs, ParseRename(cmd, decode).value.0)
    && PyStrip(ParseRename(cmd, decode).value.1) != []
  }

  /** `handle_chat_rename`: an empty or blank decoded name is refused before
      the store's own validation; the configured maximum applies both here
      and in the store. */
  function HandleRename(m: Manager, cmd: string, decode: string -> string, limits: NamingLimits, now: int): (r: (Reply, Manager))
    ensures !Renamable(m, cmd, decode) ==> r == (Refused, m)
    ensures Renamable(m, cmd, decode) ==>
      var (id, name) := ParseRename(cmd, decode).value;
      var cut := CutName(name, limits.maxLength);
      && (CleanNewName(cut, limits).None? ==> r == (Refused, m))
      && (CleanNewName(cut, limits).Some? ==>
            r.1 == RenameDialog(m, id, cut, limits, now).1 && r.0 == Reply(HistoryOf(r.1, id), id, "none"))
  {
    match ParseRename(cmd, decode)
    case None => (Refused, m)
    case Some((id, name)) =>
      if !HasKey(m.dialogs, id) || name == [] || PyStrip(name) == [] then (Refused, m)
      else
        var (ok, m') := RenameDialog(m, id, CutName(name, limits.maxLength), limits, now);
        if !ok then (Refused, m)
        else (Reply(HistoryOf(m', id), id, "none"), m')
  }

  /** After an accepted rename the stored name is non-empty, within the
      maximum length, and starts with no whitespace; every other dialog is
      untouched. */
  lemma RenameStoresCleanName(m: Manager, cmd: string, decode: string -> string, limits: NamingLimits, now: int)
    requires limits.maxLength >= 1
    requires HandleRename(m, cmd, decode, limits, now).0 != Refused
    ensures ParseRename(cmd, decode).Some?
    ensures var id := ParseRename(cmd, decode).value.0;
      var r := HandleRename(m, cmd, decode, limits, now).1;
      && Get(r.dialogs, id).Some?
      && var n := Get(r.dialogs, id).value.name;
      && 0 < |n| <= limits.maxLength && !IsPySpace(n[0])
      && (forall k :: k != id ==> Get(r.dialogs, k) == Get(m.dialogs, k))
  {
  }

  /** A valid manager stays valid under every command. */
  lemma CommandsKeepValid(m: Manager, cmd: string, decode: string -> string, limits: NamingLimits, now: int)
    requires Valid(m)
    ensures Valid(HandlePinning(m, cmd).1)
    ensures Valid(HandleDeletion(m, cmd).1)
    ensures Valid(HandleRename(m, cmd, decode, limits, now).1)
  {
    PinningKeepsValid(m, cmd);
    DeletionKeepsValid(m, cmd);
    RenamingKeepsValid(m, cmd, decode, limits, now);
  }

  lemma PinningKeepsValid(m: Manager, cmd: string)
    requires Valid(m)
    ensures Valid(HandlePinning(m, cmd).1)
  {
    if ParsePin(cmd).Some? {
      PinValid(m, ParsePin(cmd).value.0);
    }
  }

  lemma DeletionKeepsValid(m: Manager, cmd: string)
    requires Valid(m)
    ensures Valid(HandleDeletion(m, cmd).1)
  {
    if ParseDelete(cmd).Some? {
      DeleteValid(m, ParseDelete(cmd).value.0);
    }
  }

  lemma RenamingKeepsValid(m: Manager, cmd: string, decode: string -> string, limits: NamingLimits, now: int)
    requires Valid(m)
    ensures Valid(HandleRename(m, cmd, decode, limits, now).1)
  {
    if ParseRename(cmd, decode).Some? {
      var (id, name) := ParseRename(cmd, decode).value;
      RenameValid(m, id, CutName(name, limits.maxLength), limits, now);
    }
  }
}

=== FILE: config.dfy ===
/** User settings and the merged configuration: the user-config records
    (models/user_config_models.py), the user-config service
    (services/user_config_service.py) and the configuration service
    (services/config_service.py). Files, YAML and the default-config
    loader are outside the model: what a load finds and whether a save or
    a file removal succeeds are parameters. */
module Config {
  import opened Wrappers

  // ---------------------------------------------------------------------------
  // Dynamic values

  /** A scalar as it sits in a settings dictionary; `SNone` is Python's
      None. */
  datatype Scalar = SNone | SBool(b: bool) | SInt(i: int) | SReal(r: real) | SStr(s: string)

  /** A configuration value: a scalar or a nested dictionary. */
  datatype Value = Atom(a: Scalar) | Dict(m: map<string, Value>)

  // ---------------------------------------------------------------------------
  // _merge_dicts

  /** `_merge_dicts` on two values: two dictionaries merge key by key, and
      anything else is replaced by the source. */
  function MergeValues(target: Value, source: Value): (r: Value)
    ensures !(target.Dict? && source.Dict?) ==> r == source
    ensures target.Dict? && source.Dict? ==> r.Dict? && r.m.Keys == target.m.Keys + source.m.Keys
    decreases source
  {
    if target.Dict? && source.Dict? then Dict(MergeMaps(target.m, source.m, source))
    else source
  }

  /** The key-by-key loop of `_merge_dicts`: a source key replaces the
      target's value unless both are dictionaries, which merge recursively;
      a key only the target has keeps its value. */
  function MergeMaps(t: map<string, Value>, s: map<string, Value>, whole: Value): (r: map<string, Value>)
    requires whole.Dict? && whole.m == s
    ensures r.Keys == t.Keys + s.Keys
    ensures forall k :: k in t && k !in s ==> r[k] == t[k]
    ensures forall k :: k in s && k !in t ==> r[k] == s[k]
    ensures forall k :: k in s && k in t && !(t[k].Dict? && s[k].Dict?) ==> r[k] == s[k]
    decreases whole, 0
  {
    map k | k in t.Keys + s.Keys ::
      if k in s then
        if k in t then (assert s[k] in whole.m.Values; MergeValues(t[k], s[k])) else s[k]
      else t[k]
  }

  /** `_merge_dicts(target, source)` on two dictionaries. */
  function MergeDicts(target: map<string, Value>, source: map<string, Value>): (r: map<string, Value>)
    ensures r.Keys == target.Keys + source.Keys
    ensures forall k :: k in target && k !in source ==> r[k] == target[k]
    ensures forall k :: k in source && !(k in target && target[k].Dict? && source[k].Dict?) ==> r[k] == source[k]
    ensures forall k :: k in source && k in target ==> r[k] == MergeValues(target[k], source[k])
    ensures source == map[] ==> r == target
  {
    var r := MergeValues(Dict(target), Dict(source)).m;
    assert r == MergeMaps(target, source, Dict(source));
    r
  }

  /** Merging a value into itself changes nothing. */
  lemma {:induction false} MergeSelf(v: Value)
    ensures MergeValues(v, v) == v
    decreases v
  {
    if v.Dict? {
      var r := MergeValues(v, v);
      assert r.m == MergeMaps(v.m, v.m, v);
      forall k | k in v.m
        ensures r.m[k] == v.m[k]
      {
        assert v.m[k] in v.m.Values;
        assert r.m[k] == MergeValues(v.m[k], v.m[k]);
        MergeSelf(v.m[k]);
      }
      assert r.m == v.m;
    }
  }

  /** Merging the same source twice is merging it once. */
  lemma {:induction false} MergeIdempotent(t: Value, s: Value)
    ensures MergeValues(MergeValues(t, s), s) == MergeValues(t, s)
    decreases s
  {
    if t.Dict? && s.Dict? {
      var once := MergeValues(t, s);
      var twice := MergeValues(once, s);
      assert once.m == MergeMaps(t.m, s.m, s);
      assert twice.m == MergeMaps(once.m, s.m, s);
      forall k | k in once.m
        ensures twice.m[k] == once.m[k]
      {
        if k in s.m {
          assert s.m[k] in s.m.Values;
          assert twice.m[k] == MergeValues(once.m[k], s.m[k]);
          if k in t.m {
            assert once.m[k] == MergeValues(t.m[k], s.m[k]);
            MergeIdempotent(t.m[k], s.m[k]);
          } else {
            assert once.m[k] == s.m[k];
            MergeSelf(s.m[k]);
          }
        }
      }
      assert twice.m == once.m;
    } else {
      MergeSelf(s);
    }
  }

  /** The same for whole dictionaries. */
  lemma MergeDictsIdempotent(target: map<string, Value>, source: map<string, Value>)
    ensures MergeDicts(MergeDicts(target, source), source) == MergeDicts(target, source)
  {
    MergeIdempotent(Dict(target), Dict(source));
  }

  // ---------------------------------------------------------------------------
  // UserGenerationConfig and UserConfig

  /** `UserGenerationConfig`: each field SNone when unset. Assignment does
      not validate, so a field can hold any scalar. */
  datatype UserGeneration = UserGeneration(maxTokens: Scalar, temperature: Scalar, enableThinking: Scalar)

  /** `UserConfig`; the `ui` section has no fields. */
  datatype UserConfig = UserConfig(generation: UserGeneration)

  const EmptyGeneration: UserGeneration := UserGeneration(SNone, SNone, SNone)
  const EmptyUserConfig: UserConfig := UserConfig(EmptyGeneration)

  const MaxTokensKey: string := "max_tokens"
  const TemperatureKey: string := "temperature"
  const EnableThinkingKey: string := "enable_thinking"
  const GenerationKey: string := "generation"

  /** The field constraints checked when a config is built:
      `max_tokens` in [1, 4096], `temperature` in [0.1, 2.0],
      `enable_thinking` a boolean, each when set. */
  predicate ValidGeneration(g: UserGeneration) {
    && (g.maxTokens == SNone || (g.maxTokens.SInt? && 1 <= g.maxTokens.i <= 4096))
    && (g.temperature == SNone || (g.temperature.SReal? && 0.1 <= g.temperature.r <= 2.0))
    && (g.enableThinking == SNone || g.enableThinking.SBool?)
  }

  /** The set fields of the generation section under their own names. */
  function GenerationEntries(g: UserGeneration): (r: map<string, Value>)
    ensures r.Keys <= {MaxTokensKey, TemperatureKey, EnableThinkingKey}
    ensures MaxTokensKey in r <==> g.maxTokens != SNone
    ensures TemperatureKey in r <==> g.temperature != SNone
    ensures EnableThinkingKey in r <==> g.enableThinking != SNone
    ensures forall k :: k in r ==> r[k].Atom? && r[k].a != SNone
  {
    var m1: map<string, Value> := if g.maxTokens != SNone then map[MaxTokensKey := Atom(g.maxTokens)] else map[];
    var m2 := if g.temperature != SNone then m1[TemperatureKey := Atom(g.temperature)] else m1;
    if g.enableThinking != SNone then m2[EnableThinkingKey := Atom(g.enableThinking)] else m2
  }

  /** `to_dict`: only the fields the user set, under "generation", and no
      "generation" key at all when none is set. */
  function ToDict(c: UserConfig): (r: map<string, Value>)
    ensures r.Keys <= {GenerationKey}
    ensures GenerationKey in r <==> c.generation != EmptyGeneration
    ensures GenerationKey in r ==> r[GenerationKey] == Dict(GenerationEntries(c.generation))
  {
    var g := GenerationEntries(c.generation);
    if g == map[] then
      assert c.generation == EmptyGeneration by {
        assert MaxTokensKey !in g && TemperatureKey !in g && EnableThinkingKey !in g;
      }
      map[]
    else map[GenerationKey := Dict(g)]
  }

  /** A field read from a generation dictionary: SNone when absent, the
      scalar when present, nothing for a nested dictionary. */
  function FieldOf(m: map<string, Value>, key: string): Option<Scalar> {
    if key !in m then Some(SNone)
    else if m[key].Atom? then Some(m[key].a)
    else None
  }

  /** `UserGenerationConfig(**data)`: unknown keys are refused, and so is a
      value outside the field constraints. */
  function GenerationFromDict(m: map<string, Value>): (r: Option<UserGeneration>)
    ensures r.Some? ==> ValidGeneration(r.value)
  {
    if !(m.Keys <= {MaxTokensKey, TemperatureKey, EnableThinkingKey}) then None
    else
      match (FieldOf(m, MaxTokensKey), FieldOf(m, TemperatureKey), FieldOf(m, EnableThinkingKey))
      case (Some(a), Some(b), Some(c)) =>
        var g := UserGeneration(a, b, c);
        if ValidGeneration(g) then Some(g) else None
      case _ => None
  }

  /** `UserConfig(**data)`: only "generation" and "ui" are accepted; the
      generation section must be a valid dictionary and `ui` a
      dictionary. */
  function FromDict(d: map<string, Value>): (r: Option<UserConfig>)
    ensures r.Some? ==> ValidGeneration(r.value.generation)
    ensures GenerationKey !in d && (forall k :: k in d ==> k == "ui" && d[k].Dict?) ==> r == Some(EmptyUserConfig)
  {
    if !(d.Keys <= {GenerationKey, "ui"}) then None
    else if "ui" in d && !d["ui"].Dict? then None
    else if GenerationKey !in d then Some(EmptyUserConfig)
    else if !d[GenerationKey].Dict? then None
    else
      match GenerationFromDict(d[GenerationKey].m)
      case None => None
      case Some(g) => Some(UserConfig(g))
  }

  /** Saving and loading a valid config gives it back. */
  lemma ToDictRoundTrip(c: UserConfig)
    requires ValidGeneration(c.generation)
    ensures FromDict(ToDict(c)) == Some(c)
  {
    var g := c.generation;
    var m := GenerationEntries(g);
    assert FieldOf(m, MaxTokensKey) == Some(g.maxTokens);
    assert FieldOf(m, TemperatureKey) == Some(g.temperature);
    assert FieldOf(m, EnableThinkingKey) == Some(g.enableThinking);
  }

  // ---------------------------------------------------------------------------
  // merge_with_defaults

  const DefaultMaxTokensKey: string := "default_max_tokens"
  const DefaultTemperatureKey: string := "default_temperature"
  const DefaultEnableThinkingKey: string := "default_enable_thinking"

  /** The generation section with the user's set fields written over the
      `default_*` keys. */
  function OverrideGeneration(gen: map<string, Value>, g: UserGeneration): (r: map<string, Value>)
    ensures r.Keys == gen.Keys
      + (if g.maxTokens != SNone then {DefaultMaxTokensKey} else {})
      + (if g.temperature != SNone then {DefaultTemperatureKey} else {})
      + (if g.enableThinking != SNone then {DefaultEnableThinkingKey} else {})
    ensures g.maxTokens != SNone ==> r[DefaultMaxTokensKey] == Atom(g.maxTokens)
    ensures g.temperature != SNone ==> r[DefaultTemperatureKey] == Atom(g.temperature)
    ensures g.enableThinking != SNone ==> r[DefaultEnableThinkingKey] == Atom(g.enableThinking)
    ensures forall k :: k in gen && k !in {DefaultMaxTokensKey, DefaultTemperatureKey, DefaultEnableThinkingKey} ==> r[k] == gen[k]
    ensures g == EmptyGeneration ==> r == gen
  {
    var a := if g.maxTokens != SNone then gen[DefaultMaxTokensKey := Atom(g.maxTokens)] else gen;
    var b := if g.temperature != SNone then a[DefaultTemperatureKey := Atom(g.temperature)] else a;
    if g.enableThinking != SNone then b[DefaultEnableThinkingKey := Atom(g.enableThinking)] else b
  }

  /** `UserConfig.merge_with_defaults`: a deep copy of the defaults with the
      set fields written into its "generation" section; a missing section
      raises KeyError and a section that is no dictionary raises
      TypeError, both only when some field is set. */
  function ModelMergeWithDefaults(c: UserConfig, defaults: map<string, Value>): (r: Result<map<string, Value>, string>)
    ensures c.generation == EmptyGeneration ==> r == Success(defaults)
    ensures r.Success? && c.generation != EmptyGeneration ==>
      && GenerationKey in defaults && defaults[GenerationKey].Dict?
      && r.value == defaults[GenerationKey := Dict(OverrideGeneration(defaults[GenerationKey].m, c.generation))]
  {
    if c.generation == EmptyGeneration then Success(defaults)
    else if GenerationKey !in defaults then Failure("KeyError")
    else if !defaults[GenerationKey].Dict? then Failure("TypeError")
    else Success(defaults[GenerationKey := Dict(OverrideGeneration(defaults[GenerationKey].m, c.generation))])
  }

  /** `UserConfigService.merge_with_defaults` as written: the copy is
      shallow, so an existing "generation" dictionary is shared with the
      defaults and the overrides land in the caller's defaults too. The
      result is the merged config and the defaults after the call. */
  function ServiceMergeAsWritten(c: UserConfig, defaults: map<string, Value>): (r: Result<(map<string, Value>, map<string, Value>), string>)
    ensures r.Success? ==> ServiceMerge(c, defaults).Success? && r.value.0 == ServiceMerge(c, defaults).value
    ensures r.Success? && GenerationKey in defaults && c.generation != EmptyGeneration ==> r.value.1 == r.value.0
    ensures r.Failure? <==> ServiceMerge(c, defaults).Failure?
  {
    match ServiceMerge(c, defaults)
    case Failure(e) => Failure(e)
    case Success(merged) =>
      var after := if GenerationKey in defaults && c.generation != EmptyGeneration then merged else defaults;
      Success((merged, after))
  }

  /** After a merge of a user's token limit, the defaults themselves carry
      that limit: resetting the user settings and merging again does not
      bring 512 back. */
  lemma ServiceMergeChangesDefaults()
    ensures var defaults := map[GenerationKey := Dict(map[DefaultMaxTokensKey := Atom(SInt(512))])];
      var r := ServiceMergeAsWritten(UserConfig(UserGeneration(SInt(100), SNone, SNone)), defaults);
      && r.Success?
      && r.value.1[GenerationKey] == Dict(map[DefaultMaxTokensKey := Atom(SInt(100))])
      && ServiceMergeAsWritten(EmptyUserConfig, r.value.1).value.0[GenerationKey].m[DefaultMaxTokensKey] == Atom(SInt(100))
  {
    var defaults := map[GenerationKey := Dict(map[DefaultMaxTokensKey := Atom(SInt(512))])];
    var g := UserGeneration(SInt(100), SNone, SNone);
    var gen := OverrideGeneration(defaults[GenerationKey].m, g);
    assert gen == map[DefaultMaxTokensKey := Atom(SInt(100))];
  }

  /** `UserConfigService.merge_with_defaults` with the defaults left alone:
      the set fields override `generation.default_*` (the section is
      created when missing), every other key is kept, and a "generation"
      value that is no dictionary raises TypeError when a field is set. */
  function ServiceMerge(c: UserConfig, defaults: map<string, Value>): (r: Result<map<string, Value>, string>)
    ensures c.generation == EmptyGeneration ==> r == Success(defaults)
    ensures r.Failure? <==> c.generation != EmptyGeneration && GenerationKey in defaults && !defaults[GenerationKey].Dict?
    ensures r.Success? ==> r.value.Keys == defaults.Keys + (if c.generation != EmptyGeneration then {GenerationKey} else {})
    ensures r.Success? ==> forall k :: k in defaults && k != GenerationKey ==> r.value[k] == defaults[k]
    ensures r.Success? && c.generation != EmptyGeneration ==>
      var gen := if GenerationKey in defaults then defaults[GenerationKey].m else map[];
      r.value[GenerationKey] == Dict(OverrideGeneration(gen, c.generation))
  {
    if c.generation == EmptyGeneration then Success(defaults)
    else if GenerationKey in defaults && !defaults[GenerationKey].Dict? then Failure("TypeError")
    else
      var gen := if GenerationKey in defaults then defaults[GenerationKey].m else map[];
      Success(defaults[GenerationKey := Dict(OverrideGeneration(gen, c.generation))])
  }

  /** With the defaults left alone, merging after a reset gives the
      defaults back, and the two merges agree wherever the defaults hold a
      generation section. */
  lemma ServiceMergeAfterReset(defaults: map<string, Value>, c: UserConfig)
    ensures ServiceMerge(EmptyUserConfig, defaults) == Success(defaults)
    ensures GenerationKey in defaults ==> ServiceMerge(c, defaults) == ModelMergeWithDefaults(c, defaults)
  {
  }

  // ---------------------------------------------------------------------------
  // The user-config service

  /** The in-memory part of `UserConfigService`. */
  datatype UserService = UserService(userConfig: Option<UserConfig>, mergedConfig: Option<map<string, Value>>)

  /** `get_user_config`: the loaded config when there is one; otherwise
      what a load finds (`loaded`), or an empty config when it finds
      nothing. Either way it is kept. */
  function GetUserConfig(svc: UserService, loaded: Option<UserConfig>): (r: (UserService, UserConfig))
    ensures r.0.userConfig == Some(r.1) && r.0.mergedConfig == svc.mergedConfig
    ensures svc.userConfig.Some? ==> r == (svc, svc.userConfig.value)
    ensures svc.userConfig.None? && loaded.None? ==> r.1 == EmptyUserConfig
    ensures svc.userConfig.None? && loaded.Some? ==> r.1 == loaded.value
  {
    match svc.userConfig
    case Some(c) => (svc, c)
    case None =>
      var c := loaded.GetOr(EmptyUserConfig);
      (svc.(userConfig := Some(c)), c)
  }

  /** `setattr(user_config.generation, key, value)` behind a `hasattr`
      test: a field takes the value unvalidated; another attribute of the
      object (`isAttribute`) raises ValueError; any other key is
      skipped. */
  function SetGeneration(g: UserGeneration, key: string, value: Scalar, isAttribute: string -> bool): (r: Result<UserGeneration, string>)
    ensures key == MaxTokensKey ==> r == Success(g.(maxTokens := value))
    ensures key == TemperatureKey ==> r == Success(g.(temperature := value))
    ensures key == EnableThinkingKey ==> r == Success(g.(enableThinking := value))
    ensures key !in {MaxTokensKey, TemperatureKey, EnableThinkingKey} ==>
      r == if isAttribute(key) then Failure("ValueError") else Success(g)
  {
    if key == MaxTokensKey then Success(g.(maxTokens := value))
    else if key == TemperatureKey then Success(g.(temperature := value))
    else if key == EnableThinkingKey then Success(g.(enableThinking := value))
    else if isAttribute(key) then Failure("ValueError")
    else Success(g)
  }

  /** Assignment skips the field checks: a token limit of 10000 is
      stored. */
  lemma SetGenerationSkipsValidation()
    ensures var r := SetGeneration(EmptyGeneration, MaxTokensKey, SInt(10000), k => false);
      r.Success? && !ValidGeneration(r.value)
  {
  }

  /** `update_user_setting`: the config is fetched, changed in place for
      the "generation" section, then saved; the answer is whether the save
      succeeded (`saved`). The in-memory config keeps the change even when
      the save fails. */
  function UpdateUserSetting(
    svc: UserService, section: string, key: string, value: Scalar,
    loaded: Option<UserConfig>, isAttribute: string -> bool, saved: bool): (r: Result<(UserService, bool), string>)
    ensures var (svc1, c) := GetUserConfig(svc, loaded);
      && (section != GenerationKey ==> r == Success((svc1, saved)))
      && (section == GenerationKey ==>
           match SetGeneration(c.generation, key, value, isAttribute)
           case Failure(e) => r == Failure(e)
           case Success(g) => r == Success((svc1.(userConfig := Some(UserConfig(g))), saved)))
  {
    var (svc1, c) := GetUserConfig(svc, loaded);
    if section != GenerationKey then Success((svc1, saved))
    else
      match SetGeneration(c.generation, key, value, isAttribute)
      case Failure(e) => Failure(e)
      case Success(g) => Success((svc1.(userConfig := Some(UserConfig(g))), saved))
  }

  /** Only the named field of the generation section can change. */
  lemma UpdateChangesOneField(
    svc: UserService, key: string, value: Scalar, loaded: Option<UserConfig>, isAttribute: string -> bool, saved: bool)
    requires UpdateUserSetting(svc, GenerationKey, key, value, loaded, isAttribute, saved).Success?
    ensures var before := GetUserConfig(svc, loaded).1.generation;
      var after := UpdateUserSetting(svc, GenerationKey, key, value, loaded, isAttribute, saved).value.0.userConfig.value.generation;
      && (key != MaxTokensKey ==> after.maxTokens == before.maxTokens)
      && (key != TemperatureKey ==> after.temperature == before.temperature)
      && (key != EnableThinkingKey ==> after.enableThinking == before.enableThinking)
  {
  }

  /** `reset_to_defaults`: when the file removal succeeds (`removed`), an
      empty config and no merged config; otherwise nothing changes. */
  function ResetToDefaults(svc: UserService, removed: bool): (r: (UserService, bool))
    ensures r.1 == removed
    ensures removed ==> r.0.userConfig == Some(EmptyUserConfig) && r.0.mergedConfig.None?
    ensures !removed ==> r.0 == svc
  {
    if removed then (UserService(Some(EmptyUserConfig), None), true) else (svc, false)
  }

  // ---------------------------------------------------------------------------
  // The configuration service

  /** The in-memory part of `ConfigService`: the cached merged config and
      the user-config service. */
  datatype ConfigService = ConfigService(merged: Option<map<string, Value>>, user: UserService)

  /** `get_config`: the cached merged config, or a newly computed one
      (`computed`), which is then cached. */
  function GetConfig(cs: ConfigService, computed: map<string, Value>): (r: (ConfigService, map<string, Value>))
    ensures cs.merged.Some? ==> r == (cs, cs.merged.value)
    ensures cs.merged.None? ==> r.1 == computed && r.0 == cs.(merged := Some(computed))
  {
    match cs.merged
    case Some(m) => (cs, m)
    case None => (cs.(merged := Some(computed)), computed)
  }

  /** `ConfigService.update_user_setting`: a successful update drops the
      cached merged config. */
  function UpdateSetting(
    cs: ConfigService, section: string, key: string, value: Scalar,
    loaded: Option<UserConfig>, isAttribute: string -> bool, saved: bool): (r: Result<(ConfigService, bool), string>)
    ensures r.Success? ==> r.value.1 == saved
    ensures r.Success? && saved ==> r.value.0.merged.None?
    ensures r.Success? && !saved ==> r.value.0.merged == cs.merged
    ensures var u := UpdateUserSetting(cs.user, section, key, value, loaded, isAttribute, saved);
      && (r.Success? <==> u.Success?)
      && (r.Success? ==> r.value.0.user == u.value.0)
  {
    match UpdateUserSetting(cs.user, section, key, value, loaded, isAttribute, saved)
    case Failure(e) => Failure(e)
    case Success((u, ok)) => Success((ConfigService(if ok then None else cs.merged, u), ok))
  }

  /** The settings of one section applied in order; the first key that is
      an attribute but no field stops the loop with its error, keeping
      the changes made before it. */
  function ApplyAll(g: UserGeneration, kvs: seq<(string, Scalar)>, isAttribute: string -> bool): (r: (UserGeneration, Option<string>))
    ensures r.1.None? <==> forall i :: 0 <= i < |kvs| ==>
      kvs[i].0 in {MaxTokensKey, TemperatureKey, EnableThinkingKey} || !isAttribute(kvs[i].0)
    ensures r.1.None? ==>
      && r.0.maxTokens == LastValue(kvs, MaxTokensKey).GetOr(g.maxTokens)
      && r.0.temperature == LastValue(kvs, TemperatureKey).GetOr(g.temperature)
      && r.0.enableThinking == LastValue(kvs, EnableThinkingKey).GetOr(g.enableThinking)
    decreases |kvs|
  {
    if kvs == [] then (g, None)
    else
      match SetGeneration(g, kvs[0].0, kvs[0].1, isAttribute)
      case Failure(e) => (g, Some(e))
      case Success(g1) =>
        var r := ApplyAll(g1, kvs[1..], isAttribute);
        assert forall i :: 1 <= i < |kvs| ==> kvs[i] == kvs[1..][i - 1];
        r
  }

  /** The value given last for `key`, if any. */
  function LastValue(kvs: seq<(string, Scalar)>, key: string): (r: Option<Scalar>)
    ensures r.None? <==> forall i :: 0 <= i < |kvs| ==> kvs[i].0 != key
    decreases |kvs|
  {
    if kvs == [] then None
    else
      match LastValue(kvs[1..], key)
      case Some(v) => Some(v)
      case None =>
        assert forall i :: 1 <= i < |kvs| ==> kvs[i] == kvs[1..][i - 1];
        if kvs[0].0 == key then Some(kvs[0].1) else None
  }

  /** The sections of `update_user_settings_batch` in order: only
      "generation" sections change anything. */
  function ApplySections(g: UserGeneration, settings: seq<(string, seq<(string, Scalar)>)>, isAttribute: string -> bool): (r: (UserGeneration, Option<string>))
    ensures (forall i :: 0 <= i < |settings| ==> settings[i].0 != GenerationKey) ==> r == (g, None)
    ensures forall i :: (0 <= i < |settings| && settings[i].0 == GenerationKey
        && forall j :: 0 <= j < |settings| && j != i ==> settings[j].0 != GenerationKey) ==>
      r == ApplyAll(g, settings[i].1, isAttribute)
    decreases |settings|
  {
    if settings == [] then (g, None)
    else if settings[0].0 != GenerationKey then ApplySections(g, settings[1..], isAttribute)
    else
      match ApplyAll(g, settings[0].1, isAttribute)
      case (g1, Some(e)) => (g1, Some(e))
      case (g1, None) => ApplySections(g1, settings[1..], isAttribute)
  }

  /** `update_user_settings_batch`: every change is applied to the
      in-memory config, which is saved once; a successful save drops the
      cached merged config. An error while applying answers False and
      leaves the cache as it was. */
  function UpdateSettingsBatch(
    cs: ConfigService, settings: seq<(string, seq<(string, Scalar)>)>,
    loaded: Option<UserConfig>, isAttribute: string -> bool, saved: bool): (r: (ConfigService, bool))
    ensures var (u, c) := GetUserConfig(cs.user, loaded);
      var (g, err) := ApplySections(c.generation, settings, isAttribute);
      && r.0.user == u.(userConfig := Some(UserConfig(g)))
      && (r.1 <==> saved && err.None?)
    ensures r.1 ==> r.0.merged.None?
    ensures !r.1 ==> r.0.merged == cs.merged
  {
    var (u, c) := GetUserConfig(cs.user, loaded);
    var (g, err) := ApplySections(c.generation, settings, isAttribute);
    var u1 := u.(userConfig := Some(UserConfig(g)));
    if err.Some? then (cs.(user := u1), false)
    else if saved then (ConfigService(None, u1), true)
    else (cs.(user := u1), false)
  }

  /** A batch without a "generation" section leaves the user config as it
      was loaded. */
  lemma BatchIgnoresOtherSections(
    cs: ConfigService, settings: seq<(string, seq<(string, Scalar)>)>,
    loaded: Option<UserConfig>, isAttribute: string -> bool, saved: bool)
    requires forall i :: 0 <= i < |settings| ==> settings[i].0 != GenerationKey
    ensures UpdateSettingsBatch(cs, settings, loaded, isAttribute, saved).0.user == GetUserConfig(cs.user, loaded).0
  {
  }

  /** `reset_user_settings`: a successful reset drops the cached merged
      config. */
  function ResetSettings(cs: ConfigService, removed: bool): (r: (ConfigService, bool))
    ensures r.1 == removed
    ensures removed ==> r.0.merged.None? && r.0.user.userConfig == Some(EmptyUserConfig)
    ensures !removed ==> r.0 == cs
  {
    var (u, ok) := ResetToDefaults(cs.user, removed);
    (if ok then ConfigService(None, u) else cs, ok)
  }

  /** After a successful update or reset the next `get_config` computes the
      merged config again instead of answering from the cache. */
  lemma ChangeForcesRecompute(
    cs: ConfigService, settings: seq<(string, seq<(string, Scalar)>)>,
    loaded: Option<UserConfig>, isAttribute: string -> bool, computed: map<string, Value>)
    ensures var (cs1, ok) := UpdateSettingsBatch(cs, settings, loaded, isAttribute, true);
      ok ==> GetConfig(cs1, computed).1 == computed
    ensures GetConfig(ResetSettings(cs, true).0, computed).1 == computed
  {
  }
}

=== FILE: context.dfy ===
/** The state of a dialog's compressed context and its transitions
    (services/context/manager.py, models/context/): the raw tail of recent
    interactions, first-level (L1) chunk summaries, second-level (L2)
    blocks and the append-only cumulative string, together with the
    summarization triggers (services/context/trigger.py) and the assembly of
    the context handed to the model (services/context/builder.py). The
    summarizer itself, the event loop, persistence and clocks are outside
    the model: summaries arrive as parameters, md5 is a parameter. */
module Context {
  import opened Wrappers
  import opened Text
  import opened Dialogs
  import opened ContextUtils

  // ---------------------------------------------------------------------------
  // Chunks and blocks (models/context/chunk.py)

  datatype ChunkType = L1Summary | L2Summary

  /** `InteractionChunk`, without its creation time. */
  datatype InteractionChunk = InteractionChunk(
    id: string,
    summary: string,
    originalCharCount: int,
    summaryCharCount: int,
    indices: seq<int>,
    compressionRatio: real,
    chunkType: ChunkType)

  /** `L2SummaryBlock`, without its creation time. */
  datatype L2Block = L2Block(
    id: string,
    l1ChunkIds: seq<string>,
    summary: string,
    summaryCharCount: int,
    originalCharCount: int,
    compressionRatio: real,
    chunkType: ChunkType)

  /** `hashlib.md5(summary.encode()).hexdigest()[:16]`, with the digest a
      parameter. */
  function SummaryId(summary: string, md5: string -> string): (r: string)
    ensures |r| <= 16
    ensures |md5(summary)| >= 16 ==> |r| == 16
    ensures StartsWith(md5(summary), r)
  {
    PySliceTo(md5(summary), 16)
  }

  /** `original / max(len(summary), 1)`. */
  function Ratio(original: int, summaryChars: nat): (r: real)
    ensures r * (if summaryChars == 0 then 1 else summaryChars) as real == original as real
  {
    original as real / (if summaryChars == 0 then 1 else summaryChars) as real
  }

  /** `InteractionChunk.create_from_summary`: an L1 chunk that records the
      summary's length and the compression ratio, named by its summary. */
  function CreateChunk(summary: string, originalCharCount: int, indices: seq<int>, md5: string -> string): (r: InteractionChunk)
    ensures r.summary == summary && r.summaryCharCount == |summary|
    ensures r.originalCharCount == originalCharCount && r.indices == indices
    ensures r.chunkType == L1Summary
    ensures r.compressionRatio * (if |summary| == 0 then 1 else |summary|) as real == originalCharCount as real
  {
    InteractionChunk(SummaryId(summary, md5), summary, originalCharCount, |summary|, indices,
                     Ratio(originalCharCount, |summary|), L1Summary)
  }

  /** `L2SummaryBlock.create_from_summary`: keeps the chunk ids as given. */
  function CreateBlock(chunkIds: seq<string>, summary: string, originalCharCount: int, md5: string -> string): (r: L2Block)
    ensures r.summary == summary && r.summaryCharCount == |summary|
    ensures r.l1ChunkIds == chunkIds && r.originalCharCount == originalCharCount
    ensures r.chunkType == L2Summary
    ensures r.compressionRatio * (if |summary| == 0 then 1 else |summary|) as real == originalCharCount as real
  {
    L2Block(SummaryId(summary, md5), chunkIds, summary, |summary|, originalCharCount,
            Ratio(originalCharCount, |summary|), L2Summary)
  }

  /** The id of a chunk or a block depends on its summary alone: equal
      summaries give equal ids, whatever the counts and indices. */
  lemma IdDependsOnSummary(s: string, o1: int, o2: int, i1: seq<int>, i2: seq<int>, ids: seq<string>, md5: string -> string)
    ensures CreateChunk(s, o1, i1, md5).id == CreateChunk(s, o2, i2, md5).id
    ensures CreateBlock(ids, s, o1, md5).id == CreateChunk(s, o2, i2, md5).id
  {
  }

  // ---------------------------------------------------------------------------
  // The cumulative string (models/context/cumulative.py)

  /** The record `add_block` keeps for a block, without its time stamp. */
  datatype BlockRecord = BlockRecord(id: string, chunkIds: seq<string>, summary: string, summaryChars: int, originalChars: int, compressionRatio: real)

  datatype Cumulative = Cumulative(content: string, blocks: seq<BlockRecord>, totalChars: int)

  const EmptyCumulative: Cumulative := Cumulative("", [], 0)

  const CumulativeHeader: string := "# Кумулятивный контекст (история обсуждения):\n"

  /** `<sum_block id='ID'>\nSUMMARY\n</sum_block>\n\n`. */
  function BlockText(b: L2Block): string {
    "<sum_block id='" + b.id + "'>\n" + b.summary + "\n</sum_block>\n\n"
  }

  /** `add_block`: the block's text goes at the end of the content, the
      character total grows by its length, one record is kept. */
  function AddBlock(c: Cumulative, b: L2Block): (r: Cumulative)
    ensures StartsWith(r.content, c.content) && r.content[|c.content|..] == BlockText(b)
    ensures r.totalChars - c.totalChars == |r.content| - |c.content|
    ensures |r.blocks| == |c.blocks| + 1 && r.blocks[..|c.blocks|] == c.blocks
    ensures var last := r.blocks[|c.blocks|];
      last.id == b.id && last.chunkIds == b.l1ChunkIds && last.summary == b.summary
  {
    var t := BlockText(b);
    Cumulative(c.content + t, c.blocks + [BlockRecord(b.id, b.l1ChunkIds, b.summary, b.summaryCharCount, b.originalCharCount, b.compressionRatio)],
               c.totalChars + |t|)
  }

  /** The character total tracks the content's length. */
  predicate CumulativeValid(c: Cumulative) {
    c.totalChars == |c.content|
  }

  function AddBlocks(c: Cumulative, bs: seq<L2Block>): Cumulative {
    if bs == [] then c else AddBlock(AddBlocks(c, bs[..|bs| - 1]), bs[|bs| - 1])
  }

  function BlockTexts(bs: seq<L2Block>): string {
    if bs == [] then "" else BlockTexts(bs[..|bs| - 1]) + BlockText(bs[|bs| - 1])
  }

  /** From the default state, the content is the blocks' texts in the order
      they were added, the total is its length, and there is one record per
      block. */
  lemma {:induction false} AddBlocksContent(bs: seq<L2Block>)
    ensures AddBlocks(EmptyCumulative, bs).content == BlockTexts(bs)
    ensures CumulativeValid(AddBlocks(EmptyCumulative, bs))
    ensures |AddBlocks(EmptyCumulative, bs).blocks| == |bs|
    decreases |bs|
  {
    if bs != [] {
      AddBlocksContent(bs[..|bs| - 1]);
    }
  }

  /** `get_formatted`: nothing for an empty content, otherwise the header
      followed by the content. */
  function GetFormatted(c: Cumulative): (r: string)
    ensures r == [] <==> c.content == []
    ensures c.content != [] ==> StartsWith(r, CumulativeHeader) && r[|CumulativeHeader|..] == c.content
  {
    if c.content == [] then "" else CumulativeHeader + c.content
  }

  // ---------------------------------------------------------------------------
  // Triggers (services/context/trigger.py)

  const DefaultRawTailCharLimit: int := 2000
  const DefaultL2TriggerCount: int := 4

  datatype Trigger = Trigger(rawTailCharLimit: int, l1SummaryThreshold: int)

  /** `SummarizationTrigger(config)`: `structure.raw_tail.char_limit` and
      `structure.thresholds.l2_trigger_count`, each given when present. */
  function NewTrigger(charLimit: Option<int>, triggerCount: Option<int>): (r: Trigger)
    ensures r.rawTailCharLimit == (if charLimit.Some? then charLimit.value else 2000)
    ensures r.l1SummaryThreshold == (if triggerCount.Some? then triggerCount.value else 4)
  {
    Trigger(charLimit.GetOr(DefaultRawTailCharLimit), triggerCount.GetOr(DefaultL2TriggerCount))
  }

  /** `should_trigger_l1`: the tail is over its limit by at least one
      character; an empty tail fires only under a negative limit. */
  function ShouldTriggerL1(t: Trigger, rawTail: string): (r: bool)
    ensures r <==> |rawTail| >= t.rawTailCharLimit + 1
    ensures rawTail == [] ==> (r <==> t.rawTailCharLimit < 0)
  {
    |rawTail| > t.rawTailCharLimit
  }

  /** `should_trigger_l2`: the chunk count has reached the threshold; with
      a threshold of zero or less, any count fires. */
  function ShouldTriggerL2(t: Trigger, l1Count: int): (r: bool)
    ensures r <==> !(l1Count < t.l1SummaryThreshold)
    ensures t.l1SummaryThreshold <= 0 && l1Count >= 0 ==> r
  {
    l1Count >= t.l1SummaryThreshold
  }

  /** A longer tail, or more chunks, never stops a trigger from firing, and
      a tail within the limit never fires. */
  lemma TriggersMonotone(t: Trigger, a: string, b: string, m: int, n: int)
    requires |a| <= |b| && m <= n
    ensures ShouldTriggerL1(t, a) ==> ShouldTriggerL1(t, b)
    ensures ShouldTriggerL2(t, m) ==> ShouldTriggerL2(t, n)
    ensures |a| <= t.rawTailCharLimit ==> !ShouldTriggerL1(t, a)
  {
  }

  // ---------------------------------------------------------------------------
  // The dialog's context state (models/context/state.py)

  datatype ContextState = ContextState(
    rawTail: string,
    rawTailCharLimit: int,
    l1Chunks: seq<InteractionChunk>,
    l2Blocks: seq<L2Block>,
    cumulative: Cumulative,
    l1SummaryThreshold: int,
    totalInteractions: int,
    totalCharactersProcessed: int,
    totalSummarizationsL1: int,
    totalSummarizationsL2: int)

  /** The manager's initial state: `raw_tail.char_limit` and
      `summarization.l2_trigger_count`, each given when present, with
      everything else empty. */
  function InitialState(charLimit: Option<int>, triggerCount: Option<int>): (r: ContextState)
    ensures r.rawTailCharLimit == (if charLimit.Some? then charLimit.value else 2000)
    ensures r.l1SummaryThreshold == (if triggerCount.Some? then triggerCount.value else 4)
    ensures r.rawTail == [] && r.l1Chunks == [] && r.l2Blocks == [] && r.cumulative == EmptyCumulative
    ensures r.totalInteractions == 0 && r.totalCharactersProcessed == 0
  {
    ContextState("", charLimit.GetOr(DefaultRawTailCharLimit), [], [], EmptyCumulative,
                 triggerCount.GetOr(DefaultL2TriggerCount), 0, 0, 0, 0)
  }

  /** The manager's own test for an overflowing tail is the trigger's. */
  function TriggerOf(st: ContextState): (r: Trigger)
    ensures forall tail: string :: ShouldTriggerL1(r, tail) <==> |tail| > st.rawTailCharLimit
    ensures forall n: int :: ShouldTriggerL2(r, n) <==> n >= st.l1SummaryThreshold
  {
    Trigger(st.rawTailCharLimit, st.l1SummaryThreshold)
  }

  // ---------------------------------------------------------------------------
  // Adding an interaction

  /** `interaction.text + "\n\n"`. */
  function TailEntry(user: string, assistant: string): string {
    InteractionText(Interaction(user, assistant, [])) + "\n\n"
  }

  /** `add_interaction`: when the tail is already over its limit it is sent
      to L1 summarization and replaced by the new entry; otherwise the entry
      is appended, even past the limit. The result's second half is the tail
      sent to L1, if any. */
  function AddInteraction(st: ContextState, user: string, assistant: string): (r: (ContextState, Option<string>))
    ensures var e := TailEntry(user, assistant);
      && (|st.rawTail| > st.rawTailCharLimit ==> r.0.rawTail == e && r.1 == Some(st.rawTail))
      && (|st.rawTail| <= st.rawTailCharLimit ==> r.0.rawTail == st.rawTail + e && r.1 == None)
      && r.0.totalInteractions == st.totalInteractions + 1
      && r.0.totalCharactersProcessed == st.totalCharactersProcessed + |InteractionText(Interaction(user, assistant, []))| + 2
    ensures r.0.l1Chunks == st.l1Chunks && r.0.l2Blocks == st.l2Blocks && r.0.cumulative == st.cumulative
    ensures r.0.rawTailCharLimit == st.rawTailCharLimit && r.0.l1SummaryThreshold == st.l1SummaryThreshold
  {
    var e := TailEntry(user, assistant);
    var flushed := |st.rawTail| > st.rawTailCharLimit;
    var st' := st.(rawTail := if flushed then e else st.rawTail + e,
                   totalInteractions := st.totalInteractions + 1,
                   totalCharactersProcessed := st.totalCharactersProcessed + |e|);
    (st', if flushed then Some(st.rawTail) else None)
  }

  /** Adding an interaction loses no text: the old tail plus the new entry is
      what went to L1 followed by the new tail. The tail goes to L1 exactly
      when the trigger says so, and the new tail holds at most the limit plus
      one entry. */
  lemma AddInteractionConserves(st: ContextState, user: string, assistant: string)
    requires st.rawTailCharLimit >= 0
    ensures var (st', sent) := AddInteraction(st, user, assistant);
      && st.rawTail + TailEntry(user, assistant) == (if sent.Some? then sent.value else "") + st'.rawTail
      && (sent.Some? <==> ShouldTriggerL1(TriggerOf(st), st.rawTail))
      && |st'.rawTail| <= st.rawTailCharLimit + |TailEntry(user, assistant)|
  {
  }

  predicate HasRole(history: seq<Message>, role: Role) {
    exists i :: 0 <= i < |history| && history[i].role == role
  }

  /** A position `_get_current_message_indices` reports: a user or assistant
      message, or the last position when either role is missing. */
  predicate Reported(history: seq<Message>, k: int) {
    || (0 <= k < |history| && (history[k].role == User || history[k].role == Assistant))
    || (history != [] && k == |history| - 1 && (!HasRole(history, User) || !HasRole(history, Assistant)))
  }

  function ReportedSet(history: seq<Message>): (r: set<int>)
    ensures forall k :: k in r <==> Reported(history, k)
  {
    var spoken := set i | 0 <= i < |history| && (history[i].role == User || history[i].role == Assistant);
    var extra := if history != [] && (!HasRole(history, User) || !HasRole(history, Assistant)) then {|history| - 1} else {};
    spoken + extra
  }

  /** `_get_current_message_indices`: the reported positions, sorted without
      duplicates. */
  function CurrentMessageIndices(history: seq<Message>): (r: seq<int>)
    ensures forall i, j :: 0 <= i < j < |r| ==> r[i] < r[j]
    ensures forall k :: k in r <==> Reported(history, k)
  {
    SortedSet(ReportedSet(history))
  }

  /** The reported positions lie within the history, and a system message is
      reported only as the last message of a history lacking a role. */
  lemma CurrentIndicesInRange(history: seq<Message>)
    ensures forall k :: k in CurrentMessageIndices(history) ==> 0 <= k < |history|
    ensures forall k :: k in CurrentMessageIndices(history) && history[k].role == System ==>
      k == |history| - 1 && (!HasRole(history, User) || !HasRole(history, Assistant))
    ensures history != [] ==> CurrentMessageIndices(history) != []
  {
    if history != [] {
      if HasRole(history, User) {
        var i :| 0 <= i < |history| && history[i].role == User;
        assert i in CurrentMessageIndices(history);
      } else {
        assert |history| - 1 in CurrentMessageIndices(history);
      }
    }
  }

  // ---------------------------------------------------------------------------
  // L1 summarization

  /** Defaults of the `l1_chunks` configuration the manager reads. */
  const DefaultL1TargetChars: int := 1000
  const DefaultAllowOverflow: bool := true

  const ChunkSeparator: string := "\n\n"

  /** What the manager schedules for one chunk: the text to summarize and the
      message indices it covers. */
  datatype L1Request = L1Request(text: string, indices: seq<int>)

  function ChunkText(c: seq<Interaction>): string {
    Join(seq(|c|, i requires 0 <= i < |c| => FormatForSummary(c[i])), ChunkSeparator)
  }

  /** One summarization request per chunk, with the chunk's text and the
      message indices it carries. */
  function RequestsOf(chunks: seq<seq<Interaction>>): (r: seq<L1Request>)
    ensures |r| == |chunks|
    ensures forall i :: 0 <= i < |r| ==> r[i].text == ChunkText(chunks[i]) && r[i].indices == ExtractIndices(chunks[i])
  {
    seq(|chunks|, i requires 0 <= i < |chunks| => L1Request(ChunkText(chunks[i]), ExtractIndices(chunks[i])))
  }

  /** Non-empty chunks are no more numerous than the items they hold. */
  lemma {:induction false} FewerChunks(ss: seq<seq<Interaction>>)
    requires forall i :: 0 <= i < |ss| ==> |ss[i]| > 0
    ensures |ss| <= |Concat(ss)|
    decreases |ss|
  {
    if ss != [] {
      FewerChunks(ss[..|ss| - 1]);
    }
  }

  /** `_trigger_l1_summarization_for_full_tail`: the tail read back into
      interactions, grouped, and one request per chunk. */
  function L1Requests(tail: string, target: int, allowOverflow: bool): (r: seq<L1Request>)
    ensures r == [] <==> ParseTextToInteractions(tail) == []
    ensures |r| <= |ParseTextToInteractions(tail)|
  {
    var chunks := GroupIntoChunks(ParseTextToInteractions(tail), target, allowOverflow);
    assert forall i :: 0 <= i < |chunks| ==> chunks[i] in chunks;
    FewerChunks(chunks);
    RequestsOf(GroupIntoChunks(ParseTextToInteractions(tail), target, allowOverflow))
  }

  /** The requests for a tail cover every interaction read from it, in order,
      in non-empty chunks; none of them carries message indices, since text
      read back has none. */
  lemma L1RequestsCover(tail: string, target: int, allowOverflow: bool)
    ensures var xs := ParseTextToInteractions(tail);
      var chunks := GroupIntoChunks(xs, target, allowOverflow);
      && Concat(chunks) == xs
      && |L1Requests(tail, target, allowOverflow)| == |chunks|
      && (forall i :: 0 <= i < |chunks| ==> L1Requests(tail, target, allowOverflow)[i].text == ChunkText(chunks[i]))
      && (xs == [] <==> L1Requests(tail, target, allowOverflow) == [])
      && forall q :: q in L1Requests(tail, target, allowOverflow) ==> q.indices == []
  {
    var xs := ParseTextToInteractions(tail);
    var chunks := GroupIntoChunks(xs, target, allowOverflow);
    var r := L1Requests(tail, target, allowOverflow);
    forall q | q in r ensures q.indices == [] {
      var i :| 0 <= i < |r| && r[i] == q;
      ParsedCarryNoIndices(tail, target, allowOverflow, chunks[i]);
    }
  }

  /** `_on_l1_summary_complete`: one more L1 chunk at the end; the second
      half says whether L2 summarization is scheduled. */
  function OnL1Complete(st: ContextState, summary: string, originalText: string, indices: seq<int>, md5: string -> string): (r: (ContextState, bool))
    ensures |r.0.l1Chunks| == |st.l1Chunks| + 1 && r.0.l1Chunks[..|st.l1Chunks|] == st.l1Chunks
    ensures r.0.l1Chunks[|st.l1Chunks|] == CreateChunk(summary, |originalText|, indices, md5)
    ensures r.0.totalSummarizationsL1 == st.totalSummarizationsL1 + 1
    ensures r.1 <==> ShouldTriggerL2(TriggerOf(st), |r.0.l1Chunks|)
    ensures r.0.rawTail == st.rawTail && r.0.l2Blocks == st.l2Blocks && r.0.cumulative == st.cumulative
  {
    var chunk := CreateChunk(summary, |originalText|, indices, md5);
    var st' := st.(l1Chunks := st.l1Chunks + [chunk], totalSummarizationsL1 := st.totalSummarizationsL1 + 1);
    (st', |st'.l1Chunks| >= st.l1SummaryThreshold)
  }

  // ---------------------------------------------------------------------------
  // L2 summarization

  const SummarySeparator: string := "\n---\n"

  /** What the manager schedules for L2: the joined summaries, their summed
      original sizes, and the ids of the chunks taken. */
  datatype L2Request = L2Request(text: string, originalCharCount: int, chunkIds: seq<string>)

  function SumOriginal(cs: seq<InteractionChunk>): int {
    if cs == [] then 0 else SumOriginal(cs[..|cs| - 1]) + cs[|cs| - 1].originalCharCount
  }

  function Ids(cs: seq<InteractionChunk>): (r: seq<string>)
    ensures |r| == |cs| && forall i :: 0 <= i < |cs| ==> r[i] == cs[i].id
  {
    seq(|cs|, i requires 0 <= i < |cs| => cs[i].id)
  }

  function Summaries(cs: seq<InteractionChunk>): (r: seq<string>)
    ensures |r| == |cs| && forall i :: 0 <= i < |cs| ==> r[i] == cs[i].summary
  {
    seq(|cs|, i requires 0 <= i < |cs| => cs[i].summary)
  }

  /** How many of the oldest chunks L2 takes: `max(1, n // 2)`. */
  function HalfCount(n: nat): (h: nat)
    ensures n >= 1 ==> 1 <= h <= n
    ensures n >= 2 ==> h <= n - h
  {
    if n / 2 > 1 then n / 2 else 1
  }

  /** `chunks[:max(1, len(chunks) // 2)]`; the slice of an empty list is
      empty. */
  function Oldest(cs: seq<InteractionChunk>): (r: seq<InteractionChunk>)
    ensures r == [] <==> cs == []
    ensures cs != [] ==> r == cs[..HalfCount(|cs|)]
  {
    if cs == [] then [] else cs[..HalfCount(|cs|)]
  }

  /** `_trigger_l2_summarization`: nothing without L1 chunks; otherwise the
      oldest `max(1, n // 2)` of them, their summaries joined, their sizes
      summed and their ids listed. */
  function TriggerL2(st: ContextState): (r: Option<L2Request>)
    ensures r.None? <==> st.l1Chunks == []
    ensures r.Some? ==>
      var taken := st.l1Chunks[..HalfCount(|st.l1Chunks|)];
      && 1 <= |taken| <= |st.l1Chunks|
      && r.value.chunkIds == Ids(taken)
      && r.value.originalCharCount == SumOriginal(taken)
      && r.value.text == Join(Summaries(taken), SummarySeparator)
  {
    var taken := Oldest(st.l1Chunks);
    if taken == [] then None
    else Some(L2Request(Join(Summaries(taken), SummarySeparator), SumOriginal(taken), Ids(taken)))
  }

  /** `[c for c in chunks if c.id not in ids]`. */
  function RemoveIds(cs: seq<InteractionChunk>, ids: seq<string>): (r: seq<InteractionChunk>)
    ensures |r| <= |cs|
    ensures forall c :: c in r <==> c in cs && c.id !in ids
  {
    if cs == [] then []
    else
      var init := RemoveIds(cs[..|cs| - 1], ids);
      var c := cs[|cs| - 1];
      assert cs == cs[..|cs| - 1] + [c];
      if c.id in ids then init else init + [c]
  }

  /** `_on_l2_summary_complete`: the block joins the cumulative string and
      the block list, and the L1 chunks it covers leave. */
  function OnL2Complete(st: ContextState, summary: string, chunkIds: seq<string>, originalCharCount: int, md5: string -> string): (r: ContextState)
    ensures var b := CreateBlock(chunkIds, summary, originalCharCount, md5);
      && r.cumulative == AddBlock(st.cumulative, b)
      && r.l2Blocks == st.l2Blocks + [b]
      && r.l1Chunks == RemoveIds(st.l1Chunks, chunkIds)
    ensures r.totalSummarizationsL2 == st.totalSummarizationsL2 + 1
    ensures r.rawTail == st.rawTail && r.totalInteractions == st.totalInteractions
  {
    var b := CreateBlock(chunkIds, summary, originalCharCount, md5);
    st.(cumulative := AddBlock(st.cumulative, b),
        l1Chunks := RemoveIds(st.l1Chunks, chunkIds),
        l2Blocks := st.l2Blocks + [b],
        totalSummarizationsL2 := st.totalSummarizationsL2 + 1)
  }

  /** Because ids come from summaries, removal cannot tell apart two chunks
      with the same summary: both leave or both stay. */
  lemma EqualSummariesLeaveTogether(cs: seq<InteractionChunk>, ids: seq<string>, md5: string -> string, a: InteractionChunk, b: InteractionChunk)
    requires a in cs && b in cs
    requires a.id == SummaryId(a.summary, md5) && b.id == SummaryId(b.summary, md5)
    requires a.summary == b.summary
    ensures a in RemoveIds(cs, ids) <==> b in RemoveIds(cs, ids)
  {
  }

  /** Removal keeps the surviving chunks in their order. */
  lemma {:induction false} RemoveIdsSubsequence(cs: seq<InteractionChunk>, ids: seq<string>, i: nat, j: nat)
    requires i < j < |RemoveIds(cs, ids)|
    ensures exists p, q :: 0 <= p < q < |cs| && cs[p] == RemoveIds(cs, ids)[i] && cs[q] == RemoveIds(cs, ids)[j]
    decreases |cs|
  {
    var n := |cs| - 1;
    var pre := cs[..n];
    var init := RemoveIds(pre, ids);
    var r := RemoveIds(cs, ids);
    RemoveIdsSnoc(cs, ids);
    if j < |init| {
      assert r[i] == init[i] && r[j] == init[j];
      RemoveIdsSubsequence(pre, ids, i, j);
      var p, q :| 0 <= p < q < |pre| && pre[p] == init[i] && pre[q] == init[j];
      assert pre[p] == cs[p] && pre[q] == cs[q];
    } else {
      assert r[i] == init[i] && r[j] == cs[n];
      assert init[i] in init;
      var p :| 0 <= p < |pre| && pre[p] == init[i];
      assert pre[p] == cs[p];
    }
  }

  /** Removal from a list with one more chunk at its end. */
  lemma RemoveIdsSnoc(cs: seq<InteractionChunk>, ids: seq<string>)
    requires cs != []
    ensures RemoveIds(cs, ids) == RemoveIds(cs[..|cs| - 1], ids) + (if cs[|cs| - 1].id in ids then [] else [cs[|cs| - 1]])
  {
    var init := RemoveIds(cs[..|cs| - 1], ids);
    assert init + [] == init;
  }

  /** A full L2 round: completing the request TriggerL2 issued, whatever the
      summary, removes at least the chunks it took, which are the oldest
      `max(1, n // 2)`; the cumulative string stays valid. */
  lemma L2RoundRemovesOldest(st: ContextState, summary: string, md5: string -> string)
    requires TriggerL2(st).Some?
    requires CumulativeValid(st.cumulative)
    ensures var q := TriggerL2(st).value;
      var st' := OnL2Complete(st, summary, q.chunkIds, q.originalCharCount, md5);
      && (forall k :: 0 <= k < HalfCount(|st.l1Chunks|) ==> st.l1Chunks[k] !in st'.l1Chunks)
      && |st'.l1Chunks| <= |st.l1Chunks| - HalfCount(|st.l1Chunks|)
      && |st'.l2Blocks| == |st.l2Blocks| + 1
      && CumulativeValid(st'.cumulative)
  {
    var q := TriggerL2(st).value;
    var h := HalfCount(|st.l1Chunks|);
    var taken := st.l1Chunks[..h];
    RemoveIdsCount(st.l1Chunks, q.chunkIds, h);
  }

  /** When the first `h` chunks' ids are all removed, at most the rest stay. */
  lemma {:induction false} RemoveIdsCount(cs: seq<InteractionChunk>, ids: seq<string>, h: nat)
    requires h <= |cs|
    requires forall k :: 0 <= k < h ==> cs[k].id in ids
    ensures |RemoveIds(cs, ids)| <= |cs| - h
    decreases |cs|
  {
    if |cs| > h {
      RemoveIdsCount(cs[..|cs| - 1], ids, h);
    } else if cs != [] {
      RemoveIdsCount(cs[..|cs| - 1], ids, h - 1);
    }
  }
}

=== FILE: context_menu.dfy ===
/** The per-chat context menu (static/js/modules/context-menu.js): opening and
    closing it from a row's control, placing it beside the row, and the
    rename, pin and delete items, which turn the user's answer into a
    command in the hidden field. The dialogs that ask the user are
    parameters: their answer is an input here. */
module ContextMenu {
  import opened Wrappers
  import opened Text
  import opened Commands
  import opened ChatPage

  /** A `.chat-context-menu` element in the page: the chat it belongs to and
      whether it carries 'show'. */
  datatype Menu = Menu(chatId: string, shown: bool)

  datatype MenuState = MenuState(rows: seq<ChatRow>, menus: seq<Menu>)

  predicate AtMostOneOpen(rows: seq<ChatRow>) {
    forall i, j :: 0 <= i < j < |rows| && rows[i].menuOpen ==> !rows[j].menuOpen
  }

  predicate AtMostOneShown(menus: seq<Menu>) {
    forall i, j :: 0 <= i < j < |menus| && menus[i].shown ==> !menus[j].shown
  }

  /** `document.querySelector('.chat-context-menu.show[data-chat-id=…]')`. */
  function FirstShown(menus: seq<Menu>, chatId: string): (r: Option<nat>)
    ensures r.None? <==> forall i :: 0 <= i < |menus| ==> !(menus[i].shown && menus[i].chatId == chatId)
    ensures r.Some? ==> r.value < |menus| && menus[r.value].shown && menus[r.value].chatId == chatId
    ensures r.Some? ==> forall i :: 0 <= i < r.value ==> !(menus[i].shown && menus[i].chatId == chatId)
  {
    if menus == [] then None
    else if menus[|menus| - 1].shown && menus[|menus| - 1].chatId == chatId then
      match FirstShown(menus[..|menus| - 1], chatId)
      case Some(k) => Some(k)
      case None => Some(|menus| - 1)
    else FirstShown(menus[..|menus| - 1], chatId)
  }

  /** `removeChild`: the menu at `k` leaves the page. */
  function RemoveMenu(menus: seq<Menu>, k: nat): (r: seq<Menu>)
    requires k < |menus|
    ensures |r| == |menus| - 1
    ensures forall i :: 0 <= i < k ==> r[i] == menus[i]
    ensures forall i :: k <= i < |r| ==> r[i] == menus[i + 1]
  {
    menus[..k] + menus[k + 1..]
  }

  /** `closeAllContextMenus`: every menu loses 'show' and stays in the page. */
  function HideAll(menus: seq<Menu>): (r: seq<Menu>)
    ensures |r| == |menus|
    ensures forall i :: 0 <= i < |menus| ==> r[i] == menus[i].(shown := false)
  {
    seq(|menus|, i requires 0 <= i < |menus| => menus[i].(shown := false))
  }

  /** Every row loses 'context-menu-open'. */
  function ClearFlags(rows: seq<ChatRow>): (r: seq<ChatRow>)
    ensures |r| == |rows|
    ensures forall i :: 0 <= i < |rows| ==> r[i] == rows[i].(menuOpen := false)
  {
    seq(|rows|, i requires 0 <= i < |rows| => rows[i].(menuOpen := false))
  }

  /** `toggleContextMenu(chatItem, chatId, chatName)` for the row at `item`.
      `selectors`, `closeAll` and `create` say whether `window.SELECTORS`,
      `window.closeAllContextMenus` and `window.createContextMenu` exist.
      An item whose menu is open has it closed; otherwise every flag is
      cleared, every menu hidden and a new shown menu added, and only then
      is the item flagged. */
  function Toggle(st: MenuState, item: nat, chatId: string, selectors: bool, closeAll: bool, create: bool): (r: MenuState)
    requires item < |st.rows|
    ensures !selectors ==> r == st
    ensures |r.rows| == |st.rows|
    ensures forall i :: 0 <= i < |st.rows| ==> r.rows[i].id == st.rows[i].id && r.rows[i].active == st.rows[i].active
    ensures selectors && st.rows[item].menuOpen ==>
      && !r.rows[item].menuOpen
      && (forall i :: 0 <= i < |st.rows| && i != item ==> r.rows[i] == st.rows[i])
      && r.menus == (if FirstShown(st.menus, chatId).Some? then RemoveMenu(st.menus, FirstShown(st.menus, chatId).value) else st.menus)
    ensures selectors && !st.rows[item].menuOpen ==>
      && (r.rows[item].menuOpen <==> create)
      && (forall i :: 0 <= i < |st.rows| && i != item ==> !r.rows[i].menuOpen)
      && r.menus == (if closeAll then HideAll(st.menus) else st.menus) + (if create then [Menu(chatId, true)] else [])
  {
    if !selectors then st
    else if st.rows[item].menuOpen then
      var menus := match FirstShown(st.menus, chatId)
        case Some(k) => RemoveMenu(st.menus, k)
        case None => st.menus;
      MenuState(st.rows[item := st.rows[item].(menuOpen := false)], menus)
    else
      var rows := ClearFlags(st.rows);
      var menus := if closeAll then HideAll(st.menus) else st.menus;
      if create then MenuState(rows[item := rows[item].(menuOpen := true)], menus + [Menu(chatId, true)])
      else MenuState(rows, menus)
  }

  /** At most one row is ever flagged as having its menu open, and with
      `closeAllContextMenus` present at most one menu is ever shown. */
  lemma ToggleKeepsOneOpen(st: MenuState, item: nat, chatId: string, selectors: bool, closeAll: bool, create: bool)
    requires item < |st.rows|
    requires AtMostOneOpen(st.rows)
    requires closeAll ==> AtMostOneShown(st.menus)
    ensures AtMostOneOpen(Toggle(st, item, chatId, selectors, closeAll, create).rows)
    ensures closeAll ==> AtMostOneShown(Toggle(st, item, chatId, selectors, closeAll, create).menus)
  {
    var r := Toggle(st, item, chatId, selectors, closeAll, create);
    if selectors && st.rows[item].menuOpen && closeAll {
      match FirstShown(st.menus, chatId)
      case Some(k) => RemoveKeepsOneShown(st.menus, k);
      case None =>
    }
  }

  lemma RemoveKeepsOneShown(menus: seq<Menu>, k: nat)
    requires k < |menus| && AtMostOneShown(menus)
    ensures AtMostOneShown(RemoveMenu(menus, k))
  {
    var r := RemoveMenu(menus, k);
    forall i, j | 0 <= i < j < |r| && r[i].shown
      ensures !r[j].shown
    {
      var i' := if i < k then i else i + 1;
      var j' := if j < k then j else j + 1;
      assert r[i] == menus[i'] && r[j] == menus[j'];
    }
  }

  /** Opening a closed menu and toggling the same row again closes it: no
      row is flagged and the page holds the earlier menus, all hidden. */
  lemma ToggleTwiceCloses(st: MenuState, item: nat, chatId: string)
    requires item < |st.rows| && !st.rows[item].menuOpen
    ensures var once := Toggle(st, item, chatId, true, true, true);
      var twice := Toggle(once, item, chatId, true, true, true);
      twice.rows == ClearFlags(st.rows) && twice.menus == HideAll(st.menus)
  {
    var once := Toggle(st, item, chatId, true, true, true);
    var hidden := HideAll(st.menus);
    assert once.menus == hidden + [Menu(chatId, true)];
    NoneShown(hidden, chatId);
    assert FirstShown(once.menus, chatId) == Some(|hidden|) by {
      assert once.menus[..|once.menus| - 1] == hidden;
    }
    var twice := Toggle(once, item, chatId, true, true, true);
    assert twice.menus == hidden;
    assert twice.rows == ClearFlags(st.rows);
  }

  lemma NoneShown(menus: seq<Menu>, chatId: string)
    requires forall i :: 0 <= i < |menus| ==> !menus[i].shown
    ensures FirstShown(menus, chatId).None?
  {
  }

  // ---------------------------------------------------------------------------
  // Placement

  /** The row's bounding box as `getBoundingClientRect` reports it. */
  datatype Rect = Rect(top: real, left: real, right: real, height: real)

  function Max(a: real, b: real): real {
    if a >= b then a else b
  }

  /** `positionContextMenu`: the menu's top and left for a `width` by
      `height` menu beside `item` in a `vw` by `vh` viewport. It is centred
      on the row and 10 px to its right, flipped to the left of the row
      when the right side would pass `vw - 10`, moved up when it would pass
      `vh - 10`, and kept at least 10 px from the top and left edges. */
  function Position(item: Rect, width: real, height: real, vw: real, vh: real): (r: (real, real))
    ensures r.0 >= 10.0 && r.1 >= 10.0
    ensures var centred := item.top + item.height / 2.0 - height / 2.0;
      10.0 <= centred && centred + height <= vh - 10.0 ==> r.0 == centred
    ensures 10.0 <= vh - height - 10.0 ==> r.0 + height <= vh - 10.0
    ensures item.right + 10.0 + width <= vw - 10.0 ==> r.1 == Max(10.0, item.right + 10.0)
    ensures item.right + 10.0 + width > vw - 10.0 ==> r.1 == Max(10.0, item.left - width - 10.0)
  {
    var top := item.top + item.height / 2.0 - height / 2.0;
    var left := item.right + 10.0;
    var left := if left + width > vw - 10.0 then item.left - width - 10.0 else left;
    var top := if top + height > vh - 10.0 then vh - height - 10.0 else top;
    var top := if top < 10.0 then 10.0 else top;
    (Max(10.0, top), Max(10.0, left))
  }

  /** In a viewport with room for the menu on one side of a row that lies
      inside it, the menu lies wholly inside the viewport with a 10 px
      margin and does not cover the row. */
  lemma MenuInsideViewport(item: Rect, width: real, height: real, vw: real, vh: real)
    requires 0.0 <= item.left <= item.right <= vw && width >= 0.0
    requires height + 20.0 <= vh
    requires item.right + 20.0 + width <= vw || item.left - width - 10.0 >= 10.0
    ensures var (top, left) := Position(item, width, height, vw, vh);
      && 10.0 <= top && top + height <= vh - 10.0
      && 10.0 <= left && left + width <= vw - 10.0
      && (left >= item.right + 10.0 || left + width + 10.0 <= item.left)
  {
  }

  // ---------------------------------------------------------------------------
  // The menu items

  /** Closing the menu from one of its items: the first row with the id
      loses its flag and the menu at `menu` leaves the page. */
  function CloseFrom(st: MenuState, menu: nat, chatId: string): (r: MenuState)
    requires menu < |st.menus|
    ensures |r.rows| == |st.rows| && |r.menus| == |st.menus| - 1
    ensures forall i :: 0 <= i < |st.rows| ==>
      r.rows[i] == (if FirstWithId(st.rows, chatId) == Some(i) then st.rows[i].(menuOpen := false) else st.rows[i])
  {
    var rows := match FirstWithId(st.rows, chatId)
      case Some(k) => st.rows[k := st.rows[k].(menuOpen := false)]
      case None => st.rows;
    MenuState(rows, RemoveMenu(st.menus, menu))
  }

  /** Whether the rename item asks the server for a rename: the answer must
      be a non-empty string other than the old name, and in the fallback
      path through `prompt` also not blank. `answer` is None for `null`. */
  predicate WantsRename(viaModal: bool, answer: Option<string>, chatName: string) {
    && answer.Some? && answer.value != "" && answer.value != chatName
    && (viaModal || JsTrim(answer.value) != "")
  }

  /** The rename item: close the menu, ask, and write
      `rename:<id>:<encoded name>` into the field when a rename is wanted. */
  function OnRename(st: MenuState, field: Field, menu: nat, chatId: string, chatName: string,
                    viaModal: bool, answer: Option<string>, encode: string -> string): (r: (MenuState, Field))
    requires menu < |st.menus|
    ensures r.0 == CloseFrom(st, menu, chatId)
    ensures !WantsRename(viaModal, answer, chatName) ==> r.1 == field
    ensures WantsRename(viaModal, answer, chatName) ==> r.1 == Submit(field, RenameCommand(chatId, answer.value, encode))
  {
    (CloseFrom(st, menu, chatId),
     if WantsRename(viaModal, answer, chatName) then Submit(field, RenameCommand(chatId, answer.value, encode)) else field)
  }

  /** The pin item only closes the menu; no command is sent. */
  function OnPin(st: MenuState, field: Field, menu: nat, chatId: string): (r: (MenuState, Field))
    requires menu < |st.menus|
    ensures r.1 == field
    ensures r.0 == CloseFrom(st, menu, chatId)
  {
    (CloseFrom(st, menu, chatId), field)
  }

  /** `chatItem && chatItem.classList.contains('active')`: false when no row
      has the id. */
  function IsActive(rows: seq<ChatRow>, chatId: string): (b: bool)
    ensures b <==> exists i :: 0 <= i < |rows| && rows[i].active && FirstWithId(rows, chatId) == Some(i)
  {
    match FirstWithId(rows, chatId)
    case Some(k) => rows[k].active
    case None => false
  }

  /** The delete item: close the menu, ask, and on confirmation write
      `delete:<id>:active` or `delete:<id>:inactive` after the row's
      'active' class. */
  function OnDelete(st: MenuState, field: Field, menu: nat, chatId: string, confirmed: bool): (r: (MenuState, Field))
    requires menu < |st.menus|
    ensures r.0 == CloseFrom(st, menu, chatId)
    ensures !confirmed ==> r.1 == field
    ensures confirmed ==> r.1 == Submit(field, DeleteCommand(chatId, IsActive(st.rows, chatId)))
  {
    (CloseFrom(st, menu, chatId), if confirmed then Submit(field, DeleteCommand(chatId, IsActive(st.rows, chatId))) else field)
  }

  /** What the rename item sends for an id without ':' reads back on the
      server as that id and the answer, and is routed as a rename. */
  lemma RenameSentReadsBack(st: MenuState, field: Field, menu: nat, chatId: string, chatName: string,
                            viaModal: bool, answer: Option<string>, encode: string -> string, decode: string -> string)
    requires menu < |st.menus| && field.Field?
    requires ':' !in chatId && forall x :: decode(encode(x)) == x
    requires WantsRename(viaModal, answer, chatName)
    ensures var f := OnRename(st, field, menu, chatId, chatName, viaModal, answer, encode).1;
      f.Field? && |f.sent| == |field.sent| + 1
      && ParseRename(f.sent[|f.sent| - 1], decode) == Some((chatId, answer.value))
  {
    RenameRoundTrip(chatId, answer.value, encode, decode);
  }

  /** What the delete item sends for an id without ':' reads back on the
      server as that id and whether its row was the active one. */
  lemma DeleteSentReadsBack(st: MenuState, field: Field, menu: nat, chatId: string)
    requires menu < |st.menus| && field.Field?
    requires ':' !in chatId
    ensures var f := OnDelete(st, field, menu, chatId, true).1;
      f.Field? && |f.sent| == |field.sent| + 1
      && ParseDelete(f.sent[|f.sent| - 1]) == Some((chatId, IsActive(st.rows, chatId)))
  {
    DeleteRoundTrip(chatId, IsActive(st.rows, chatId));
  }
}

=== FILE: context_utils.dfy ===
/** Helpers of the context-compression pipeline (services/context/utils.py):
    the user/assistant interaction and its text, reading interactions back
    out of a raw tail, greedy grouping into chunks for first-level (L1)
    summaries, and collecting message indices. */
module ContextUtils {
  import opened Wrappers
  import opened Text
  import Summarizers

  const UserLabel: string := "Пользователь:"
  const AssistantLabel: string := "Ассистент:"

  /** `SimpleInteraction`: one user message and the assistant's answer. */
  datatype Interaction = Interaction(user: string, assistant: string, indices: seq<int>)

  /** The `text` property: `"Пользователь: <user>\nАссистент: <assistant>"`. */
  function InteractionText(x: Interaction): string {
    UserLabel + " " + x.user + "\n" + AssistantLabel + " " + x.assistant
  }

  /** The `char_count` property. */
  function CharCount(x: Interaction): nat {
    |InteractionText(x)|
  }

  /** `format_interaction_for_summary` builds the same string as `text`. */
  function FormatForSummary(x: Interaction): (r: string)
    ensures r == InteractionText(x)
    ensures |r| == CharCount(x)
  {
    "Пользователь: " + x.user + "\nАссистент: " + x.assistant
  }

  // ---------------------------------------------------------------------------
  // Concatenation and sizes

  function Concat<T>(ss: seq<seq<T>>): seq<T> {
    if ss == [] then [] else Concat(ss[..|ss| - 1]) + ss[|ss| - 1]
  }

  lemma ConcatAppend<T>(ss: seq<seq<T>>, s: seq<T>)
    ensures Concat(ss + [s]) == Concat(ss) + s
  {
    assert (ss + [s])[..|ss|] == ss;
  }

  /** Summed `char_count` of a chunk. */
  function Size(c: seq<Interaction>): nat {
    if c == [] then 0 else Size(c[..|c| - 1]) + CharCount(c[|c| - 1])
  }

  /** Every interaction's text holds at least the two labels. */
  lemma CharCountPositive(x: Interaction)
    ensures CharCount(x) > 0
  {
    assert |InteractionText(x)| >= |UserLabel|;
  }

  /** Every member of a chunk counts towards its size, and strictly so when
      the chunk has another member. */
  lemma {:induction false} SizeAtLeastMember(c: seq<Interaction>, i: nat)
    requires i < |c|
    ensures CharCount(c[i]) <= Size(c)
    ensures |c| >= 2 ==> CharCount(c[i]) < Size(c)
    decreases |c|
  {
    var n := |c| - 1;
    CharCountPositive(c[n]);
    if i < n {
      SizeAtLeastMember(c[..n], i);
      assert c[..n][i] == c[i];
    } else if |c| >= 2 {
      SizeAtLeastMember(c[..n], 0);
      assert c[..n][0] == c[0];
      CharCountPositive(c[0]);
    }
  }

  // ---------------------------------------------------------------------------
  // Grouping into chunks

  /** The loop state of `group_interactions_into_chunks`: closed chunks, the
      open chunk and its size. */
  datatype Grouping = Grouping(chunks: seq<seq<Interaction>>, current: seq<Interaction>, size: int)

  /** One loop iteration. With overflow allowed, an interaction larger than
      the target closes the open chunk and stands alone; otherwise it joins
      the open chunk when the sum stays within the target, and starts a new
      chunk when not. */
  function GroupStep(g: Grouping, x: Interaction, target: int, allowOverflow: bool): Grouping {
    var n := CharCount(x);
    if allowOverflow && n > target then
      if g.current == [] then Grouping(g.chunks + [[x]], [], g.size)
      else Grouping(g.chunks + [g.current], [x], n)
    else if g.size + n <= target then Grouping(g.chunks, g.current + [x], g.size + n)
    else Grouping(if g.current != [] then g.chunks + [g.current] else g.chunks, [x], n)
  }

  function GroupFold(xs: seq<Interaction>, target: int, allowOverflow: bool): Grouping {
    if xs == [] then Grouping([], [], 0)
    else GroupStep(GroupFold(xs[..|xs| - 1], target, allowOverflow), xs[|xs| - 1], target, allowOverflow)
  }

  /** No chunk is empty, and a chunk of two or more interactions stays within
      the target. */
  predicate WellFormedChunk(c: seq<Interaction>, target: int) {
    c != [] && (|c| >= 2 ==> Size(c) <= target)
  }

  predicate GroupingInv(g: Grouping, xs: seq<Interaction>, target: int) {
    && Concat(g.chunks) + g.current == xs
    && (forall i :: 0 <= i < |g.chunks| ==> WellFormedChunk(g.chunks[i], target))
    && g.size == Size(g.current)
    && (|g.current| >= 2 ==> g.size <= target)
  }

  /** The open chunk grows by one interaction within the target. */
  lemma AppendToCurrent(g: Grouping, xs: seq<Interaction>, x: Interaction, target: int)
    requires GroupingInv(g, xs, target)
    requires g.size + CharCount(x) <= target
    ensures GroupingInv(Grouping(g.chunks, g.current + [x], g.size + CharCount(x)), xs + [x], target)
  {
    assert (g.current + [x])[..|g.current|] == g.current;
  }

  /** The open chunk, when not empty, is closed and `x` opens the next one. */
  lemma CloseCurrent(g: Grouping, xs: seq<Interaction>, x: Interaction, target: int)
    requires GroupingInv(g, xs, target)
    ensures var chunks := if g.current != [] then g.chunks + [g.current] else g.chunks;
      GroupingInv(Grouping(chunks, [x], CharCount(x)), xs + [x], target)
  {
    assert Size([x]) == CharCount(x) by { assert [x][..0] == []; }
    if g.current != [] {
      ConcatAppend(g.chunks, g.current);
    }
  }

  /** `x` closes a chunk of its own and the open chunk stays empty. */
  lemma AloneChunk(g: Grouping, xs: seq<Interaction>, x: Interaction, target: int)
    requires GroupingInv(g, xs, target) && g.current == []
    ensures GroupingInv(Grouping(g.chunks + [[x]], [], g.size), xs + [x], target)
  {
    ConcatAppend(g.chunks, [x]);
  }

  lemma GroupStepInv(g: Grouping, xs: seq<Interaction>, x: Interaction, target: int, allowOverflow: bool)
    requires GroupingInv(g, xs, target)
    ensures GroupingInv(GroupStep(g, x, target, allowOverflow), xs + [x], target)
  {
    if allowOverflow && CharCount(x) > target {
      if g.current == [] {
        AloneChunk(g, xs, x, target);
      } else {
        CloseCurrent(g, xs, x, target);
      }
    } else if g.size + CharCount(x) <= target {
      AppendToCurrent(g, xs, x, target);
    } else {
      CloseCurrent(g, xs, x, target);
    }
  }

  lemma {:induction false} GroupFoldInv(xs: seq<Interaction>, target: int, allowOverflow: bool)
    ensures GroupingInv(GroupFold(xs, target, allowOverflow), xs, target)
    decreases |xs|
  {
    if xs != [] {
      var n := |xs| - 1;
      GroupFoldInv(xs[..n], target, allowOverflow);
      GroupStepInv(GroupFold(xs[..n], target, allowOverflow), xs[..n], xs[n], target, allowOverflow);
      assert xs == xs[..n] + [xs[n]];
    }
  }

  /** `group_interactions_into_chunks`: the closed chunks, then the open one
      when it is not empty. Grouping keeps every interaction in order,
      nothing dropped or repeated; no chunk is empty; a chunk of two or more
      interactions stays within the target; an empty input gives no chunks. */
  function GroupIntoChunks(xs: seq<Interaction>, target: int, allowOverflow: bool): (r: seq<seq<Interaction>>)
    ensures Concat(r) == xs
    ensures forall c :: c in r ==> WellFormedChunk(c, target)
    ensures xs == [] <==> r == []
  {
    var g := GroupFold(xs, target, allowOverflow);
    GroupFoldInv(xs, target, allowOverflow);
    var r := if g.current != [] then g.chunks + [g.current] else g.chunks;
    if g.current != [] then
      ConcatAppend(g.chunks, g.current);
      assert forall c :: c in r ==> c == g.current || c in g.chunks;
      r
    else
      r
  }

  /** An interaction larger than the target sits alone in its chunk, in both
      modes, provided it carries text (every interaction does). */
  lemma OversizedAlone(xs: seq<Interaction>, target: int, allowOverflow: bool, c: seq<Interaction>, i: nat)
    requires c in GroupIntoChunks(xs, target, allowOverflow)
    requires i < |c| && CharCount(c[i]) > target
    ensures c == [c[i]]
  {
    assert WellFormedChunk(c, target);
    SizeAtLeastMember(c, i);
  }

  // ---------------------------------------------------------------------------
  // Message indices

  lemma NonEmptyHasMember(s: set<int>)
    requires s != {}
    ensures exists x :: x in s
  {
    if forall x :: x !in s {
      assert false;
    }
  }

  /** A non-empty finite set of integers has a least element. */
  lemma {:induction false} MinExists(s: set<int>)
    requires s != {}
    ensures exists m :: m in s && forall y :: y in s ==> m <= y
    decreases |s|
  {
    NonEmptyHasMember(s);
    var x :| x in s;
    var r := s - {x};
    if r != {} {
      MinExists(r);
      var m :| m in r && forall y :: y in r ==> m <= y;
      if x < m {
        forall y | y in s ensures x <= y { if y != x { assert y in r; } }
      } else {
        forall y | y in s ensures m <= y { if y != x { assert y in r; } }
      }
    } else {
      forall y | y in s ensures x <= y { assert y !in r; }
    }
  }

  /** The least element of a non-empty set. */
  function Min(s: set<int>): (m: int)
    requires s != {}
    ensures m in s && forall y :: y in s ==> m <= y
  {
    MinExists(s);
    var m :| m in s && forall y :: y in s ==> m <= y;
    m
  }

  /** `sorted(set)`: the elements in strictly increasing order. */
  function SortedSet(s: set<int>): (r: seq<int>)
    ensures forall i, j :: 0 <= i < j < |r| ==> r[i] < r[j]
    ensures forall x :: x in r <==> x in s
    decreases |s|
  {
    if s == {} then []
    else
      var m := Min(s);
      var rest := SortedSet(s - {m});
      PrependMin(m, s, rest);
      [m] + rest
  }

  lemma PrependMin(m: int, s: set<int>, rest: seq<int>)
    requires m in s && forall y :: y in s ==> m <= y
    requires forall i, j :: 0 <= i < j < |rest| ==> rest[i] < rest[j]
    requires forall x :: x in rest <==> x in s - {m}
    ensures forall i, j :: 0 <= i < j < |[m] + rest| ==> ([m] + rest)[i] < ([m] + rest)[j]
    ensures forall x :: x in [m] + rest <==> x in s
  {
    var r := [m] + rest;
    forall i, j | 0 <= i < j < |r| ensures r[i] < r[j] {
      if i == 0 {
        assert r[j] == rest[j - 1] && rest[j - 1] in rest;
      } else {
        assert r[i] == rest[i - 1] && r[j] == rest[j - 1];
      }
    }
  }

  function IndexSet(xs: seq<Interaction>): set<int> {
    set i, k | 0 <= i < |xs| && k in xs[i].indices :: k
  }

  /** `extract_message_indices_from_interactions`: every index any of the
      interactions carries, once, in increasing order. */
  function ExtractIndices(xs: seq<Interaction>): (r: seq<int>)
    ensures forall i, j :: 0 <= i < j < |r| ==> r[i] < r[j]
    ensures forall k :: k in r <==> exists i :: 0 <= i < |xs| && k in xs[i].indices
  {
    SortedSet(IndexSet(xs))
  }

  // ---------------------------------------------------------------------------
  // Parsing a raw tail back into interactions

  // The pattern `Пользователь:\s*(.*?)\nАссистент:\s*(.*?)(?=\n\nПользователь:|\Z)`
  // under DOTALL, as `re.findall` runs it (utils.py:49-51).

  /** The literal in front of the second group. */
  const AnswerStart: string := "\n" + AssistantLabel
  /** The lookahead that ends the second group short of the end of the text. */
  const NextUser: string := "\n\n" + UserLabel

  /** The first position at or after `i` where `p` occurs: where the regex
      engine, scanning forward, first finds the literal. */
  function FirstFrom(s: string, p: string, i: nat): (r: Option<nat>)
    ensures r.Some? ==> i <= r.value && r.value + |p| <= |s|
    decreases |s| + 1 - i
  {
    if i > |s| then None
    else if Summarizers.OccursAt(s, p, i) then Some(i)
    else FirstFrom(s, p, i + 1)
  }

  lemma {:induction false} FirstFromSpec(s: string, p: string, i: nat)
    ensures FirstFrom(s, p, i).Some? ==> Summarizers.OccursAt(s, p, FirstFrom(s, p, i).value)
    ensures forall k :: i <= k <= |s| && (FirstFrom(s, p, i).None? || k < FirstFrom(s, p, i).value) ==> !Summarizers.OccursAt(s, p, k)
    decreases |s| + 1 - i
  {
    if i <= |s| && !Summarizers.OccursAt(s, p, i) {
      FirstFromSpec(s, p, i + 1);
    }
  }

  /** The largest position below `n` where `p` occurs. */
  function LastBelow(s: string, p: string, n: nat): (r: Option<nat>)
    ensures r.Some? ==> r.value < n && r.value + |p| <= |s|
  {
    if n == 0 then None
    else if Summarizers.OccursAt(s, p, n - 1) then Some(n - 1)
    else LastBelow(s, p, n - 1)
  }

  lemma {:induction false} LastBelowSpec(s: string, p: string, n: nat)
    ensures LastBelow(s, p, n).Some? ==> Summarizers.OccursAt(s, p, LastBelow(s, p, n).value)
    ensures forall k: nat :: k < n && (LastBelow(s, p, n).None? || LastBelow(s, p, n).value < k) ==> !Summarizers.OccursAt(s, p, k)
  {
    if n > 0 && !Summarizers.OccursAt(s, p, n - 1) {
      LastBelowSpec(s, p, n - 1);
    }
  }

  /** A match: the two groups and where the match ends. */
  datatype Match = Match(user: string, assistant: string, end: nat)

  lemma OccursShiftBy(s: string, p: string, d: nat)
    requires d <= |s|
    ensures forall k :: d <= k <= |s| ==> (Summarizers.OccursAt(s, p, k) <==> Summarizers.OccursAt(s[d..], p, k - d))
  {
    forall k | d <= k <= |s| ensures Summarizers.OccursAt(s, p, k) <==> Summarizers.OccursAt(s[d..], p, k - d) {
      assert s[k..] == s[d..][k - d..];
    }
  }

  /** How much whitespace a greedy `\s*` takes at the start of `t`. */
  function LeadSpace(t: string): (k: nat)
    ensures k <= |t|
  {
    if t != [] && IsPySpace(t[0]) then 1 + LeadSpace(t[1..]) else 0
  }

  lemma {:induction false} LeadSpaceSpec(t: string)
    ensures AllSpace(t[..LeadSpace(t)], IsPySpace)
    ensures LeadSpace(t) < |t| ==> !IsPySpace(t[LeadSpace(t)])
  {
    if t != [] && IsPySpace(t[0]) {
      LeadSpaceSpec(t[1..]);
      assert t[..LeadSpace(t)] == [t[0]] + t[1..][..LeadSpace(t[1..])];
    }
  }

  /** The first group, in the text after the user label: `\s*` takes all
      the leading whitespace and the lazy group then stops at the first
      `\nАссистент:` after it. Only when there is none does `\s*` give
      back whitespace, and the group is then empty, ending at the last
      `\nАссистент:` inside that whitespace. The result is where the group
      starts and where `\nАссистент:` follows it. */
  function QuestionGroup(t: string): (r: Option<(nat, nat)>)
    ensures r.Some? ==> r.value.0 <= r.value.1 && r.value.1 + |AnswerStart| <= |t|
  {
    var e := LeadSpace(t);
    match FirstFrom(t, AnswerStart, e)
    case Some(m) => Some((e, m))
    case None =>
      match LastBelow(t, AnswerStart, e)
      case Some(k) => Some((k, k))
      case None => None
  }

  /** The first group exists exactly when `\nАссистент:` occurs, it is
      followed by one, and none occurs inside it. */
  lemma {:induction false} QuestionGroupSpec(t: string)
    ensures QuestionGroup(t).Some? <==> exists k :: 0 <= k <= |t| && Summarizers.OccursAt(t, AnswerStart, k)
    ensures QuestionGroup(t).Some? ==> Summarizers.OccursAt(t, AnswerStart, QuestionGroup(t).value.1)
    ensures QuestionGroup(t).Some? ==> forall k :: QuestionGroup(t).value.0 <= k < QuestionGroup(t).value.1 ==> !Summarizers.OccursAt(t, AnswerStart, k)
    ensures QuestionGroup(t).Some? ==> AllSpace(t[..QuestionGroup(t).value.0], IsPySpace)
  {
    var e := LeadSpace(t);
    FirstFromSpec(t, AnswerStart, e);
    LastBelowSpec(t, AnswerStart, e);
    LeadSpaceSpec(t);
    if QuestionGroup(t).Some? {
      SpacePrefix(t, QuestionGroup(t).value.0, e);
    }
  }

  /** A prefix of leading whitespace is whitespace. */
  lemma SpacePrefix(t: string, k: nat, e: nat)
    requires k <= e <= |t| && AllSpace(t[..e], IsPySpace)
    ensures AllSpace(t[..k], IsPySpace)
  {
    assert forall i :: 0 <= i < k ==> t[..k][i] == t[..e][i];
  }

  /** The second group, in the text after `\nАссистент:`: `\s*` takes all
      the leading whitespace (the group can always run to the end, so it
      never gives any back), and the lazy group stops before the first blank
      line followed by the user label, or at the end. The result is where
      the group starts and ends. */
  function AnswerGroup(t: string): (r: (nat, nat))
    ensures r.0 <= r.1 <= |t|
  {
    var e := LeadSpace(t);
    match FirstFrom(t, NextUser, e)
    case Some(k) => (e, k)
    case None => (e, |t|)
  }

  /** The second group starts after whitespace only, ends before a blank
      line and the user label or at the end, and has no such blank line
      inside. */
  lemma {:induction false} AnswerGroupSpec(t: string)
    ensures AllSpace(t[..AnswerGroup(t).0], IsPySpace)
    ensures AnswerGroup(t).1 == |t| || Summarizers.OccursAt(t, NextUser, AnswerGroup(t).1)
    ensures forall k :: AnswerGroup(t).0 <= k < AnswerGroup(t).1 ==> !Summarizers.OccursAt(t, NextUser, k)
  {
    var e := LeadSpace(t);
    LeadSpaceSpec(t);
    FirstFromSpec(t, NextUser, e);
  }

  /** The pattern tried at the start of `s`: the user label, then the rest
      of the pattern on the text after it. */
  function MatchAt(s: string): (r: Option<Match>)
    ensures r.Some? ==> StartsWith(s, UserLabel) && |UserLabel| < r.value.end <= |s|
  {
    if !StartsWith(s, UserLabel) then None
    else
      match MatchAfterLabel(s[|UserLabel|..])
      case None => None
      case Some(m) => Some(m.(end := |UserLabel| + m.end))
  }

  /** The question group, `\nАссистент:` and the answer group, on the text
      after the user label; the match ends with the answer group. */
  function MatchAfterLabel(t: string): (r: Option<Match>)
    ensures r.Some? ==> 0 < r.value.end <= |t|
  {
    match QuestionGroup(t)
    case None => None
    case Some(q) =>
      var b := q.1 + |AnswerStart|;
      var w := t[b..];
      var ag := AnswerGroup(w);
      Some(Match(t[q.0..q.1], w[ag.0..ag.1], b + ag.1))
  }

  /** The answer group is the last thing a match consumes. */
  lemma {:induction false} MatchEndsWithAnswer(s: string)
    ensures MatchAt(s).Some? ==> EndsWith(s[..MatchAt(s).value.end], MatchAt(s).value.assistant)
  {
    if StartsWith(s, UserLabel) {
      var t := s[|UserLabel|..];
      AfterLabelEndsWithAnswer(t);
      match MatchAfterLabel(t)
      case None =>
      case Some(m) =>
        var i := m.end - |m.assistant|;
        TakeDrop(t, i, m.end);
        SliceOfSuffix(s, |UserLabel|, i, m.end);
    }
  }

  lemma {:induction false} AfterLabelEndsWithAnswer(t: string)
    ensures MatchAfterLabel(t).Some? ==> EndsWith(t[..MatchAfterLabel(t).value.end], MatchAfterLabel(t).value.assistant)
  {
    match QuestionGroup(t)
    case None =>
    case Some(q) =>
      var b := q.1 + |AnswerStart|;
      var ag := AnswerGroup(t[b..]);
      SliceOfSuffix(t, b, ag.0, ag.1);
  }

  /** A match exists exactly when the text starts with the user label and
      `\nАссистент:` occurs after it, and it ends right before a blank line
      and the next user label, or at the end of the text. */
  lemma {:induction false} MatchAtExists(s: string)
    ensures MatchAt(s).Some? <==> StartsWith(s, UserLabel) && exists k :: |UserLabel| <= k <= |s| && Summarizers.OccursAt(s, AnswerStart, k)
    ensures MatchAt(s).Some? ==> MatchAt(s).value.end == |s| || Summarizers.OccursAt(s, NextUser, MatchAt(s).value.end)
  {
    if StartsWith(s, UserLabel) {
      var j0 := |UserLabel|;
      var t := s[j0..];
      AfterLabelExists(t);
      AnswerStartShift(s, j0);
      OccursShiftBy(s, NextUser, j0);
    }
  }

  /** `\nАссистент:` occurs in `s` from `d` on exactly when it occurs in
      `s[d..]`. */
  lemma AnswerStartShift(s: string, d: nat)
    requires d <= |s|
    ensures (exists k :: d <= k <= |s| && Summarizers.OccursAt(s, AnswerStart, k))
      <==> (exists k :: 0 <= k <= |s[d..]| && Summarizers.OccursAt(s[d..], AnswerStart, k))
  {
    OccursShiftBy(s, AnswerStart, d);
    if exists k :: d <= k <= |s| && Summarizers.OccursAt(s, AnswerStart, k) {
      var k :| d <= k <= |s| && Summarizers.OccursAt(s, AnswerStart, k);
      assert Summarizers.OccursAt(s[d..], AnswerStart, k - d);
    }
    if exists k :: 0 <= k <= |s[d..]| && Summarizers.OccursAt(s[d..], AnswerStart, k) {
      var k :| 0 <= k <= |s[d..]| && Summarizers.OccursAt(s[d..], AnswerStart, k);
      assert Summarizers.OccursAt(s, AnswerStart, d + k);
    }
  }

  lemma {:induction false} AfterLabelExists(t: string)
    ensures MatchAfterLabel(t).Some? <==> exists k :: 0 <= k <= |t| && Summarizers.OccursAt(t, AnswerStart, k)
    ensures MatchAfterLabel(t).Some? ==> MatchAfterLabel(t).value.end == |t| || Summarizers.OccursAt(t, NextUser, MatchAfterLabel(t).value.end)
  {
    QuestionGroupSpec(t);
    match QuestionGroup(t)
    case None =>
    case Some(q) =>
      var b := q.1 + |AnswerStart|;
      AnswerGroupSpec(t[b..]);
      OccursShiftBy(t, NextUser, b);
  }


  /** `re.findall`: the leftmost match, then the search goes on after it.
      Every match consumes at least the user label, so there are fewer
      matches than characters. */
  function FindAll(s: string): (r: seq<(string, string)>)
    ensures |r| <= |s|
    decreases |s|
  {
    if s == [] then []
    else
      match MatchAt(s)
      case Some(m) => [(m.user, m.assistant)] + FindAll(s[m.end..])
      case None => FindAll(s[1..])
  }

  /** A text in which the user label never occurs has no match. */
  lemma {:induction false} FindAllNoLabel(s: string)
    ensures !Contains(s, UserLabel) ==> FindAll(s) == []
    decreases |s|
  {
    if s != [] && !Contains(s, UserLabel) {
      assert s[0..] == s;
      assert MatchAt(s) == None;
      ContainsTail(s, UserLabel);
      FindAllNoLabel(s[1..]);
    }
  }

  lemma ContainsTail(s: string, p: string)
    requires s != []
    ensures Contains(s[1..], p) ==> Contains(s, p)
  {
    if Contains(s[1..], p) {
      var i :| 0 <= i <= |s[1..]| && StartsWith(s[1..][i..], p);
      assert s[1..][i..] == s[i + 1..];
    }
  }

  /** The regular-expression pass: the (user, assistant) pairs it matched,
      stripped, keeping only pairs where both sides are non-empty. */
  function KeepMatches(matches: seq<(string, string)>): (r: seq<Interaction>)
    ensures |r| <= |matches|
    ensures forall i :: 0 <= i < |r| ==> Kept(r[i])
  {
    if matches == [] then []
    else KeepMatch(KeepMatches(matches[..|matches| - 1]), matches[|matches| - 1])
  }

  /** One match: kept, stripped, when both sides are non-empty once stripped. */
  function KeepMatch(kept: seq<Interaction>, m: (string, string)): (r: seq<Interaction>)
    requires forall i :: 0 <= i < |kept| ==> Kept(kept[i])
    ensures |r| <= |kept| + 1
    ensures forall i :: 0 <= i < |r| ==> Kept(r[i])
  {
    if PyStrip(m.0) != [] && PyStrip(m.1) != [] then
      var x := Interaction(PyStrip(m.0), PyStrip(m.1), []);
      StrippedPairKept(m.0, m.1);
      AppendKept(kept, x);
      kept + [x]
    else kept
  }

  lemma AppendKept(kept: seq<Interaction>, x: Interaction)
    requires forall i :: 0 <= i < |kept| ==> Kept(kept[i])
    requires Kept(x)
    ensures forall i :: 0 <= i < |kept + [x]| ==> Kept((kept + [x])[i])
  {
  }

  /** A pair the regular-expression pass keeps: both sides non-empty with no
      whitespace at either end, no message indices. */
  predicate Kept(x: Interaction) {
    x.indices == [] && Bare(x.user) && Bare(x.assistant)
  }

  /** Non-empty, with no Python whitespace at either end. */
  predicate Bare(s: string) {
    s != [] && !IsPySpace(s[0]) && !IsPySpace(s[|s| - 1])
  }

  /** A kept pair is exactly a non-empty pair that stripping leaves as it is. */
  lemma KeptIsStripped(x: Interaction)
    ensures Kept(x) <==> (x.indices == [] && x.user != [] && x.assistant != []
      && PyStrip(x.user) == x.user && PyStrip(x.assistant) == x.assistant)
  {
    if Kept(x) {
      TrimOfTrimmed(x.user, IsPySpace);
      TrimOfTrimmed(x.assistant, IsPySpace);
    }
  }

  lemma StrippedPairKept(u: string, a: string)
    requires PyStrip(u) != [] && PyStrip(a) != []
    ensures Kept(Interaction(PyStrip(u), PyStrip(a), []))
  {
  }

  /** The state of the line-based fallback. */
  datatype LineState = LineState(done: seq<Interaction>, user: Option<string>, assistant: Option<string>, inAssistant: bool)

  /** One line of the fallback: a user line closes the pending pair and opens
      a new one with an empty answer; an assistant line replaces the answer;
      other lines continue the answer, or else the question. */
  function ParseLine(st: LineState, line: string): LineState {
    if StartsWith(line, UserLabel) then
      var done := if st.user.Some? && st.assistant.Some? then st.done + [Interaction(st.user.value, st.assistant.value, [])] else st.done;
      LineState(done, Some(PyStrip(line[|UserLabel|..])), Some(""), false)
    else if StartsWith(line, AssistantLabel) then
      st.(assistant := Some(PyStrip(line[|AssistantLabel|..])), inAssistant := true)
    else if st.inAssistant && st.assistant.Some? then
      st.(assistant := Some(st.assistant.value + "\n" + line))
    else if st.user.Some? then
      st.(user := Some(st.user.value + "\n" + line))
    else st
  }

  /** The fallback over the lines so far: a question is pending exactly
      when some line started with the user label, it then has an answer,
      the closed pairs and the pending one number the user lines, and no
      pair carries indices. */
  function ParseLines(lines: seq<string>): (st: LineState)
    ensures st.user.Some? <==> CountUserLines(lines) > 0
    ensures st.user.Some? ==> st.assistant.Some?
    ensures |st.done| + (if st.user.Some? then 1 else 0) == CountUserLines(lines)
    ensures forall x :: x in st.done ==> x.indices == []
  {
    if lines == [] then LineState([], None, None, false)
    else ParseLine(ParseLines(lines[..|lines| - 1]), lines[|lines| - 1])
  }

  /** The fallback: the stripped text split into lines, the last pending
      pair kept. */
  function FallbackParse(text: string): (r: seq<Interaction>)
    ensures |r| == CountUserLines(Split(PyStrip(text), '\n'))
    ensures forall x :: x in r ==> x.indices == []
  {
    var st := ParseLines(Split(PyStrip(text), '\n'));
    if st.user.Some? && st.assistant.Some? then st.done + [Interaction(st.user.value, st.assistant.value, [])] else st.done
  }

  function CountUserLines(lines: seq<string>): nat {
    if lines == [] then 0
    else CountUserLines(lines[..|lines| - 1]) + (if StartsWith(lines[|lines| - 1], UserLabel) then 1 else 0)
  }

  /** `parse_text_to_interactions`: the kept regular-expression matches, or
      the line-based fallback only when none were kept. */
  function ParseTextToInteractions(text: string): (r: seq<Interaction>)
    ensures KeepMatches(FindAll(text)) != [] ==> r == KeepMatches(FindAll(text))
    ensures KeepMatches(FindAll(text)) == [] ==> r == FallbackParse(text)
  {
    var kept := KeepMatches(FindAll(text));
    if kept != [] then kept else FallbackParse(text)
  }

  /** Interactions read back from text carry no message indices, so the
      indices collected for any chunk of them are empty. */
  lemma ParsedCarryNoIndices(text: string, target: int, allowOverflow: bool, c: seq<Interaction>)
    requires c in GroupIntoChunks(ParseTextToInteractions(text), target, allowOverflow)
    ensures ExtractIndices(c) == []
  {
    var xs := ParseTextToInteractions(text);
    ConcatMembers(GroupIntoChunks(xs, target, allowOverflow), c);
    forall i | 0 <= i < |c| ensures c[i].indices == [] {
      assert c[i] in c;
    }
    assert IndexSet(c) == {};
  }

  lemma {:induction false} ConcatMembers<T>(ss: seq<seq<T>>, c: seq<T>)
    requires c in ss
    ensures forall x :: x in c ==> x in Concat(ss)
    decreases |ss|
  {
    var n := |ss| - 1;
    if c != ss[n] {
      assert c in ss[..n];
      ConcatMembers(ss[..n], c);
    }
  }

  /** The two lines of an interaction's text. */
  function UserLine(x: Interaction): string {
    UserLabel + " " + x.user
  }

  function AssistantLine(x: Interaction): string {
    AssistantLabel + " " + x.assistant
  }

  /** The text of an interaction with single-line, stripped messages strips
      to itself and splits into its two lines. */
  lemma InteractionLines(x: Interaction)
    requires '\n' !in x.user && '\n' !in x.assistant
    requires PyStrip(x.assistant) == x.assistant && x.assistant != []
    ensures Split(PyStrip(InteractionText(x)), '\n') == [UserLine(x), AssistantLine(x)]
  {
    InteractionTextStripped(x);
    InteractionTextJoined(x);
    var parts := [UserLine(x), AssistantLine(x)];
    LinesSingle(x);
    SplitOfJoin(parts, '\n');
  }

  lemma InteractionTextStripped(x: Interaction)
    requires PyStrip(x.assistant) == x.assistant && x.assistant != []
    ensures PyStrip(InteractionText(x)) == InteractionText(x)
  {
    var t := InteractionText(x);
    assert !IsPySpace(t[0]);
    assert t[|t| - 1] == x.assistant[|x.assistant| - 1];
    TrimOfTrimmed(t, IsPySpace);
  }

  lemma InteractionTextJoined(x: Interaction)
    ensures InteractionText(x) == Join([UserLine(x), AssistantLine(x)], "\n")
  {
    var l1, l2 := UserLine(x), AssistantLine(x);
    assert [l1, l2][1..] == [l2];
  }

  lemma LinesSingle(x: Interaction)
    requires '\n' !in x.user && '\n' !in x.assistant
    ensures var parts := [UserLine(x), AssistantLine(x)];
      forall i :: 0 <= i < |parts| ==> '\n' !in parts[i]
  {
    LabelsSingleLine();
    CharNotInAppend('\n', UserLabel + " ", x.user);
    CharNotInAppend('\n', AssistantLabel + " ", x.assistant);
    var parts := [UserLine(x), AssistantLine(x)];
    assert '\n' !in parts[0] && '\n' !in parts[1];
  }

  /** Neither label, nor the space after it, holds a line break. */
  lemma LabelsSingleLine()
    ensures '\n' !in UserLabel + " " && '\n' !in AssistantLabel + " "
  {
    assert forall i :: 0 <= i < |UserLabel + " "| ==> (UserLabel + " ")[i] != '\n';
    assert forall i :: 0 <= i < |AssistantLabel + " "| ==> (AssistantLabel + " ")[i] != '\n';
  }


  /** The user line opens a pair with an empty answer. */
  lemma ParseUserLine(x: Interaction)
    requires PyStrip(x.user) == x.user
    ensures ParseLines([UserLine(x)]) == LineState([], Some(x.user), Some(""), false)
  {
    var one: seq<string> := [UserLine(x)];
    assert one[..0] == [];
    UserLineLabel(x);
    StripLeadingSpace(x.user);
  }

  /** The user line starts with its label and holds the question after a
      space. */
  lemma UserLineLabel(x: Interaction)
    ensures StartsWith(UserLine(x), UserLabel)
    ensures UserLine(x)[|UserLabel|..] == " " + x.user
  {
    var l1 := UserLine(x);
    assert l1[..|UserLabel|] == UserLabel;
    assert l1[|UserLabel|..] == " " + x.user;
  }

  /** The assistant line then fills the answer. */
  lemma ParseAssistantLine(x: Interaction, st: LineState)
    requires PyStrip(x.assistant) == x.assistant
    ensures ParseLine(st, AssistantLine(x)) == st.(assistant := Some(x.assistant), inAssistant := true)
  {
    AssistantLineLabels(x);
    StripLeadingSpace(x.assistant);
  }

  /** The assistant line starts with its own label, not the user's, and
      holds the answer after a space. */
  lemma AssistantLineLabels(x: Interaction)
    ensures !StartsWith(AssistantLine(x), UserLabel)
    ensures StartsWith(AssistantLine(x), AssistantLabel)
    ensures AssistantLine(x)[|AssistantLabel|..] == " " + x.assistant
  {
    var l2 := AssistantLine(x);
    assert l2[0] != UserLabel[0];
    assert l2[..|AssistantLabel|] == AssistantLabel;
    assert l2[|AssistantLabel|..] == " " + x.assistant;
  }

  lemma ParseTwoLines(x: Interaction)
    requires PyStrip(x.user) == x.user && PyStrip(x.assistant) == x.assistant
    ensures ParseLines([UserLine(x), AssistantLine(x)]) == LineState([], Some(x.user), Some(x.assistant), true)
  {
    var lines := [UserLine(x), AssistantLine(x)];
    assert lines[..1] == [UserLine(x)];
    ParseUserLine(x);
    ParseAssistantLine(x, ParseLines([UserLine(x)]));
  }

  /** The fallback reads a single interaction back from its own text when
      both messages are single lines without surrounding whitespace and the
      answer is not empty. */
  lemma FallbackRoundTrip(x: Interaction)
    requires x.indices == []
    requires '\n' !in x.user && '\n' !in x.assistant
    requires PyStrip(x.user) == x.user && PyStrip(x.assistant) == x.assistant && x.assistant != []
    ensures FallbackParse(InteractionText(x)) == [x]
  {
    InteractionLines(x);
    ParseTwoLines(x);
  }

  // ---------------------------------------------------------------------------
  // Keeping matches that strip back to interactions

  /** A matched pair that stripping turns into `x`: the question as it is,
      the answer as it is or followed by the blank line the lookahead left
      in it. */
  predicate Restores(m: (string, string), x: Interaction) {
    m.0 == x.user && (m.1 == x.assistant || m.1 == x.assistant + "\n\n")
  }

  lemma {:induction false} KeepMatchOne(kept: seq<Interaction>, m: (string, string), x: Interaction)
    requires forall i :: 0 <= i < |kept| ==> Kept(kept[i])
    requires Kept(x) && Restores(m, x)
    ensures KeepMatch(kept, m) == kept + [x]
  {
    StripRestores(m, x);
  }

  lemma {:induction false} StripRestores(m: (string, string), x: Interaction)
    requires Bare(x.user) && Bare(x.assistant) && Restores(m, x)
    ensures PyStrip(m.0) == x.user && PyStrip(m.1) == x.assistant
  {
    TrimOfTrimmed(x.user, IsPySpace);
    TrimOfTrimmed(x.assistant, IsPySpace);
    if m.1 != x.assistant {
      assert AllSpace("\n\n", IsPySpace);
      TrimPaddedRight(x.assistant, "\n\n", IsPySpace);
    }
  }

  /** Keeping pairs that each strip to a kept interaction gives back those
      interactions. */
  lemma {:induction false} KeepStripped(ms: seq<(string, string)>, xs: seq<Interaction>)
    requires |ms| == |xs|
    requires forall i :: 0 <= i < |xs| ==> Kept(xs[i]) && Restores(ms[i], xs[i])
    ensures KeepMatches(ms) == xs
    decreases |xs|
  {
    if xs != [] {
      var n := |xs| - 1;
      KeepStripped(ms[..n], xs[..n]);
      assert ms[..|ms| - 1] == ms[..n];
      KeepMatchOne(xs[..n], ms[n], xs[n]);
      SnocLast(xs);
    }
  }
}

=== FILE: delete_modal.dfy ===
/** The delete confirmation dialog (static/js/modules/delete-modal.js,
    `DeleteConfirmationModal`): `show` returns a promise the dialog settles
    once, with true for the confirm button and false for every way of
    dismissing it. As for the rename dialog, each user action is a step that
    reports what the pending promise was settled with, if anything. */
module DeleteModal {
  import opened Wrappers
  import opened Text
  import opened ChatPage

  /** The dialog: displayed or not, its question, the chat and row it was
      opened for, and whether a promise waits (`resolvePromise`). */
  datatype Modal = Modal(visible: bool, message: string, chatId: Option<string>, chatName: Option<string>,
                         item: Option<ChatRow>, waiting: bool)

  datatype Settled = Unsettled | SettledWith(confirmed: bool)

  const Initial: Modal := Modal(false, "", None, None, None, false)

  /** The question shown for a chat. */
  function Question(chatName: string): string {
    "Вы уверены, что хотите удалить чат \"" + chatName + "\"?"
  }

  /** The question names the chat. */
  lemma QuestionNamesChat(chatName: string)
    ensures Contains(Question(chatName), chatName)
  {
    var q := Question(chatName);
    var k := |"Вы уверены, что хотите удалить чат \""|;
    assert q[k..][..|chatName|] == chatName;
  }

  /** `show(chatId, chatName, chatItem)`: the question names the chat, the
      dialog appears and a new promise waits; one still waiting is dropped
      unsettled. */
  function Show(m: Modal, chatId: string, chatName: string, item: Option<ChatRow>): (r: Modal)
    ensures r.visible && r.waiting
    ensures Contains(r.message, chatName)
    ensures r.chatId == Some(chatId) && r.chatName == Some(chatName) && r.item == item
  {
    QuestionNamesChat(chatName);
    Modal(true, Question(chatName), Some(chatId), Some(chatName), item, true)
  }

  /** `hide(confirmed)`: the dialog disappears, a waiting promise is
      settled with `confirmed`, and the chat, name and row are cleared. */
  function Hide(m: Modal, confirmed: bool): (r: (Modal, Settled))
    ensures !r.0.visible && !r.0.waiting
    ensures r.0.chatId.None? && r.0.chatName.None? && r.0.item.None?
    ensures r.1 == (if m.waiting then SettledWith(confirmed) else Unsettled)
  {
    (m.(visible := false, waiting := false, chatId := None, chatName := None, item := None),
     if m.waiting then SettledWith(confirmed) else Unsettled)
  }

  /** The user's actions: the cancel and confirm buttons, a click on the
      overlay, Escape, and the context menu opening the dialog. */
  datatype Event = CancelClick | ConfirmClick | OverlayClick | EscapeDown
                 | Opened(chatId: string, chatName: string, item: Option<ChatRow>)

  /** One action. Escape only acts while the dialog is displayed. */
  function Step(m: Modal, e: Event): (r: (Modal, Settled))
    ensures r.1 == SettledWith(true) <==> e.ConfirmClick? && m.waiting
    ensures e.EscapeDown? && !m.visible ==> r == (m, Unsettled)
    ensures r.1 != Unsettled ==> m.waiting && !r.0.waiting
  {
    match e
    case CancelClick => Hide(m, false)
    case ConfirmClick => Hide(m, true)
    case OverlayClick => Hide(m, false)
    case EscapeDown => if m.visible then Hide(m, false) else (m, Unsettled)
    case Opened(id, name, item) => (Show(m, id, name, item), Unsettled)
  }

  /** A run of actions: the final dialog and the answers given, in order. */
  function Run(m: Modal, es: seq<Event>): (r: (Modal, seq<bool>))
    decreases |es|
  {
    if es == [] then (m, [])
    else
      var (m1, s) := Step(m, es[0]);
      var (m2, answers) := Run(m1, es[1..]);
      (m2, (if s.SettledWith? then [s.confirmed] else []) + answers)
  }

  function CountOpened(es: seq<Event>): nat {
    if es == [] then 0 else (if es[0].Opened? then 1 else 0) + CountOpened(es[1..])
  }

  function CountConfirms(es: seq<Event>): nat {
    if es == [] then 0 else (if es[0].ConfirmClick? then 1 else 0) + CountConfirms(es[1..])
  }

  function CountTrue(bs: seq<bool>): nat {
    if bs == [] then 0 else (if bs[0] then 1 else 0) + CountTrue(bs[1..])
  }

  lemma {:induction false} CountTrueAppend(a: seq<bool>, b: seq<bool>)
    ensures CountTrue(a + b) == CountTrue(a) + CountTrue(b)
    decreases |a|
  {
    if a == [] {
      assert a + b == b;
    } else {
      assert (a + b)[1..] == a[1..] + b;
      CountTrueAppend(a[1..], b);
    }
  }

  /** Every promise is settled at most once, and with true only by a click
      on confirm: a run gives no more answers than there were promises, and
      no more confirmations than confirm clicks. */
  lemma {:induction false} EachPromiseSettledOnce(m: Modal, es: seq<Event>)
    ensures var (m2, answers) := Run(m, es);
      && |answers| + (if m2.waiting then 1 else 0) <= CountOpened(es) + (if m.waiting then 1 else 0)
      && CountTrue(answers) <= CountConfirms(es)
    decreases |es|
  {
    if es != [] {
      var (m1, s) := Step(m, es[0]);
      EachPromiseSettledOnce(m1, es[1..]);
      var (m2, rest) := Run(m1, es[1..]);
      CountTrueAppend(if s.SettledWith? then [s.confirmed] else [], rest);
    }
  }

  /** Once opened, the dialog answers true for confirm and false for every
      other way of closing it; opening it again answers nothing. */
  lemma OpenedDialogAnswers(m: Modal, chatId: string, chatName: string, item: Option<ChatRow>, e: Event)
    ensures var shown := Show(m, chatId, chatName, item);
      Step(shown, e).1 == (if e.Opened? then Unsettled else SettledWith(e.ConfirmClick?))
  {
  }

  /** A second close after the first answers nothing. */
  lemma HideTwiceSettlesOnce(m: Modal, first: bool, second: bool)
    ensures Hide(Hide(m, first).0, second).1 == Unsettled
  {
  }
}

=== FILE: dialog.dfy ===
/** A dialog and its messages (models/dialog.py, models/message.py).
    Timestamps are integers; the clock reading `now` is a parameter. */
module Dialogs {
  import opened Wrappers
  import opened Text

  datatype Role = User | Assistant | System

  /** The string value of a role (`MessageRole.value`). */
  function RoleValue(r: Role): string {
    match r
    case User => "user"
    case Assistant => "assistant"
    case System => "system"
  }

  /** Reads a role back from its string value. */
  function RoleFromValue(s: string): (r: Option<Role>)
    ensures r.Some? ==> RoleValue(r.value) == s
  {
    if s == "user" then Some(User)
    else if s == "assistant" then Some(Assistant)
    else if s == "system" then Some(System)
    else None
  }

  lemma RoleValueRoundTrip(r: Role)
    ensures RoleFromValue(RoleValue(r)) == Some(r)
  {
  }

  datatype Message = Message(role: Role, content: string, timestamp: int)

  const StatusActive: string := "active"

  datatype Dialog = Dialog(
    id: string,
    name: string,
    history: seq<Message>,
    created: int,
    updated: int,
    status: string,
    pinned: bool,
    pinnedPosition: Option<int>)

  /** A freshly created dialog: empty history, active, not pinned. */
  function NewDialog(id: string, name: string, now: int): (d: Dialog)
    ensures d.id == id && d.name == name && d.history == []
    ensures d.created == now && d.updated == now && d.status == StatusActive
    ensures !d.pinned && d.pinnedPosition.None?
  {
    Dialog(id, name, [], now, now, StatusActive, false, None)
  }

  /** The fields other than the pin state agree. */
  predicate SameExceptPin(a: Dialog, b: Dialog) {
    a.(pinned := b.pinned, pinnedPosition := b.pinnedPosition) == b
  }

  /** `Dialog.pin(position)`: pinned at `position`, `updated` not touched. */
  function Pin(d: Dialog, position: int): (r: Dialog)
    ensures r.pinned && r.pinnedPosition == Some(position)
    ensures SameExceptPin(r, d) && r.updated == d.updated
  {
    d.(pinned := true, pinnedPosition := Some(position))
  }

  /** `Dialog.unpin()`. */
  function Unpin(d: Dialog): (r: Dialog)
    ensures !r.pinned && r.pinnedPosition == None
    ensures SameExceptPin(r, d) && r.updated == d.updated
  {
    d.(pinned := false, pinnedPosition := None)
  }

  function GetLastMessage(d: Dialog): (r: Option<Message>)
    ensures r.None? <==> d.history == []
    ensures r.Some? ==> r.value == d.history[|d.history| - 1]
  {
    if |d.history| > 0 then Some(d.history[|d.history| - 1]) else None
  }

  function GetMessageCount(d: Dialog): (r: nat)
    ensures r == |d.history|
    ensures r == 0 <==> GetLastMessage(d).None?
  {
    |d.history|
  }

  /** `Dialog.add_message(role, content)` at time `now`. */
  function AddMessage(d: Dialog, role: Role, content: string, now: int): (r: Dialog)
    ensures GetMessageCount(r) == GetMessageCount(d) + 1
    ensures r.history[..|d.history|] == d.history
    ensures GetLastMessage(r) == Some(Message(role, content, now))
    ensures r.updated == now
    ensures r.(history := d.history, updated := d.updated) == d
  {
    d.(history := d.history + [Message(role, content, now)], updated := now)
  }

  function ClearHistory(d: Dialog, now: int): (r: Dialog)
    ensures GetMessageCount(r) == 0 && GetLastMessage(r).None?
    ensures r.updated == now
    ensures r.(history := d.history, updated := d.updated) == d
  {
    d.(history := [], updated := now)
  }

  function Rename(d: Dialog, newName: string, now: int): (r: Dialog)
    ensures r.name == newName && r.updated == now
    ensures r.(name := d.name, updated := d.updated) == d
  {
    d.(name := newName, updated := now)
  }

  /** One entry of `to_ui_format`. */
  datatype UiMessage = UiMessage(role: string, content: string)

  function ToUiMessage(m: Message): UiMessage {
    UiMessage(RoleValue(m.role), m.content)
  }

  /** `to_ui_format`: one entry per message, in order. */
  function ToUiFormat(d: Dialog): (r: seq<UiMessage>)
    ensures |r| == |d.history|
    ensures forall i :: 0 <= i < |r| ==>
      RoleFromValue(r[i].role) == Some(d.history[i].role) && r[i].content == d.history[i].content
  {
    seq(|d.history|, i requires 0 <= i < |d.history| => ToUiMessage(d.history[i]))
  }

  /** Appending a message appends exactly its UI entry. */
  lemma ToUiFormatAddMessage(d: Dialog, role: Role, content: string, now: int)
    ensures ToUiFormat(AddMessage(d, role, content, now))
         == ToUiFormat(d) + [UiMessage(RoleValue(role), content)]
  {
  }

  const EmptyDialogSummary: string := "Пустой диалог"

  /** `content[:max_length] + "..."` when longer than `max_length`. */
  function ShortenContent(content: string, maxLength: int): (r: string)
    ensures |content| <= maxLength ==> r == content
    ensures 0 <= maxLength < |content| ==>
      |r| == maxLength + 3 && r[..maxLength] == content[..maxLength] && r[maxLength..] == "..."
  {
    if |content| > maxLength then PySliceTo(content, maxLength) + "..." else content
  }

  /** Position of the last message with the given role, searching backwards. */
  function LastIndexOfRole(h: seq<Message>, role: Role): (r: Option<nat>)
    ensures r.Some? ==> r.value < |h| && h[r.value].role == role
    ensures r.Some? ==> forall k :: r.value < k < |h| ==> h[k].role != role
    ensures r.None? ==> forall k :: 0 <= k < |h| ==> h[k].role != role
  {
    if |h| == 0 then None
    else if h[|h| - 1].role == role then Some(|h| - 1)
    else LastIndexOfRole(h[..|h| - 1], role)
  }

  /** `get_summary(max_length)`. */
  function GetSummary(d: Dialog, maxLength: int): (r: string)
    ensures d.history == [] ==> r == EmptyDialogSummary
    ensures forall j :: 0 <= j < |d.history| && d.history[j].role == User
                   && (forall k :: j < k < |d.history| ==> d.history[k].role != User)
                   ==> r == ShortenContent(d.history[j].content, maxLength)
    ensures d.history != [] && (forall k :: 0 <= k < |d.history| ==> d.history[k].role != User)
            ==> r == ShortenContent(d.history[|d.history| - 1].content, maxLength)
  {
    if d.history == [] then EmptyDialogSummary
    else match LastIndexOfRole(d.history, User)
      case Some(j) => ShortenContent(d.history[j].content, maxLength)
      case None => ShortenContent(d.history[|d.history| - 1].content, maxLength)
  }

  /** The JSON-compatible form produced by `json_serialize`. */
  datatype SerializedMessage = SerializedMessage(role: string, content: string, timestamp: int)

  datatype SerializedDialog = SerializedDialog(
    id: string,
    name: string,
    history: seq<SerializedMessage>,
    created: int,
    updated: int,
    status: string,
    pinned: bool,
    pinnedPosition: Option<int>)

  function SerializeMessage(m: Message): SerializedMessage {
    SerializedMessage(RoleValue(m.role), m.content, m.timestamp)
  }

  function SerializeHistory(h: seq<Message>): (r: seq<SerializedMessage>)
    ensures |r| == |h| && forall i :: 0 <= i < |h| ==> r[i] == SerializeMessage(h[i])
  {
    seq(|h|, i requires 0 <= i < |h| => SerializeMessage(h[i]))
  }

  function JsonSerialize(d: Dialog): (r: SerializedDialog)
    ensures |r.history| == |d.history|
    ensures r.pinned == d.pinned && r.pinnedPosition == d.pinnedPosition
  {
    SerializedDialog(d.id, d.name, SerializeHistory(d.history), d.created, d.updated, d.status, d.pinned, d.pinnedPosition)
  }

  /** Reads a serialized message back; an unknown role string is refused. */
  function DeserializeMessage(m: SerializedMessage): Option<Message> {
    match RoleFromValue(m.role)
    case Some(role) => Some(Message(role, m.content, m.timestamp))
    case None => None
  }

  /** A role string `RoleFromValue` does not know. */
  predicate UnknownRole(m: SerializedMessage) {
    RoleFromValue(m.role).None?
  }

  /** The history read back: refused when any message has an unknown role,
      otherwise one message per entry, in order, with its content and
      timestamp. */
  function DeserializeHistory(h: seq<SerializedMessage>): (r: Option<seq<Message>>)
    ensures r.None? <==> exists i :: 0 <= i < |h| && UnknownRole(h[i])
    ensures r.Some? ==> |r.value| == |h|
    ensures r.Some? ==> forall i :: 0 <= i < |h| ==>
      && RoleValue(r.value[i].role) == h[i].role && r.value[i].content == h[i].content
      && r.value[i].timestamp == h[i].timestamp
  {
    if h == [] then Some([])
    else
      var n := |h| - 1;
      assert forall i :: 0 <= i < n ==> h[..n][i] == h[i];
      match DeserializeHistory(h[..n])
      case None => None
      case Some(prefix) =>
        match DeserializeMessage(h[n])
        case None => None
        case Some(m) => Some(prefix + [m])
  }

  /** A dialog read back: refused when a message has an unknown role;
      otherwise every field as stored. */
  function Deserialize(s: SerializedDialog): (r: Option<Dialog>)
    ensures r.None? <==> exists i :: 0 <= i < |s.history| && UnknownRole(s.history[i])
    ensures r.Some? ==> (
      && r.value.id == s.id && r.value.name == s.name && |r.value.history| == |s.history|
      && r.value.created == s.created && r.value.updated == s.updated && r.value.status == s.status
      && r.value.pinned == s.pinned && r.value.pinnedPosition == s.pinnedPosition)
  {
    match DeserializeHistory(s.history)
    case Some(h) => Some(Dialog(s.id, s.name, h, s.created, s.updated, s.status, s.pinned, s.pinnedPosition))
    case None => None
  }

  lemma {:induction false} DeserializeHistoryRoundTrip(h: seq<Message>)
    ensures DeserializeHistory(SerializeHistory(h)) == Some(h)
    decreases |h|
  {
    if h != [] {
      var s := SerializeHistory(h);
      var p := h[..|h| - 1];
      DeserializeHistoryRoundTrip(p);
      SerializeHistoryPrefix(h);
      RoleValueRoundTrip(h[|h| - 1].role);
      assert DeserializeMessage(s[|s| - 1]) == Some(h[|h| - 1]);
      SnocLast(h);
    }
  }

  lemma SerializeHistoryPrefix(h: seq<Message>)
    requires h != []
    ensures SerializeHistory(h)[..|h| - 1] == SerializeHistory(h[..|h| - 1])
  {
  }

  /** Serialization keeps every field: role, content and timestamp of every
      message in order, and the pin state. */
  lemma JsonSerializeRoundTrip(d: Dialog)
    ensures Deserialize(JsonSerialize(d)) == Some(d)
  {
    DeserializeHistoryRoundTrip(d.history);
  }
}

=== FILE: generation_control.dfy ===
/** The send and stop buttons (static/js/modules/generation-control.js):
    which of the two is shown while the model generates, when send is
    disabled, and which user actions start or stop a generation. Timers of
    10 ms run in the order they were set, so a step applies them at once;
    the server's own calls to `toggleGenerationButtons` are steps too. */
module GenerationControl {
  import opened Wrappers
  import opened Text

  /** The state the script keeps and the page shows: whether the send and
      stop buttons and the chat textarea exist (with its value), the
      module's `isGenerating`, send's 'hidden' class and `disabled`
      property, stop's 'active' class, and whether the watchdog interval is
      set. Send's cursor style follows `disabled` and is not kept apart. */
  datatype Controls = Controls(sendPresent: bool, stopPresent: bool, input: Option<string>,
                               generating: bool, sendHidden: bool, sendDisabled: bool,
                               stopActive: bool, watchdog: bool)

  predicate Blank(input: Option<string>) {
    input.Some? && JsTrim(input.value) == ""
  }

  predicate HasText(input: Option<string>) {
    input.Some? && JsTrim(input.value) != ""
  }

  /** `updateSendButtonState`: nothing while generating or with send or the
      textarea missing; otherwise send is disabled exactly when the trimmed
      input is empty. */
  function UpdateSendButtonState(c: Controls): (r: Controls)
    ensures !c.sendPresent || c.input.None? || c.generating ==> r == c
    ensures c.sendPresent && c.input.Some? && !c.generating ==>
      r == c.(sendDisabled := Blank(c.input))
  {
    if !c.sendPresent || c.input.None? || c.generating then c
    else c.(sendDisabled := JsTrim(c.input.value) == "")
  }

  /** `toggleGenerationButtons(generating)`: with either button missing
      nothing changes. Starting hides and disables send, activates stop and
      sets the watchdog; stopping shows send, deactivates stop, clears the
      watchdog and then recomputes send's state from the input. */
  function Toggle(c: Controls, generating: bool): (r: Controls)
    ensures !(c.sendPresent && c.stopPresent) ==> r == c
    ensures c.sendPresent && c.stopPresent ==>
      && r.generating == generating && r.sendHidden == generating && r.stopActive == generating
      && r.watchdog == generating
      && (generating ==> r.sendDisabled)
      && (!generating ==> (r.sendDisabled <==> Blank(c.input)))
    ensures r.input == c.input && r.sendPresent == c.sendPresent && r.stopPresent == c.stopPresent
  {
    if !(c.sendPresent && c.stopPresent) then c
    else if generating then
      c.(generating := true, sendHidden := true, stopActive := true, sendDisabled := true, watchdog := true)
    else
      UpdateSendButtonState(c.(generating := false, sendHidden := false, stopActive := false, sendDisabled := false, watchdog := false))
  }

  /** What happens to the controls: typing (any of the tracked input
      events), a key pressed in the textarea, the two button clicks, a tick
      of the watchdog interval, and the server calling
      `toggleGenerationButtons`. */
  datatype Event = Typed(value: string) | KeyDown(key: string, shift: bool) | SendClick | StopClick
                 | WatchdogTick | ServerToggle(generating: bool)

  /** One step. Tracked input events recompute send unless generating; Enter
      without Shift starts a generation when not generating and the input is
      not blank, and a send click does so for non-blank input; a disabled
      send button fires no click at all. The stop click only acts while
      generating; the watchdog clears itself once send is visible again. */
  function Step(c: Controls, e: Event): (r: Controls)
    ensures r.input.Some? <==> c.input.Some?
    ensures e.StopClick? && !c.generating ==> r == c
    ensures e.StopClick? && c.generating ==> r == Toggle(c, false)
    ensures e.SendClick? && c.sendDisabled ==> r == c
  {
    match e
    case Typed(v) =>
      if c.input.None? then c
      else
        var typed := c.(input := Some(v));
        if typed.generating then typed else UpdateSendButtonState(typed)
    case KeyDown(key, shift) =>
      var tracked := if c.generating then c else UpdateSendButtonState(c);
      if key == "Enter" && !shift && !c.generating && HasText(c.input) then Toggle(tracked, true) else tracked
    case SendClick =>
      if !c.sendDisabled && HasText(c.input) then Toggle(c, true) else c
    case StopClick =>
      if c.generating then Toggle(c, false) else c
    case WatchdogTick =>
      if c.watchdog && !c.sendHidden then c.(watchdog := false) else c
    case ServerToggle(g) => Toggle(c, g)
  }

  /** What the page shows agrees with `isGenerating`: with both buttons
      present, send is hidden and stop active exactly while generating,
      send is disabled while generating, and otherwise send is disabled
      exactly when the textarea is blank. */
  predicate Consistent(c: Controls) {
    c.sendPresent && c.stopPresent ==>
      && c.sendHidden == c.generating && c.stopActive == c.generating
      && (c.generating ==> c.sendDisabled)
      && (!c.generating && c.input.Some? ==> (c.sendDisabled <==> Blank(c.input)))
  }

  /** `initGenerationButtons` ends with `toggleGenerationButtons(false)`,
      which makes any state consistent. */
  lemma ToggleMakesConsistent(c: Controls, generating: bool)
    requires Consistent(c) || (c.sendPresent && c.stopPresent)
    ensures Consistent(Toggle(c, generating))
  {
  }

  /** Every step keeps the controls consistent. */
  lemma StepKeepsConsistent(c: Controls, e: Event)
    requires Consistent(c)
    ensures Consistent(Step(c, e))
  {
    match e
    case Typed(v) =>
    case KeyDown(key, shift) =>
      var tracked := if c.generating then c else UpdateSendButtonState(c);
      assert Consistent(tracked);
      assert tracked.sendPresent == c.sendPresent && tracked.stopPresent == c.stopPresent && tracked.input == c.input;
    case SendClick =>
    case StopClick =>
    case WatchdogTick =>
    case ServerToggle(g) =>
  }

  function Run(c: Controls, es: seq<Event>): Controls
    decreases |es|
  {
    if es == [] then c else Run(Step(c, es[0]), es[1..])
  }

  /** Whatever the user and the server do after initialisation, the
      controls stay consistent. */
  lemma {:induction false} RunKeepsConsistent(c: Controls, es: seq<Event>)
    requires Consistent(c)
    ensures Consistent(Run(c, es))
    decreases |es|
  {
    if es != [] {
      StepKeepsConsistent(c, es[0]);
      RunKeepsConsistent(Step(c, es[0]), es[1..]);
    }
  }

  /** The user starts a generation only with text in the textarea: a step
      that turns `isGenerating` on is a server call, a click on an enabled
      send button with non-blank input, or Enter without Shift with
      non-blank input. */
  lemma StartNeedsText(c: Controls, e: Event)
    requires !c.generating && Step(c, e).generating
    ensures e == ServerToggle(true) || (HasText(c.input) && ((e == SendClick && !c.sendDisabled) || (e.KeyDown? && e.key == "Enter" && !e.shift)))
  {
  }

  /** With either button missing, no step changes `isGenerating`. */
  lemma MissingButtonsNeverGenerate(c: Controls, e: Event)
    requires !(c.sendPresent && c.stopPresent)
    ensures Step(c, e).generating == c.generating
  {
  }

  /** In consistent controls with text typed, send is enabled, and a send
      click followed by a stop click returns to the idle controls,
      with send enabled again exactly when the textarea holds text. */
  lemma SendThenStop(c: Controls)
    requires Consistent(c)
    requires c.sendPresent && c.stopPresent && !c.generating && HasText(c.input)
    ensures var r := Step(Step(c, SendClick), StopClick);
      !r.generating && !r.sendHidden && !r.stopActive && !r.sendDisabled && !r.watchdog
  {
  }
}

=== FILE: grouper.dfy ===
/** The sidebar list of dialogs and its date groups (services/dialogs/grouper.py).
    Timestamps are seconds; the calendar day of a timestamp is `DayOf`, and
    the current day `today` is a parameter. */
module Grouper {
  import opened Wrappers
  import opened Dialogs
  import opened DialogStore
  import opened Sorting

  /** One entry of `get_dialog_list`. */
  datatype DialogInfo = DialogInfo(
    id: string,
    name: string,
    historyLength: nat,
    created: int,
    updated: int,
    isCurrent: bool,
    pinned: bool,
    pinnedPosition: Option<int>)

  function Info(d: Dialog, current: Option<string>): (r: DialogInfo)
    ensures r.id == d.id && r.isCurrent == (current == Some(d.id))
  {
    DialogInfo(d.id, d.name, |d.history|, d.created, d.updated, current == Some(d.id), d.pinned, d.pinnedPosition)
  }

  function Infos(s: Store, current: Option<string>): (r: seq<DialogInfo>)
    ensures |r| == |s|
    ensures forall i :: 0 <= i < |s| ==> r[i] == Info(s[i], current)
  {
    seq(|s|, i requires 0 <= i < |s| => Info(s[i], current))
  }

  /** The sort key `(-1 if pinned else 0, position or 999, updated)`. */
  datatype SortKey = SortKey(group: int, position: int, updated: int)

  function KeyOf(x: DialogInfo): (r: SortKey)
    ensures x.pinned <==> r.group < 0
    ensures x.pinned && x.pinnedPosition.Some? ==> r.position == x.pinnedPosition.value
    ensures !x.pinned || x.pinnedPosition.None? ==> r.position == 999
    ensures r.updated == x.updated
  {
    SortKey(if x.pinned then -1 else 0,
            if x.pinned && x.pinnedPosition.Some? then x.pinnedPosition.value else 999,
            x.updated)
  }

  predicate KeyGreater(a: SortKey, b: SortKey) {
    a.group > b.group
    || (a.group == b.group && a.position > b.position)
    || (a.group == b.group && a.position == b.position && a.updated > b.updated)
  }

  /** `sort(key=…, reverse=True)`: a larger key comes first. */
  predicate RanksAbove(a: DialogInfo, b: DialogInfo) {
    KeyGreater(KeyOf(a), KeyOf(b))
  }

  lemma RanksAboveStrict()
    ensures StrictOrder(RanksAbove)
  {
  }

  /** The reversed key comparison is a strict weak order: ties are
      dialogs with equal keys. */
  lemma RanksAboveWeak()
    ensures StrictWeakOrder(RanksAbove)
    ensures forall a, b :: TiedWith(RanksAbove, a)(b) <==> KeyOf(a) == KeyOf(b)
  {
  }

  /** `get_dialog_list`. */
  function GetDialogList(s: Store, current: Option<string>): (r: seq<DialogInfo>)
    ensures |r| == |s|
    ensures multiset(r) == multiset(Infos(s, current))
    ensures forall x :: x in r ==> (x.isCurrent <==> current == Some(x.id))
  {
    var r := Sort(Infos(s, current), RanksAbove);
    assert forall x :: x in r ==> x in multiset(Infos(s, current));
    r
  }

  /** The order the list comes out in: unpinned entries first, newest first,
      then pinned entries with the larger position first (a missing position
      counts as 999). */
  lemma DialogListOrder(s: Store, current: Option<string>)
    ensures SortedBy(GetDialogList(s, current), RanksAbove)
    ensures forall i, j :: 0 <= i < j < |s| ==>
      var r := GetDialogList(s, current);
      && (r[i].pinned ==> r[j].pinned)
      && (!r[i].pinned && !r[j].pinned ==> r[i].updated >= r[j].updated)
      && (r[i].pinned && r[j].pinned ==> KeyOf(r[i]).position >= KeyOf(r[j]).position)
  {
    RanksAboveStrict();
    SortSorted(Infos(s, current), RanksAbove);
  }

  /** The sort is stable: dialogs with equal sort keys keep their order
      in the store. */
  lemma DialogListStable(s: Store, current: Option<string>, x: DialogInfo)
    ensures Filter(GetDialogList(s, current), y => KeyOf(y) == KeyOf(x))
         == Filter(Infos(s, current), y => KeyOf(y) == KeyOf(x))
  {
    RanksAboveWeak();
    SortStable(Infos(s, current), x, RanksAbove);
    var p := TiedWith(RanksAbove, x);
    var k := (y: DialogInfo) => KeyOf(y) == KeyOf(x);
    FilterSame(GetDialogList(s, current), p, k);
    FilterSame(Infos(s, current), p, k);
  }

  /** Each dialog is listed once: the list holds exactly one entry per key. */
  lemma DialogListIds(s: Store, current: Option<string>)
    ensures forall id :: (exists i :: 0 <= i < |s| && GetDialogList(s, current)[i].id == id) <==> HasKey(s, id)
  {
    var r := GetDialogList(s, current);
    var infos := Infos(s, current);
    forall id
      ensures (exists i :: 0 <= i < |s| && r[i].id == id) <==> HasKey(s, id)
    {
      if exists i :: 0 <= i < |s| && r[i].id == id {
        var i :| 0 <= i < |s| && r[i].id == id;
        assert r[i] in multiset(infos);
        var k :| 0 <= k < |s| && infos[k] == r[i];
        assert s[k].id == id;
      }
      if HasKey(s, id) {
        var k := Find(s, id).value;
        assert infos[k] in multiset(r);
        var i :| 0 <= i < |r| && r[i] == infos[k];
      }
    }
  }

  // ---------------------------------------------------------------------------
  // Date groups

  datatype Bucket = PinnedGroup | Today | Yesterday | Week | Month | Older

  const SecondsPerDay: int := 86400

  /** The calendar day a timestamp falls on. */
  function DayOf(ts: int): int {
    ts / SecondsPerDay
  }

  /** The date group of an unpinned dialog last updated on day `day`. */
  function DateBucket(today: int, day: int): (r: Bucket)
    ensures r != PinnedGroup
    ensures r == Today <==> today - day == 0
    ensures r == Yesterday <==> today - day == 1
    ensures r == Week <==> 2 <= today - day <= 7
    ensures r == Month <==> 8 <= today - day <= 30
    ensures r == Older <==> today - day < 0 || today - day > 30
  {
    if day == today then Today
    else if day == today - 1 then Yesterday
    else if today - 7 <= day < today - 1 then Week
    else if today - 30 <= day < today - 7 then Month
    else Older
  }

  /** Being pinned takes precedence over the date. */
  function BucketOf(today: int, x: DialogInfo): (r: Bucket)
    ensures r == PinnedGroup <==> x.pinned
  {
    if x.pinned then PinnedGroup else DateBucket(today, DayOf(x.updated))
  }

  function Label(b: Bucket): string {
    match b
    case PinnedGroup => "Закрепленные"
    case Today => "Сегодня"
    case Yesterday => "Вчера"
    case Week => "7 дней"
    case Month => "Месяц"
    case Older => "Более месяца"
  }

  /** The groups in the order the result dict is built. */
  const BucketOrder: seq<Bucket> := [PinnedGroup, Today, Yesterday, Week, Month, Older]

  lemma LabelsDistinct()
    ensures forall i, j :: 0 <= i < j < |BucketOrder| ==> Label(BucketOrder[i]) != Label(BucketOrder[j])
  {
  }

  datatype Group = Group(title: string, entries: seq<DialogInfo>)

  /** The entries of the list falling into bucket `b`, in list order. */
  function InBucket(list: seq<DialogInfo>, today: int, b: Bucket): (r: seq<DialogInfo>)
    ensures forall x :: x in r <==> x in list && BucketOf(today, x) == b
  {
    Filter(list, x => BucketOf(today, x) == b)
  }

  lemma InBucketCount(list: seq<DialogInfo>, today: int, b: Bucket, x: DialogInfo)
    ensures multiset(InBucket(list, today, b))[x] == if BucketOf(today, x) == b then multiset(list)[x] else 0
  {
    FilterMultiset(list, x => BucketOf(today, x) == b);
  }

  /** The position the pinned group is sorted by, with a missing position
      counted as 999. */
  function PinRank(x: DialogInfo): int {
    x.pinnedPosition.GetOr(999)
  }

  /** Ascending by position. */
  predicate PinRankAbove(a: DialogInfo, b: DialogInfo) {
    PinRank(a) < PinRank(b)
  }

  lemma PinRankAboveStrict()
    ensures StrictOrder(PinRankAbove)
  {
  }

  /** The pinned group sorted as the code intends: ascending by position,
      with a missing position counted as 999. */
  function SortPinned(p: seq<DialogInfo>): (r: seq<DialogInfo>)
    ensures multiset(r) == multiset(p)
    ensures SortedBy(r, PinRankAbove)
  {
    PinRankAboveStrict();
    SortSorted(p, PinRankAbove);
    Sort(p, PinRankAbove)
  }

  /** The pinned group sorted as written: `x.get("pinned_position", 999)`
      yields None for an entry whose position is None, and comparing None
      with anything raises `TypeError`. A list of two or more entries
      compares every entry at least once. */
  function SortPinnedAsWritten(p: seq<DialogInfo>): (r: Result<seq<DialogInfo>, string>)
    ensures r.Failure? <==> |p| >= 2 && exists i :: 0 <= i < |p| && p[i].pinnedPosition.None?
    ensures r.Success? ==> r.value == SortPinned(p)
    ensures r.Success? ==> multiset(r.value) == multiset(p) && SortedBy(r.value, PinRankAbove)
  {
    if |p| >= 2 && exists i :: 0 <= i < |p| && p[i].pinnedPosition.None? then Failure("TypeError")
    else Success(SortPinned(p))
  }

  /** The six groups, empty ones included, in dict order. */
  function AllGroups(list: seq<DialogInfo>, today: int): (r: seq<Group>)
    ensures |r| == |BucketOrder|
    ensures forall i :: 0 <= i < |r| ==> r[i].title == Label(BucketOrder[i])
  {
    seq(|BucketOrder|, i requires 0 <= i < |BucketOrder| => GroupOf(list, today, BucketOrder[i]))
  }

  /** The group of one bucket, the pinned one reordered. */
  function GroupOf(list: seq<DialogInfo>, today: int, b: Bucket): (g: Group)
    ensures g.title == Label(b)
  {
    var e := InBucket(list, today, b);
    Group(Label(b), if b == PinnedGroup then SortPinned(e) else e)
  }

  /** Group `i` holds the entries of its bucket, the pinned one reordered. */
  lemma AllGroupsEntries(list: seq<DialogInfo>, today: int, i: nat)
    requires i < |BucketOrder|
    ensures multiset(AllGroups(list, today)[i].entries) == multiset(InBucket(list, today, BucketOrder[i]))
  {
    var all := AllGroups(list, today);
    if i == 0 {
      assert all[0].entries == SortPinned(InBucket(list, today, PinnedGroup));
    } else {
      assert all[i].entries == InBucket(list, today, BucketOrder[i]);
    }
  }

  /** Group `i` holds exactly the entries of its bucket. */
  lemma AllGroupsMembers(list: seq<DialogInfo>, today: int, i: nat)
    requires i < |BucketOrder|
    ensures forall x :: x in AllGroups(list, today)[i].entries <==> x in list && BucketOf(today, x) == BucketOrder[i]
  {
    var e := AllGroups(list, today)[i].entries;
    AllGroupsEntries(list, today, i);
    forall x
      ensures x in e <==> x in list && BucketOf(today, x) == BucketOrder[i]
    {
      assert x in e <==> x in multiset(e);
    }
  }

  predicate NonEmptyGroup(g: Group) {
    |g.entries| > 0
  }

  /** `get_dialog_list_with_groups`, with the pinned group sorted as intended:
      the non-empty groups, labelled, in the fixed order. */
  function GroupDialogs(list: seq<DialogInfo>, today: int): (r: seq<Group>)
    ensures forall g :: g in r ==> |g.entries| > 0
  {
    Filter(AllGroups(list, today), NonEmptyGroup)
  }

  /** A group in the result with bucket `i`'s title is that bucket's group. */
  lemma GroupWithTitle(list: seq<DialogInfo>, today: int, i: nat, g: Group)
    requires i < |BucketOrder|
    requires g in GroupDialogs(list, today) && g.title == Label(BucketOrder[i])
    ensures g == AllGroups(list, today)[i]
  {
    var all := AllGroups(list, today);
    assert g in all;
    var k :| 0 <= k < |all| && all[k] == g;
    assert Label(BucketOrder[k]) == Label(BucketOrder[i]);
    assert k == i by {
      LabelsDistinct();
    }
  }

  /** A group is present exactly when some entry falls into its bucket, and
      then it holds exactly those entries. */
  lemma GroupPresent(list: seq<DialogInfo>, today: int, i: nat)
    requires i < |BucketOrder|
    ensures (exists g :: g in GroupDialogs(list, today) && g.title == Label(BucketOrder[i]))
        <==> exists x :: x in list && BucketOf(today, x) == BucketOrder[i]
    ensures forall g :: g in GroupDialogs(list, today) && g.title == Label(BucketOrder[i]) ==>
      forall x :: x in g.entries <==> x in list && BucketOf(today, x) == BucketOrder[i]
  {
    var all := AllGroups(list, today);
    var r := GroupDialogs(list, today);
    AllGroupsMembers(list, today, i);
    forall g | g in r && g.title == Label(BucketOrder[i])
      ensures g == all[i]
    {
      GroupWithTitle(list, today, i, g);
    }
    if exists x :: x in list && BucketOf(today, x) == BucketOrder[i] {
      var x :| x in list && BucketOf(today, x) == BucketOrder[i];
      assert x in all[i].entries;
      assert all[i] in all && NonEmptyGroup(all[i]);
      assert all[i] in r;
    } else if exists g :: g in r && g.title == Label(BucketOrder[i]) {
      var g :| g in r && g.title == Label(BucketOrder[i]);
      assert g.entries[0] in all[i].entries;
    }
  }

  /** The grouping as written: raises when the pinned group holds two or more
      entries and one of them has no position; otherwise it is the intended
      grouping. */
  function GroupDialogsAsWritten(list: seq<DialogInfo>, today: int): (r: Result<seq<Group>, string>)
    ensures var p := InBucket(list, today, PinnedGroup);
      r.Failure? <==> |p| >= 2 && exists i :: 0 <= i < |p| && p[i].pinnedPosition.None?
    ensures r.Success? ==> r.value == GroupDialogs(list, today)
  {
    var p := InBucket(list, today, PinnedGroup);
    match SortPinnedAsWritten(p)
    case Failure(e) => Failure(e)
    case Success(sp) =>
      var all := AllGroups(list, today);
      assert [Group(Label(PinnedGroup), sp)] + all[1..] == all;
      Success(Filter([Group(Label(PinnedGroup), sp)] + all[1..], NonEmptyGroup))
  }

  /** Two pinned dialogs, one of them without a position: the grouping as
      written raises. */
  lemma GroupDialogsRaises()
    ensures GroupDialogsAsWritten(
      [DialogInfo("1", "a", 0, 0, 0, true, true, None),
       DialogInfo("2", "b", 0, 0, 0, false, true, Some(0))], 0).Failure?
  {
    var list := [DialogInfo("1", "a", 0, 0, 0, true, true, None),
                 DialogInfo("2", "b", 0, 0, 0, false, true, Some(0))];
    var p := InBucket(list, 0, PinnedGroup);
    assert list[..1] == [list[0]];
    assert list[..1][..0] == [];
    assert p == list;
  }

  // ---------------------------------------------------------------------------
  // Every entry lands in exactly one group

  /** All entries of the groups, in group order (the `flat` list). */
  function Flatten(gs: seq<Group>): (r: seq<DialogInfo>)
  {
    if gs == [] then [] else Flatten(gs[..|gs| - 1]) + gs[|gs| - 1].entries
  }

  lemma {:induction false} FlattenNonEmpty(gs: seq<Group>)
    ensures Flatten(Filter(gs, NonEmptyGroup)) == Flatten(gs)
    decreases |gs|
  {
    if gs != [] {
      var init := gs[..|gs| - 1];
      FlattenNonEmpty(init);
      if NonEmptyGroup(gs[|gs| - 1]) {
        assert Filter(gs, NonEmptyGroup) == Filter(init, NonEmptyGroup) + [gs[|gs| - 1]];
        assert Filter(gs, NonEmptyGroup)[..|Filter(gs, NonEmptyGroup)| - 1] == Filter(init, NonEmptyGroup);
      } else {
        assert gs[|gs| - 1].entries == [];
        assert Flatten(gs) == Flatten(init) + [];
      }
    }
  }

  /** The groups together hold every entry of the list, each exactly as often
      as the list does. */
  lemma GroupsPartitionList(list: seq<DialogInfo>, today: int)
    ensures multiset(Flatten(GroupDialogs(list, today))) == multiset(list)
  {
    var all := AllGroups(list, today);
    FlattenNonEmpty(all);
    FlattenSix(all);
    AllGroupsBuckets(list, today);
    BucketsCoverList(list, today);
  }

  /** The six groups hold the six buckets' entries. */
  lemma AllGroupsBuckets(list: seq<DialogInfo>, today: int)
    ensures var all := AllGroups(list, today);
      multiset(all[0].entries) + multiset(all[1].entries) + multiset(all[2].entries)
      + multiset(all[3].entries) + multiset(all[4].entries) + multiset(all[5].entries)
      == BucketsMultiset(list, today)
  {
  }

  /** The entries of the six buckets taken together. */
  function BucketsMultiset(list: seq<DialogInfo>, today: int): multiset<DialogInfo> {
    multiset(InBucket(list, today, PinnedGroup)) + multiset(InBucket(list, today, Today))
    + multiset(InBucket(list, today, Yesterday)) + multiset(InBucket(list, today, Week))
    + multiset(InBucket(list, today, Month)) + multiset(InBucket(list, today, Older))
  }

  /** Every entry falls into exactly one bucket. */
  lemma BucketsCoverList(list: seq<DialogInfo>, today: int)
    ensures BucketsMultiset(list, today) == multiset(list)
  {
    forall x
      ensures BucketsMultiset(list, today)[x] == multiset(list)[x]
    {
      InBucketCount(list, today, PinnedGroup, x);
      InBucketCount(list, today, Today, x);
      InBucketCount(list, today, Yesterday, x);
      InBucketCount(list, today, Week, x);
      InBucketCount(list, today, Month, x);
      InBucketCount(list, today, Older, x);
    }
  }

  lemma FlattenSix(gs: seq<Group>)
    requires |gs| == 6
    ensures multiset(Flatten(gs)) == multiset(gs[0].entries) + multiset(gs[1].entries) + multiset(gs[2].entries)
      + multiset(gs[3].entries) + multiset(gs[4].entries) + multiset(gs[5].entries)
  {
    assert gs[..0] == [];
    assert gs[..1][..0] == [];
    assert gs[..2][..1] == gs[..1];
    assert gs[..3][..2] == gs[..2];
    assert gs[..4][..3] == gs[..3];
    assert gs[..5][..4] == gs[..4];
    assert gs[..5] == gs[..5];
    assert Flatten(gs[..1]) == gs[0].entries;
    assert Flatten(gs[..2]) == Flatten(gs[..1]) + gs[1].entries;
    assert Flatten(gs[..3]) == Flatten(gs[..2]) + gs[2].entries;
    assert Flatten(gs[..4]) == Flatten(gs[..3]) + gs[3].entries;
    assert Flatten(gs[..5]) == Flatten(gs[..4]) + gs[4].entries;
    assert Flatten(gs) == Flatten(gs[..5]) + gs[5].entries;
  }

  /** Each date group keeps the relative order the entries have in the list. */
  lemma DateGroupsKeepOrder(list: seq<DialogInfo>, today: int, b: Bucket)
    requires SortedBy(list, RanksAbove)
    requires b != PinnedGroup
    ensures SortedBy(InBucket(list, today, b), RanksAbove)
  {
    FilterSorted(list, x => BucketOf(today, x) == b, RanksAbove);
  }
}

=== FILE: handlers.dfy ===
/** The event handlers between the page and the dialog manager
    (handlers/base.py, handlers/chat_operations.py, handlers/naming_utils.py,
    handlers/mediator.py): the switch debounce, switching and creating chats,
    the settings read at start-up, and the mediator that routes a value of the
    hidden command field to the right handler. The clock is a parameter; the
    chat-list payload that accompanies every reply is modelled in ChatList. */
module Handlers {
  import opened Wrappers
  import opened Text
  import opened Dialogs
  import opened DialogStore
  import opened DialogManager
  import opened Commands

  // ---------------------------------------------------------------------------
  // Debounce (handlers/base.py)

  /** Milliseconds that must pass between two accepted switches. */
  const SwitchDebounceMs: int := 300

  /** `check_debounce`: a call closer than 300 ms to the last accepted one is
      rejected and leaves the stamp alone; otherwise the stamp moves to now. */
  function CheckDebounce(last: int, now: int): (r: (bool, int))
    ensures r.0 <==> now - last >= SwitchDebounceMs
    ensures r.1 == (if r.0 then now else last)
  {
    if now - last < SwitchDebounceMs then (false, last) else (true, now)
  }

  /** A handler fed the call times `times`, starting from the stamp `start`:
      which calls were accepted, and the final stamp. */
  function DebounceRun(start: int, times: seq<int>): (r: (seq<bool>, int))
    ensures |r.0| == |times|
    decreases |times|
  {
    if times == [] then ([], start)
    else
      var n := |times| - 1;
      var (flags, last) := DebounceRun(start, times[..n]);
      var (ok, last') := CheckDebounce(last, times[n]);
      (flags + [ok], last')
  }

  /** The final stamp is the time of the latest accepted call, or the
      starting stamp when none was accepted. */
  lemma {:induction false} DebounceStamp(start: int, times: seq<int>)
    ensures var r := DebounceRun(start, times);
      && ((forall i :: 0 <= i < |times| ==> !r.0[i]) ==> r.1 == start)
      && (forall i :: 0 <= i < |times| && r.0[i] && (forall k :: i < k < |times| ==> !r.0[k]) ==> r.1 == times[i])
    decreases |times|
  {
    if times != [] {
      var n := |times| - 1;
      var pre := DebounceRun(start, times[..n]);
      DebounceStamp(start, times[..n]);
      var r := DebounceRun(start, times);
      assert r.0 == pre.0 + [r.0[n]];
      assert forall i :: 0 <= i < n ==> r.0[i] == pre.0[i] && times[..n][i] == times[i];
      if !r.0[n] {
        assert r.1 == pre.1;
      } else {
        assert r.1 == times[n];
      }
    }
  }

  /** Running on a prefix gives the prefix of the flags. */
  lemma {:induction false} DebounceRunPrefix(start: int, times: seq<int>, j: nat)
    requires j <= |times|
    ensures DebounceRun(start, times[..j]).0 == DebounceRun(start, times).0[..j]
    decreases |times|
  {
    if j < |times| {
      var n := |times| - 1;
      assert times[..n][..j] == times[..j];
      DebounceRunPrefix(start, times[..n], j);
      assert DebounceRun(start, times).0 == DebounceRun(start, times[..n]).0 + [DebounceRun(start, times).0[n]];
    } else {
      assert times[..j] == times;
    }
  }

  /** A call is accepted exactly when it comes at least 300 ms after the
      latest accepted call before it. */
  lemma DebounceSpacing(start: int, times: seq<int>, i: nat, j: nat)
    requires i < j < |times|
    requires DebounceRun(start, times).0[i]
    requires forall k :: i < k < j ==> !DebounceRun(start, times).0[k]
    ensures DebounceRun(start, times).0[j] <==> times[j] - times[i] >= SwitchDebounceMs
  {
    var flags := DebounceRun(start, times).0;
    DebounceRunPrefix(start, times, j);
    DebounceRunPrefix(start, times, j + 1);
    var pre := DebounceRun(start, times[..j]);
    DebounceStamp(start, times[..j]);
    assert times[..j + 1][..j] == times[..j];
    assert pre.0[i];
    assert pre.1 == times[i];
  }

  /** Before any call is accepted, a call is accepted exactly when it comes
      at least 300 ms after the starting stamp. */
  lemma DebounceFirst(start: int, times: seq<int>, j: nat)
    requires j < |times|
    requires forall k :: 0 <= k < j ==> !DebounceRun(start, times).0[k]
    ensures DebounceRun(start, times).0[j] <==> times[j] - start >= SwitchDebounceMs
  {
    DebounceRunPrefix(start, times, j);
    DebounceRunPrefix(start, times, j + 1);
    assert times[..j + 1][..j] == times[..j];
    var pre := DebounceRun(start, times[..j]);
    DebounceStamp(start, times[..j]);
    assert forall k :: 0 <= k < j ==> !pre.0[k];
  }

  // ---------------------------------------------------------------------------
  // Switching and creating (handlers/chat_operations.py)

  /** The chat-operations handler's own state: the manager it shares with
      the other handlers and its debounce stamp (initially 0). */
  datatype Session = Session(m: Manager, lastSwitch: int)

  /** The reply for a debounced call: the current dialog, or nothing. */
  function CurrentReply(m: Manager): (r: Reply)
    ensures GetCurrentDialog(m).Some? ==> r == Reply(ToUiFormat(GetCurrentDialog(m).value), GetCurrentDialog(m).value.id, "none")
    ensures GetCurrentDialog(m).None? ==> r == Refused
  {
    match GetCurrentDialog(m)
    case Some(d) => Reply(ToUiFormat(d), d.id, "none")
    case None => Refused
  }

  /** The ids the page may send when nothing is selected. */
  predicate IsNullId(id: string) {
    id == [] || id == "null" || id == "undefined"
  }

  /** `handle_chat_switch`. A debounced call answers with the current dialog
      and changes nothing; an accepted one strips the id, ignores empty and
      placeholder ids, and switches when the id is stored. An unknown id is
      echoed with an empty history and no switch. */
  function HandleChatSwitch(sess: Session, chatId: string, now: int): (r: (Reply, Session))
    ensures r.0.scroll == "none"
    ensures r.1.m.dialogs == sess.m.dialogs && r.1.m.nextId == sess.m.nextId
    ensures now - sess.lastSwitch < SwitchDebounceMs ==> r == (CurrentReply(sess.m), sess)
    ensures now - sess.lastSwitch >= SwitchDebounceMs ==> r.1.lastSwitch == now
    ensures now - sess.lastSwitch >= SwitchDebounceMs && IsNullId(PyStrip(chatId)) ==> r.0 == Refused && r.1.m == sess.m
    ensures now - sess.lastSwitch >= SwitchDebounceMs && !IsNullId(PyStrip(chatId)) ==>
      var id := PyStrip(chatId);
      && r.0.chatId == id
      && (HasKey(sess.m.dialogs, id) ==> r.1.m.current == Some(id) && r.0.history == ToUiFormat(Get(sess.m.dialogs, id).value))
      && (!HasKey(sess.m.dialogs, id) ==> r.1.m == sess.m && r.0.history == [])
  {
    var (ok, last) := CheckDebounce(sess.lastSwitch, now);
    if !ok then (CurrentReply(sess.m), sess)
    else
      var id := PyStrip(chatId);
      if IsNullId(id) then (Refused, Session(sess.m, last))
      else
        var (switched, m') := SwitchDialog(sess.m, id);
        if switched then (Reply(HistoryOf(m', id), id, "none"), Session(m', last))
        else (Reply([], id, "none"), Session(sess.m, last))
  }

  /** A reply to a switch that names a stored dialog names the current one,
      and switching keeps a valid manager valid. */
  lemma SwitchNamesCurrent(sess: Session, chatId: string, now: int)
    requires Valid(sess.m)
    ensures var r := HandleChatSwitch(sess, chatId, now);
      && Valid(r.1.m)
      && (r.0.chatId != [] && HasKey(r.1.m.dialogs, r.0.chatId) ==> r.1.m.current == Some(r.0.chatId))
  {
    SwitchValid(sess.m, PyStrip(chatId));
  }

  /** What `create_chat_with_js_handler` hands back besides the chat list. */
  datatype CreateReply = CreateReply(history: seq<UiMessage>, chatId: Option<string>, scroll: string)

  /** `create_chat_with_js_handler`: a new dialog under the configured
      default name, made current; the list scrolls to today's group. */
  function CreateChat(m: Manager, defaultName: Option<string>, now: int): (r: (CreateReply, Manager))
    ensures r.0.chatId == Some(IntToString(m.nextId)) && r.1.current == r.0.chatId
    ensures r.0.history == [] && r.0.scroll == "today"
    ensures Get(r.1.dialogs, r.0.chatId.value).Some?
    ensures Get(r.1.dialogs, r.0.chatId.value).value.name == defaultName.GetOr(DefaultDialogName) + " " + r.0.chatId.value
  {
    var (id, m') := CreateDialog(m, None, defaultName, now);
    (CreateReply(HistoryOf(m', id), Some(id), "today"), m')
  }

  /** Creating a chat on a valid manager adds exactly one key and keeps it
      valid. */
  lemma CreateChatValid(m: Manager, defaultName: Option<string>, now: int)
    requires Valid(m)
    ensures Valid(CreateChat(m, defaultName, now).1)
    ensures Keys(CreateChat(m, defaultName, now).1.dialogs) == Keys(m.dialogs) + [IntToString(m.nextId)]
  {
    CreateDialogFresh(m, None, defaultName, now);
  }

  // ---------------------------------------------------------------------------
  // Start-up settings (handlers/naming_utils.py)

  /** The "generation" section of the configuration; absent keys are None. */
  datatype GenerationSection = GenerationSection(maxTokens: Option<int>, temperature: Option<real>, enableThinking: Option<bool>)

  const DefaultMaxTokens: int := 512
  const DefaultTemperature: real := 0.7

  /** A section's values with the built-in defaults for missing keys. */
  function SettingsOf(section: Option<GenerationSection>): (r: (int, real, bool)) {
    match section
    case None => (DefaultMaxTokens, DefaultTemperature, false)
    case Some(g) => (g.maxTokens.GetOr(DefaultMaxTokens), g.temperature.GetOr(DefaultTemperature), g.enableThinking.GetOr(false))
  }

  /** `load_user_settings`: the loaded configuration's section, or the
      default configuration's when loading failed. */
  function LoadUserSettings(config: Result<Option<GenerationSection>, string>, defaults: Option<GenerationSection>): (r: (int, real, bool))
    ensures config.Success? && config.value.Some? && config.value.value.maxTokens.Some? ==> r.0 == config.value.value.maxTokens.value
    ensures config.Success? && (config.value.None? || config.value.value.maxTokens.None?) ==> r.0 == 512
    ensures config.Success? && (config.value.None? || config.value.value.temperature.None?) ==> r.1 == 0.7
    ensures config.Success? && (config.value.None? || config.value.value.enableThinking.None?) ==> !r.2
    ensures config.Failure? ==> r == SettingsOf(defaults)
  {
    match config
    case Success(section) => SettingsOf(section)
    case Failure(_) => SettingsOf(defaults)
  }

  // ---------------------------------------------------------------------------
  // The mediator (handlers/mediator.py)

  /** The handlers the mediator registers by default. */
  datatype HandlerKind = ChatListData | ChatSelection | CreateChatHandler | SendMessageStream | InitApp | StopGeneration

  type Registry = map<string, HandlerKind>

  function DefaultRegistry(): (r: Registry)
    ensures |r.Keys| == 6
  {
    var r := map[
      "get_chat_list_data" := ChatListData,
      "handle_chat_selection" := ChatSelection,
      "create_chat" := CreateChatHandler,
      "send_message_stream" := SendMessageStream,
      "init_app" := InitApp,
      "stop_generation" := StopGeneration];
    assert r.Keys == {"get_chat_list_data", "handle_chat_selection", "create_chat", "send_message_stream", "init_app", "stop_generation"};
    r
  }

  /** `register`: a later registration replaces an earlier one. */
  function Register(reg: Registry, event: string, h: HandlerKind): (r: Registry)
    ensures r.Keys == reg.Keys + {event}
  {
    reg[event := h]
  }

  /** `dispatch`: the registered handler, or a ValueError for an unknown event. */
  function Dispatch(reg: Registry, event: string): (r: Result<HandlerKind, string>)
    ensures r.Success? <==> event in reg
    ensures r.Success? ==> r.value == reg[event]
    ensures r.Failure? ==> r.error == "ValueError"
  {
    if event in reg then Success(reg[event]) else Failure("ValueError")
  }

  /** Dispatching finds the latest registration for an event and leaves the
      others as they were. */
  lemma RegisterThenDispatch(reg: Registry, event: string, h: HandlerKind, other: string)
    requires other != event
    ensures Dispatch(Register(reg, event, h), event) == Success(h)
    ensures Dispatch(Register(reg, event, h), other) == Dispatch(reg, other)
  {
  }

  /** Where `_handle_chat_selection` sends a value, by its prefix, tested in
      this order. */
  datatype Route = Nothing | DeleteRoute | RenameRoute | PinRoute | ThinkingRoute | SwitchRoute

  function RouteOf(chatId: string): (r: Route)
    ensures r == Nothing <==> chatId == []
    ensures r == SwitchRoute ==> !StartsWith(chatId, "delete:") && !StartsWith(chatId, "rename:") && !StartsWith(chatId, "pin:") && !StartsWith(chatId, "unpin:")
  {
    if chatId == [] then Nothing
    else if StartsWith(chatId, "delete:") then DeleteRoute
    else if StartsWith(chatId, "rename:") then RenameRoute
    else if StartsWith(chatId, "pin:") || StartsWith(chatId, "unpin:") then PinRoute
    else if StartsWith(chatId, "thinking:") then ThinkingRoute
    else SwitchRoute
  }

  /** Every command the browser builds reaches its own handler, and a plain
      numeric id reaches the switch. */
  lemma BuiltCommandsRoute(chatId: string, name: string, encode: string -> string, isActive: bool, pin: bool, n: nat)
    ensures RouteOf(RenameCommand(chatId, name, encode)) == RenameRoute
    ensures RouteOf(DeleteCommand(chatId, isActive)) == DeleteRoute
    ensures RouteOf(PinCommand(chatId, pin)) == PinRoute
    ensures RouteOf(NatToString(n)) == SwitchRoute
  {
    RenameCommandRoute(chatId, name, encode);
    DeleteCommandRoute(chatId, isActive);
    PinCommandRoute(chatId, pin);
    NumberRoute(n);
  }

  lemma RenameCommandRoute(chatId: string, name: string, encode: string -> string)
    ensures RouteOf(RenameCommand(chatId, name, encode)) == RenameRoute
  {
    var rc := RenameCommand(chatId, name, encode);
    assert rc[..7] == "rename:";
    assert rc[..7] != "delete:";
  }

  lemma DeleteCommandRoute(chatId: string, isActive: bool)
    ensures RouteOf(DeleteCommand(chatId, isActive)) == DeleteRoute
  {
    var dc := DeleteCommand(chatId, isActive);
    assert dc[..7] == "delete:";
  }

  lemma PinCommandRoute(chatId: string, pin: bool)
    ensures RouteOf(PinCommand(chatId, pin)) == PinRoute
  {
    var pc := PinCommand(chatId, pin);
    if pin {
      assert pc[0] == 'p' && pc[..4] == "pin:";
    } else {
      assert pc[0] == 'u' && pc[..6] == "unpin:";
    }
  }

  lemma NumberRoute(n: nat)
    ensures RouteOf(NatToString(n)) == SwitchRoute
  {
    var s := NatToString(n);
    assert IsDigit(s[0]);
    DigitStartNoPrefix(s, "delete:");
    DigitStartNoPrefix(s, "rename:");
    DigitStartNoPrefix(s, "pin:");
    DigitStartNoPrefix(s, "unpin:");
    DigitStartNoPrefix(s, "thinking:");
  }

  /** A text starting with a digit does not start with a prefix that
      starts with something else. */
  lemma DigitStartNoPrefix(s: string, p: string)
    requires s != [] && p != [] && IsDigit(s[0]) && !IsDigit(p[0])
    ensures !StartsWith(s, p)
  {
  }

  /** `_handle_chat_selection`: an empty value answers with nothing; the
      command prefixes go to the command handlers, whose debounce stamps are
      never read; "thinking:" reaches a method the command handler lacks and
      raises; anything else is a switch. */
  function HandleChatSelection(sess: Session, chatId: string, decode: string -> string, limits: NamingLimits, now: int): (r: Result<(Reply, Session), string>)
    ensures r.Failure? <==> RouteOf(chatId) == ThinkingRoute
    ensures r.Failure? ==> r.error == "AttributeError"
    ensures RouteOf(chatId) == Nothing ==> r == Success((Refused, sess))
    ensures RouteOf(chatId) == DeleteRoute ==> r == Success((HandleDeletion(sess.m, chatId).0, sess.(m := HandleDeletion(sess.m, chatId).1)))
    ensures RouteOf(chatId) == RenameRoute ==> r == Success((HandleRename(sess.m, chatId, decode, limits, now).0, sess.(m := HandleRename(sess.m, chatId, decode, limits, now).1)))
    ensures RouteOf(chatId) == PinRoute ==> r == Success((HandlePinning(sess.m, chatId).0, sess.(m := HandlePinning(sess.m, chatId).1)))
    ensures RouteOf(chatId) == SwitchRoute ==> r == Success(HandleChatSwitch(sess, chatId, now))
    ensures r.Success? && RouteOf(chatId) != SwitchRoute ==> r.value.1.lastSwitch == sess.lastSwitch
  {
    match RouteOf(chatId)
    case Nothing => Success((Refused, sess))
    case DeleteRoute =>
      var (reply, m') := HandleDeletion(sess.m, chatId);
      Success((reply, sess.(m := m')))
    case RenameRoute =>
      var (reply, m') := HandleRename(sess.m, chatId, decode, limits, now);
      Success((reply, sess.(m := m')))
    case PinRoute =>
      var (reply, m') := HandlePinning(sess.m, chatId);
      Success((reply, sess.(m := m')))
    case ThinkingRoute => Failure("AttributeError")
    case SwitchRoute => Success(HandleChatSwitch(sess, chatId, now))
  }

  /** Whatever the page sends, a valid manager stays valid. */
  lemma SelectionKeepsValid(sess: Session, chatId: string, decode: string -> string, limits: NamingLimits, now: int)
    requires Valid(sess.m)
    ensures var r := HandleChatSelection(sess, chatId, decode, limits, now);
      r.Success? ==> Valid(r.value.1.m)
  {
    var r := HandleChatSelection(sess, chatId, decode, limits, now);
    match RouteOf(chatId)
    case Nothing =>
    case ThinkingRoute =>
    case DeleteRoute =>
      CommandsKeepValid(sess.m, chatId, decode, limits, now);
      assert r.value.1.m == HandleDeletion(sess.m, chatId).1;
    case RenameRoute =>
      CommandsKeepValid(sess.m, chatId, decode, limits, now);
      assert r.value.1.m == HandleRename(sess.m, chatId, decode, limits, now).1;
    case PinRoute =>
      CommandsKeepValid(sess.m, chatId, decode, limits, now);
      assert r.value.1.m == HandlePinning(sess.m, chatId).1;
    case SwitchRoute =>
      SwitchNamesCurrent(sess, chatId, now);
  }
}

=== FILE: legacy.dfy ===
/** The two older dialog stores: the `DialogService` of
    ui/services/dialog_service.py and the dict-based `DialogManager` of
    ui/classes/dialog_manager.py. Both keep the same state as the current
    manager (the dialog map, the current id and the next id); switching and
    deleting behave exactly as `DialogManager.SwitchDialog` and
    `DialogManager.DeleteDialog`. What differs is modelled here: naming,
    renaming without validation, the list sorted by update time only, and
    how loading advances the id counter. */
module LegacyDialogs {
  import opened Wrappers
  import opened Text
  import opened Dialogs
  import opened DialogStore
  import opened Sorting
  import opened DialogManager

  /** `DialogService.create_dialog`: the default name comes from the
      configuration. */
  function ServiceCreate(m: Manager, name: Option<string>, defaultName: string, now: int): (r: (string, Manager))
    ensures r.0 == IntToString(m.nextId)
    ensures r.1.nextId == m.nextId + 1 && r.1.current == Some(r.0)
    ensures Get(r.1.dialogs, r.0) == Some(NewDialog(r.0, NewDialogName(name, Some(defaultName), r.0), now))
    ensures forall k :: k != r.0 ==> Get(r.1.dialogs, k) == Get(m.dialogs, k)
  {
    CreateDialog(m, name, Some(defaultName), now)
  }

  const LegacyDefaultName: string := "Чат"

  /** `DialogManager.create_new_dialog`: the default name is "Чат <id>". */
  function ManagerCreate(m: Manager, name: Option<string>, now: int): (r: (string, Manager))
    ensures r.0 == IntToString(m.nextId)
    ensures r.1.nextId == m.nextId + 1 && r.1.current == Some(r.0)
    ensures (name.None? || name.value == []) ==>
      Get(r.1.dialogs, r.0) == Some(NewDialog(r.0, LegacyDefaultName + " " + r.0, now))
    ensures name.Some? && name.value != [] ==> Get(r.1.dialogs, r.0) == Some(NewDialog(r.0, name.value, now))
    ensures forall k :: k != r.0 ==> Get(r.1.dialogs, k) == Get(m.dialogs, k)
  {
    CreateDialog(m, name, Some(LegacyDefaultName), now)
  }

  /** `rename_dialog` of both older stores: no validation at all. */
  function ServiceRename(m: Manager, id: string, newName: string, now: int): (r: (bool, Manager))
    ensures r.0 <==> HasKey(m.dialogs, id)
    ensures !r.0 ==> r.1 == m
    ensures r.0 ==> Get(r.1.dialogs, id) == Some(Rename(Get(m.dialogs, id).value, newName, now))
    ensures forall k :: k != id ==> Get(r.1.dialogs, k) == Get(m.dialogs, k)
    ensures Keys(r.1.dialogs) == Keys(m.dialogs) && r.1.current == m.current && r.1.nextId == m.nextId
  {
    match Get(m.dialogs, id)
    case None => (false, m)
    case Some(d) => (true, m.(dialogs := Put(m.dialogs, Rename(d, newName, now))))
  }

  /** `clear_dialog` of both older stores. */
  function ServiceClear(m: Manager, id: string, now: int): (r: (bool, Manager))
    ensures r.0 <==> HasKey(m.dialogs, id)
    ensures !r.0 ==> r.1 == m
    ensures r.0 ==> Get(r.1.dialogs, id) == Some(ClearHistory(Get(m.dialogs, id).value, now))
    ensures forall k :: k != id ==> Get(r.1.dialogs, k) == Get(m.dialogs, k)
    ensures Keys(r.1.dialogs) == Keys(m.dialogs) && r.1.current == m.current && r.1.nextId == m.nextId
  {
    match Get(m.dialogs, id)
    case None => (false, m)
    case Some(d) => (true, m.(dialogs := Put(m.dialogs, ClearHistory(d, now))))
  }

  /** One entry of the older `get_dialog_list`. */
  datatype ListEntry = ListEntry(id: string, name: string, historyLength: nat, created: int, updated: int, isCurrent: bool)

  predicate NewerThan(a: ListEntry, b: ListEntry) {
    a.updated > b.updated
  }

  function Entries(s: Store, current: Option<string>): (r: seq<ListEntry>)
    ensures |r| == |s|
  {
    seq(|s|, i requires 0 <= i < |s| =>
      ListEntry(s[i].id, s[i].name, |s[i].history|, s[i].created, s[i].updated, current == Some(s[i].id)))
  }

  /** The older `get_dialog_list`: most recently updated first. */
  function ServiceList(s: Store, current: Option<string>): (r: seq<ListEntry>)
    ensures |r| == |s|
    ensures multiset(r) == multiset(Entries(s, current))
    ensures forall i, j :: 0 <= i < j < |r| ==> r[i].updated >= r[j].updated
    ensures forall x :: x in r ==> (x.isCurrent <==> current == Some(x.id))
  {
    assert StrictOrder(NewerThan);
    SortSorted(Entries(s, current), NewerThan);
    var r := Sort(Entries(s, current), NewerThan);
    assert forall x :: x in r ==> x in multiset(Entries(s, current));
    r
  }

  /** The head of the older list is a key updated no earlier than any other. */
  lemma ServiceListHead(s: Store, current: Option<string>)
    requires s != []
    ensures HasKey(s, ServiceList(s, current)[0].id)
    ensures forall i :: 0 <= i < |s| ==> s[i].updated <= ServiceList(s, current)[0].updated
    ensures UniqueIds(s) ==> Get(s, ServiceList(s, current)[0].id).value.updated == ServiceList(s, current)[0].updated
  {
    var r := ServiceList(s, current);
    var e := Entries(s, current);
    assert r[0] in multiset(e);
    var k :| 0 <= k < |e| && e[k] == r[0];
    assert s[k].id == r[0].id && s[k].updated == r[0].updated;
    if UniqueIds(s) {
      GetIndex(s, k);
    }
    forall i | 0 <= i < |s|
      ensures s[i].updated <= r[0].updated
    {
      assert e[i] in multiset(r);
      var j :| 0 <= j < |r| && r[j] == e[i];
    }
  }

  /** The dialog made current after loading: the head of the older list. */
  function MostRecent(s: Store): (r: Option<string>)
    ensures s == [] <==> r.None?
    ensures r.Some? ==> r.value == ServiceList(s, None)[0].id && HasKey(s, r.value)
    ensures r.Some? && UniqueIds(s) ==> forall i :: 0 <= i < |s| ==> s[i].updated <= Get(s, r.value).value.updated
  {
    if s == [] then None
    else
      ServiceListHead(s, None);
      Some(ServiceList(s, None)[0].id)
  }

  /** The counter update after loading one dialog: `int(dialog_id)` when it
      is at least the counter raises it. */
  function Advance(next: nat, id: string): (r: nat)
    ensures r >= next
    ensures PyInt(id).Some? ==> PyInt(id).value < r
    ensures r == next || PyInt(id) == Some(r - 1)
  {
    Bump(next, PyInt(id))
  }

  /** The counter moved past a parsed id, when there is one. */
  function Bump(next: nat, v: Option<int>): (r: nat)
    ensures r >= next
    ensures v.Some? ==> v.value < r
    ensures r == next || v == Some(r - 1)
  {
    match v
    case Some(n) => if n >= next then n + 1 else next
    case None => next
  }

  /** The counter after loading `files` in order, starting from 1. */
  function AdvanceAll(files: seq<Dialog>): (r: nat)
    ensures r >= 1
    ensures forall i :: 0 <= i < |files| && PyInt(files[i].id).Some? ==> PyInt(files[i].id).value < r
    ensures r == 1 || exists i :: 0 <= i < |files| && PyInt(files[i].id) == Some(r - 1)
  {
    var vals := seq(|files|, i requires 0 <= i < |files| => PyInt(files[i].id));
    assert forall i :: 0 <= i < |files| ==> vals[i] == PyInt(files[i].id);
    BumpAll(vals)
  }

  /** `Bump` over parsed ids in order, starting from 1: above every id read,
      and either 1 or one past one of them. */
  function BumpAll(vals: seq<Option<int>>): (r: nat)
    ensures r >= 1
    ensures forall i :: 0 <= i < |vals| && vals[i].Some? ==> vals[i].value < r
    ensures r == 1 || exists i :: 0 <= i < |vals| && vals[i] == Some(r - 1)
  {
    if vals == [] then 1
    else
      var init := vals[..|vals| - 1];
      assert forall i :: 0 <= i < |init| ==> vals[i] == init[i];
      Bump(BumpAll(init), vals[|vals| - 1])
  }

  /** `DialogService.load_dialogs` over the dialogs read from the files, in
      directory order. Each dialog is stored under its id (a later file with
      the same id wins); an id that `int()` rejects is stored but does not
      move the counter; the most recently updated dialog becomes current. */
  method ServiceLoad(files: seq<Dialog>) returns (m: Manager)
    ensures LoadedFrom(m.dialogs, files)
    ensures m.nextId == AdvanceAll(files)
    ensures m.current == MostRecent(m.dialogs)
  {
    var s := StoreAll(files);
    m := Manager(s, MostRecent(s), AdvanceAll(files));
  }

  /** Stores the dialogs one after the other under their ids. */
  method StoreAll(files: seq<Dialog>) returns (s: Store)
    ensures LoadedFrom(s, files)
  {
    s := [];
    var n := 0;
    while n < |files|
      invariant 0 <= n <= |files|
      invariant LoadedFrom(s, files[..n])
    {
      LoadPrefixStep(s, files, n);
      s := Put(s, files[n]);
      n := n + 1;
    }
    assert files[..n] == files;
  }

  /** No later file carries the same id as file `i`. */
  predicate LastWithId(files: seq<Dialog>, i: nat)
    requires i < |files|
  {
    forall j :: i < j < |files| ==> files[j].id != files[i].id
  }

  /** The store holds exactly the files read so far, each key with its last file. */
  predicate LoadedFrom(s: Store, files: seq<Dialog>) {
    && UniqueIds(s)
    && (forall i :: 0 <= i < |files| ==> HasKey(s, files[i].id))
    && (forall i :: 0 <= i < |s| ==> s[i] in files)
    && (forall i :: 0 <= i < |files| && LastWithId(files, i) ==> Get(s, files[i].id) == Some(files[i]))
  }

  /** Storing the next file extends what the store was loaded from by one file. */
  lemma LoadPrefixStep(s: Store, files: seq<Dialog>, n: nat)
    requires n < |files| && LoadedFrom(s, files[..n])
    ensures LoadedFrom(Put(s, files[n]), files[..n + 1])
  {
    LoadStep(s, files[..n], files[n]);
    assert files[..n + 1] == files[..n] + [files[n]];
  }

  lemma LoadStep(s: Store, files: seq<Dialog>, d: Dialog)
    requires LoadedFrom(s, files)
    ensures LoadedFrom(Put(s, d), files + [d])
  {
    LoadStepKeys(s, files, d);
    LoadStepFrom(s, files, d);
    LoadStepLast(s, files, d);
  }

  lemma LoadStepKeys(s: Store, files: seq<Dialog>, d: Dialog)
    requires forall i :: 0 <= i < |files| ==> HasKey(s, files[i].id)
    ensures forall i :: 0 <= i < |files + [d]| ==> HasKey(Put(s, d), (files + [d])[i].id)
  {
    var s' := Put(s, d);
    var f := files + [d];
    forall i | 0 <= i < |f|
      ensures HasKey(s', f[i].id)
    {
      if i < |files| && f[i].id != d.id {
        assert f[i] == files[i];
        assert Get(s', f[i].id) == Get(s, f[i].id);
      }
    }
  }

  lemma LoadStepFrom(s: Store, files: seq<Dialog>, d: Dialog)
    requires forall i :: 0 <= i < |s| ==> s[i] in files
    ensures forall i :: 0 <= i < |Put(s, d)| ==> Put(s, d)[i] in files + [d]
  {
    PutElements(s, d);
  }

  lemma LoadStepLast(s: Store, files: seq<Dialog>, d: Dialog)
    requires forall i :: 0 <= i < |files| && LastWithId(files, i) ==> Get(s, files[i].id) == Some(files[i])
    ensures forall i :: 0 <= i < |files + [d]| && LastWithId(files + [d], i) ==>
      Get(Put(s, d), (files + [d])[i].id) == Some((files + [d])[i])
  {
    var s' := Put(s, d);
    var f := files + [d];
    forall i | 0 <= i < |f| && LastWithId(f, i)
      ensures Get(s', f[i].id) == Some(f[i])
    {
      if i < |files| {
        assert f[i] == files[i] && f[|files|] == d;
        assert f[i].id != d.id;
        assert LastWithId(files, i) by {
          forall j | i < j < |files|
            ensures files[j].id != files[i].id
          {
            assert f[j] == files[j];
          }
        }
      }
    }
  }

  /** In a store with unique keys, the entry at `i` is the one found under its key. */
  lemma GetUnique(s: Store, i: nat)
    requires UniqueIds(s) && i < |s|
    ensures Get(s, s[i].id) == Some(s[i])
  {
    GetIndex(s, i);
  }

  /** The position of the first file whose id `int()` rejects, or the
      number of files when there is none. */
  function FirstBad(files: seq<Dialog>): (k: nat)
    ensures k <= |files|
    ensures forall j :: 0 <= j < k ==> PyInt(files[j].id).Some?
    ensures k < |files| ==> PyInt(files[k].id).None?
  {
    if files == [] then 0
    else if PyInt(files[0].id).None? then 0
    else 1 + FirstBad(files[1..])
  }

  /** Once every id parses, the counter after loading is above every stored key. */
  lemma LoadedKeysBelow(s: Store, files: seq<Dialog>)
    requires LoadedFrom(s, files)
    requires forall j :: 0 <= j < |files| ==> PyInt(files[j].id).Some?
    ensures KeysBelow(s, AdvanceAll(files))
  {
    forall i | 0 <= i < |s|
      ensures PyInt(s[i].id).Some? && PyInt(s[i].id).value < AdvanceAll(files)
    {
      var j :| 0 <= j < |files| && files[j] == s[i];
    }
  }

  /** `DialogManager.load_dialogs` over the files in directory order. The
      first id that `int()` rejects aborts the loading: that dialog is
      already stored, the later files are not read and no current dialog is
      chosen. Without such an id it loads like `DialogService.load_dialogs`
      and keeps the manager invariant. */
  method ManagerLoad(files: seq<Dialog>) returns (m: Manager, aborted: bool)
    ensures aborted <==> exists i :: 0 <= i < |files| && PyInt(files[i].id).None?
    ensures aborted ==> m.current == None && FirstBad(files) < |files|
    ensures aborted ==> LoadedFrom(m.dialogs, files[..FirstBad(files) + 1])
    ensures !aborted ==> LoadedFrom(m.dialogs, files) && m.nextId == AdvanceAll(files)
    ensures !aborted ==> m.current == MostRecent(m.dialogs) && Valid(m)
  {
    var k := FirstBad(files);
    FirstBadIsFirst(files);
    if k < |files| {
      var s := StoreAll(files[..k + 1]);
      m := Manager(s, None, AdvanceAll(files[..k]));
      aborted := true;
    } else {
      var s := StoreAll(files);
      LoadedValid(s, files);
      m := Manager(s, MostRecent(s), AdvanceAll(files));
      aborted := false;
    }
  }

  /** Some file's id does not parse exactly when the first such file lies
      within the files. */
  lemma FirstBadIsFirst(files: seq<Dialog>)
    ensures FirstBad(files) < |files| <==> exists i :: 0 <= i < |files| && PyInt(files[i].id).None?
  {
    if FirstBad(files) < |files| {
      assert PyInt(files[FirstBad(files)].id).None?;
    }
  }

  /** A store loaded from files whose ids all parse, with the most recent
      dialog current and the counter past every id, is a valid manager. */
  lemma LoadedValid(s: Store, files: seq<Dialog>)
    requires LoadedFrom(s, files)
    requires forall j :: 0 <= j < |files| ==> PyInt(files[j].id).Some?
    ensures Valid(Manager(s, MostRecent(s), AdvanceAll(files)))
  {
    LoadedKeysBelow(s, files);
  }
}

=== FILE: manager.dfy ===
/** The dialog manager (services/dialogs/manager.py) and the operations it
    delegates to (services/dialogs/operations.py): the dialog map, the current
    dialog id and the next id to allocate. The clock reading `now` is a
    parameter; saving to disk is not modelled. */
module DialogManager {
  import opened Wrappers
  import opened Text
  import opened Dialogs
  import opened DialogStore
  import Pinning
  import Grouper

  datatype Manager = Manager(dialogs: Store, current: Option<string>, nextId: int)

  /** Every key is a string `int()` reads as a number below `n`. */
  predicate KeysBelow(s: Store, n: int) {
    forall i :: 0 <= i < |s| ==> PyInt(s[i].id).Some? && PyInt(s[i].id).value < n
  }

  /** The invariant the manager keeps: a real dict, a current id that is
      None or a key, and a next id above every key. */
  predicate Valid(m: Manager) {
    UniqueIds(m.dialogs)
    && (m.current.None? || HasKey(m.dialogs, m.current.value))
    && KeysBelow(m.dialogs, m.nextId)
  }

  /** `max(int(did) for did in keys, default=0)` over keys `int()` reads. */
  function MaxId(s: Store): (r: int)
    requires forall i :: 0 <= i < |s| ==> PyInt(s[i].id).Some?
    ensures forall i :: 0 <= i < |s| ==> PyInt(s[i].id).value <= r
    ensures s == [] ==> r == 0
    ensures s != [] ==> exists i :: 0 <= i < |s| && PyInt(s[i].id).value == r
  {
    if s == [] then 0
    else
      var init := s[..|s| - 1];
      var v := PyInt(s[|s| - 1].id).value;
      assert forall i :: 0 <= i < |init| ==> init[i] == s[i];
      if init == [] then v
      else
        var m := MaxId(init);
        if v > m then v else m
  }

  /** `_init_dialogs` over the loaded map. A key that `int()` rejects raises
      `ValueError`. */
  function Init(loaded: Store): (r: Result<Manager, string>)
    ensures r.Failure? <==> exists i :: 0 <= i < |loaded| && PyInt(loaded[i].id).None?
    ensures r.Success? && loaded == [] ==> r.value == Manager([], None, 1)
    ensures r.Success? ==> r.value.dialogs == loaded
    ensures r.Success? && loaded != [] ==>
      && r.value.nextId == MaxId(loaded) + 1
      && r.value.current == Some(Grouper.GetDialogList(loaded, None)[0].id)
  {
    if exists i :: 0 <= i < |loaded| && PyInt(loaded[i].id).None? then Failure("ValueError")
    else if loaded == [] then Success(Manager([], None, 1))
    else
      var list := Grouper.GetDialogList(loaded, None);
      Success(Manager(loaded, Some(list[0].id), MaxId(loaded) + 1))
  }

  /** A loaded map with unique decimal keys gives a valid manager whose
      current dialog is a key. */
  lemma InitValid(loaded: Store)
    requires UniqueIds(loaded)
    requires Init(loaded).Success?
    ensures Valid(Init(loaded).value)
  {
    if loaded != [] {
      var list := Grouper.GetDialogList(loaded, None);
      Grouper.DialogListIds(loaded, None);
      assert exists i :: 0 <= i < |loaded| && list[i].id == list[0].id;
    }
  }

  const DefaultDialogName: string := "Новый чат"

  /** The name a new dialog gets: the given one when truthy, otherwise
      `"<default_name> <id>"`. */
  function NewDialogName(name: Option<string>, defaultName: Option<string>, id: string): (r: string)
    ensures name.Some? && name.value != [] ==> r == name.value
    ensures (name.None? || name.value == []) ==> r == defaultName.GetOr(DefaultDialogName) + " " + id
  {
    if name.Some? && name.value != [] then name.value
    else defaultName.GetOr(DefaultDialogName) + " " + id
  }

  /** `create_dialog`: stores a new dialog under `str(next_dialog_id)`,
      advances the counter and makes it current. */
  function CreateDialog(m: Manager, name: Option<string>, defaultName: Option<string>, now: int): (r: (string, Manager))
    ensures r.0 == IntToString(m.nextId)
    ensures r.1.nextId == m.nextId + 1
    ensures r.1.current == Some(r.0)
    ensures Get(r.1.dialogs, r.0) == Some(NewDialog(r.0, NewDialogName(name, defaultName, r.0), now))
    ensures forall k :: k != r.0 ==> Get(r.1.dialogs, k) == Get(m.dialogs, k)
  {
    var id := IntToString(m.nextId);
    var d := NewDialog(id, NewDialogName(name, defaultName, id), now);
    (id, Manager(Put(m.dialogs, d), Some(id), m.nextId + 1))
  }

  /** On a valid manager the new id is fresh: creation appends a key and
      overwrites nothing, and the manager stays valid. */
  lemma CreateDialogFresh(m: Manager, name: Option<string>, defaultName: Option<string>, now: int)
    requires Valid(m)
    ensures !HasKey(m.dialogs, IntToString(m.nextId))
    ensures Keys(CreateDialog(m, name, defaultName, now).1.dialogs) == Keys(m.dialogs) + [IntToString(m.nextId)]
    ensures Valid(CreateDialog(m, name, defaultName, now).1)
  {
    var id := IntToString(m.nextId);
    PyIntOfIntToString(m.nextId);
    forall i | 0 <= i < |m.dialogs|
      ensures m.dialogs[i].id != id
    {
      assert PyInt(m.dialogs[i].id).value < m.nextId;
    }
    var r := CreateDialog(m, name, defaultName, now).1;
    var d := NewDialog(id, NewDialogName(name, defaultName, id), now);
    assert r.dialogs == m.dialogs + [d];
  }

  /** `switch_dialog`. */
  function SwitchDialog(m: Manager, id: string): (r: (bool, Manager))
    ensures r.0 <==> HasKey(m.dialogs, id)
    ensures r.0 ==> r.1 == m.(current := Some(id))
    ensures !r.0 ==> r.1 == m
  {
    if HasKey(m.dialogs, id) then (true, m.(current := Some(id))) else (false, m)
  }

  lemma SwitchValid(m: Manager, id: string)
    requires Valid(m)
    ensures Valid(SwitchDialog(m, id).1)
  {
  }

  /** `delete_dialog`: removes the key; when it was current, the first
      remaining key (or None) becomes current. `keep_current` is ignored. */
  function DeleteDialog(m: Manager, id: string): (r: (bool, Manager))
    ensures r.0 <==> HasKey(m.dialogs, id)
    ensures !r.0 ==> r.1 == m
    ensures r.0 ==> r.1.dialogs == Remove(m.dialogs, id) && r.1.nextId == m.nextId
    ensures r.0 && m.current == Some(id) ==>
      r.1.current == if r.1.dialogs == [] then None else Some(r.1.dialogs[0].id)
    ensures r.0 && m.current != Some(id) ==> r.1.current == m.current
  {
    if !HasKey(m.dialogs, id) then (false, m)
    else
      var rest := Remove(m.dialogs, id);
      var current := if m.current == Some(id) then (if rest == [] then None else Some(rest[0].id)) else m.current;
      (true, Manager(rest, current, m.nextId))
  }

  lemma DeleteValid(m: Manager, id: string)
    requires Valid(m)
    ensures Valid(DeleteDialog(m, id).1)
    ensures !HasKey(DeleteDialog(m, id).1.dialogs, id)
  {
    var r := DeleteDialog(m, id).1;
    RemoveUnique(m.dialogs, id);
    RemoveRemovesKey(m.dialogs, id);
    if HasKey(m.dialogs, id) {
      if r.current.Some? {
        if m.current == Some(id) {
          FindIs(r.dialogs, r.dialogs[0].id, 0);
        } else {
          RemoveGet(m.dialogs, id, m.current.value);
        }
      }
      forall i | 0 <= i < |r.dialogs|
        ensures PyInt(r.dialogs[i].id).Some? && PyInt(r.dialogs[i].id).value < r.nextId
      {
        var d := r.dialogs[i];
        assert d in m.dialogs;
      }
    }
  }

  /** Naming limits read from the `chat_naming` section. */
  datatype NamingLimits = NamingLimits(maxLength: int, minLength: int)

  const DefaultNamingLimits: NamingLimits := NamingLimits(50, 1)

  /** The name `rename_dialog` stores, or None when it refuses. */
  function CleanNewName(newName: string, limits: NamingLimits): (r: Option<string>)
    ensures r.None? <==> |PyStrip(newName)| < limits.minLength || PyStrip(newName) == []
    ensures r.Some? ==> r.value == PySliceTo(PyStrip(newName), limits.maxLength)
    ensures r.Some? && limits.maxLength >= 1 ==> r.value != [] && !IsPySpace(r.value[0])
    ensures r.Some? && limits.maxLength >= 0 ==> |r.value| <= limits.maxLength
  {
    var n := PyStrip(newName);
    if |n| < limits.minLength then None
    else if n == [] then None
    else Some(if |n| > limits.maxLength then PySliceTo(n, limits.maxLength) else n)
  }

  /** `rename_dialog`. */
  function RenameDialog(m: Manager, id: string, newName: string, limits: NamingLimits, now: int): (r: (bool, Manager))
    ensures r.0 <==> HasKey(m.dialogs, id) && CleanNewName(newName, limits).Some?
    ensures !r.0 ==> r.1 == m
    ensures r.0 ==> Get(r.1.dialogs, id) == Some(Rename(Get(m.dialogs, id).value, CleanNewName(newName, limits).value, now))
    ensures forall k :: k != id ==> Get(r.1.dialogs, k) == Get(m.dialogs, k)
    ensures Keys(r.1.dialogs) == Keys(m.dialogs) && r.1.current == m.current && r.1.nextId == m.nextId
  {
    match Get(m.dialogs, id)
    case None => (false, m)
    case Some(d) =>
      match CleanNewName(newName, limits)
      case None => (false, m)
      case Some(n) => (true, m.(dialogs := Put(m.dialogs, Rename(d, n, now))))
  }

  /** `add_message`. */
  function AddMessage(m: Manager, id: string, role: Role, content: string, now: int): (r: (bool, Manager))
    ensures r.0 <==> HasKey(m.dialogs, id)
    ensures !r.0 ==> r.1 == m
    ensures r.0 ==> Get(r.1.dialogs, id) == Some(Dialogs.AddMessage(Get(m.dialogs, id).value, role, content, now))
    ensures forall k :: k != id ==> Get(r.1.dialogs, k) == Get(m.dialogs, k)
    ensures Keys(r.1.dialogs) == Keys(m.dialogs) && r.1.current == m.current && r.1.nextId == m.nextId
  {
    match Get(m.dialogs, id)
    case None => (false, m)
    case Some(d) => (true, m.(dialogs := Put(m.dialogs, Dialogs.AddMessage(d, role, content, now))))
  }

  /** `get_current_dialog`: a dialog when the current id is truthy and a key. */
  function GetCurrentDialog(m: Manager): (r: Option<Dialog>)
    ensures r.Some? <==> m.current.Some? && m.current.value != [] && HasKey(m.dialogs, m.current.value)
    ensures r.Some? ==> r.value.id == m.current.value && r.value in m.dialogs
  {
    if m.current.Some? && m.current.value != [] then Get(m.dialogs, m.current.value) else None
  }

  /** A store whose keys are unchanged in order keeps the manager valid. */
  lemma SameKeysValid(m: Manager, s: Store)
    requires Valid(m)
    requires Keys(s) == Keys(m.dialogs)
    ensures Valid(m.(dialogs := s))
  {
    assert forall i :: 0 <= i < |s| ==> s[i].id == Keys(s)[i] == Keys(m.dialogs)[i] == m.dialogs[i].id;
    if m.current.Some? {
      var i := Find(m.dialogs, m.current.value).value;
      assert s[i].id == m.current.value;
    }
  }

  lemma RenameValid(m: Manager, id: string, newName: string, limits: NamingLimits, now: int)
    requires Valid(m)
    ensures Valid(RenameDialog(m, id, newName, limits, now).1)
  {
    SameKeysValid(m, RenameDialog(m, id, newName, limits, now).1.dialogs);
  }

  lemma AddMessageValid(m: Manager, id: string, role: Role, content: string, now: int)
    requires Valid(m)
    ensures Valid(AddMessage(m, id, role, content, now).1)
  {
    SameKeysValid(m, AddMessage(m, id, role, content, now).1.dialogs);
  }

  /** `pin_dialog` and `unpin_dialog` through the manager. */
  function PinDialog(m: Manager, id: string): (r: (bool, Manager))
    ensures r.0 <==> HasKey(m.dialogs, id)
    ensures r.1 == m.(dialogs := Pinning.PinDialog(m.dialogs, id).1)
  {
    var (ok, s) := Pinning.PinDialog(m.dialogs, id);
    (ok, m.(dialogs := s))
  }

  /** `unpin_dialog` through the manager, as written: the `TypeError` the
      shift loop can raise escapes as a failure, with the target already
      unpinned in the map. When it returns, it agrees with the corrected
      unpin; on a well-pinned map it always returns. */
  function UnpinDialog(m: Manager, id: string): (r: (Result<bool, string>, Manager))
    ensures r.1 == m.(dialogs := Pinning.UnpinDialogAsWritten(m.dialogs, id).store)
    ensures r.0.Success? ==> (r.0.value <==> HasKey(m.dialogs, id))
    ensures r.0.Success? ==> r.1.dialogs == Pinning.UnpinDialog(m.dialogs, id).1
    ensures r.0.Failure? ==>
      HasKey(m.dialogs, id) && Get(m.dialogs, id).value.pinned && Get(m.dialogs, id).value.pinnedPosition.None?
    ensures Pinning.WellPinned(m.dialogs) ==> r.0.Success?
  {
    Pinning.UnpinAsWrittenAgrees(m.dialogs, id);
    match Pinning.UnpinDialogAsWritten(m.dialogs, id)
    case Returned(ok, s) => (Success(ok), m.(dialogs := s))
    case RaisedTypeError(s) => (Failure("TypeError"), m.(dialogs := s))
  }

  /** Pinning changes no key, so the manager stays valid, whether or not
      the unpinning raises. */
  lemma PinValid(m: Manager, id: string)
    requires Valid(m)
    ensures Valid(PinDialog(m, id).1)
    ensures Valid(UnpinDialog(m, id).1)
  {
    var p := Pinning.PinDialog(m.dialogs, id).1;
    var u := Pinning.UnpinDialogAsWritten(m.dialogs, id).store;
    Pinning.UnpinAsWrittenSameIds(m.dialogs, id);
    assert forall i :: 0 <= i < |p| ==> p[i].id == m.dialogs[i].id;
    assert Keys(p) == Keys(m.dialogs);
    assert Keys(u) == Keys(m.dialogs);
    SameKeysValid(m, p);
    SameKeysValid(m, u);
  }
}

=== FILE: params.dfy ===
/** The generation parameters: `GenerationParameters` of
    services/model/parameters.py, where every value is independent, and
    `_get_generation_parameters` of services/model_service.py, where the
    thinking mode picks the temperature and `top_p`. Floats are reals. */
module Params {
  import opened Wrappers

  /** The keys read from the generation section; an absent key is None.
      `thinkingTemperature` and `thinkingTopP` are the `thinking_params`
      subsection. */
  datatype GenConfig = GenConfig(
    defaultEnableThinking: Option<bool>,
    defaultMaxTokens: Option<int>,
    defaultTemperature: Option<real>,
    defaultTopP: Option<real>,
    repetitionPenalty: Option<real>,
    topK: Option<int>,
    thinkingTemperature: Option<real>,
    thinkingTopP: Option<real>)

  /** The six values of the returned dictionary, one field per key. */
  datatype Parameters = Parameters(maxTokens: int, temperature: real, topP: real, repetitionPenalty: real, topK: int, enableThinking: bool)

  const HardMaxTokens: int := 512
  const HardTemperature: real := 0.7
  const HardTopP: real := 0.8
  const HardRepetitionPenalty: real := 1.1
  const HardTopK: int := 40
  const HardThinkingTemperature: real := 0.6
  const HardThinkingTopP: real := 0.95

  /** The caller's value when given, else the configured one, else the
      hard default. */
  function Pick<T>(given: Option<T>, configured: Option<T>, hard: T): (r: T)
    ensures given.Some? ==> r == given.value
    ensures given.None? && configured.Some? ==> r == configured.value
    ensures given.None? && configured.None? ==> r == hard
  {
    given.GetOr(configured.GetOr(hard))
  }

  /** `get_generation_parameters`: each value chosen on its own by `Pick`. */
  function GetGenerationParameters(
    cfg: GenConfig, maxTokens: Option<int>, temperature: Option<real>, enableThinking: Option<bool>,
    topP: Option<real>, topK: Option<int>, repetitionPenalty: Option<real>): (r: Parameters)
    ensures r.maxTokens == Pick(maxTokens, cfg.defaultMaxTokens, HardMaxTokens)
    ensures r.temperature == Pick(temperature, cfg.defaultTemperature, HardTemperature)
    ensures r.topP == Pick(topP, cfg.defaultTopP, HardTopP)
    ensures r.repetitionPenalty == Pick(repetitionPenalty, cfg.repetitionPenalty, HardRepetitionPenalty)
    ensures r.topK == Pick(topK, cfg.topK, HardTopK)
    ensures r.enableThinking == Pick(enableThinking, cfg.defaultEnableThinking, false)
  {
    Parameters(
      Pick(maxTokens, cfg.defaultMaxTokens, HardMaxTokens),
      Pick(temperature, cfg.defaultTemperature, HardTemperature),
      Pick(topP, cfg.defaultTopP, HardTopP),
      Pick(repetitionPenalty, cfg.repetitionPenalty, HardRepetitionPenalty),
      Pick(topK, cfg.topK, HardTopK),
      Pick(enableThinking, cfg.defaultEnableThinking, false))
  }

  /** The thinking flag changes nothing but itself. */
  lemma ThinkingIsIndependent(
    cfg: GenConfig, maxTokens: Option<int>, temperature: Option<real>, e1: Option<bool>, e2: Option<bool>,
    topP: Option<real>, topK: Option<int>, repetitionPenalty: Option<real>)
    ensures GetGenerationParameters(cfg, maxTokens, temperature, e1, topP, topK, repetitionPenalty).(enableThinking := false)
         == GetGenerationParameters(cfg, maxTokens, temperature, e2, topP, topK, repetitionPenalty).(enableThinking := false)
  {
  }

  /** With nothing given and nothing configured the hard defaults apply:
      512, 0.7, 0.8, 1.1, 40 and no thinking. */
  lemma HardDefaults()
    ensures GetGenerationParameters(GenConfig(None, None, None, None, None, None, None, None), None, None, None, None, None, None)
         == Parameters(512, 0.7, 0.8, 1.1, 40, false)
  {
  }

  /** `_get_generation_parameters`: the thinking mode decides the fallback
      temperature and the `top_p`, which the caller cannot set; the
      repetition penalty and `top_k` come from the configuration only. */
  function ServiceParameters(cfg: GenConfig, maxTokens: Option<int>, temperature: Option<real>, enableThinking: Option<bool>): (r: Parameters)
    ensures r.enableThinking == Pick(enableThinking, cfg.defaultEnableThinking, false)
    ensures temperature.Some? ==> r.temperature == temperature.value
    ensures temperature.None? && r.enableThinking ==> r.temperature == cfg.thinkingTemperature.GetOr(HardThinkingTemperature)
    ensures temperature.None? && !r.enableThinking ==> r.temperature == cfg.defaultTemperature.GetOr(HardTemperature)
    ensures r.topP == if r.enableThinking then cfg.thinkingTopP.GetOr(HardThinkingTopP) else cfg.defaultTopP.GetOr(HardTopP)
    ensures r.maxTokens == Pick(maxTokens, cfg.defaultMaxTokens, HardMaxTokens)
    ensures r.repetitionPenalty == cfg.repetitionPenalty.GetOr(HardRepetitionPenalty) && r.topK == cfg.topK.GetOr(HardTopK)
  {
    var thinking := Pick(enableThinking, cfg.defaultEnableThinking, false);
    var temp :=
      if thinking then Pick(temperature, cfg.thinkingTemperature, HardThinkingTemperature)
      else Pick(temperature, cfg.defaultTemperature, HardTemperature);
    var topP := if thinking then cfg.thinkingTopP.GetOr(HardThinkingTopP) else cfg.defaultTopP.GetOr(HardTopP);
    Parameters(
      Pick(maxTokens, cfg.defaultMaxTokens, HardMaxTokens), temp, topP,
      cfg.repetitionPenalty.GetOr(HardRepetitionPenalty), cfg.topK.GetOr(HardTopK), thinking)
  }

  /** Outside thinking mode the two ways of choosing agree, when the caller
      of the independent one leaves `top_p`, `top_k` and the penalty to the
      configuration. */
  lemma ServiceAgreesOutsideThinking(cfg: GenConfig, maxTokens: Option<int>, temperature: Option<real>, enableThinking: Option<bool>)
    requires !Pick(enableThinking, cfg.defaultEnableThinking, false)
    ensures ServiceParameters(cfg, maxTokens, temperature, enableThinking)
         == GetGenerationParameters(cfg, maxTokens, temperature, enableThinking, None, None, None)
  {
  }

  /** In thinking mode the service ignores the configured `top_p` and,
      unless a temperature is given, the configured temperature. */
  lemma ServiceThinkingOverrides(cfg: GenConfig, maxTokens: Option<int>)
    ensures var r := ServiceParameters(cfg.(thinkingTemperature := None, thinkingTopP := None), maxTokens, None, Some(true));
      r.temperature == 0.6 && r.topP == 0.95 && r.enableThinking
  {
  }
}

=== FILE: partial_cache.dfy ===
/** The cache of partial histories used while a reply streams
    (services/chat/partial_cache.py). Histories are immutable sequences
    here, so the copies the source takes on the way in and out are
    implicit: nothing a caller does to a returned history can reach the
    cache. */
module PartialCache {
  /** `_cache`: a history per cache key. */
  type Cache<T> = map<string, seq<T>>

  /** `get`: the first call for a key stores the base history; every call
      returns what is stored for the key. */
  function Get<T>(c: Cache<T>, key: string, base: seq<T>): (r: (Cache<T>, seq<T>))
    ensures key in r.0 && r.1 == r.0[key]
    ensures key !in c ==> r.0 == c[key := base] && r.1 == base
    ensures key in c ==> r.0 == c && r.1 == c[key]
  {
    var c' := if key !in c then c[key := base] else c;
    (c', c'[key])
  }

  /** `clear`: the key is gone and every other entry is kept; clearing a
      missing key changes nothing. */
  function Clear<T>(c: Cache<T>, key: string): (r: Cache<T>)
    ensures r.Keys == c.Keys - {key}
    ensures forall k :: k in r ==> r[k] == c[k]
    ensures key !in c ==> r == c
  {
    c - {key}
  }

  /** Once a key is cached, later calls ignore their base: they return
      the first stored history and leave the cache as it is. */
  lemma GetIgnoresLaterBase<T>(c: Cache<T>, key: string, first: seq<T>, later: seq<T>)
    ensures var (c1, h1) := Get(c, key, first);
      Get(c1, key, later) == (c1, h1)
  {
  }

  /** After `clear` the next call starts again from its base. */
  lemma ClearThenGet<T>(c: Cache<T>, key: string, base: seq<T>)
    ensures Get(Clear(c, key), key, base).1 == base
    ensures Get(Clear(c, key), key, base).0 == c[key := base]
  {
  }

  /** A call for one key leaves the entries of all other keys alone. */
  lemma GetKeepsOtherKeys<T>(c: Cache<T>, key: string, base: seq<T>, other: string)
    requires other != key
    ensures other in Get(c, key, base).0 <==> other in c
    ensures other in c ==> Get(c, key, base).0[other] == c[other]
  {
  }
}

=== FILE: pinning.dfy ===
/** Pinning and unpinning with position shifting (services/dialogs/pinning.py).
    Positions are 0-based; a smaller position is shown higher. */
module Pinning {
  import opened Wrappers
  import opened Dialogs
  import opened DialogStore

  /** A pinned dialog moved one place down by `pin_dialog`; a missing
      position counts as 0. */
  function MovedDown(d: Dialog): Dialog {
    d.(pinnedPosition := Some(d.pinnedPosition.GetOr(0) + 1))
  }

  /** What the pinning loop does to one dialog. */
  function PinEntry(d: Dialog, id: string): Dialog {
    if d.id == id then Dialogs.Pin(d, 0)
    else if d.pinned then MovedDown(d)
    else d
  }

  function PinAll(s: Store, id: string): (r: Store)
    ensures |r| == |s|
    ensures forall i :: 0 <= i < |s| ==> r[i] == PinEntry(s[i], id)
  {
    seq(|s|, i requires 0 <= i < |s| => PinEntry(s[i], id))
  }

  /** `pin_dialog`: returns the Python result and the store afterwards. */
  function PinDialog(s: Store, id: string): (r: (bool, Store))
    ensures !HasKey(s, id) ==> r == (false, s)
    ensures HasKey(s, id) && Get(s, id).value.pinned ==> r == (true, s)
    ensures HasKey(s, id) ==> r.0
    ensures |r.1| == |s|
    ensures forall i :: 0 <= i < |s| ==> SameExceptPin(r.1[i], s[i])
    ensures HasKey(s, id) && !Get(s, id).value.pinned ==> forall i :: 0 <= i < |s| ==>
      (s[i].id == id ==> r.1[i].pinned && r.1[i].pinnedPosition == Some(0))
      && (s[i].id != id && s[i].pinned ==> r.1[i].pinned && r.1[i].pinnedPosition == Some(s[i].pinnedPosition.GetOr(0) + 1))
      && (s[i].id != id && !s[i].pinned ==> r.1[i] == s[i])
  {
    match Get(s, id)
    case None => (false, s)
    case Some(d) => if d.pinned then (true, s) else (true, PinAll(s, id))
  }

  /** A pinned dialog moved one place up when a dialog above it is unpinned. */
  function MovedUp(d: Dialog): Dialog
    requires d.pinnedPosition.Some?
  {
    d.(pinnedPosition := Some(d.pinnedPosition.value - 1))
  }

  /** Unpins the dialog stored under `id` without shifting any other. */
  function UnpinOnly(s: Store, id: string): (r: Store)
    ensures |r| == |s|
    ensures forall i :: 0 <= i < |s| ==> r[i] == if s[i].id == id then Dialogs.Unpin(s[i]) else s[i]
  {
    seq(|s|, i requires 0 <= i < |s| => if s[i].id == id then Dialogs.Unpin(s[i]) else s[i])
  }

  /** Whether the shift loop of `unpin_dialog` moves `d` up, `u` being the
      position the unpinned dialog had. */
  predicate Below(d: Dialog, u: int) {
    d.pinned && d.pinnedPosition.Some? && d.pinnedPosition.value > u
  }

  /** The shift loop: every pinned dialog below `u` moves up. */
  function ShiftUpBelow(s: Store, u: int): (r: Store)
    ensures |r| == |s|
    ensures forall i :: 0 <= i < |s| ==> r[i] == if Below(s[i], u) then MovedUp(s[i]) else s[i]
  {
    seq(|s|, i requires 0 <= i < |s| => if Below(s[i], u) then MovedUp(s[i]) else s[i])
  }

  /** What `unpin_dialog` does as written: besides returning a boolean it can
      raise a `TypeError` when the unpinned dialog had no position, because
      `pinned_position > None` is evaluated for the first other pinned dialog
      that has a position. The store is then left with the target unpinned. */
  datatype UnpinOutcome = Returned(ok: bool, store: Store) | RaisedTypeError(store: Store)

  function UnpinDialogAsWritten(s: Store, id: string): (r: UnpinOutcome)
    ensures !HasKey(s, id) ==> r == Returned(false, s)
    ensures HasKey(s, id) && !Get(s, id).value.pinned ==> r == Returned(true, s)
  {
    match Get(s, id)
    case None => Returned(false, s)
    case Some(d) =>
      if !d.pinned then Returned(true, s)
      else
        var s1 := UnpinOnly(s, id);
        match d.pinnedPosition
        case Some(u) => Returned(true, ShiftUpBelow(s1, u))
        case None =>
          if exists i :: 0 <= i < |s1| && s1[i].pinned && s1[i].pinnedPosition.Some?
          then RaisedTypeError(s1)
          else Returned(true, s1)
  }

  /** What the corrected unpin does to one dialog, `u` being the position
      the unpinned dialog had. */
  function UnpinEntry(d: Dialog, id: string, u: Option<int>): Dialog {
    if d.id == id then Dialogs.Unpin(d)
    else if u.Some? && Below(d, u.value) then MovedUp(d)
    else d
  }

  function UnpinAll(s: Store, id: string, u: Option<int>): (r: Store)
    ensures |r| == |s|
    ensures forall i :: 0 <= i < |s| ==> r[i] == UnpinEntry(s[i], id, u)
  {
    seq(|s|, i requires 0 <= i < |s| => UnpinEntry(s[i], id, u))
  }

  /** `unpin_dialog` with the missing-position case handled: nothing needs to
      move up when the unpinned dialog had no position. */
  function UnpinDialog(s: Store, id: string): (r: (bool, Store))
    ensures !HasKey(s, id) ==> r == (false, s)
    ensures HasKey(s, id) && !Get(s, id).value.pinned ==> r == (true, s)
    ensures HasKey(s, id) ==> r.0
    ensures |r.1| == |s|
    ensures forall i :: 0 <= i < |s| ==> SameExceptPin(r.1[i], s[i])
    ensures HasKey(s, id) && Get(s, id).value.pinned ==> forall i :: 0 <= i < |s| ==>
      (s[i].id == id ==> !r.1[i].pinned && r.1[i].pinnedPosition == None)
      && (s[i].id != id && Get(s, id).value.pinnedPosition.Some? && Below(s[i], Get(s, id).value.pinnedPosition.value)
          ==> r.1[i].pinned && r.1[i].pinnedPosition == Some(s[i].pinnedPosition.value - 1))
      && (s[i].id != id && !(Get(s, id).value.pinnedPosition.Some? && Below(s[i], Get(s, id).value.pinnedPosition.value))
          ==> r.1[i] == s[i])
  {
    match Get(s, id)
    case None => (false, s)
    case Some(d) => if !d.pinned then (true, s) else (true, UnpinAll(s, id, d.pinnedPosition))
  }

  // ---------------------------------------------------------------------------
  // The position invariant

  function PinnedCount(s: Store): nat {
    if s == [] then 0 else PinnedCount(s[..|s| - 1]) + (if s[|s| - 1].pinned then 1 else 0)
  }

  /** The pinned dialogs hold exactly the positions 0..k-1, one each, and
      unpinned dialogs hold none. */
  predicate WellPinned(s: Store) {
    (forall i :: 0 <= i < |s| && s[i].pinned ==>
       s[i].pinnedPosition.Some? && 0 <= s[i].pinnedPosition.value < PinnedCount(s))
    && (forall i :: 0 <= i < |s| && !s[i].pinned ==> s[i].pinnedPosition.None?)
    && (forall i, j :: 0 <= i < j < |s| && s[i].pinned && s[j].pinned ==>
       s[i].pinnedPosition != s[j].pinnedPosition)
  }

  lemma {:induction false} PinnedCountSameFlags(a: Store, b: Store)
    requires |a| == |b|
    requires forall i :: 0 <= i < |a| ==> a[i].pinned == b[i].pinned
    ensures PinnedCount(a) == PinnedCount(b)
    decreases |a|
  {
    if a != [] {
      PinnedCountSameFlags(a[..|a| - 1], b[..|b| - 1]);
    }
  }

  /** Changing one entry's flag changes the count by one. */
  lemma {:induction false} PinnedCountUpdate(s: Store, t: nat, d: Dialog)
    requires t < |s|
    ensures PinnedCount(s[t := d]) + (if s[t].pinned then 1 else 0)
         == PinnedCount(s) + (if d.pinned then 1 else 0)
    decreases |s|
  {
    var r := s[t := d];
    if t == |s| - 1 {
      assert r[..|r| - 1] == s[..|s| - 1];
    } else {
      PinnedCountUpdate(s[..|s| - 1], t, d);
      assert r[..|r| - 1] == s[..|s| - 1][t := d];
    }
  }

  /** Pinning a dialog of a well-pinned store gives the positions 0..k. */
  lemma PinKeepsWellPinned(s: Store, id: string)
    requires UniqueIds(s) && WellPinned(s)
    requires HasKey(s, id)
    ensures WellPinned(PinDialog(s, id).1)
    ensures !Get(s, id).value.pinned ==> PinnedCount(PinDialog(s, id).1) == PinnedCount(s) + 1
  {
    var t := Find(s, id).value;
    if !s[t].pinned {
      assert PinDialog(s, id).1 == PinAll(s, id);
      PinAllCount(s, id, t);
      PinAllWellPinned(s, id, t);
    }
  }

  lemma PinAllCount(s: Store, id: string, t: nat)
    requires UniqueIds(s)
    requires t < |s| && s[t].id == id && !s[t].pinned
    ensures PinnedCount(PinAll(s, id)) == PinnedCount(s) + 1
  {
    var r := PinAll(s, id);
    var d := Dialogs.Pin(s[t], 0);
    forall i | 0 <= i < |r|
      ensures r[i].pinned == s[t := d][i].pinned
    {
      if i != t {
        assert s[i].id != id;
      }
    }
    PinnedCountSameFlags(r, s[t := d]);
    PinnedCountUpdate(s, t, d);
  }

  lemma PinAllWellPinned(s: Store, id: string, t: nat)
    requires UniqueIds(s) && WellPinned(s)
    requires t < |s| && s[t].id == id && !s[t].pinned
    requires PinnedCount(PinAll(s, id)) == PinnedCount(s) + 1
    ensures WellPinned(PinAll(s, id))
  {
    PinAllInRange(s, id, t);
    PinAllUnpinnedNone(s, id, t);
    PinAllDistinct(s, id, t);
  }

  lemma PinAllInRange(s: Store, id: string, t: nat)
    requires UniqueIds(s) && WellPinned(s)
    requires t < |s| && s[t].id == id && !s[t].pinned
    ensures forall i :: 0 <= i < |s| && PinAll(s, id)[i].pinned ==>
      PinAll(s, id)[i].pinnedPosition.Some? && 0 <= PinAll(s, id)[i].pinnedPosition.value < PinnedCount(s) + 1
  {
    var r := PinAll(s, id);
    forall i | 0 <= i < |r| && r[i].pinned
      ensures r[i].pinnedPosition.Some? && 0 <= r[i].pinnedPosition.value < PinnedCount(s) + 1
    {
      PinEntryIs(s, id, t, i);
    }
  }

  lemma PinAllUnpinnedNone(s: Store, id: string, t: nat)
    requires UniqueIds(s) && WellPinned(s)
    requires t < |s| && s[t].id == id && !s[t].pinned
    ensures forall i :: 0 <= i < |s| && !PinAll(s, id)[i].pinned ==> PinAll(s, id)[i].pinnedPosition.None?
  {
    var r := PinAll(s, id);
    forall i | 0 <= i < |r| && !r[i].pinned
      ensures r[i].pinnedPosition.None?
    {
      PinEntryIs(s, id, t, i);
    }
  }

  lemma PinAllDistinct(s: Store, id: string, t: nat)
    requires UniqueIds(s) && WellPinned(s)
    requires t < |s| && s[t].id == id && !s[t].pinned
    ensures forall i, j :: 0 <= i < j < |s| && PinAll(s, id)[i].pinned && PinAll(s, id)[j].pinned ==>
      PinAll(s, id)[i].pinnedPosition != PinAll(s, id)[j].pinnedPosition
  {
    var r := PinAll(s, id);
    forall i, j | 0 <= i < j < |r| && r[i].pinned && r[j].pinned
      ensures r[i].pinnedPosition != r[j].pinnedPosition
    {
      PinEntryIs(s, id, t, i);
      PinEntryIs(s, id, t, j);
    }
  }

  /** The entry `i` after pinning the entry `t`, in terms of `s[i]`. */
  lemma PinEntryIs(s: Store, id: string, t: nat, i: nat)
    requires UniqueIds(s) && WellPinned(s)
    requires t < |s| && s[t].id == id && !s[t].pinned && i < |s|
    ensures i == t ==> PinAll(s, id)[i].pinned && PinAll(s, id)[i].pinnedPosition == Some(0)
    ensures i != t && s[i].pinned ==>
      && PinAll(s, id)[i].pinned
      && PinAll(s, id)[i].pinnedPosition == Some(s[i].pinnedPosition.value + 1)
      && 0 <= s[i].pinnedPosition.value < PinnedCount(s)
    ensures i != t && !s[i].pinned ==> PinAll(s, id)[i] == s[i] && s[i].pinnedPosition.None?
  {
    if i != t {
      assert s[i].id != id;
    }
  }

  /** Unpinning a dialog of a well-pinned store gives the positions 0..k-2. */
  lemma UnpinKeepsWellPinned(s: Store, id: string)
    requires UniqueIds(s) && WellPinned(s)
    requires HasKey(s, id)
    ensures WellPinned(UnpinDialog(s, id).1)
    ensures Get(s, id).value.pinned ==> PinnedCount(UnpinDialog(s, id).1) + 1 == PinnedCount(s)
  {
    var t := Find(s, id).value;
    if s[t].pinned {
      var u := s[t].pinnedPosition;
      assert UnpinDialog(s, id).1 == UnpinAll(s, id, u);
      UnpinAllCount(s, id, t);
      UnpinAllWellPinned(s, id, t);
    }
  }

  lemma UnpinAllCount(s: Store, id: string, t: nat)
    requires UniqueIds(s) && WellPinned(s)
    requires t < |s| && s[t].id == id && s[t].pinned
    ensures PinnedCount(UnpinAll(s, id, s[t].pinnedPosition)) + 1 == PinnedCount(s)
  {
    var r := UnpinAll(s, id, s[t].pinnedPosition);
    var d := Dialogs.Unpin(s[t]);
    forall i | 0 <= i < |r|
      ensures r[i].pinned == s[t := d][i].pinned
    {
      if i != t {
        assert s[i].id != id;
      }
    }
    PinnedCountSameFlags(r, s[t := d]);
    PinnedCountUpdate(s, t, d);
  }

  lemma UnpinAllWellPinned(s: Store, id: string, t: nat)
    requires UniqueIds(s) && WellPinned(s)
    requires t < |s| && s[t].id == id && s[t].pinned
    requires PinnedCount(UnpinAll(s, id, s[t].pinnedPosition)) + 1 == PinnedCount(s)
    ensures WellPinned(UnpinAll(s, id, s[t].pinnedPosition))
  {
    UnpinAllRange(s, id, t);
    UnpinAllDistinct(s, id, t);
  }

  lemma UnpinAllRange(s: Store, id: string, t: nat)
    requires UniqueIds(s) && WellPinned(s)
    requires t < |s| && s[t].id == id && s[t].pinned
    ensures forall i :: 0 <= i < |s| && UnpinAll(s, id, s[t].pinnedPosition)[i].pinned ==>
      && UnpinAll(s, id, s[t].pinnedPosition)[i].pinnedPosition.Some?
      && 0 <= UnpinAll(s, id, s[t].pinnedPosition)[i].pinnedPosition.value < PinnedCount(s) - 1
    ensures forall i :: 0 <= i < |s| && !UnpinAll(s, id, s[t].pinnedPosition)[i].pinned ==>
      UnpinAll(s, id, s[t].pinnedPosition)[i].pinnedPosition.None?
  {
    var r := UnpinAll(s, id, s[t].pinnedPosition);
    var k := PinnedCount(s);
    forall i | 0 <= i < |r| && r[i].pinned
      ensures r[i].pinnedPosition.Some? && 0 <= r[i].pinnedPosition.value < k - 1
    {
      UnpinRangeAt(s, id, t, i);
    }
    forall i | 0 <= i < |r| && !r[i].pinned
      ensures r[i].pinnedPosition.None?
    {
      UnpinEntryIs(s, id, t, i);
    }
  }

  lemma UnpinRangeAt(s: Store, id: string, t: nat, i: nat)
    requires UniqueIds(s) && WellPinned(s)
    requires t < |s| && s[t].id == id && s[t].pinned && i < |s|
    requires UnpinAll(s, id, s[t].pinnedPosition)[i].pinned
    ensures UnpinAll(s, id, s[t].pinnedPosition)[i].pinnedPosition.Some?
    ensures 0 <= UnpinAll(s, id, s[t].pinnedPosition)[i].pinnedPosition.value < PinnedCount(s) - 1
  {
    UnpinEntryIs(s, id, t, i);
    var k := PinnedCount(s);
    var p := s[i].pinnedPosition.value;
    var u := s[t].pinnedPosition.value;
    assert s[i].pinned && 0 <= p < k && 0 <= u < k && p != u;
  }

  lemma UnpinAllDistinct(s: Store, id: string, t: nat)
    requires UniqueIds(s) && WellPinned(s)
    requires t < |s| && s[t].id == id && s[t].pinned
    ensures forall i, j ::
      0 <= i < j < |s| && UnpinAll(s, id, s[t].pinnedPosition)[i].pinned && UnpinAll(s, id, s[t].pinnedPosition)[j].pinned ==>
      UnpinAll(s, id, s[t].pinnedPosition)[i].pinnedPosition != UnpinAll(s, id, s[t].pinnedPosition)[j].pinnedPosition
  {
    var r := UnpinAll(s, id, s[t].pinnedPosition);
    forall i, j | 0 <= i < j < |r| && r[i].pinned && r[j].pinned
      ensures r[i].pinnedPosition != r[j].pinnedPosition
    {
      UnpinEntryIs(s, id, t, i);
      UnpinEntryIs(s, id, t, j);
      assert s[i].pinnedPosition != s[j].pinnedPosition;
    }
  }

  /** The entry `i` after unpinning the entry `t`, in terms of `s[i]`. */
  lemma UnpinEntryIs(s: Store, id: string, t: nat, i: nat)
    requires UniqueIds(s) && WellPinned(s)
    requires t < |s| && s[t].id == id && s[t].pinned && i < |s|
    ensures i == t ==>
      && !UnpinAll(s, id, s[t].pinnedPosition)[i].pinned
      && UnpinAll(s, id, s[t].pinnedPosition)[i].pinnedPosition.None?
    ensures i != t && s[i].pinned ==>
      && UnpinAll(s, id, s[t].pinnedPosition)[i].pinned
      && s[i].pinnedPosition.Some? && s[i].pinnedPosition != s[t].pinnedPosition
      && UnpinAll(s, id, s[t].pinnedPosition)[i].pinnedPosition
         == if s[i].pinnedPosition.value > s[t].pinnedPosition.value
            then Some(s[i].pinnedPosition.value - 1) else s[i].pinnedPosition
    ensures i != t && !s[i].pinned ==> UnpinAll(s, id, s[t].pinnedPosition)[i] == s[i] && s[i].pinnedPosition.None?
  {
    if i != t {
      assert s[i].id != id;
      if s[i].pinned {
        assert i < t ==> s[i].pinnedPosition != s[t].pinnedPosition;
        assert t < i ==> s[t].pinnedPosition != s[i].pinnedPosition;
      }
    }
  }

  /** The code as written raises only when the unpinned dialog had no
      position; when it returns, it agrees with the corrected unpin. */
  lemma UnpinAsWrittenAgrees(s: Store, id: string)
    ensures UnpinDialogAsWritten(s, id).RaisedTypeError? ==>
      HasKey(s, id) && Get(s, id).value.pinned && Get(s, id).value.pinnedPosition.None?
    ensures UnpinDialogAsWritten(s, id).Returned? ==>
      UnpinDialogAsWritten(s, id) == Returned(UnpinDialog(s, id).0, UnpinDialog(s, id).1)
  {
    match Get(s, id)
    case None =>
    case Some(d) =>
      if d.pinned {
        var s1 := UnpinOnly(s, id);
        var r := UnpinAll(s, id, d.pinnedPosition);
        if d.pinnedPosition.Some? {
          var w := ShiftUpBelow(s1, d.pinnedPosition.value);
          forall i | 0 <= i < |s|
            ensures w[i] == r[i]
          {
          }
          assert w == r;
        } else {
          assert s1 == r;
        }
      }
  }

  /** Unpinning as written, raising or not, keeps every id in its place. */
  lemma UnpinAsWrittenSameIds(s: Store, id: string)
    ensures |UnpinDialogAsWritten(s, id).store| == |s|
    ensures forall i :: 0 <= i < |s| ==> UnpinDialogAsWritten(s, id).store[i].id == s[i].id
  {
    match Get(s, id)
    case None =>
    case Some(d) =>
      if d.pinned {
        var s1 := UnpinOnly(s, id);
        assert forall i :: 0 <= i < |s| ==> s1[i].id == s[i].id;
        if d.pinnedPosition.Some? {
          var w := ShiftUpBelow(s1, d.pinnedPosition.value);
          assert forall i :: 0 <= i < |s| ==> w[i].id == s1[i].id;
        }
      }
  }

  /** On a well-pinned store the code as written never raises. */
  lemma UnpinAsWrittenWellPinned(s: Store, id: string)
    requires WellPinned(s)
    ensures UnpinDialogAsWritten(s, id).Returned?
  {
  }

  /** Pinning an unpinned dialog and unpinning it again restores the store. */
  lemma UnpinAfterPin(s: Store, id: string)
    requires UniqueIds(s) && WellPinned(s)
    requires HasKey(s, id) && !Get(s, id).value.pinned
    ensures UnpinDialog(PinDialog(s, id).1, id) == (true, s)
  {
    var t := Find(s, id).value;
    var p := PinAll(s, id);
    FindSameIds(p, s, id);
    UnpinAllAfterPinAll(s, id, t);
  }

  /** Unpinning at position 0 undoes the pinning loop, entry by entry. */
  lemma UnpinAllAfterPinAll(s: Store, id: string, t: nat)
    requires UniqueIds(s) && WellPinned(s)
    requires t < |s| && s[t].id == id && !s[t].pinned
    ensures UnpinAll(PinAll(s, id), id, Some(0)) == s
  {
    var r := UnpinAll(PinAll(s, id), id, Some(0));
    forall i | 0 <= i < |s|
      ensures r[i] == s[i]
    {
      assert i != t ==> s[i].id != id;
      PinUnpinEntry(s[i], id);
    }
  }

  lemma PinUnpinEntry(d: Dialog, id: string)
    requires d.pinned ==> d.pinnedPosition.Some? && d.pinnedPosition.value >= 0
    requires !d.pinned ==> d.pinnedPosition.None?
    requires d.id == id ==> !d.pinned
    ensures UnpinEntry(PinEntry(d, id), id, Some(0)) == d
  {
  }

  /** A pinned dialog without a position, next to another pinned dialog that
      has one: unpinning the first raises as written. */
  lemma UnpinMissingPositionRaises()
    ensures UnpinDialogAsWritten(
              [Dialog("1", "a", [], 0, 0, StatusActive, true, None),
               Dialog("2", "b", [], 0, 0, StatusActive, true, Some(0))], "1").RaisedTypeError?
  {
    var s := [Dialog("1", "a", [], 0, 0, StatusActive, true, None),
              Dialog("2", "b", [], 0, 0, StatusActive, true, Some(0))];
    FindIs(s, "1", 0);
    var s1 := UnpinOnly(s, "1");
    assert s1[1].pinned && s1[1].pinnedPosition.Some?;
  }

  /** The corrected unpin always succeeds on a pinned dialog and leaves the
      other dialogs' positions alone when the unpinned one had none. */
  lemma UnpinMissingPositionCorrected(s: Store, id: string)
    requires HasKey(s, id) && Get(s, id).value.pinned && Get(s, id).value.pinnedPosition.None?
    ensures UnpinDialog(s, id).0
    ensures forall i :: 0 <= i < |s| && s[i].id != id ==> UnpinDialog(s, id).1[i] == s[i]
  {
  }
}

=== FILE: rename_modal.dfy ===
/** The rename dialog (static/js/modules/rename-modal.js, `RenameChatModal`):
    a text input with a character counter, whose `show` returns a promise
    that the dialog settles once, with the new name or with `null`. The
    dialog is a state, each user action a step, and a step reports the value
    the pending promise was settled with, if any. */
module RenameModal {
  import opened Wrappers
  import opened Text
  import ContextMenu

  const MaxNameLength: nat := 50
  const NearLimitFrom: nat := 45

  const EmptyNameError: string := "Введите название чата"
  const TooLongError: string := "Название не должно превышать 50 символов"
  const OverLimitError: string := "Превышен лимит в 50 символов"

  /** The counter under the input: its text and its two warning classes. */
  datatype Counter = Counter(text: string, nearLimit: bool, overLimit: bool)

  /** The dialog: whether it is displayed, the input's value, the error
      message shown under it (None when cleared), whether confirm is
      disabled, the counter, the chat it was opened for, and whether a
      promise is waiting to be settled (`resolvePromise`). */
  datatype Modal = Modal(visible: bool, input: string, error: Option<string>, confirmDisabled: bool,
                         counter: Counter, chatId: Option<string>, chatName: Option<string>, waiting: bool)

  /** What a step did to the pending promise: nothing, or settled it with a
      name or with `null` (None). */
  datatype Settled = Unsettled | SettledWith(answer: Option<string>)

  /** The dialog as the page creates it: hidden, nothing pending. */
  const Initial: Modal := Modal(false, "", None, false, Counter("0/50", false, false), None, None, false)

  /** `updateCharCounter`: `<length>/50`, 'near-limit' from 45 to 50
      characters, 'over-limit' with an error above 50, and the error cleared
      otherwise. */
  function UpdateCharCounter(m: Modal): (r: Modal)
    ensures r.counter.text == NatToString(|m.input|) + "/" + NatToString(MaxNameLength)
    ensures r.counter.nearLimit <==> NearLimitFrom <= |m.input| <= MaxNameLength
    ensures r.counter.overLimit <==> |m.input| > MaxNameLength
    ensures !(r.counter.nearLimit && r.counter.overLimit)
    ensures r.error.Some? <==> r.counter.overLimit
    ensures r.error.Some? ==> r.error.value == OverLimitError
    ensures r.(counter := m.counter, error := m.error) == m
  {
    var len := |m.input|;
    var text := NatToString(len) + "/" + NatToString(MaxNameLength);
    if NearLimitFrom <= len <= MaxNameLength then m.(counter := Counter(text, true, false), error := None)
    else if len > MaxNameLength then m.(counter := Counter(text, false, true), error := Some(OverLimitError))
    else m.(counter := Counter(text, false, false), error := None)
  }

  /** `show(chatId, chatName)`: the input holds the old name, the error is
      cleared before the counter is updated, confirm is disabled exactly
      when the name is blank, and a new promise waits. A promise still
      waiting from an earlier `show` is dropped unsettled. */
  function Show(m: Modal, chatId: string, chatName: string): (r: Modal)
    ensures r.visible && r.waiting && r.input == chatName
    ensures r.chatId == Some(chatId) && r.chatName == Some(chatName)
    ensures r.confirmDisabled <==> JsTrim(chatName) == ""
    ensures r.error.Some? <==> |chatName| > MaxNameLength
  {
    var prepared := m.(chatId := Some(chatId), chatName := Some(chatName), waiting := true, input := chatName, error := None);
    UpdateCharCounter(prepared).(confirmDisabled := JsTrim(chatName) == "", visible := true)
  }

  /** `hide(confirmed, newName)`: the dialog disappears, a waiting promise is
      settled with the name when confirmed and with `null` otherwise, and
      the chat fields are cleared. */
  function Hide(m: Modal, confirmed: bool, newName: Option<string>): (r: (Modal, Settled))
    ensures !r.0.visible && !r.0.waiting && r.0.chatId.None? && r.0.chatName.None?
    ensures m.waiting ==> r.1 == SettledWith(if confirmed then newName else None)
    ensures !m.waiting ==> r.1 == Unsettled
    ensures r.0.input == m.input && r.0.error == m.error && r.0.counter == m.counter
  {
    var settled := if m.waiting then SettledWith(if confirmed then newName else None) else Unsettled;
    (m.(visible := false, waiting := false, chatId := None, chatName := None), settled)
  }

  /** `handleConfirm`: the trimmed input is refused with an error while
      blank and while longer than 50 characters, and the dialog stays open;
      an unchanged name closes the dialog with `null`; any other name closes
      it with the trimmed name. */
  function Confirm(m: Modal): (r: (Modal, Settled))
    ensures var name := JsTrim(m.input);
      && (name == "" ==> r == (m.(error := Some(EmptyNameError)), Unsettled))
      && (name != "" && m.chatName == Some(name) ==> r == Hide(m, false, None))
      && (name != "" && m.chatName != Some(name) && |name| > MaxNameLength ==> r == (m.(error := Some(TooLongError)), Unsettled))
    ensures r.1 == SettledWith(Some(JsTrim(m.input))) <==>
      m.waiting && JsTrim(m.input) != "" && m.chatName != Some(JsTrim(m.input)) && |JsTrim(m.input)| <= MaxNameLength
    ensures r.1.SettledWith? && r.1.answer.Some? ==> r.1.answer.value == JsTrim(m.input)
  {
    var name := JsTrim(m.input);
    if name == "" then (m.(error := Some(EmptyNameError)), Unsettled)
    else if m.chatName == Some(name) then Hide(m, false, None)
    else if |name| > MaxNameLength then (m.(error := Some(TooLongError)), Unsettled)
    else Hide(m, true, Some(name))
  }

  /** The user's actions: typing (the `input` event), a key released in the
      input, Escape pressed anywhere, a click on cancel, confirm or the
      overlay, and the context menu opening the dialog. */
  datatype Event = Typed(value: string) | KeyUp(key: string) | EscapeDown | CancelClick
                 | ConfirmClick | OverlayClick | Opened(chatId: string, chatName: string)

  /** `handleInputKeyup`: Enter confirms, Escape cancels, and any other key
      recomputes whether confirm is disabled. */
  function OnKeyUp(m: Modal, key: string): (r: (Modal, Settled))
    ensures key == "Enter" ==> r == Confirm(m)
    ensures key == "Escape" ==> r == Hide(m, false, None)
    ensures key != "Enter" && key != "Escape" ==>
      r == (m.(confirmDisabled := JsTrim(m.input) == ""), Unsettled)
  {
    if key == "Enter" then Confirm(m)
    else if key == "Escape" then Hide(m, false, None)
    else (m.(confirmDisabled := JsTrim(m.input) == ""), Unsettled)
  }

  /** One action. Escape pressed while the dialog is hidden does nothing,
      and a disabled confirm button fires no click. */
  function Step(m: Modal, e: Event): (r: (Modal, Settled))
    ensures e.Opened? ==> r.1 == Unsettled && r.0.waiting
    ensures e.ConfirmClick? && m.confirmDisabled ==> r == (m, Unsettled)
    ensures r.1 == Unsettled || m.waiting
    ensures r.1 != Unsettled ==> !r.0.waiting
  {
    match e
    case Typed(v) => (UpdateCharCounter(m.(input := v)), Unsettled)
    case KeyUp(k) => OnKeyUp(m, k)
    case EscapeDown => if m.visible then Hide(m, false, None) else (m, Unsettled)
    case CancelClick => Hide(m, false, None)
    case ConfirmClick => if m.confirmDisabled then (m, Unsettled) else Confirm(m)
    case OverlayClick => Hide(m, false, None)
    case Opened(id, name) => (Show(m, id, name), Unsettled)
  }

  /** A run of actions: the final dialog and the answers given, in order. */
  function Run(m: Modal, es: seq<Event>): (r: (Modal, seq<Option<string>>))
    decreases |es|
  {
    if es == [] then (m, [])
    else
      var (m1, s) := Step(m, es[0]);
      var (m2, answers) := Run(m1, es[1..]);
      (m2, (if s.SettledWith? then [s.answer] else []) + answers)
  }

  function CountOpened(es: seq<Event>): nat {
    if es == [] then 0 else (if es[0].Opened? then 1 else 0) + CountOpened(es[1..])
  }

  /** Every promise is settled at most once: a run gives no more answers
      than there were promises, those it created and the one waiting at the
      start; a promise still waiting at the end is not counted as
      answered. */
  lemma {:induction false} EachPromiseSettledOnce(m: Modal, es: seq<Event>)
    ensures var (m2, answers) := Run(m, es);
      |answers| + (if m2.waiting then 1 else 0) <= CountOpened(es) + (if m.waiting then 1 else 0)
    decreases |es|
  {
    if es != [] {
      var (m1, s) := Step(m, es[0]);
      StepSettlesOnce(m, es[0]);
      EachPromiseSettledOnce(m1, es[1..]);
    }
  }

  /** After an action from `m` with result `r`: answers given plus a promise
      still waiting are at most the promises there were, `isNew` saying
      whether the action made a new one. */
  predicate SettlesAtMostOnce(m: Modal, r: (Modal, Settled), isNew: bool) {
    var (m1, s) := r;
    (if s.SettledWith? then 1 else 0) + (if m1.waiting then 1 else 0) <= (if isNew then 1 else 0) + (if m.waiting then 1 else 0)
  }

  /** One action answers the waiting promise at most once, and only `show`
      makes a promise wait. */
  lemma StepSettlesOnce(m: Modal, e: Event)
    ensures SettlesAtMostOnce(m, Step(m, e), e.Opened?)
  {
    match e
    case Typed(v) =>
      assert UpdateCharCounter(m.(input := v)).waiting == m.waiting;
    case KeyUp(k) =>
      if k == "Enter" { ConfirmSettlesOnce(m); }
    case EscapeDown =>
    case CancelClick =>
    case ConfirmClick =>
      if !m.confirmDisabled { ConfirmSettlesOnce(m); }
    case OverlayClick =>
    case Opened(id, name) =>
  }

  lemma ConfirmSettlesOnce(m: Modal)
    ensures SettlesAtMostOnce(m, Confirm(m), false)
  {
  }

  /** Without a new `show`, closing twice settles the promise once: the
      cancel button after Escape, or the Escape key released after Escape
      was pressed, answers nothing. */
  lemma HideTwiceSettlesOnce(m: Modal, confirmed: bool, newName: Option<string>)
    ensures Hide(Hide(m, confirmed, newName).0, false, None).1 == Unsettled
  {
  }

  /** A name the dialog confirms is one the context menu acts on: non-empty
      and different from the name the dialog was opened with. */
  lemma ConfirmedNameIsRenamed(m: Modal, chatId: string, chatName: string)
    ensures var (m2, s) := Confirm(Show(m, chatId, chatName));
      s.SettledWith? && s.answer.Some? ==> ContextMenu.WantsRename(true, s.answer, chatName)
  {
  }

  /** Confirming the name the dialog was opened with renames nothing: an
      already trimmed old name settles the promise with `null`. `Show`
      leaves the dialog in this state. */
  lemma ConfirmUnchangedSettlesNull(m: Modal)
    requires m.chatName == Some(m.input) && JsTrim(m.input) == m.input && m.waiting
    requires m.input != []
    ensures Confirm(m).1 == SettledWith(None) && !Confirm(m).0.visible
  {
  }

  /** Confirming a blank input is refused with an error and leaves the
      promise waiting. */
  lemma ConfirmBlankRefused(m: Modal)
    requires JsTrim(m.input) == []
    ensures Confirm(m).1 == Unsettled && Confirm(m).0.error == Some(EmptyNameError)
    ensures Confirm(m).0.visible == m.visible && Confirm(m).0.waiting == m.waiting
  {
  }

  /** Typing a new name and releasing Enter settles the trimmed name when
      it is not blank, differs from the old one and fits; so does a click on
      confirm once a released key has enabled it. */
  lemma TypeAndConfirm(m: Modal, chatId: string, chatName: string, typed: string, key: string)
    requires JsTrim(typed) != "" && JsTrim(typed) != chatName && |JsTrim(typed)| <= MaxNameLength
    requires key != "Enter" && key != "Escape"
    ensures var shown := Show(m, chatId, chatName);
      var edited := Step(shown, Typed(typed)).0;
      && Step(edited, KeyUp("Enter")).1 == SettledWith(Some(JsTrim(typed)))
      && Step(Step(edited, KeyUp(key)).0, ConfirmClick).1 == SettledWith(Some(JsTrim(typed)))
  {
    var edited := Step(Show(m, chatId, chatName), Typed(typed)).0;
    TypedIntoShown(m, chatId, chatName, typed);
    ConfirmSettlesName(edited);
    EnterConfirms(edited);
    var released := Step(edited, KeyUp(key)).0;
    ReleasedKeyEnables(edited, key);
    ConfirmSettlesName(released);
    EnabledClickConfirms(released);
  }

  lemma EnterConfirms(m: Modal)
    ensures Step(m, KeyUp("Enter")) == Confirm(m)
  {
  }

  lemma EnabledClickConfirms(m: Modal)
    requires !m.confirmDisabled
    ensures Step(m, ConfirmClick) == Confirm(m)
  {
  }

  /** Releasing a key other than Enter and Escape over a non-blank input
      enables confirm and changes nothing else the confirm check reads. */
  lemma ReleasedKeyEnables(m: Modal, key: string)
    requires key != "Enter" && key != "Escape" && JsTrim(m.input) != ""
    ensures var r := Step(m, KeyUp(key)).0;
      !r.confirmDisabled && r.input == m.input && r.waiting == m.waiting && r.chatName == m.chatName
  {
  }

  /** Typing into the opened dialog keeps it waiting for the chat it was
      opened for, with the typed text in the input. */
  lemma TypedIntoShown(m: Modal, chatId: string, chatName: string, typed: string)
    ensures var edited := Step(Show(m, chatId, chatName), Typed(typed)).0;
      edited.input == typed && edited.waiting && edited.chatName == Some(chatName)
  {
  }

  /** A waiting dialog whose trimmed input is new, non-blank and fits settles
      with it on confirm. */
  lemma ConfirmSettlesName(m: Modal)
    requires m.waiting && JsTrim(m.input) != "" && m.chatName != Some(JsTrim(m.input))
    requires |JsTrim(m.input)| <= MaxNameLength
    ensures Confirm(m).1 == SettledWith(Some(JsTrim(m.input)))
  {
  }

  /** The counter and the confirm check agree: a non-blank input the
      counter shows within the limit is never held back, so a waiting
      promise is settled. */
  lemma CounterAgreesWithConfirm(m: Modal)
    requires !UpdateCharCounter(m).counter.overLimit
    requires m.waiting && JsTrim(m.input) != ""
    ensures Confirm(m).1.SettledWith?
  {
    assert |JsTrim(m.input)| <= |m.input|;
  }
}

=== FILE: scheduler.dfy ===
/** Summary tasks and their priority queue (models/summary_task.py,
    services/context/scheduler.py), modelled sequentially: the lock, the
    blocking wait and the task payloads are outside the model. */
module Scheduler {
  import opened Wrappers

  /** `SummaryTask`, without its payload, callback and creation time. */
  datatype SummaryTask = SummaryTask(taskId: string, taskType: string, priority: int, sequenceNumber: int)

  /** `__lt__`: higher priority first, then the lower sequence number. */
  function Less(a: SummaryTask, b: SummaryTask): (r: bool)
    ensures a.priority == b.priority && a.sequenceNumber == b.sequenceNumber ==> !r
    ensures a.priority > b.priority ==> r
    ensures r ==> a.priority >= b.priority
    ensures a.priority == b.priority ==> (r <==> a.sequenceNumber < b.sequenceNumber)
  {
    if a.priority != b.priority then a.priority > b.priority else a.sequenceNumber < b.sequenceNumber
  }

  /** `__eq__`: id, priority and sequence number agree. */
  predicate Same(a: SummaryTask, b: SummaryTask) {
    a.taskId == b.taskId && a.priority == b.priority && a.sequenceNumber == b.sequenceNumber
  }

  /** `__lt__` is a strict order, and a total one on tasks with different
      sequence numbers; a task of higher priority always comes first. */
  lemma LessIsStrictOrder(a: SummaryTask, b: SummaryTask, c: SummaryTask)
    ensures !Less(a, a)
    ensures Less(a, b) ==> !Less(b, a)
    ensures Less(a, b) && Less(b, c) ==> Less(a, c)
    ensures a.sequenceNumber != b.sequenceNumber ==> Less(a, b) || Less(b, a)
    ensures a.priority > b.priority ==> Less(a, b)
    ensures Same(a, b) ==> !Less(a, b) && !Less(b, a)
  {
  }

  /** The queue holds `(-priority, task)` pairs; Python compares them
      element by element, asking the tasks only when the numbers agree and
      the tasks are not equal. */
  datatype Entry = Entry(key: int, task: SummaryTask)

  predicate EntryLess(x: Entry, y: Entry) {
    if x.key != y.key then x.key < y.key
    else if Same(x.task, y.task) then false
    else Less(x.task, y.task)
  }

  function EntryOf(t: SummaryTask): Entry {
    Entry(-t.priority, t)
  }

  /** Ordering the pairs orders the tasks exactly as `__lt__` does. */
  lemma EntryOrderIsTaskOrder(a: SummaryTask, b: SummaryTask)
    ensures EntryLess(EntryOf(a), EntryOf(b)) <==> Less(a, b)
  {
  }

  /** `TaskScheduler`: the queued pairs and the counter for sequence
      numbers. */
  datatype TaskScheduler = TaskScheduler(queue: seq<Entry>, counter: int)

  /** A fresh scheduler: nothing queued, numbering from 0. */
  function NewScheduler(): (r: TaskScheduler)
    ensures Valid(r) && QSize(r) == 0
  {
    TaskScheduler([], 0)
  }

  /** Every queued pair is keyed by its task's priority, and the sequence
      numbers are distinct and below the counter. */
  predicate Valid(s: TaskScheduler) {
    && 0 <= s.counter
    && (forall i :: 0 <= i < |s.queue| ==> s.queue[i] == EntryOf(s.queue[i].task))
    && (forall i :: 0 <= i < |s.queue| ==> 0 <= s.queue[i].task.sequenceNumber < s.counter)
    && (forall i, j :: 0 <= i < j < |s.queue| ==> s.queue[i].task.sequenceNumber != s.queue[j].task.sequenceNumber)
  }

  /** `put`: the task gets the next sequence number and joins the queue;
      the returned task is the numbered one. */
  function Put(s: TaskScheduler, t: SummaryTask): (r: (TaskScheduler, SummaryTask))
    ensures r.1 == t.(sequenceNumber := s.counter)
    ensures r.0.counter == s.counter + 1
    ensures QSize(r.0) == QSize(s) + 1
    ensures multiset(r.0.queue) == multiset(s.queue) + multiset{EntryOf(r.1)}
    ensures Valid(s) ==> Valid(r.0)
  {
    var numbered := t.(sequenceNumber := s.counter);
    var q := s.queue + [EntryOf(numbered)];
    assert forall i :: 0 <= i < |s.queue| ==> q[i] == s.queue[i];
    (TaskScheduler(q, s.counter + 1), numbered)
  }

  /** `qsize`. */
  function QSize(s: TaskScheduler): nat {
    |s.queue|
  }

  /** The position of the least pair. */
  function MinIndex(q: seq<Entry>): (k: nat)
    requires q != []
    ensures k < |q|
    ensures forall i :: 0 <= i < |q| && i != k ==> !EntryLess(q[i], q[k])
  {
    if |q| == 1 then 0
    else
      var j := MinIndex(q[..|q| - 1]);
      assert forall i :: 0 <= i < |q| - 1 ==> q[..|q| - 1][i] == q[i];
      if EntryLess(q[|q| - 1], q[j]) then
        EntryLessTransitive(q);
        |q| - 1
      else j
  }

  lemma EntryLessTransitive(q: seq<Entry>)
    ensures forall x, y, z :: x in q && y in q && z in q && EntryLess(x, y) && EntryLess(y, z) ==> EntryLess(x, z)
  {
  }

  /** `get`: the least pair leaves the queue and its task is returned;
      nothing when the queue is empty (the timeout). */
  function Get(s: TaskScheduler): (r: (Option<SummaryTask>, TaskScheduler))
    ensures s.queue == [] ==> r == (None, s)
    ensures s.queue != [] ==> r.0 == Some(s.queue[MinIndex(s.queue)].task)
    ensures s.queue != [] ==> QSize(r.1) == QSize(s) - 1 && r.1.counter == s.counter
    ensures s.queue != [] ==> multiset(r.1.queue) + multiset{s.queue[MinIndex(s.queue)]} == multiset(s.queue)
    ensures Valid(s) ==> Valid(r.1)
  {
    if s.queue == [] then (None, s)
    else
      var k := MinIndex(s.queue);
      var rest := s.queue[..k] + s.queue[k + 1..];
      assert s.queue == s.queue[..k] + [s.queue[k]] + s.queue[k + 1..];
      RemoveKeepsValid(s, k);
      (Some(s.queue[k].task), TaskScheduler(rest, s.counter))
  }

  lemma RemoveKeepsValid(s: TaskScheduler, k: nat)
    requires k < |s.queue|
    ensures Valid(s) ==> Valid(TaskScheduler(s.queue[..k] + s.queue[k + 1..], s.counter))
  {
    var rest := s.queue[..k] + s.queue[k + 1..];
    assert forall i :: 0 <= i < |rest| ==> rest[i] == s.queue[if i < k then i else i + 1];
  }

  /** In a valid queue the task `get` returns has the highest priority
      queued, and the lowest sequence number among that priority: first
      in, first out within a priority. */
  lemma GetTakesHighestOldest(s: TaskScheduler)
    requires Valid(s) && s.queue != []
    ensures var t := Get(s).0.value;
      forall i :: 0 <= i < |s.queue| ==>
        && s.queue[i].task.priority <= t.priority
        && (s.queue[i].task.priority == t.priority ==> t.sequenceNumber <= s.queue[i].task.sequenceNumber)
  {
    var k := MinIndex(s.queue);
    var t := s.queue[k].task;
    forall i | 0 <= i < |s.queue|
      ensures s.queue[i].task.priority <= t.priority
      ensures s.queue[i].task.priority == t.priority ==> t.sequenceNumber <= s.queue[i].task.sequenceNumber
    {
      if i != k {
        assert !EntryLess(s.queue[i], s.queue[k]);
        assert s.queue[i] == EntryOf(s.queue[i].task) && s.queue[k] == EntryOf(t);
      }
    }
  }

  /** Of two tasks put one after the other with the same priority, the
      second is not handed out while the first is queued. */
  lemma FirstInFirstOut(s: TaskScheduler, a: SummaryTask, b: SummaryTask)
    requires Valid(s) && a.priority == b.priority
    ensures var (s1, a') := Put(s, a);
      var (s2, b') := Put(s1, b);
      Get(s2).0 != Some(b')
  {
    var (s1, a') := Put(s, a);
    var (s2, b') := Put(s1, b);
    var k := MinIndex(s2.queue);
    var ia := |s.queue|;
    assert s2.queue[ia] == EntryOf(a');
    if s2.queue[k].task == b' {
      assert ia != k && s2.queue[k] == EntryOf(b');
      assert EntryLess(s2.queue[ia], s2.queue[k]);
      assert false;
    }
  }
}

=== FILE: search_decision.dfy ===
/** Deciding whether a prompt needs a web search from the summarizer
    model's answer (services/search/decision.py). The model call, the
    clock and `json.loads` are outside the model: the call's outcome and a
    decoder are parameters. */
module SearchDecision {
  import opened Wrappers
  import opened Text
  import Summarizers

  /** `DecisionResult`. */
  datatype Decision = Decision(needsSearch: bool, query: string, rawResponse: string)

  /** What the summarizer call produced: an exception anywhere in the
      decision, a reported failure, or a summary. */
  datatype CallOutcome = Raised | Failed(error: string) | Succeeded(summary: string)

  /** The JSON values `_parse_response` looks at. `Other` stands for floats,
      lists and objects, which only matter through their truth value and
      their `str()` text. */
  datatype JsonValue = JNull | JBool(b: bool) | JInt(i: int) | JString(s: string) | JOther(truthy: bool, text: string)

  /** Python's `bool(value)`. */
  predicate Truthy(v: JsonValue) {
    match v
    case JNull => false
    case JBool(b) => b
    case JInt(i) => i != 0
    case JString(s) => s != ""
    case JOther(t, _) => t
  }

  /** Python's `str(value)`; `show` renders integers. */
  function Str(v: JsonValue, show: int -> string): string {
    match v
    case JNull => "None"
    case JBool(b) => if b then "True" else "False"
    case JInt(i) => show(i)
    case JString(s) => s
    case JOther(_, t) => t
  }

  /** A decoded JSON object. */
  type JsonObject = map<string, JsonValue>

  predicate IsBrace(c: char) {
    c == '{' || c == '}'
  }

  /** The first brace at or after `from`, or the end. */
  function NextBrace(s: string, from: nat): (e: nat)
    requires from <= |s|
    ensures from <= e <= |s|
    ensures forall i :: from <= i < e ==> !IsBrace(s[i])
    ensures e < |s| ==> IsBrace(s[e])
    decreases |s| - from
  {
    if from == |s| || IsBrace(s[from]) then from else NextBrace(s, from + 1)
  }

  /** `\{[^{}]+\}` matches at `a`: an opening brace, at least one
      character that is no brace, and a closing brace. */
  predicate MatchAt(s: string, a: nat) {
    a < |s| && s[a] == '{'
    && var e := NextBrace(s, a + 1);
    e > a + 1 && e < |s| && s[e] == '}'
  }

  /** The same match described without the scan: a closing brace at `e`
      with no brace strictly between. */
  lemma MatchAtIff(s: string, a: nat, e: nat)
    requires a < e < |s|
    ensures (s[a] == '{' && e > a + 1 && s[e] == '}' && forall i :: a < i < e ==> !IsBrace(s[i]))
      <==> (MatchAt(s, a) && NextBrace(s, a + 1) == e)
  {
  }

  /** `re.search(r'\{[^{}]+\}', s)`: the leftmost match at or after
      `from`, as the start and the end just past the closing brace. */
  function FindBlock(s: string, from: nat): (r: Option<(nat, nat)>)
    requires from <= |s|
    ensures r.None? ==> forall a :: from <= a < |s| ==> !MatchAt(s, a)
    ensures r.Some? ==> var (a, b) := r.value;
      && from <= a && MatchAt(s, a) && b == NextBrace(s, a + 1) + 1
      && forall a' :: from <= a' < a ==> !MatchAt(s, a')
    decreases |s| - from
  {
    if from == |s| then None
    else if MatchAt(s, from) then Some((from, NextBrace(s, from + 1) + 1))
    else FindBlock(s, from + 1)
  }

  /** A text with no opening brace has no JSON block. */
  lemma NoBraceNoBlock(s: string)
    requires '{' !in s
    ensures FindBlock(s, 0).None?
  {
  }

  /** `re.sub(r'^\[L1\s*Summary\]\s*', '', s)`. */
  function DropL1Prefix(s: string): (r: string)
    ensures |r| <= |s| && r == s[|s| - |r|..]
    ensures !StartsWith(s, "[L1") ==> r == s
  {
    Summarizers.DropLevelLabel(s, {'1'})
  }

  /** The summarizer's "[L1 Summary]" label in front of the answer is
      dropped with the whitespace after it, and an L2 label is kept. */
  lemma DropL1PrefixOfLabel(spaces: string, t: string)
    requires AllSpace(spaces, IsPySpace)
    requires t == [] || !IsPySpace(t[0])
    ensures DropL1Prefix("[L1 Summary]" + spaces + t) == t
  {
    Summarizers.DropLevelLabelOf('1', {'1'}, spaces, t);
    L1Label();
  }

  /** The level-1 label spelled out. */
  lemma L1Label()
    ensures "[L" + ['1'] + " Summary]" == "[L1 Summary]"
  {
    var a := "[L" + ['1'] + " Summary]";
    assert |a| == 12;
    assert forall i :: 0 <= i < 12 ==> a[i] == "[L1 Summary]"[i];
  }

  /** An L2 label is left in place. */
  lemma DropL1PrefixKeepsL2(t: string)
    ensures DropL1Prefix("[L2 Summary]" + t) == "[L2 Summary]" + t
  {
    var u := "[L2 Summary]" + t;
    assert u[2] == '2';
    assert u[2] !in {'1'};
  }

  /** `data.get("search", False)` and `str(data.get("query", "")).strip()`,
      with a set flag and a blank query demoted to no search. */
  function ReadFields(data: JsonObject, show: int -> string): (r: (bool, string))
    ensures PyStrip(r.1) == r.1
    ensures r.0 ==> r.1 != ""
    ensures r.0 <==> ("search" in data && Truthy(data["search"])
      && "query" in data && PyStrip(Str(data["query"], show)) != "")
    ensures "query" in data ==> r.1 == PyStrip(Str(data["query"], show))
    ensures "query" !in data ==> r.1 == ""
  {
    var search := Truthy(if "search" in data then data["search"] else JBool(false));
    var raw := Str(if "query" in data then data["query"] else JString(""), show);
    var query := PyStrip(raw);
    TrimIdempotent(raw, IsPySpace);
    assert "query" !in data ==> query == "";
    (search && query != "", query)
  }

  /** The object `json.loads` makes of the first flat `{…}` block, if
      there is a block and it decodes. */
  function DecodedBlock(text: string, decode: string -> Option<JsonObject>): Option<JsonObject> {
    match FindBlock(text, 0)
    case None => None
    case Some((a, b)) => decode(text[a..b])
  }

  /** The JSON part of `_parse_response` on the cleaned text: the first
      flat `{…}` block is decoded (`decode` is `json.loads`, None on a
      decode error) and its `search` and `query` read; it asks for a search
      exactly when a block decodes, its `search` value is truthy and its
      stripped `query` is not empty. */
  function DecideOn(text: string, decode: string -> Option<JsonObject>, show: int -> string): (d: Decision)
    ensures d.rawResponse == text
    ensures FindBlock(text, 0).None? ==> !d.needsSearch && d.query == ""
    ensures d.needsSearch ==> d.query != "" && PyStrip(d.query) == d.query
    ensures var block := FindBlock(text, 0);
      d.needsSearch <==>
        (&& block.Some?
         && decode(text[block.value.0..block.value.1]).Some?
         && var data := decode(text[block.value.0..block.value.1]).value;
            && "search" in data && Truthy(data["search"])
            && "query" in data && PyStrip(Str(data["query"], show)) != "")
    ensures DecodedBlock(text, decode).Some? ==> (d.needsSearch, d.query) == ReadFields(DecodedBlock(text, decode).value, show)
    ensures DecodedBlock(text, decode).None? ==> !d.needsSearch && d.query == ""
  {
    match FindBlock(text, 0)
    case None => Decision(false, "", text)
    case Some((a, b)) =>
      match decode(text[a..b])
      case None => Decision(false, "", text)
      case Some(data) =>
        var (needs, query) := ReadFields(data, show);
        Decision(needs, query, text)
  }

  /** `_parse_response`: strip, drop a leading "[L1 Summary]", then read the
      decision from the first JSON block. */
  function ParseResponse(raw: string, decode: string -> Option<JsonObject>, show: int -> string): (d: Decision)
    ensures d.rawResponse == DropL1Prefix(PyStrip(raw))
    ensures d.needsSearch ==> FindBlock(d.rawResponse, 0).Some? && d.query != ""
    ensures DecodedBlock(d.rawResponse, decode).Some? ==>
      (d.needsSearch, d.query) == ReadFields(DecodedBlock(d.rawResponse, decode).value, show)
    ensures DecodedBlock(d.rawResponse, decode).None? ==> !d.needsSearch && d.query == ""
  {
    DecideOn(DropL1Prefix(PyStrip(raw)), decode, show)
  }

  /** A decoded block whose search flag is set but whose query is blank
      asks for no search. */
  lemma BlankQueryDemoted(text: string, decode: string -> Option<JsonObject>, show: int -> string)
    requires && FindBlock(text, 0).Some?
      && var (a, b) := FindBlock(text, 0).value;
         && decode(text[a..b]).Some?
         && var data := decode(text[a..b]).value;
            "query" in data && AllSpace(Str(data["query"], show), IsPySpace)
    ensures !DecideOn(text, decode, show).needsSearch
  {
  }

  /** `should_search`: never fails; every error path answers "no search"
      with an empty query. */
  function ShouldSearch(outcome: CallOutcome, decode: string -> Option<JsonObject>, show: int -> string): (d: Decision)
    ensures outcome.Raised? ==> d == Decision(false, "", "error")
    ensures outcome.Failed? ==> d == Decision(false, "", "error: " + outcome.error)
    ensures outcome.Succeeded? ==> d == ParseResponse(PyStrip(outcome.summary), decode, show)
    ensures d.needsSearch ==> outcome.Succeeded? && d.query != ""
  {
    match outcome
    case Raised => Decision(false, "", "error")
    case Failed(e) => Decision(false, "", "error: " + e)
    case Succeeded(summary) => ParseResponse(PyStrip(summary), decode, show)
  }

  /** Cleaning only removes characters: the stripped text without the
      prefix holds no character the summary lacks. */
  lemma CleaningKeepsChars(summary: string)
    ensures forall c :: c in DropL1Prefix(PyStrip(PyStrip(summary))) ==> c in summary
  {
    var once := PyStrip(summary);
    var stripped := PyStrip(once);
    TrimKeepsChars(summary, IsPySpace);
    TrimKeepsChars(once, IsPySpace);
    var text := DropL1Prefix(stripped);
    DropL1PrefixKeepsChars(stripped);
    forall c | c in text
      ensures c in summary
    {
      assert c in stripped;
      assert c in once;
    }
  }

  lemma DropL1PrefixKeepsChars(s: string)
    ensures forall c :: c in DropL1Prefix(s) ==> c in s
  {
    var t := DropL1Prefix(s);
    forall c | c in t
      ensures c in s
    {
      var i :| 0 <= i < |t| && t[i] == c;
      assert s[|s| - |t| + i] == c;
    }
  }

  /** A summary with no opening brace never triggers a search. */
  lemma NoJsonNoSearch(summary: string, decode: string -> Option<JsonObject>, show: int -> string)
    requires '{' !in summary
    ensures ShouldSearch(Succeeded(summary), decode, show) == Decision(false, "", DropL1Prefix(PyStrip(PyStrip(summary))))
  {
    CleaningKeepsChars(summary);
    NoBraceNoBlock(DropL1Prefix(PyStrip(PyStrip(summary))));
    var d := ParseResponse(PyStrip(summary), decode, show);
    assert ShouldSearch(Succeeded(summary), decode, show) == d;
  }
}

=== FILE: search_format.dfy ===
/** Turning web-search results into the text of a system message, and
    placing that message before the last user turn
    (services/search/formatter.py). */
module SearchFormat {
  import opened Wrappers
  import opened Text

  /** `SearchResult`: the published date is absent or a string; only a
      non-empty one is printed. */
  datatype SearchResult = SearchResult(title: string, url: string, content: string, publishedDate: Option<string>)

  const DefaultMaxContentChars: int := 1500
  const DefaultMaxTotalChars: int := 5000

  /** The stripped content, cut to `maxContent` characters plus an ellipsis
      when longer. */
  function ClipContent(content: string, maxContent: int): (r: string)
    ensures |PyStrip(content)| <= maxContent ==> r == PyStrip(content)
    ensures |PyStrip(content)| > maxContent ==> EndsWith(r, "...") && StartsWith(PyStrip(content), r[..|r| - 3])
    ensures 0 <= maxContent ==> |r| <= maxContent + 3
    ensures 0 <= maxContent < |PyStrip(content)| ==> r == PyStrip(content)[..maxContent] + "..."
  {
    var c := PyStrip(content);
    if |c| > maxContent then
      var cut := PySliceTo(c, maxContent);
      var r := cut + "...";
      assert r[..|r| - 3] == cut;
      r
    else c
  }

  /** The lines of one result block, numbered `i`. */
  function BlockLines(i: nat, r: SearchResult, maxContent: int): seq<string> {
    ["[" + NatToString(i) + "] " + r.title, "    URL: " + r.url]
    + (if r.publishedDate.Some? && r.publishedDate.value != "" then ["    Дата: " + r.publishedDate.value] else [])
    + ["    " + ClipContent(r.content, maxContent), ""]
  }

  function BlockText(i: nat, r: SearchResult, maxContent: int): string {
    Join(BlockLines(i, r, maxContent), "\n")
  }

  /** The blocks of `rs`, numbered from `first`. */
  function NumberedBlocks(rs: seq<SearchResult>, first: nat, maxContent: int): (bs: seq<string>)
    ensures |bs| == |rs|
    ensures forall k :: 0 <= k < |rs| ==> bs[k] == BlockText(first + k, rs[k], maxContent)
  {
    seq(|rs|, k requires 0 <= k < |rs| => BlockText(first + k, rs[k], maxContent))
  }

  function SkipNote(i: nat): string {
    "[" + NatToString(i) + "] ... (результат пропущен: превышен лимит контекста)"
  }

  function Header(query: string, count: nat): seq<string> {
    [ "[Результаты веб-поиска по запросу: \"" + query + "\"]",
      "[Найдено источников: " + NatToString(count) + ". Используй эти данные при ответе.",
      " Ссылайся на источники по номеру, например: [1], [2].]",
      "" ]
  }

  /** How many blocks fit: the longest prefix whose running total, started
      at `total`, stays within `maxTotal`. */
  function FitCount(bs: seq<string>, total: int, maxTotal: int): (n: nat)
    ensures n <= |bs|
    ensures n > 0 ==> total + TotalLength(bs[..n]) <= maxTotal
    ensures n < |bs| ==> total + TotalLength(bs[..n + 1]) > maxTotal
    decreases |bs|
  {
    if bs == [] || total + |bs[0]| > maxTotal then
      assert bs != [] ==> bs[..1][1..] == [];
      0
    else
      var n := FitCount(bs[1..], total + |bs[0]|, maxTotal);
      assert bs[..n + 1][1..] == bs[1..][..n];
      assert n < |bs| - 1 ==> bs[..n + 2][1..] == bs[1..][..n + 1];
      n + 1
  }

  /** The `for i, r in enumerate(results, 1)` loop from result number `i`
      with `total` characters already emitted; `bs` are the blocks the loop
      body builds for the remaining results. */
  function EmitLoop(bs: seq<string>, i: nat, total: int, maxTotal: int): seq<string>
    decreases |bs|
  {
    if bs == [] then []
    else if total + |bs[0]| > maxTotal then [SkipNote(i)]
    else [bs[0]] + EmitLoop(bs[1..], i + 1, total + |bs[0]|, maxTotal)
  }

  /** The blocks that fit, in order, and a skip note for the first one that
      does not. */
  function Emitted(bs: seq<string>, i: nat, total: int, maxTotal: int): seq<string> {
    var n := FitCount(bs, total, maxTotal);
    bs[..n] + (if n < |bs| then [SkipNote(i + n)] else [])
  }

  /** The loop emits the blocks that fit, in order, and a skip note for the
      first one that does not. */
  lemma {:induction false} EmitLoopShape(bs: seq<string>, i: nat, total: int, maxTotal: int)
    ensures EmitLoop(bs, i, total, maxTotal) == Emitted(bs, i, total, maxTotal)
    decreases |bs|
  {
    if bs != [] && total + |bs[0]| <= maxTotal {
      EmitLoopShape(bs[1..], i + 1, total + |bs[0]|, maxTotal);
      EmitLoopStep(bs, i, total, maxTotal);
    }
  }

  /** One step of the loop: a block that fits goes first, and the rest of
      the loop runs on the remaining blocks. */
  lemma EmitLoopStep(bs: seq<string>, i: nat, total: int, maxTotal: int)
    requires bs != [] && total + |bs[0]| <= maxTotal
    requires EmitLoop(bs[1..], i + 1, total + |bs[0]|, maxTotal) == Emitted(bs[1..], i + 1, total + |bs[0]|, maxTotal)
    ensures EmitLoop(bs, i, total, maxTotal) == Emitted(bs, i, total, maxTotal)
  {
    var m := FitCount(bs[1..], total + |bs[0]|, maxTotal);
    var tail: seq<string> := if m < |bs[1..]| then [SkipNote(i + 1 + m)] else [];
    assert FitCount(bs, total, maxTotal) == m + 1;
    HeadTake(bs, m + 1);
    Assoc([bs[0]], bs[1..][..m], tail);
  }

  lemma HeaderShape(query: string, count: nat)
    ensures |Header(query, count)| == 4 && Header(query, count)[0] != ""
  {
  }

  lemma JoinNonEmpty(parts: seq<string>, sep: string)
    requires parts != [] && parts[0] != ""
    ensures Join(parts, sep) != ""
  {
    JoinEnds(parts, sep);
  }

  /** The returned text: the header lines, then the given lines, joined by
      line breaks. */
  function Layout(query: string, count: nat, lines: seq<string>): (r: string)
    ensures r != ""
  {
    var parts := Header(query, count) + lines;
    HeaderShape(query, count);
    assert parts[0] == Header(query, count)[0];
    JoinNonEmpty(parts, "\n");
    Join(parts, "\n")
  }

  /** `format_results_for_model`: nothing for no results; otherwise the
      header, the numbered blocks that fit the budget and, when one does
      not, a note naming it, one per line. */
  function FormatResults(results: seq<SearchResult>, query: string, maxContent: int, maxTotal: int): (r: string)
    ensures results == [] <==> r == ""
    ensures results != [] ==> r == Layout(query, |results|, Emitted(NumberedBlocks(results, 1, maxContent), 1, 0, maxTotal))
  {
    if results == [] then ""
    else
      var bs := NumberedBlocks(results, 1, maxContent);
      EmitLoopShape(bs, 1, 0, maxTotal);
      Layout(query, |results|, EmitLoop(bs, 1, 0, maxTotal))
  }

  /** A block is skipped only when adding it to the blocks already
      emitted would pass the budget. */
  lemma SkippedBlockOverflows(bs: seq<string>, total: int, maxTotal: int)
    ensures var n := FitCount(bs, total, maxTotal);
      n < |bs| ==> total + TotalLength(bs[..n]) + |bs[n]| > maxTotal
  {
    var n := FitCount(bs, total, maxTotal);
    if n < |bs| {
      assert bs[..n + 1] == bs[..n] + [bs[n]];
      TotalLengthAppend(bs[..n], bs[n]);
    }
  }

  // ---------------------------------------------------------------------------
  // build_augmented_messages

  /** A chat message; a missing role is any role other than "user". */
  datatype Message = Message(role: string, content: string)

  /** Index of the last user message, scanning from the end. */
  function LastUser(ms: seq<Message>): (k: Option<nat>)
    ensures k.None? <==> forall i :: 0 <= i < |ms| ==> ms[i].role != "user"
    ensures k.Some? ==> k.value < |ms| && ms[k.value].role == "user"
    ensures k.Some? ==> forall i :: k.value < i < |ms| ==> ms[i].role != "user"
  {
    if ms == [] then None
    else if ms[|ms| - 1].role == "user" then Some(|ms| - 1)
    else LastUser(ms[..|ms| - 1])
  }

  /** `build_augmented_messages`: a new list with the search context as a
      system message right before the last user message; the input when
      the context or the list is empty or no user message exists. */
  function Augment(ms: seq<Message>, context: string): (r: seq<Message>)
    ensures context == "" || ms == [] || LastUser(ms).None? ==> r == ms
    ensures context != "" && LastUser(ms).Some? ==>
      var k := LastUser(ms).value;
      && |r| == |ms| + 1
      && r[..k] == ms[..k]
      && r[k] == Message("system", context)
      && r[k + 1..] == ms[k..]
      && r[k + 1].role == "user"
  {
    if context == "" || ms == [] then ms
    else
      match LastUser(ms)
      case None => ms
      case Some(k) => ms[..k] + [Message("system", context)] + ms[k..]
  }

  /** Removing the inserted message gives the input back, and the message
      after it is the last user message of the result. */
  lemma AugmentInverse(ms: seq<Message>, context: string)
    requires context != "" && LastUser(ms).Some?
    ensures var k := LastUser(ms).value;
      var r := Augment(ms, context);
      && r[..k] + r[k + 1..] == ms
      && LastUser(r) == Some(k + 1)
  {
    var k := LastUser(ms).value;
    var m := Message("system", context);
    var r := ms[..k] + [m] + ms[k..];
    assert r[..k] + r[k + 1..] == ms by {
      assert r[..k] == ms[..k] && r[k + 1..] == ms[k..];
    }
    LastUserAfterInsert(ms, k, m);
  }

  lemma LastUserAfterInsert(ms: seq<Message>, k: nat, m: Message)
    requires LastUser(ms) == Some(k) && m.role != "user"
    ensures LastUser(ms[..k] + [m] + ms[k..]) == Some(k + 1)
  {
    var r := ms[..k] + [m] + ms[k..];
    assert r[k + 1] == ms[k];
    assert forall i :: k + 1 < i < |r| ==> r[i] == ms[i - 1];
  }
}

=== FILE: sorting.dfy ===
/** Python's stable `list.sort`, written as an insertion sort over a "ranks
    above" relation: `above(a, b)` holds when `a` must come before `b`.
    Elements that do not rank above one another are inserted after the ones
    already placed, as in a stable sort. */
module Sorting {

  /** No later element ranks above an earlier one. */
  predicate SortedBy<T>(s: seq<T>, above: (T, T) -> bool) {
    forall i, j :: 0 <= i < j < |s| ==> !above(s[j], s[i])
  }

  /** A strict order: irreflexive and transitive. */
  ghost predicate StrictOrder<T(!new)>(above: (T, T) -> bool) {
    (forall a :: !above(a, a))
    && (forall a, b, c :: above(a, b) && above(b, c) ==> above(a, c))
  }

  /** Puts `x` in front of the first element it ranks above. */
  function Insert<T>(x: T, s: seq<T>, above: (T, T) -> bool): (r: seq<T>)
    ensures multiset(r) == multiset(s) + multiset{x}
  {
    if s == [] then [x]
    else if above(x, s[0]) then [x] + s
    else
      var t := Insert(x, s[1..], above);
      assert s == [s[0]] + s[1..];
      [s[0]] + t
  }

  /** Stable sort: inserts the elements one by one, last element last. */
  function Sort<T>(s: seq<T>, above: (T, T) -> bool): (r: seq<T>)
    ensures multiset(r) == multiset(s)
    ensures |r| == |s|
  {
    if s == [] then []
    else
      var r := Insert(s[|s| - 1], Sort(s[..|s| - 1], above), above);
      assert s == s[..|s| - 1] + [s[|s| - 1]];
      assert |r| == |multiset(r)|;
      r
  }

  lemma {:induction false} InsertSorted<T(!new)>(x: T, s: seq<T>, above: (T, T) -> bool)
    requires StrictOrder(above)
    requires SortedBy(s, above)
    ensures SortedBy(Insert(x, s, above), above)
    decreases |s|
  {
    if s == [] {
    } else if above(x, s[0]) {
      var r := [x] + s;
      forall i, j | 0 <= i < j < |r|
        ensures !above(r[j], r[i])
      {
        if i == 0 {
          if j > 1 {
            assert !above(s[j - 1], s[0]);
          }
        }
      }
    } else {
      InsertSorted(x, s[1..], above);
      var t := Insert(x, s[1..], above);
      var r := [s[0]] + t;
      forall j | 0 <= j < |t|
        ensures !above(t[j], s[0])
      {
        assert t[j] in multiset(t);
        if t[j] != x {
          assert t[j] in multiset(s[1..]);
          var k :| 0 <= k < |s[1..]| && s[1..][k] == t[j];
          assert s[k + 1] == t[j];
        }
      }
      forall i, j | 0 <= i < j < |r|
        ensures !above(r[j], r[i])
      {
        if i == 0 {
          assert r[j] == t[j - 1];
        } else {
          assert r[i] == t[i - 1] && r[j] == t[j - 1];
        }
      }
    }
  }

  /** The result of `Sort` is ordered. */
  lemma {:induction false} SortSorted<T(!new)>(s: seq<T>, above: (T, T) -> bool)
    requires StrictOrder(above)
    ensures SortedBy(Sort(s, above), above)
    decreases |s|
  {
    if s != [] {
      SortSorted(s[..|s| - 1], above);
      InsertSorted(s[|s| - 1], Sort(s[..|s| - 1], above), above);
    }
  }

  /** A strict weak order: a strict order under which "neither ranks above
      the other" is transitive too, as for comparison by a key. */
  ghost predicate StrictWeakOrder<T(!new)>(above: (T, T) -> bool) {
    StrictOrder(above) && forall a, b, c :: above(a, c) ==> above(a, b) || above(b, c)
  }

  /** The elements that rank neither above nor below `x`. */
  function TiedWith<T>(above: (T, T) -> bool, x: T): T -> bool {
    y => !above(x, y) && !above(y, x)
  }

  /** Stability: the elements tied with any `x` come out of the sort in the
      order they went in. */
  lemma {:induction false} SortStable<T(!new)>(s: seq<T>, x: T, above: (T, T) -> bool)
    requires StrictWeakOrder(above)
    ensures Filter(Sort(s, above), TiedWith(above, x)) == Filter(s, TiedWith(above, x))
    decreases |s|
  {
    if s != [] {
      var init := s[..|s| - 1];
      var y := s[|s| - 1];
      SortStable(init, x, above);
      SortSorted(init, above);
      FilterInsert(x, y, Sort(init, above), above);
    }
  }

  /** Inserting into a sorted sequence puts a tied element after the ones
      it is tied with. */
  lemma {:induction false} FilterInsert<T(!new)>(x: T, y: T, t: seq<T>, above: (T, T) -> bool)
    requires StrictWeakOrder(above)
    requires SortedBy(t, above)
    ensures var p := TiedWith(above, x);
      Filter(Insert(y, t, above), p) == Filter(t, p) + (if p(y) then [y] else [])
    decreases |t|
  {
    var p := TiedWith(above, x);
    var q := if p(y) then [y] else [];
    if t == [] || above(y, t[0]) {
      FilterInsertFront(x, y, t, above);
    } else {
      var rest := t[1..];
      SortedTail(t, above);
      FilterInsert(x, y, rest, above);
      InsertStep(y, t, above);
      FilterInsertStep(t, Insert(y, rest, above), p, q);
    }
  }

  /** The case where `y` goes in front. */
  lemma FilterInsertFront<T(!new)>(x: T, y: T, t: seq<T>, above: (T, T) -> bool)
    requires StrictWeakOrder(above)
    requires SortedBy(t, above)
    requires t == [] || above(y, t[0])
    ensures var p := TiedWith(above, x);
      Filter(Insert(y, t, above), p) == Filter(t, p) + (if p(y) then [y] else [])
  {
    var p := TiedWith(above, x);
    var q := if p(y) then [y] else [];
    assert Insert(y, t, above) == [y] + t;
    FilterCons(y, t, p);
    assert Filter([y] + t, p) == q + Filter(t, p);
    if p(y) && t != [] {
      NoneTiedBelow(x, y, t, above);
      FilterNone(t, p);
    } else if p(y) {
      FilterNone(t, p);
    }
    assert Filter(t, p) == [] || q == [];
  }

  lemma SortedTail<T>(t: seq<T>, above: (T, T) -> bool)
    requires t != [] && SortedBy(t, above)
    ensures SortedBy(t[1..], above)
  {
    var rest := t[1..];
    forall i, j | 0 <= i < j < |rest|
      ensures !above(rest[j], rest[i])
    {
      assert rest[i] == t[i + 1] && rest[j] == t[j + 1];
    }
  }

  /** `Insert` past a head that `y` does not rank above. */
  lemma InsertStep<T>(y: T, t: seq<T>, above: (T, T) -> bool)
    requires t != [] && !above(y, t[0])
    ensures Insert(y, t, above) == [t[0]] + Insert(y, t[1..], above)
  {
  }

  /** The filter of a head followed by an insertion, from the filter of
      the insertion. */
  lemma FilterInsertStep<T(!new)>(t: seq<T>, ins: seq<T>, p: T -> bool, q: seq<T>)
    requires t != [] && Filter(ins, p) == Filter(t[1..], p) + q
    ensures Filter([t[0]] + ins, p) == Filter(t, p) + q
  {
    var h, rest := t[0], t[1..];
    assert t == [h] + rest;
    FilterCons(h, ins, p);
    FilterCons(h, rest, p);
    AppendAssoc(if p(h) then [h] else [], Filter(rest, p), q);
  }

  lemma AppendAssoc<T>(a: seq<T>, b: seq<T>, c: seq<T>)
    ensures a + (b + c) == (a + b) + c
  {
  }

  /** In a sorted sequence whose head ranks below `y`, nothing is tied
      with an `x` that `y` is tied with. */
  lemma NoneTiedBelow<T(!new)>(x: T, y: T, t: seq<T>, above: (T, T) -> bool)
    requires StrictWeakOrder(above)
    requires SortedBy(t, above)
    requires t != [] && above(y, t[0]) && TiedWith(above, x)(y)
    ensures forall i :: 0 <= i < |t| ==> !TiedWith(above, x)(t[i])
  {
    var h := t[0];
    assert above(x, h) by {
      assert above(y, x) || above(x, h);
    }
    forall i | 0 < i < |t|
      ensures above(x, t[i])
    {
      assert !above(t[i], h);
    }
  }

  /** Filtering a sequence with one element in front. */
  lemma {:induction false} FilterCons<T(!new)>(a: T, s: seq<T>, p: T -> bool)
    ensures Filter([a] + s, p) == (if p(a) then [a] else []) + Filter(s, p)
    decreases |s|
  {
    if s != [] {
      var init := s[..|s| - 1];
      FilterCons(a, init, p);
      assert ([a] + s)[..|s|] == [a] + init;
    }
  }

  /** Two tests that agree give the same filter. */
  lemma {:induction false} FilterSame<T(!new)>(s: seq<T>, p: T -> bool, q: T -> bool)
    requires forall x :: p(x) == q(x)
    ensures Filter(s, p) == Filter(s, q)
    decreases |s|
  {
    if s != [] {
      FilterSame(s[..|s| - 1], p, q);
    }
  }

  /** Nothing passes a filter no element satisfies. */
  lemma {:induction false} FilterNone<T(!new)>(s: seq<T>, p: T -> bool)
    requires forall i :: 0 <= i < |s| ==> !p(s[i])
    ensures Filter(s, p) == []
    decreases |s|
  {
    if s != [] {
      FilterNone(s[..|s| - 1], p);
    }
  }

  /** Elements satisfying `p`, in order (a list comprehension with a filter). */
  function Filter<T(!new)>(s: seq<T>, p: T -> bool): (r: seq<T>)
    ensures |r| <= |s|
    ensures forall i :: 0 <= i < |r| ==> p(r[i])
    ensures forall x :: x in r <==> x in s && p(x)
  {
    if s == [] then []
    else
      var rest := Filter(s[..|s| - 1], p);
      assert s == s[..|s| - 1] + [s[|s| - 1]];
      if p(s[|s| - 1]) then rest + [s[|s| - 1]] else rest
  }

  lemma {:induction false} FilterMultiset<T(!new)>(s: seq<T>, p: T -> bool)
    ensures forall x :: multiset(Filter(s, p))[x] == if p(x) then multiset(s)[x] else 0
    decreases |s|
  {
    if s != [] {
      FilterMultiset(s[..|s| - 1], p);
      assert s == s[..|s| - 1] + [s[|s| - 1]];
    }
  }

  /** Filtering keeps the order of a sorted sequence. */
  lemma {:induction false} FilterSorted<T(!new)>(s: seq<T>, p: T -> bool, above: (T, T) -> bool)
    requires SortedBy(s, above)
    ensures SortedBy(Filter(s, p), above)
    decreases |s|
  {
    if s != [] {
      var init := s[..|s| - 1];
      var last := s[|s| - 1];
      assert SortedBy(init, above) by {
        forall i, j | 0 <= i < j < |init|
          ensures !above(init[j], init[i])
        {
          assert init[i] == s[i] && init[j] == s[j];
        }
      }
      FilterSorted(init, p, above);
      var rest := Filter(init, p);
      if p(last) {
        var r := rest + [last];
        forall i, j | 0 <= i < j < |r|
          ensures !above(r[j], r[i])
        {
          if j == |r| - 1 {
            assert r[i] in init;
            var k :| 0 <= k < |init| && init[k] == r[i];
            assert s[k] == r[i];
          }
        }
      }
    }
  }
}

=== FILE: store.dfy ===
/** The in-memory dialog map `Dict[str, Dialog]`. Python dicts keep insertion
    order, and "the first remaining key" matters after a delete, so the map is
    a sequence of dialogs, each stored under its own id. */
module DialogStore {
  import opened Wrappers
  import opened Dialogs

  type Store = seq<Dialog>

  /** The keys in insertion order (`list(dialogs.keys())`). */
  function Keys(s: Store): (r: seq<string>)
    ensures |r| == |s|
    ensures forall i :: 0 <= i < |s| ==> r[i] == s[i].id
  {
    seq(|s|, i requires 0 <= i < |s| => s[i].id)
  }

  /** A dict never holds a key twice. */
  predicate UniqueIds(s: Store) {
    forall i, j :: 0 <= i < j < |s| ==> s[i].id != s[j].id
  }

  /** Position of the entry stored under `id`. */
  function Find(s: Store, id: string): (r: Option<nat>)
    ensures r.Some? ==> r.value < |s| && s[r.value].id == id
    ensures r.Some? ==> forall i :: 0 <= i < r.value ==> s[i].id != id
    ensures r.None? <==> forall i :: 0 <= i < |s| ==> s[i].id != id
  {
    if s == [] then None
    else if s[0].id == id then Some(0)
    else match Find(s[1..], id)
      case Some(k) => assert s[k + 1] == s[1..][k]; Some(k + 1)
      case None => None
  }

  /** `id in dialogs`. */
  predicate HasKey(s: Store, id: string) {
    Find(s, id).Some?
  }

  /** `dialogs.get(id)`. */
  function Get(s: Store, id: string): (r: Option<Dialog>)
    ensures r.Some? <==> HasKey(s, id)
    ensures r.Some? ==> r.value.id == id && r.value in s
  {
    match Find(s, id)
    case Some(i) => Some(s[i])
    case None => None
  }

  /** The first entry carrying `id` is the one found. */
  lemma {:induction false} FindIs(s: Store, id: string, i: nat)
    requires i < |s| && s[i].id == id
    requires forall j :: 0 <= j < i ==> s[j].id != id
    ensures Find(s, id) == Some(i)
    decreases i
  {
    if i > 0 {
      assert s[0].id != id;
      assert s[1..][i - 1] == s[i];
      FindIs(s[1..], id, i - 1);
    }
  }

  lemma GetIndex(s: Store, i: nat)
    requires UniqueIds(s) && i < |s|
    ensures Find(s, s[i].id) == Some(i)
    ensures Get(s, s[i].id) == Some(s[i])
  {
  }

  /** `dialogs[d.id] = d`: replaces in place when the key exists, otherwise
      appends at the end. */
  function Put(s: Store, d: Dialog): (r: Store)
    ensures Get(r, d.id) == Some(d)
    ensures forall k :: k != d.id ==> Get(r, k) == Get(s, k)
    ensures HasKey(s, d.id) ==> Keys(r) == Keys(s)
    ensures !HasKey(s, d.id) ==> Keys(r) == Keys(s) + [d.id]
    ensures UniqueIds(s) ==> UniqueIds(r)
  {
    match Find(s, d.id)
    case Some(i) =>
      var r := s[i := d];
      FindIs(r, d.id, i);
      assert forall k :: k != d.id ==> Find(r, k) == Find(s, k) by {
        forall k | k != d.id
          ensures Find(r, k) == Find(s, k)
        {
          FindSameIds(r, s, k);
        }
      }
      r
    case None =>
      var r := s + [d];
      assert forall k :: Find(r, k) == if Find(s, k).Some? then Find(s, k) else if k == d.id then Some(|s|) else None by {
        forall k
          ensures Find(r, k) == if Find(s, k).Some? then Find(s, k) else if k == d.id then Some(|s|) else None
        {
          FindAppend(s, d, k);
        }
      }
      r
  }

  /** Every entry after a `Put` is the new dialog or an old entry. */
  lemma PutElements(s: Store, d: Dialog)
    ensures forall i :: 0 <= i < |Put(s, d)| ==> Put(s, d)[i] == d || Put(s, d)[i] in s
  {
    match Find(s, d.id)
    case Some(i) => assert Put(s, d) == s[i := d];
    case None => assert Put(s, d) == s + [d];
  }

  lemma {:induction false} FindSameIds(a: Store, b: Store, k: string)
    requires |a| == |b|
    requires forall i :: 0 <= i < |a| && (a[i].id == k || b[i].id == k) ==> a[i].id == b[i].id
    ensures Find(a, k) == Find(b, k)
    decreases |a|
  {
    if a != [] {
      FindSameIds(a[1..], b[1..], k);
    }
  }

  lemma {:induction false} FindAppend(s: Store, d: Dialog, k: string)
    ensures Find(s + [d], k) == if Find(s, k).Some? then Find(s, k) else if k == d.id then Some(|s|) else None
    decreases |s|
  {
    if s != [] {
      assert (s + [d])[1..] == s[1..] + [d];
      FindAppend(s[1..], d, k);
    }
  }

  /** `del dialogs[id]`. */
  function Remove(s: Store, id: string): (r: Store)
    ensures |r| <= |s|
    ensures forall i :: 0 <= i < |r| ==> r[i].id != id && r[i] in s
    ensures forall d :: d in s && d.id != id ==> d in r
    decreases |s|
  {
    if s == [] then []
    else
      var rest := Remove(s[1..], id);
      assert s == [s[0]] + s[1..];
      if s[0].id == id then rest else [s[0]] + rest
  }

  lemma RemoveRemovesKey(s: Store, id: string)
    ensures !HasKey(Remove(s, id), id)
  {
  }

  lemma {:induction false} RemoveAbsent(s: Store, id: string)
    requires !HasKey(s, id)
    ensures Remove(s, id) == s
    decreases |s|
  {
    if s != [] {
      assert !HasKey(s[1..], id);
      RemoveAbsent(s[1..], id);
    }
  }

  /** Removing a present key from a dict removes exactly one entry and keeps
      the keys unique. */
  lemma {:induction false} RemoveUnique(s: Store, id: string)
    requires UniqueIds(s)
    ensures UniqueIds(Remove(s, id))
    ensures |Remove(s, id)| == |s| - (if HasKey(s, id) then 1 else 0)
    decreases |s|
  {
    if s != [] {
      var rest := Remove(s[1..], id);
      RemoveUnique(s[1..], id);
      if s[0].id == id {
        assert !HasKey(s[1..], id);
        RemoveAbsent(s[1..], id);
      } else {
        var r := [s[0]] + rest;
        assert HasKey(s, id) == HasKey(s[1..], id);
        forall j | 0 < j < |r|
          ensures r[0].id != r[j].id
        {
          assert r[j] in s[1..];
        }
      }
    }
  }

  /** Removing a key keeps the other entries and their order: the remaining
      keys are the old keys with `id` taken out. */
  lemma {:induction false} RemoveKeys(s: Store, id: string)
    ensures Keys(Remove(s, id)) == RemoveString(Keys(s), id)
    decreases |s|
  {
    if s != [] {
      RemoveKeys(s[1..], id);
      assert Keys(s) == [s[0].id] + Keys(s[1..]);
      assert Keys(s)[1..] == Keys(s[1..]);
    }
  }

  function RemoveString(ks: seq<string>, k: string): seq<string> {
    if ks == [] then []
    else (if ks[0] == k then [] else [ks[0]]) + RemoveString(ks[1..], k)
  }

  /** Entries stored under other keys are unaffected by a removal. */
  lemma {:induction false} RemoveGet(s: Store, id: string, k: string)
    requires k != id
    ensures Get(Remove(s, id), k) == Get(s, k)
    decreases |s|
  {
    if s != [] {
      RemoveGet(s[1..], id, k);
      GetCons(s, k);
      if s[0].id == id {
        assert Remove(s, id) == Remove(s[1..], id);
      } else {
        var r := Remove(s, id);
        assert r == [s[0]] + Remove(s[1..], id);
        GetCons(r, k);
        assert r[1..] == Remove(s[1..], id);
      }
    }
  }

  /** Looking a key up in a non-empty store: the head, or the rest. */
  lemma GetCons(s: Store, k: string)
    requires s != []
    ensures Get(s, k) == if s[0].id == k then Some(s[0]) else Get(s[1..], k)
  {
  }
}

=== FILE: summarizers.dfy ===
/** The text handling of the L1 and L2 summarizers
    (services/context/summarizers.py): input truncation, cleaning a model
    response, the level markers, and the request counters. Loading and
    running the model are outside the model; the response arrives as a
    parameter. */
module Summarizers {
  import opened Wrappers
  import opened Text

  // ---------------------------------------------------------------------------
  // Input

  /** `_truncate_text`: the cutting logic is commented out and the text is
      returned as it is. */
  function TruncateText(text: string, maxChars: int): (r: string)
    ensures r == text
    ensures 0 <= maxChars < |text| ==> |r| > maxChars
  {
    text
  }

  // ---------------------------------------------------------------------------
  // Finding and removing tags

  const ThinkOpen: string := "<think>"
  const ThinkClose: string := "</think>"
  const ImStart: string := "<|im_start|>"
  const ImEnd: string := "<|im_end|>"
  const L1Marker: string := "[L1 Summary]"
  const L2Marker: string := "[L2 Summary]"

  /** The quote characters `strip('"\'`')` removes. */
  const Quotes: set<char> := {'"', '\'', '`'}

  predicate OccursAt(s: string, p: string, k: nat) {
    k <= |s| && StartsWith(s[k..], p)
  }

  /** `s.find(p)` for a non-empty `p`: the first position of `p`, if any. */
  function Find(s: string, p: string): (r: Option<nat>)
    requires p != []
    ensures r.Some? ==> OccursAt(s, p, r.value) && forall k :: 0 <= k < r.value ==> !OccursAt(s, p, k)
    ensures r.None? ==> forall k :: 0 <= k <= |s| ==> !OccursAt(s, p, k)
    decreases |s|
  {
    if |s| < |p| then None
    else if StartsWith(s, p) then Some(0)
    else
      assert s[0..] == s;
      OccursShift(s, p);
      match Find(s[1..], p)
      case None => None
      case Some(k) => Some(k + 1)
  }

  lemma OccursShift(s: string, p: string)
    requires s != []
    ensures forall k :: 1 <= k <= |s| ==> (OccursAt(s, p, k) <==> OccursAt(s[1..], p, k - 1))
  {
    forall k | 1 <= k <= |s| ensures OccursAt(s, p, k) <==> OccursAt(s[1..], p, k - 1) {
      assert s[k..] == s[1..][k - 1..];
    }
  }

  /** `re.sub(r'<think>.*?</think>', '', s, flags=re.DOTALL)`: from the
      first opening tag to the first closing tag after it, repeatedly,
      left to right. */
  function RemoveThinkBlocks(s: string): (r: string)
    ensures |r| <= |s|
    decreases |s|
  {
    match Find(s, ThinkOpen)
    case None => s
    case Some(i) =>
      var after := s[i + |ThinkOpen|..];
      match Find(after, ThinkClose)
      case None => s
      case Some(j) =>
        var rest := after[j + |ThinkClose|..];
        s[..i] + RemoveThinkBlocks(rest)
  }

  /** A text without an opening tag is left alone. */
  lemma RemoveThinkBlocksNoTag(s: string)
    requires Find(s, ThinkOpen).None?
    ensures RemoveThinkBlocks(s) == s
  {
  }

  /** One block, and the text before it free of opening tags: the block goes,
      the text before it stays, and the removal goes on after it. */
  lemma RemoveOneBlock(a: string, b: string, c: string)
    requires Find(a + ThinkOpen, ThinkOpen) == Some(|a|)
    requires Find(b + ThinkClose, ThinkClose) == Some(|b|)
    ensures RemoveThinkBlocks(a + ThinkOpen + b + ThinkClose + c) == a + RemoveThinkBlocks(c)
  {
    var s := a + ThinkOpen + b + ThinkClose + c;
    FindPrefix(a + ThinkOpen, ThinkOpen, b + ThinkClose + c);
    assert s == (a + ThinkOpen) + (b + ThinkClose + c);
    var after := s[|a| + |ThinkOpen|..];
    assert after == (b + ThinkClose) + c;
    FindPrefix(b + ThinkClose, ThinkClose, c);
    assert after[|b| + |ThinkClose|..] == c;
    assert s[..|a|] == a;
  }

  /** A first occurrence inside a prefix is the first occurrence in the
      whole string. */
  lemma FindPrefix(s: string, p: string, t: string)
    requires p != [] && Find(s, p).Some?
    ensures Find(s + t, p) == Find(s, p)
  {
    var k := Find(s, p).value;
    assert (s + t)[k..][..|p|] == s[k..][..|p|];
    forall j | 0 <= j < k ensures !OccursAt(s + t, p, j) {
      assert !OccursAt(s, p, j);
      assert (s + t)[j..][..|p|] == s[j..][..|p|];
    }
    FindUnique(s + t, p, k);
  }

  /** `Find` is the least occurrence. */
  lemma FindUnique(s: string, p: string, k: nat)
    requires p != [] && OccursAt(s, p, k) && forall j :: 0 <= j < k ==> !OccursAt(s, p, j)
    ensures Find(s, p) == Some(k)
  {
    var r := Find(s, p);
  }

  /** A pattern `Find` does not find does not occur. */
  lemma NotFoundNotContained(s: string, p: string)
    requires p != [] && Find(s, p).None?
    ensures !Contains(s, p)
  {
    forall i | 0 <= i <= |s|
      ensures !StartsWith(s[i..], p)
    {
      assert !OccursAt(s, p, i);
    }
  }

  // ---------------------------------------------------------------------------
  // Cleaning responses

  /** `response[len(prompt):]` when the response repeats the prompt. */
  function DropPrompt(response: string, prompt: string): (r: string)
    ensures StartsWith(response, prompt) ==> response == prompt + r
    ensures !StartsWith(response, prompt) ==> r == response
  {
    if StartsWith(response, prompt) then response[|prompt|..] else response
  }

  /** The tag removal shared by all cleaners: blocks, then stray tags. */
  function DropThink(s: string): string {
    ReplaceAll(ReplaceAll(RemoveThinkBlocks(s), ThinkOpen, ""), ThinkClose, "")
  }

  /** The base `_clean_response`. */
  function CleanBase(response: string, prompt: string): (r: string)
    ensures PyStrip(r) == r
  {
    var s := StripChars(PyStrip(DropPrompt(response, prompt)), Quotes);
    TrimIdempotent(DropThink(s), IsPySpace);
    PyStrip(DropThink(s))
  }

  /** The L1 cleaner's text before the marker: the base steps with the
      chat-template tokens removed as well. */
  function CleanL1Core(response: string, prompt: string): (r: string)
    ensures PyStrip(r) == r
  {
    var s := PyStrip(DropPrompt(response, prompt));
    var s := PyStrip(ReplaceAll(ReplaceAll(s, ImStart, ""), ImEnd, ""));
    var s := StripChars(s, Quotes);
    TrimIdempotent(DropThink(s), IsPySpace);
    PyStrip(DropThink(s))
  }

  /** A response that repeats the prompt is cleaned as the text after
      the prompt would be on its own. */
  lemma CleanDropsPrompt(prompt: string, t: string)
    ensures CleanBase(prompt + t, prompt) == CleanBase(t, "")
    ensures CleanL1Core(prompt + t, prompt) == CleanL1Core(t, "")
  {
    assert (prompt + t)[..|prompt|] == prompt && (prompt + t)[|prompt|..] == t;
    assert t[..0] == [] && t[0..] == t;
  }

  /** Text with nothing to clean (no repeated prompt, no whitespace or
      quote at either end, no tags) comes out of the base cleaner
      unchanged. */
  lemma PlainTextCleaned(text: string, prompt: string)
    requires prompt == [] || !StartsWith(text, prompt)
    requires PyStrip(text) == text
    requires text == [] || (text[0] !in Quotes && text[|text| - 1] !in Quotes)
    requires Find(text, ThinkOpen).None? && Find(text, ThinkClose).None?
    ensures CleanBase(text, prompt) == text
  {
    PlainNoPrompt(text, prompt);
    PlainThroughSteps(text);
    var s := StripChars(PyStrip(DropPrompt(text, prompt)), Quotes);
    assert s == text;
    assert PyStrip(DropThink(s)) == text;
  }

  /** Such text comes out of the L1 cleaner unchanged too when it holds
      no chat-template token. */
  lemma PlainTextCleanedL1(text: string, prompt: string)
    requires prompt == [] || !StartsWith(text, prompt)
    requires PyStrip(text) == text
    requires text == [] || (text[0] !in Quotes && text[|text| - 1] !in Quotes)
    requires Find(text, ThinkOpen).None? && Find(text, ThinkClose).None?
    requires Find(text, ImStart).None? && Find(text, ImEnd).None?
    ensures CleanL1Core(text, prompt) == text
  {
    PlainNoPrompt(text, prompt);
    PlainThroughSteps(text);
    NoTokensKept(text);
    var s := PyStrip(ReplaceAll(ReplaceAll(PyStrip(DropPrompt(text, prompt)), ImStart, ""), ImEnd, ""));
    assert s == text;
  }

  lemma NoTokensKept(text: string)
    requires Find(text, ImStart).None? && Find(text, ImEnd).None?
    ensures ReplaceAll(ReplaceAll(text, ImStart, ""), ImEnd, "") == text
  {
    NotFoundNotContained(text, ImStart);
    NotFoundNotContained(text, ImEnd);
    ReplaceAbsent(text, ImStart, "");
    ReplaceAbsent(text, ImEnd, "");
  }

  lemma PlainNoPrompt(text: string, prompt: string)
    requires prompt == [] || !StartsWith(text, prompt)
    ensures DropPrompt(text, prompt) == text
  {
    if prompt == [] {
      assert text[0..] == text;
    }
  }

  /** The steps after the prompt leave plain text alone. */
  lemma PlainThroughSteps(text: string)
    requires PyStrip(text) == text
    requires text == [] || (text[0] !in Quotes && text[|text| - 1] !in Quotes)
    requires Find(text, ThinkOpen).None? && Find(text, ThinkClose).None?
    ensures StripChars(text, Quotes) == text
    ensures PyStrip(DropThink(text)) == text
  {
    TrimOfTrimmed(text, c => c in Quotes);
    NoThinkKept(text);
  }

  lemma NoThinkKept(text: string)
    requires PyStrip(text) == text
    requires Find(text, ThinkOpen).None? && Find(text, ThinkClose).None?
    ensures PyStrip(DropThink(text)) == text
  {
    NotFoundNotContained(text, ThinkOpen);
    NotFoundNotContained(text, ThinkClose);
    ReplaceAbsent(text, ThinkOpen, "");
    ReplaceAbsent(text, ThinkClose, "");
  }

  /** A marker: not empty, starting with '[' and ending with ']'. */
  predicate IsMarker(m: string) {
    |m| >= 2 && m[0] == '[' && m[|m| - 1] == ']'
  }

  lemma MarkersAreMarkers()
    ensures IsMarker(L1Marker) && IsMarker(L2Marker)
  {
  }

  /** `f"{marker} {text}"` for a non-empty text that does not already start
      with the marker. */
  function Mark(core: string, m: string): (r: string)
    requires IsMarker(m)
    ensures r == [] <==> core == []
    ensures r != [] ==> StartsWith(r, m)
    ensures StartsWith(core, m) ==> r == core
    ensures core != [] && !StartsWith(core, m) ==> r == m + " " + core && r[|m| + 1..] == core
  {
    if core != [] && !StartsWith(core, m) then m + " " + core else core
  }

  /** Marking twice is marking once: an existing marker is not doubled. */
  lemma MarkIdempotent(core: string, m: string)
    requires IsMarker(m)
    ensures Mark(Mark(core, m), m) == Mark(core, m)
  {
  }

  /** The L1 `_clean_response`: the cleaned text, marked as an L1 summary. */
  function CleanL1(response: string, prompt: string): (r: string)
    ensures r == [] <==> CleanL1Core(response, prompt) == []
    ensures r != [] ==> StartsWith(r, L1Marker)
    ensures PyStrip(r) == r
  {
    MarkersAreMarkers();
    var core := CleanL1Core(response, prompt);
    MarkStripped(core, L1Marker);
    Mark(core, L1Marker)
  }

  /** Marking a stripped text keeps it stripped. */
  lemma MarkStripped(core: string, m: string)
    requires IsMarker(m) && PyStrip(core) == core
    ensures PyStrip(Mark(core, m)) == Mark(core, m)
  {
    var r := Mark(core, m);
    if r != [] {
      assert r[0] == '[';
      if core != [] && !StartsWith(core, m) {
        assert r[|r| - 1] == core[|core| - 1];
        assert !IsPySpace(core[|core| - 1]);
      }
      TrimOfTrimmed(r, IsPySpace);
    }
  }

  /** The L2 relabelling: a text starting with the L1 marker has every L1
      marker turned into an L2 marker; any other text is marked. */
  function Relabel(cleaned: string, l1: string, l2: string): (r: string)
    requires IsMarker(l1) && IsMarker(l2)
  {
    if StartsWith(cleaned, l1) then ReplaceAll(cleaned, l1, l2) else Mark(cleaned, l2)
  }

  /** The L2 `_clean_response`: the base cleaning, relabelled, stripped. */
  function CleanL2(response: string, prompt: string): (r: string)
    ensures var base := CleanBase(response, prompt);
      && (r == [] <==> base == [])
      && (r != [] ==> StartsWith(r, L2Marker))
      && (StartsWith(base, L2Marker) ==> r == base)
  {
    MarkersAreMarkers();
    var cleaned := CleanBase(response, prompt);
    RelabelStrip(cleaned, L1Marker, L2Marker);
    assert StartsWith(cleaned, L2Marker) ==> !StartsWith(cleaned, L1Marker) by {
      if StartsWith(cleaned, L2Marker) {
        MarkersDiffer(cleaned);
      }
    }
    PyStrip(Relabel(cleaned, L1Marker, L2Marker))
  }

  lemma RelabelStrip(cleaned: string, l1: string, l2: string)
    requires IsMarker(l1) && IsMarker(l2) && PyStrip(cleaned) == cleaned
    ensures var r := PyStrip(Relabel(cleaned, l1, l2));
      && (r == [] <==> cleaned == [])
      && (r != [] ==> StartsWith(r, l2))
      && (StartsWith(cleaned, l2) && !StartsWith(cleaned, l1) ==> r == cleaned)
  {
    var marked := Relabel(cleaned, l1, l2);
    if StartsWith(cleaned, l1) {
      var tail := cleaned[|l1|..];
      assert cleaned[..|l1|] == l1;
      assert marked == l2 + ReplaceAll(tail, l1, l2);
      StripKeepsPrefix(l2, ReplaceAll(tail, l1, l2));
    } else {
      MarkStripped(cleaned, l2);
    }
  }

  /** The two markers differ, so a text starting with the L2 marker does not
      start with the L1 marker. */
  lemma MarkersDiffer(s: string)
    requires StartsWith(s, L2Marker)
    ensures !StartsWith(s, L1Marker)
  {
    assert s[1] == L2Marker[1] == 'L';
    assert s[2] == '2' && L1Marker[2] == '1';
  }

  /** Stripping a text that starts with a marker whose ends are not
      whitespace keeps the marker. */
  lemma StripKeepsPrefix(p: string, t: string)
    requires p != [] && !IsPySpace(p[0]) && !IsPySpace(p[|p| - 1])
    ensures StartsWith(PyStrip(p + t), p)
  {
    var s := p + t;
    assert LeadCount(s, IsPySpace) == 0;
    TrailCountBound(p, t);
    assert TrimStart(s, IsPySpace) == s;
    assert PyStrip(s) == s[..|s| - TrailCount(s, IsPySpace)];
  }

  lemma {:induction false} TrailCountBound(p: string, t: string)
    requires p != [] && !IsPySpace(p[|p| - 1])
    ensures TrailCount(p + t, IsPySpace) <= |t|
    decreases |t|
  {
    var s := p + t;
    if t != [] && IsPySpace(s[|s| - 1]) {
      assert s[..|s| - 1] == p + t[..|t| - 1];
      TrailCountBound(p, t[..|t| - 1]);
    }
  }

  // ---------------------------------------------------------------------------
  // Request counters (the `stats` property)

  datatype Outcome = Succeeded | NotLoaded | Failed

  /** `_total_requests` and `_successful_requests` after a run of
      `summarize` calls: every call counts, only successes count as
      successful. */
  datatype Counters = Counters(total: int, successful: int)

  function Record(c: Counters, o: Outcome): Counters {
    Counters(c.total + 1, if o == Succeeded then c.successful + 1 else c.successful)
  }

  function RecordAll(os: seq<Outcome>): Counters {
    if os == [] then Counters(0, 0) else Record(RecordAll(os[..|os| - 1]), os[|os| - 1])
  }

  function CountFailures(os: seq<Outcome>): nat {
    if os == [] then 0 else CountFailures(os[..|os| - 1]) + (if os[|os| - 1] == Succeeded then 0 else 1)
  }

  /** `failed_requests`: total minus successful. */
  function FailedRequests(c: Counters): int {
    c.total - c.successful
  }

  /** The reported failures are exactly the calls that did not succeed, and
      never more than the calls made. */
  lemma {:induction false} FailedCountsFailures(os: seq<Outcome>)
    ensures FailedRequests(RecordAll(os)) == CountFailures(os)
    ensures RecordAll(os).total == |os| && 0 <= CountFailures(os) <= |os|
    decreases |os|
  {
    if os != [] {
      FailedCountsFailures(os[..|os| - 1]);
    }
  }

  // ---------------------------------------------------------------------------
  // Level labels in front of a model answer

  /** `re.sub(r'^\[L<level>\s*Summary\]\s*', '', s)` with `<level>` any
      of `levels`: a leading summary label and the whitespace after it are
      dropped. */
  function DropLevelLabel(s: string, levels: set<char>): (r: string)
    ensures |r| <= |s| && r == s[|s| - |r|..]
    ensures !(|s| >= 3 && s[0] == '[' && s[1] == 'L' && s[2] in levels) ==> r == s
  {
    if |s| >= 3 && s[0] == '[' && s[1] == 'L' && s[2] in levels then
      var k := LeadCount(s[3..], IsPySpace);
      var rest := s[3 + k..];
      if StartsWith(rest, "Summary]") then
        assert rest[8..] == s[3 + k + 8..];
        TrimStart(rest[8..], IsPySpace)
      else s
    else s
  }

  /** A level label followed by whitespace in front of a text that starts
      with no whitespace is dropped entirely. */
  lemma DropLevelLabelOf(level: char, levels: set<char>, spaces: string, t: string)
    requires level in levels
    requires AllSpace(spaces, IsPySpace)
    requires t == [] || !IsPySpace(t[0])
    ensures DropLevelLabel("[L" + [level] + " Summary]" + spaces + t, levels) == t
  {
    var u := spaces + t;
    assert "[L" + [level] + " Summary]" + spaces + t == "[L" + [level] + " Summary]" + u;
    LevelLabelParts(level, u);
    TrimStartOfSpaces(spaces, t);
  }

  /** How the pattern reads a level label: the level, one space, the word
      and then whatever follows. */
  lemma LevelLabelParts(level: char, u: string)
    ensures var s := "[L" + [level] + " Summary]" + u;
      && |s| >= 3 && s[0] == '[' && s[1] == 'L' && s[2] == level
      && LeadCount(s[3..], IsPySpace) == 1
      && StartsWith(s[4..], "Summary]") && s[4..][8..] == u
  {
    var s := "[L" + [level] + " Summary]" + u;
    assert s[3..] == " Summary]" + u;
    assert LeadCount(s[3..], IsPySpace) == 1;
    var rest := s[4..];
    assert rest == "Summary]" + u;
    assert rest[..8] == "Summary]";
    assert rest[8..] == u;
  }

  lemma {:induction false} TrimStartOfSpaces(spaces: string, t: string)
    requires AllSpace(spaces, IsPySpace)
    requires t == [] || !IsPySpace(t[0])
    ensures TrimStart(spaces + t, IsPySpace) == t
    decreases |spaces|
  {
    if spaces != [] {
      assert (spaces + t)[1..] == spaces[1..] + t;
      TrimStartOfSpaces(spaces[1..], t);
    }
  }
}

=== FILE: text.dfy ===
/** String primitives of Python and JavaScript that the application relies on,
    written out so that their edge cases (whitespace sets, negative slice ends,
    left-to-right replacement) are explicit. */
module Text {
  import opened Wrappers

  /** Python's `str.isspace()` for a single character. */
  predicate IsPySpace(c: char) {
    c == ' ' || c == '\t' || c == '\n' || c == '\U{b}' || c == '\U{c}' || c == '\r'
    || c == '\U{1c}' || c == '\U{1d}' || c == '\U{1e}' || c == '\U{1f}'
    || c == '\U{85}' || c == '\U{a0}' || c == '\U{1680}'
    || ('\U{2000}' <= c && c <= '\U{200a}')
    || c == '\U{2028}' || c == '\U{2029}' || c == '\U{202f}' || c == '\U{205f}' || c == '\U{3000}'
  }

  /** The characters JavaScript's `String.prototype.trim` removes. */
  predicate IsJsSpace(c: char) {
    c == ' ' || c == '\t' || c == '\n' || c == '\U{b}' || c == '\U{c}' || c == '\r'
    || c == '\U{a0}' || c == '\U{1680}'
    || ('\U{2000}' <= c && c <= '\U{200a}')
    || c == '\U{2028}' || c == '\U{2029}' || c == '\U{202f}' || c == '\U{205f}' || c == '\U{3000}'
    || c == '\U{feff}'
  }

  predicate IsDigit(c: char) {
    '0' <= c <= '9'
  }

  predicate StartsWith(s: string, p: string) {
    |p| <= |s| && s[..|p|] == p
  }

  predicate EndsWith(s: string, p: string) {
    |p| <= |s| && s[|s| - |p|..] == p
  }

  /** `p in s` for strings: `p` occurs somewhere in `s`. */
  predicate Contains(s: string, p: string) {
    exists i :: 0 <= i <= |s| && StartsWith(s[i..], p)
  }

  predicate AllSpace(s: string, sp: char -> bool) {
    forall i :: 0 <= i < |s| ==> sp(s[i])
  }

  // ---------------------------------------------------------------------------
  // Trimming

  /** Number of leading characters that satisfy `sp`. */
  function LeadCount(s: string, sp: char -> bool): (k: nat)
    ensures k <= |s|
    ensures forall i :: 0 <= i < k ==> sp(s[i])
    ensures k < |s| ==> !sp(s[k])
  {
    if |s| > 0 && sp(s[0]) then 1 + LeadCount(s[1..], sp) else 0
  }

  /** Number of trailing characters that satisfy `sp`. */
  function TrailCount(s: string, sp: char -> bool): (k: nat)
    ensures k <= |s|
    ensures forall i :: |s| - k <= i < |s| ==> sp(s[i])
    ensures k < |s| ==> !sp(s[|s| - k - 1])
  {
    if |s| > 0 && sp(s[|s| - 1]) then 1 + TrailCount(s[..|s| - 1], sp) else 0
  }

  /** Drops the leading characters that satisfy `sp`. */
  function TrimStart(s: string, sp: char -> bool): (r: string)
    ensures |r| <= |s| && r == s[|s| - |r|..]
    ensures r == [] || !sp(r[0])
    ensures AllSpace(s[..|s| - |r|], sp)
  {
    s[LeadCount(s, sp)..]
  }

  /** Drops the trailing characters that satisfy `sp`. */
  function TrimEnd(s: string, sp: char -> bool): (r: string)
    ensures |r| <= |s| && r == s[..|r|]
    ensures r == [] || !sp(r[|r| - 1])
    ensures AllSpace(s[|r|..], sp)
  {
    s[..|s| - TrailCount(s, sp)]
  }

  /** Both ends; Python's `str.strip()` with `sp == IsPySpace`, JavaScript's
      `trim()` with `sp == IsJsSpace`, `str.strip(chars)` with a set test. */
  function Trim(s: string, sp: char -> bool): (r: string)
    ensures |r| <= |s|
    ensures r == [] || (!sp(r[0]) && !sp(r[|r| - 1]))
    ensures r == [] <==> AllSpace(s, sp)
  {
    var a := TrimStart(s, sp);
    var r := TrimEnd(a, sp);
    assert r == [] ==> AllSpace(s, sp) by {
      if r == [] {
        assert s == s[..|s| - |a|] + a;
        assert a == a[|r|..];
      }
    }
    r
  }

  function PyStrip(s: string): (r: string)
    ensures r == [] <==> AllSpace(s, IsPySpace)
  {
    Trim(s, IsPySpace)
  }

  function JsTrim(s: string): (r: string)
    ensures r == [] <==> AllSpace(s, IsJsSpace)
  {
    Trim(s, IsJsSpace)
  }

  /** Python's `str.strip(chars)`. */
  function StripChars(s: string, chars: set<char>): (r: string)
    ensures r == [] || (r[0] !in chars && r[|r| - 1] !in chars)
  {
    Trim(s, c => c in chars)
  }

  lemma CharNotInAppend(c: char, a: string, b: string)
    requires c !in a && c !in b
    ensures c !in a + b
  {
  }

  /** Trimming only removes characters. */
  lemma TrimKeepsChars(s: string, sp: char -> bool)
    ensures forall c :: c in Trim(s, sp) ==> c in s
  {
    var a := TrimStart(s, sp);
    var r := TrimEnd(a, sp);
    forall c | c in r
      ensures c in s
    {
      var i :| 0 <= i < |r| && r[i] == c;
      assert a[i] == c;
      assert s[|s| - |a| + i] == c;
    }
  }

  /** A string with no removable character at either end is its own trim. */
  lemma TrimOfTrimmed(s: string, sp: char -> bool)
    requires s == [] || (!sp(s[0]) && !sp(s[|s| - 1]))
    ensures Trim(s, sp) == s
  {
  }

  lemma {:induction false} TrimIdempotent(s: string, sp: char -> bool)
    ensures Trim(Trim(s, sp), sp) == Trim(s, sp)
  {
    TrimOfTrimmed(Trim(s, sp), sp);
  }

  // ---------------------------------------------------------------------------
  // Slicing, searching, replacing

  /** Python's `s[:k]`, where a negative `k` counts from the end. */
  function PySliceTo(s: string, k: int): (r: string)
    ensures 0 <= k ==> |r| == if k <= |s| then k else |s|
    ensures k < 0 ==> |r| == if -k <= |s| then |s| + k else 0
    ensures r == s[..|r|]
  {
    if 0 <= k then s[..if k <= |s| then k else |s|]
    else s[..if -k <= |s| then |s| + k else 0]
  }

  /** Index of the first occurrence of `c`. */
  function IndexOf(s: string, c: char): (k: nat)
    requires c in s
    ensures k < |s| && s[k] == c && c !in s[..k]
  {
    if s[0] == c then 0 else
      var k := IndexOf(s[1..], c);
      assert s[..k + 1] == [s[0]] + s[1..][..k];
      k + 1
  }

  /** The first `c` of `a + [c] + b` is the one after `a` when `a` has none. */
  lemma {:induction false} IndexOfAfterPrefix(a: string, c: char, b: string)
    requires c !in a
    ensures c in a + [c] + b
    ensures IndexOf(a + [c] + b, c) == |a|
    decreases |a|
  {
    var s := a + [c] + b;
    assert s[|a|] == c;
    if |a| > 0 {
      assert s[1..] == a[1..] + [c] + b;
      IndexOfAfterPrefix(a[1..], c, b);
    }
  }

  /** Python's `str.replace(pat, rep)`: non-overlapping occurrences, left to right. */
  function ReplaceAll(s: string, pat: string, rep: string): (r: string)
    requires |pat| > 0
    decreases |s|
  {
    if |s| < |pat| then s
    else if s[..|pat|] == pat then rep + ReplaceAll(s[|pat|..], pat, rep)
    else [s[0]] + ReplaceAll(s[1..], pat, rep)
  }

  /** Replacing a pattern by one of the same length keeps the length, and a
      string that starts with the pattern starts with the replacement. */
  lemma {:induction false} ReplaceSameLength(s: string, pat: string, rep: string)
    requires |pat| > 0 && |rep| == |pat|
    ensures |ReplaceAll(s, pat, rep)| == |s|
    ensures StartsWith(s, pat) ==> StartsWith(ReplaceAll(s, pat, rep), rep)
    decreases |s|
  {
    if |s| < |pat| {
    } else if s[..|pat|] == pat {
      ReplaceSameLength(s[|pat|..], pat, rep);
    } else {
      ReplaceSameLength(s[1..], pat, rep);
    }
  }

  /** A string in which the pattern never starts is left as it is. */
  lemma {:induction false} ReplaceAbsent(s: string, pat: string, rep: string)
    requires |pat| > 0
    requires !Contains(s, pat)
    ensures ReplaceAll(s, pat, rep) == s
    decreases |s|
  {
    if |s| >= |pat| {
      assert s[0..] == s;
      assert !StartsWith(s[1..][0..], pat) by { assert s[1..][0..] == s[1..]; }
      forall i | 0 <= i <= |s[1..]|
        ensures !StartsWith(s[1..][i..], pat)
      {
        assert s[1..][i..] == s[i + 1..];
      }
      ReplaceAbsent(s[1..], pat, rep);
    }
  }

  // ---------------------------------------------------------------------------
  // Splitting and joining

  /** `sep.join(parts)`. */
  function Join(parts: seq<string>, sep: string): (r: string)
    ensures |parts| == 1 ==> r == parts[0]
  {
    if |parts| == 0 then ""
    else if |parts| == 1 then parts[0]
    else parts[0] + sep + Join(parts[1..], sep)
  }

  /** Summed length of the strings. */
  function TotalLength(ss: seq<string>): nat {
    if ss == [] then 0 else |ss[0]| + TotalLength(ss[1..])
  }

  lemma {:induction false} TotalLengthAppend(ss: seq<string>, s: string)
    ensures TotalLength(ss + [s]) == TotalLength(ss) + |s|
    decreases |ss|
  {
    if ss != [] {
      assert (ss + [s])[1..] == ss[1..] + [s];
      TotalLengthAppend(ss[1..], s);
    }
  }

  /** Python's `s.split(c)` for a one-character separator. */
  function Split(s: string, c: char): (r: seq<string>)
    ensures |r| >= 1
    ensures forall p :: p in r ==> c !in p
    ensures Join(r, [c]) == s
    decreases |s|
  {
    if c !in s then [s]
    else
      var k := IndexOf(s, c);
      var rest := Split(s[k + 1..], c);
      assert s == s[..k] + [c] + s[k + 1..];
      [s[..k]] + rest
  }

  /** Python's `s.split(c, n)`: at most `n` splits, the remainder kept whole. */
  function SplitN(s: string, c: char, n: nat): (r: seq<string>)
    ensures 1 <= |r| <= n + 1
    ensures forall i :: 0 <= i < |r| - 1 ==> c !in r[i]
    ensures Join(r, [c]) == s
    decreases n
  {
    if n == 0 || c !in s then [s]
    else
      var k := IndexOf(s, c);
      var rest := SplitN(s[k + 1..], c, n - 1);
      assert s == s[..k] + [c] + s[k + 1..];
      [s[..k]] + rest
  }

  /** Splitting a string built from separator-free parts gives the parts back. */
  lemma {:induction false} SplitOfJoin(parts: seq<string>, c: char)
    requires |parts| >= 1
    requires forall i :: 0 <= i < |parts| ==> c !in parts[i]
    ensures Split(Join(parts, [c]), c) == parts
    decreases |parts|
  {
    if |parts| > 1 {
      var s := Join(parts, [c]);
      var tail := Join(parts[1..], [c]);
      assert s == parts[0] + [c] + tail;
      IndexOfAfterPrefix(parts[0], c, tail);
      var k := |parts[0]|;
      assert s[..k] == parts[0];
      assert s[k + 1..] == tail;
      SplitOfJoin(parts[1..], c);
      assert Split(s, c) == [s[..k]] + Split(s[k + 1..], c);
      assert parts == [parts[0]] + parts[1..];
    }
  }

  lemma JoinThree(a: string, b: string, d: string, sep: string)
    ensures Join([a, b, d], sep) == a + sep + b + sep + d
  {
    assert [a, b, d][1..] == [b, d];
    assert [b, d][1..] == [d];
  }

  /** Three separator-free parts joined by the separator split back apart. */
  lemma SplitThree(a: string, b: string, d: string, c: char)
    requires c !in a && c !in b && c !in d
    ensures Split(a + [c] + b + [c] + d, c) == [a, b, d]
  {
    JoinThree(a, b, d, [c]);
    SplitOfJoin([a, b, d], c);
  }

  /** Joining one more part appends the separator and the part. */
  lemma {:induction false} JoinAppend(parts: seq<string>, p: string, sep: string)
    requires |parts| >= 1
    ensures Join(parts + [p], sep) == Join(parts, sep) + sep + p
    decreases |parts|
  {
    if |parts| > 1 {
      assert (parts + [p])[1..] == parts[1..] + [p];
      JoinAppend(parts[1..], p, sep);
    }
  }

  /** A joined string starts with its first part and ends with its last. */
  lemma {:induction false} JoinEnds(parts: seq<string>, sep: string)
    requires |parts| >= 1
    ensures StartsWith(Join(parts, sep), parts[0])
    ensures EndsWith(Join(parts, sep), parts[|parts| - 1])
    decreases |parts|
  {
    if |parts| > 1 {
      var n := |parts| - 1;
      JoinAppend(parts[..n], parts[n], sep);
      assert parts[..n] + [parts[n]] == parts;
      JoinEnds(parts[..n], sep);
      var j := Join(parts[..n], sep);
      assert (j + sep + parts[n])[..|parts[0]|] == j[..|parts[0]|];
    }
  }

  /** Two splits of `a:b:d` give `[a, b, d]` whatever separators `d` holds. */
  lemma SplitTwiceOf(a: string, b: string, d: string, c: char)
    requires c !in a && c !in b
    ensures SplitN(a + [c] + b + [c] + d, c, 2) == [a, b, d]
  {
    var t := b + [c] + d;
    assert a + [c] + b + [c] + d == a + [c] + t;
    SplitNOfPrefix(a, c, t, 2);
    SplitNOfPrefix(b, c, d, 1);
  }

  /** A split of `a:t` with splits left takes `a` off the front. */
  lemma SplitNOfPrefix(a: string, c: char, t: string, n: nat)
    requires c !in a && n > 0
    ensures SplitN(a + [c] + t, c, n) == [a] + SplitN(t, c, n - 1)
  {
    var s := a + [c] + t;
    IndexOfAfterPrefix(a, c, t);
    assert s[..|a|] == a && s[|a| + 1..] == t;
  }

  /** Number of leading characters that do not satisfy `sp`. */
  function SpanUntil(s: string, sp: char -> bool): (k: nat)
    ensures k <= |s|
    ensures forall i :: 0 <= i < k ==> !sp(s[i])
    ensures k < |s| ==> sp(s[k])
  {
    if |s| == 0 || sp(s[0]) then 0 else 1 + SpanUntil(s[1..], sp)
  }

  /** A non-empty run of non-whitespace characters. */
  predicate IsWord(w: string) {
    w != [] && forall i :: 0 <= i < |w| ==> !IsPySpace(w[i])
  }

  /** Python's `s.split()`: maximal runs of non-whitespace, in order. */
  function Words(s: string): (r: seq<string>)
    ensures forall i :: 0 <= i < |r| ==> IsWord(r[i])
    ensures r == [] <==> AllSpace(s, IsPySpace)
    decreases |s|
  {
    var t := TrimStart(s, IsPySpace);
    if t == [] then
      assert s[..|s|] == s;
      []
    else
      var k := SpanUntil(t, IsPySpace);
      SpanIsWord(t);
      NotAllSpace(s, t);
      ConsWords(t[..k], Words(t[k..]));
      [t[..k]] + Words(t[k..])
  }

  /** The leading run of a string that starts with a non-space is a word. */
  lemma SpanIsWord(t: string)
    requires t != [] && !IsPySpace(t[0])
    ensures 0 < SpanUntil(t, IsPySpace) && IsWord(t[..SpanUntil(t, IsPySpace)])
  {
  }

  /** A string ending in a suffix that starts with a non-space is not all spaces. */
  lemma NotAllSpace(s: string, t: string)
    requires t != [] && |t| <= |s| && t == s[|s| - |t|..] && !IsPySpace(t[0])
    ensures !AllSpace(s, IsPySpace)
  {
    assert s[|s| - |t|] == t[0];
  }

  lemma ConsWords(w: string, rest: seq<string>)
    requires IsWord(w) && forall i :: 0 <= i < |rest| ==> IsWord(rest[i])
    ensures forall i :: 0 <= i < |[w] + rest| ==> IsWord(([w] + rest)[i])
  {
  }

  /** `' '.join(s.split())`: whitespace runs collapsed to one space, ends trimmed. */
  function CollapseSpaces(s: string): (r: string)
    ensures SingleSpaced(r)
  {
    JoinWordsSingleSpaced(Words(s));
    Join(Words(s), " ")
  }

  /** Single spaces only, and no whitespace at either end. */
  predicate SingleSpaced(s: string) {
    (s == [] || (!IsPySpace(s[0]) && !IsPySpace(s[|s| - 1])))
    && (forall i :: 0 <= i < |s| && IsPySpace(s[i]) ==> s[i] == ' ')
    && (forall i :: 0 <= i < |s| - 1 && s[i] == ' ' ==> s[i + 1] != ' ')
  }

  lemma {:induction false} JoinWordsSingleSpaced(ws: seq<string>)
    requires forall i :: 0 <= i < |ws| ==> IsWord(ws[i])
    ensures SingleSpaced(Join(ws, " "))
    decreases |ws|
  {
    if |ws| > 1 {
      JoinWordsSingleSpaced(ws[1..]);
      var w := ws[0];
      var rest := Join(ws[1..], " ");
      var s := Join(ws, " ");
      assert IsWord(w) && IsWord(ws[1]);
      assert s == w + " " + rest;
      assert rest != [] && rest[0] == ws[1][0] by {
        if |ws[1..]| > 1 { assert rest == ws[1] + " " + Join(ws[2..], " "); }
      }
      assert forall i :: 0 <= i < |w| ==> s[i] == w[i];
      assert s[|w|] == ' ' && s[|w| + 1] == rest[0];
      assert forall i :: |w| < i < |s| ==> s[i] == rest[i - |w| - 1];
    }
  }

  /** Splitting words joined by single spaces gives the words back. */
  lemma {:induction false} WordsOfJoin(ws: seq<string>)
    requires forall i :: 0 <= i < |ws| ==> IsWord(ws[i])
    ensures Words(Join(ws, " ")) == ws
    decreases |ws|
  {
    if |ws| == 1 {
      WordsOfWord(ws[0]);
    } else if |ws| > 1 {
      WordsOfJoin(ws[1..]);
      WordsOfJoinStep(ws);
    }
  }

  /** One more word in front of words joined by single spaces. */
  lemma WordsOfJoinStep(ws: seq<string>)
    requires |ws| > 1 && forall i :: 0 <= i < |ws| ==> IsWord(ws[i])
    requires Words(Join(ws[1..], " ")) == ws[1..]
    ensures Words(Join(ws, " ")) == ws
  {
    var rest := Join(ws[1..], " ");
    JoinStartsWord(ws[1..]);
    calc {
      Words(Join(ws, " "));
      Words(ws[0] + " " + rest);
      { WordsOfCons(ws[0], rest); }
      [ws[0]] + Words(rest);
      [ws[0]] + ws[1..];
      { HeadTail(ws); }
      ws;
    }
  }

  /** Words joined by spaces start with a character that is not a space. */
  lemma JoinStartsWord(ws: seq<string>)
    requires |ws| >= 1 && forall i :: 0 <= i < |ws| ==> IsWord(ws[i])
    ensures Join(ws, " ") != [] && !IsPySpace(Join(ws, " ")[0])
  {
    JoinEnds(ws, " ");
    assert IsWord(ws[0]);
    assert Join(ws, " ")[0] == ws[0][0];
  }

  lemma SnocLast<T>(s: seq<T>)
    requires s != []
    ensures s[..|s| - 1] + [s[|s| - 1]] == s
  {
  }

  lemma HeadTail<T>(s: seq<T>)
    requires s != []
    ensures [s[0]] + s[1..] == s
  {
  }

  lemma WordsOfWord(w: string)
    requires IsWord(w)
    ensures Words(w) == [w]
  {
    WordsOfUnspaced(w);
    var k := SpanUntil(w, IsPySpace);
    assert k == |w|;
    assert w[..k] == w;
    assert AllSpace(w[k..], IsPySpace);
    assert Words(w[k..]) == [];
  }

  lemma WordsOfCons(w: string, rest: string)
    requires IsWord(w) && rest != [] && !IsPySpace(rest[0])
    ensures Words(w + " " + rest) == [w] + Words(rest)
  {
    var s := w + " " + rest;
    SpanOfWord(w, " " + rest);
    assert s == w + (" " + rest);
    WordsOfUnspaced(s);
    var u := s[|w|..];
    assert s[..|w|] == w && u == " " + rest;
    assert u[1..] == rest;
    WordsSkipSpace(u);
  }

  /** The first run of a word followed by whitespace is the word. */
  lemma SpanOfWord(w: string, t: string)
    requires IsWord(w) && t != [] && IsPySpace(t[0])
    ensures SpanUntil(w + t, IsPySpace) == |w|
  {
    var s := w + t;
    var k := SpanUntil(s, IsPySpace);
    assert forall i :: 0 <= i < |w| ==> s[i] == w[i];
    assert s[|w|] == t[0];
  }

  /** `s.replace(c, d)` for single characters. */
  function ReplaceChar(s: string, c: char, d: char): (r: string)
    ensures |r| == |s|
    ensures forall i :: 0 <= i < |s| ==> r[i] == if s[i] == c then d else s[i]
  {
    seq(|s|, i requires 0 <= i < |s| => if s[i] == c then d else s[i])
  }

  /** `s.replace('\n', ' ').replace('\r', ' ')`. */
  function LineBreaksToSpaces(s: string): (r: string)
    ensures |r| == |s|
    ensures forall i :: 0 <= i < |r| ==> r[i] == (if s[i] == '\n' || s[i] == '\r' then ' ' else s[i])
    ensures '\n' !in r && '\r' !in r
  {
    ReplaceChar(ReplaceChar(s, '\n', ' '), '\r', ' ')
  }

  /** Collapsing a string that is already single-spaced changes nothing. */
  lemma {:induction false} CollapseSingleSpaced(s: string)
    requires SingleSpaced(s)
    ensures CollapseSpaces(s) == s
    decreases |s|
  {
    if s != [] {
      var k := SpanUntil(s, IsPySpace);
      if k == |s| {
        CollapseOneWord(s);
      } else {
        SingleSpacedAfterWord(s, k);
        CollapseSingleSpaced(s[k + 1..]);
        CollapseAfterWord(s, k);
      }
    }
  }

  /** A single word collapses to itself. */
  lemma CollapseOneWord(s: string)
    requires s != [] && SpanUntil(s, IsPySpace) == |s|
    ensures CollapseSpaces(s) == s
  {
    assert IsWord(s);
    WordsOfWord(s);
  }

  /** A word, one space and a remainder that collapses to itself. */
  lemma CollapseAfterWord(s: string, k: nat)
    requires s != [] && !IsPySpace(s[0]) && k == SpanUntil(s, IsPySpace)
    requires k + 1 < |s| && s[k] == ' ' && !IsPySpace(s[k + 1])
    requires CollapseSpaces(s[k + 1..]) == s[k + 1..]
    ensures CollapseSpaces(s) == s
  {
    var t := s[k + 1..];
    WordsAfterWord(s, k);
    assert Words(t) != [] by { assert !AllSpace(t, IsPySpace); }
    SpaceSplit(s, k);
    CollapseCons(s, s[..k], t);
  }

  /** The words of a word followed by one space: the word, then the words
      of what follows the space. */
  lemma WordsAfterWord(s: string, k: nat)
    requires s != [] && !IsPySpace(s[0]) && k == SpanUntil(s, IsPySpace)
    requires k + 1 < |s| && s[k] == ' ' && !IsPySpace(s[k + 1])
    ensures Words(s) == [s[..k]] + Words(s[k + 1..])
  {
    WordsOfUnspaced(s);
    DropDrop(s, k);
    WordsSkipSpace(s[k..]);
  }

  /** A word, a space, and a non-blank rest that collapses to itself. */
  lemma CollapseCons(s: string, w: string, t: string)
    requires Words(s) == [w] + Words(t) && Words(t) != []
    requires CollapseSpaces(t) == t && s == w + " " + t
    ensures CollapseSpaces(s) == s
  {
    var ws := Words(t);
    assert ([w] + ws)[1..] == ws;
    assert Join([w] + ws, " ") == w + " " + Join(ws, " ");
  }

  lemma SpaceSplit(s: string, k: nat)
    requires k < |s| && s[k] == ' '
    ensures s == s[..k] + " " + s[k + 1..]
  {
    assert s == s[..k] + [s[k]] + s[k + 1..];
  }

  /** The words of a string that starts with a non-space: its first run,
      then the words of the rest. */
  lemma WordsOfUnspaced(s: string)
    requires s != [] && !IsPySpace(s[0])
    ensures Words(s) == [s[..SpanUntil(s, IsPySpace)]] + Words(s[SpanUntil(s, IsPySpace)..])
  {
    assert LeadCount(s, IsPySpace) == 0;
    assert TrimStart(s, IsPySpace) == s;
  }

  /** In a single-spaced string the first word is followed by exactly one
      space and a single-spaced remainder. */
  lemma SingleSpacedAfterWord(s: string, k: nat)
    requires SingleSpaced(s) && s != []
    requires k == SpanUntil(s, IsPySpace) && k < |s|
    ensures s[k] == ' ' && k + 1 < |s| && !IsPySpace(s[k + 1])
    ensures SingleSpaced(s[k + 1..])
  {
    var t := s[k + 1..];
    assert forall i :: 0 <= i < |t| ==> t[i] == s[k + 1 + i];
  }

  /** A single leading space does not change the words. */
  lemma WordsSkipSpace(u: string)
    requires |u| >= 2 && u[0] == ' ' && !IsPySpace(u[1])
    ensures Words(u) == Words(u[1..])
  {
    assert LeadCount(u[1..], IsPySpace) == 0;
    assert LeadCount(u, IsPySpace) == 1;
    assert TrimStart(u, IsPySpace) == u[1..];
    assert TrimStart(u[1..], IsPySpace) == u[1..];
  }

  /** Splitting `a + [c] + b` where `b` has no `c`: the parts of `a`, then `b`. */
  lemma {:induction false} SplitAppend(a: string, c: char, b: string)
    requires c !in b
    ensures Split(a + [c] + b, c) == Split(a, c) + [b]
    decreases |a|
  {
    if c !in a {
      SplitAppendBase(a, c, b);
    } else {
      var k := IndexOf(a, c);
      SplitAppend(a[k + 1..], c, b);
      SplitAppendStep(a, c, b, k);
    }
  }

  lemma SplitAppendBase(a: string, c: char, b: string)
    requires c !in a && c !in b
    ensures Split(a + [c] + b, c) == [a, b]
  {
    var s := a + [c] + b;
    IndexOfAfterPrefix(a, c, b);
    assert s[..|a|] == a && s[|a| + 1..] == b;
  }

  /** The first `c` of `a` is the first of `a + [c] + b`, and the rest
      splits as the rest of `a` followed by `b`. */
  lemma SplitAppendStep(a: string, c: char, b: string, k: nat)
    requires c !in b && c in a && k == IndexOf(a, c)
    requires Split(a[k + 1..] + [c] + b, c) == Split(a[k + 1..], c) + [b]
    ensures Split(a + [c] + b, c) == Split(a, c) + [b]
  {
    var t := [c] + b;
    var r := a[k + 1..];
    IndexOfExtend(a, c, t);
    AppendSlices(a, t, k);
    Assoc(a, [c], b);
    Assoc(r, [c], b);
    calc {
      Split(a + [c] + b, c);
      Split(a + t, c);
      { SplitAtFirst(a + t, c); }
      [a[..k]] + Split(r + t, c);
      [a[..k]] + (Split(r, c) + [b]);
      { Assoc([a[..k]], Split(r, c), [b]); }
      [a[..k]] + Split(r, c) + [b];
      { SplitAtFirst(a, c); }
      Split(a, c) + [b];
    }
  }

  lemma DropDrop<T>(s: seq<T>, k: nat)
    requires k < |s|
    ensures s[k..][1..] == s[k + 1..]
  {
  }

  /** A non-empty prefix is the head followed by a prefix of the tail. */
  lemma HeadTake<T>(s: seq<T>, n: nat)
    requires 0 < n <= |s|
    ensures s[..n] == [s[0]] + s[1..][..n - 1]
  {
  }

  /** A slice of a suffix, and the end of a prefix, are slices of the whole. */
  lemma SliceOfSuffix<T>(s: seq<T>, c: nat, i: nat, j: nat)
    requires i <= j && c + j <= |s|
    ensures s[c..][i..j] == s[c + i..c + j]
    ensures s[..c + j][c + i..] == s[c + i..c + j]
  {
  }

  lemma TakeDrop<T>(s: seq<T>, i: nat, j: nat)
    requires i <= j <= |s|
    ensures s[..j][i..] == s[i..j]
  {
  }

  lemma SuffixOfSuffix<T>(s: seq<T>, c: nat, d: nat)
    requires c + d <= |s|
    ensures s[c..][d..] == s[c + d..]
  {
  }

  lemma Assoc<T>(x: seq<T>, y: seq<T>, z: seq<T>)
    ensures x + y + z == x + (y + z)
  {
  }

  /** Splitting at the first `c`. */
  lemma SplitAtFirst(s: string, c: char)
    requires c in s
    ensures Split(s, c) == [s[..IndexOf(s, c)]] + Split(s[IndexOf(s, c) + 1..], c)
  {
  }

  lemma AppendSlices(a: string, t: string, k: nat)
    requires k < |a|
    ensures (a + t)[..k] == a[..k] && (a + t)[k + 1..] == a[k + 1..] + t
  {
  }

  /** Appending text after the first `c` does not move it. */
  lemma IndexOfExtend(a: string, c: char, rest: string)
    requires c in a
    ensures c in a + rest && IndexOf(a + rest, c) == IndexOf(a, c)
  {
    var s := a + rest;
    var ka := IndexOf(a, c);
    assert s[ka] == c;
    var k := IndexOf(s, c);
    assert s[..ka] == a[..ka];
  }

  /** The last part of `a + [c] + b` is `b` when `b` has no `c`. */
  lemma SplitLastPart(a: string, c: char, b: string)
    requires c !in b
    ensures Split(a + [c] + b, c)[|Split(a + [c] + b, c)| - 1] == b
  {
    SplitAppend(a, c, b);
  }

  /** The first part of `a + [c] + b` is `a` when `a` has no `c`. */
  lemma SplitFirstPart(a: string, c: char, b: string)
    requires c !in a
    ensures Split(a + [c] + b, c)[0] == a
  {
    IndexOfAfterPrefix(a, c, b);
    assert (a + [c] + b)[..|a|] == a;
  }

  /** Stripping a trailing removable character from a string that does not
      already end in one gives the string back. */
  lemma TrimEndOneMore(s: string, c: char, sp: char -> bool)
    requires sp(c)
    requires s == [] || !sp(s[|s| - 1])
    ensures TrimEnd(s + [c], sp) == s
  {
    assert (s + [c])[..|s|] == s;
    assert TrailCount(s + [c], sp) == 1 + TrailCount(s, sp);
  }

  /** `(s + ' ').strip()` is `s` when `s` has no whitespace at either end. */
  lemma StripTrailingSpace(s: string)
    requires PyStrip(s) == s
    ensures PyStrip(s + " ") == s
  {
    if s == [] {
      assert s + " " == " ";
      assert AllSpace(" ", IsPySpace);
    } else {
      assert !IsPySpace(s[0]) && !IsPySpace(s[|s| - 1]);
      TrimPaddedRight(s, " ", IsPySpace);
    }
  }

  /** `(' ' + s).strip()` is `s` when `s` has no whitespace at either end. */
  lemma StripLeadingSpace(s: string)
    requires PyStrip(s) == s
    ensures PyStrip(" " + s) == s
  {
    if s == [] {
      assert " " + s == " ";
      assert AllSpace(" ", IsPySpace);
    } else {
      assert !IsPySpace(s[0]) && !IsPySpace(s[|s| - 1]);
      TrimPaddedLeft(" ", s, IsPySpace);
    }
  }

  lemma TrimPaddedRight(s: string, post: string, sp: char -> bool)
    requires AllSpace(post, sp)
    requires s != [] && !sp(s[0]) && !sp(s[|s| - 1])
    ensures Trim(s + post, sp) == s
  {
    assert [] + s + post == s + post;
    TrimPadded([], s, post, sp);
  }

  lemma TrimPaddedLeft(pre: string, s: string, sp: char -> bool)
    requires AllSpace(pre, sp)
    requires s != [] && !sp(s[0]) && !sp(s[|s| - 1])
    ensures Trim(pre + s, sp) == s
  {
    assert pre + s + [] == pre + s;
    TrimPadded(pre, s, [], sp);
  }

  /** Trimming removes exactly the removable padding around a string that
      neither starts nor ends with a removable character. */
  lemma TrimPadded(pre: string, s: string, post: string, sp: char -> bool)
    requires AllSpace(pre, sp) && AllSpace(post, sp)
    requires s != [] && !sp(s[0]) && !sp(s[|s| - 1])
    ensures Trim(pre + s + post, sp) == s
  {
    var t := pre + s + post;
    assert t == pre + (s + post);
    LeadCountAfter(pre, s + post, sp);
    var a := TrimStart(t, sp);
    assert a == s + post;
    TrailCountBefore(s, post, sp);
  }

  lemma {:induction false} LeadCountAfter(pre: string, rest: string, sp: char -> bool)
    requires AllSpace(pre, sp) && (rest == [] || !sp(rest[0]))
    ensures LeadCount(pre + rest, sp) == |pre|
    decreases |pre|
  {
    if pre == [] {
      assert pre + rest == rest;
    } else {
      assert (pre + rest)[1..] == pre[1..] + rest;
      LeadCountAfter(pre[1..], rest, sp);
    }
  }

  lemma {:induction false} TrailCountBefore(rest: string, post: string, sp: char -> bool)
    requires AllSpace(post, sp) && (rest == [] || !sp(rest[|rest| - 1]))
    ensures TrailCount(rest + post, sp) == |post|
    decreases |post|
  {
    if post == [] {
      assert rest + post == rest;
    } else {
      var n := |post| - 1;
      assert (rest + post)[..|rest + post| - 1] == rest + post[..n];
      TrailCountBefore(rest, post[..n], sp);
    }
  }

  /** Leading trimming stops inside a prefix that is not all removable. */
  lemma TrimStartAppend(x: string, y: string, sp: char -> bool)
    requires !AllSpace(x, sp)
    ensures TrimStart(x + y, sp) == TrimStart(x, sp) + y
  {
    var k := LeadCount(x, sp);
    assert x + y == x[..k] + (x[k..] + y);
    LeadCountAfter(x[..k], x[k..] + y, sp);
  }

  /** Trailing trimming of a concatenation: it reaches into `x` only when
      all of `y` is removable. */
  lemma TrimEndAppend(x: string, y: string, sp: char -> bool)
    ensures TrimEnd(x + y, sp) == if AllSpace(y, sp) then TrimEnd(x, sp) else x + TrimEnd(y, sp)
  {
    if AllSpace(y, sp) {
      var j := TrailCount(x, sp);
      assert x + y == x[..|x| - j] + (x[|x| - j..] + y);
      TrailCountBefore(x[..|x| - j], x[|x| - j..] + y, sp);
    } else {
      var k := TrailCount(y, sp);
      assert x + y == (x + y[..|y| - k]) + y[|y| - k..];
      TrailCountBefore(x + y[..|y| - k], y[|y| - k..], sp);
    }
  }

  // ---------------------------------------------------------------------------
  // Decimal numbers

  function DigitChar(d: nat): (c: char)
    requires d < 10
    ensures IsDigit(c)
  {
    (48 + d) as char
  }

  function DigitValue(c: char): (d: nat)
    requires IsDigit(c)
    ensures d < 10
  {
    (c as int) - 48
  }

  /** Python's `str(n)` for a natural number. */
  function NatToString(n: nat): (r: string)
    ensures |r| > 0
    ensures forall i :: 0 <= i < |r| ==> IsDigit(r[i])
  {
    if n < 10 then [DigitChar(n)] else NatToString(n / 10) + [DigitChar(n % 10)]
  }

  predicate AllDigits(s: string) {
    forall i :: 0 <= i < |s| ==> IsDigit(s[i])
  }

  function DigitsValue(s: string): nat
    requires AllDigits(s)
  {
    if s == [] then 0 else 10 * DigitsValue(s[..|s| - 1]) + DigitValue(s[|s| - 1])
  }

  /** A non-empty ASCII digit string read as a decimal number; anything
      else is refused. `PyInt` below is the full `int()`. */
  function ParseNat(s: string): (r: Option<nat>)
    ensures r.Some? <==> s != [] && AllDigits(s)
  {
    if s != [] && AllDigits(s) then Some(DigitsValue(s)) else None
  }

  lemma {:induction false} DigitsOfNatToString(n: nat)
    ensures DigitsValue(NatToString(n)) == n
    decreases n
  {
    var s := NatToString(n);
    if n >= 10 {
      DigitsOfNatToString(n / 10);
      assert s[..|s| - 1] == NatToString(n / 10);
      assert DigitValue(s[|s| - 1]) == n % 10;
    } else {
      assert s[..0] == [];
      assert DigitValue(s[0]) == n;
    }
  }

  lemma ParseNatToString(n: nat)
    ensures ParseNat(NatToString(n)) == Some(n)
  {
    DigitsOfNatToString(n);
  }

  /** Different numbers print differently. */
  lemma NatToStringInjective(a: nat, b: nat)
    requires NatToString(a) == NatToString(b)
    ensures a == b
  {
    ParseNatToString(a);
    ParseNatToString(b);
  }

  // ---------------------------------------------------------------------------
  // Python's int() on a string

  /** Python's `str(i)` for any integer. */
  function IntToString(i: int): (r: string)
    ensures r != []
    ensures i >= 0 ==> r == NatToString(i)
    ensures i < 0 ==> r[0] == '-' && r[1..] == NatToString(-i)
  {
    if i < 0 then "-" + NatToString(-i) else NatToString(i)
  }

  predicate DigitOrUnderscore(c: char) {
    IsDigit(c) || c == '_'
  }

  /** The digits `int()` accepts after the sign: ASCII digits, where a single
      underscore may stand between two digits. */
  predicate DigitRun(u: string)
    decreases |u|
  {
    u != [] && IsDigit(u[0])
    && (|u| == 1 || DigitRun(u[1..]) || (|u| >= 3 && u[1] == '_' && DigitRun(u[2..])))
  }

  /** The value of a digit run, underscores skipped. */
  function RunValue(u: string): int {
    if u == [] then 0
    else if u[|u| - 1] == '_' then RunValue(u[..|u| - 1])
    else 10 * RunValue(u[..|u| - 1]) + ((u[|u| - 1] as int) - 48)
  }

  /** Python's `int(s)` on a string, base 10: whitespace is stripped from
      both ends, then an optional sign and a digit run must make up the
      rest; anything else raises `ValueError`, modelled as None. */
  function PyInt(s: string): (r: Option<int>)
    decreases |s|
  {
    if s != [] && IsPySpace(s[0]) then PyInt(s[1..])
    else if s != [] && IsPySpace(s[|s| - 1]) then PyInt(s[..|s| - 1])
    else if DigitRun(s) then Some(RunValue(s))
    else if s != [] && (s[0] == '+' || s[0] == '-') && DigitRun(s[1..]) then
      Some(if s[0] == '-' then -RunValue(s[1..]) else RunValue(s[1..]))
    else None
  }

  /** A run holds digits and underscores only, and ends on a digit. */
  lemma {:induction false} DigitRunChars(u: string)
    requires DigitRun(u)
    ensures forall i :: 0 <= i < |u| ==> DigitOrUnderscore(u[i])
    ensures IsDigit(u[|u| - 1])
    decreases |u|
  {
    if |u| > 1 {
      if DigitRun(u[1..]) {
        DigitRunChars(u[1..]);
        assert forall i :: 1 <= i < |u| ==> u[i] == u[1..][i - 1];
      } else {
        DigitRunChars(u[2..]);
        assert forall i :: 2 <= i < |u| ==> u[i] == u[2..][i - 2];
      }
    }
  }

  /** Plain digits form a run. */
  lemma {:induction false} DigitsAreRun(u: string)
    requires u != [] && AllDigits(u)
    ensures DigitRun(u)
    decreases |u|
  {
    if |u| > 1 {
      DigitsAreRun(u[1..]);
    }
  }

  /** On plain digits the underscore-skipping value is the decimal value. */
  lemma {:induction false} RunValueOfDigits(u: string)
    requires AllDigits(u)
    ensures RunValue(u) == DigitsValue(u)
    decreases |u|
  {
    if u != [] {
      RunValueOfDigits(u[..|u| - 1]);
    }
  }

  /** `int()` reads a plain digit string exactly as `ParseNat` does. */
  lemma PyIntOfDigits(s: string)
    requires ParseNat(s).Some?
    ensures PyInt(s) == Some(ParseNat(s).value)
  {
    DigitsAreRun(s);
    RunValueOfDigits(s);
  }

  /** `int(str(i)) == i` for every integer. */
  lemma PyIntOfIntToString(i: int)
    ensures PyInt(IntToString(i)) == Some(i)
  {
    var r := IntToString(i);
    if i >= 0 {
      ParseNatToString(i);
      PyIntOfDigits(r);
    } else {
      PyIntOfMinus(NatToString(-i));
      ParseNatToString(-i);
    }
  }

  /** A minus sign before plain digits negates their value. */
  lemma PyIntOfMinus(d: string)
    requires ParseNat(d).Some?
    ensures PyInt("-" + d) == Some(-(ParseNat(d).value as int))
  {
    var r := "-" + d;
    RunValueOfDigits(d);
    DigitsAreRun(d);
    assert r[1..] == d;
    assert r[|r| - 1] == d[|d| - 1];
  }

  /** Different integers print differently. */
  lemma IntToStringInjective(a: int, b: int)
    requires IntToString(a) == IntToString(b)
    ensures a == b
  {
    PyIntOfIntToString(a);
    PyIntOfIntToString(b);
  }

  /** Every character of a string `int()` accepts is whitespace, a sign, a
      digit or an underscore: in particular no parenthesis. */
  lemma {:induction false} PyIntChars(s: string)
    requires PyInt(s).Some?
    ensures forall i :: 0 <= i < |s| ==>
      IsPySpace(s[i]) || DigitOrUnderscore(s[i]) || s[i] == '+' || s[i] == '-'
    ensures '(' !in s && ')' !in s
    decreases |s|
  {
    if s != [] && IsPySpace(s[0]) {
      PyIntChars(s[1..]);
      assert forall i :: 1 <= i < |s| ==> s[i] == s[1..][i - 1];
    } else if s != [] && IsPySpace(s[|s| - 1]) {
      PyIntChars(s[..|s| - 1]);
      assert forall i :: 0 <= i < |s| - 1 ==> s[i] == s[..|s| - 1][i];
    } else if DigitRun(s) {
      DigitRunChars(s);
    } else {
      DigitRunChars(s[1..]);
      assert forall i :: 1 <= i < |s| ==> s[i] == s[1..][i - 1];
    }
  }

  /** `int()` ignores whitespace around the number. */
  lemma {:induction false} PyIntPadded(pre: string, t: string, post: string)
    requires AllSpace(pre, IsPySpace) && AllSpace(post, IsPySpace)
    requires t != [] && !IsPySpace(t[0]) && !IsPySpace(t[|t| - 1])
    ensures PyInt(pre + t + post) == PyInt(t)
    decreases |pre| + |post|
  {
    var s := pre + t + post;
    if pre != [] {
      assert s[1..] == pre[1..] + t + post;
      PyIntPadded(pre[1..], t, post);
    } else if post != [] {
      assert s == t + post;
      assert s[..|s| - 1] == [] + t + post[..|post| - 1];
      PyIntPadded([], t, post[..|post| - 1]);
    } else {
      assert s == t;
    }
  }

  /** `int()` strips surrounding whitespace. */
  lemma PyIntStripsSpace()
    ensures PyInt(" 7\n") == Some(7)
  {
    assert " " + "7" + "\n" == " 7\n";
    PyIntPadded(" ", "7", "\n");
    assert DigitRun("7");
  }

  /** `int()` takes a sign in front of the digits. */
  lemma PyIntSigned()
    ensures PyInt("-1") == Some(-1)
  {
    var t := "-1";
    assert t[1..] == "1" && DigitRun("1");
  }

  /** `int()` skips an underscore between digits. */
  lemma PyIntUnderscore()
    ensures PyInt("1_0") == Some(10)
  {
    var t := "1_0";
    assert t[2..] == "0" && DigitRun("0");
    assert DigitRun(t);
    assert RunValue("1") == 1 by { assert "1"[..0] == []; }
    assert RunValue("1_") == 1 by { assert "1_"[..1] == "1"; }
    assert t[..2] == "1_";
  }

  /** A doubled underscore is refused. */
  lemma PyIntDoubleUnderscore()
    ensures PyInt("1__0") == None
  {
    var t := "1__0";
    assert t[1..] == "__0" && t[2..] == "_0";
    assert !DigitRun(t[1..]) && !DigitRun(t[2..]);
  }
}

=== FILE: thinking.dfy ===
/** The rewriting of `<think>` blocks into HTML spans
    (services/model/thinking_handler.py `ThinkingHandler.process`, and its
    verbatim copy `_clean_thinking_tags` in services/model_service.py). */
module Thinking {
  import opened Wrappers
  import opened Text
  import Summarizers
  import ChatCore

  const SpanOpen: string := "<span class='thinking-text'>"
  const SpanClose: string := "</span>"

  /** One line of a think block: its stripped text in a span, or nothing
      when it is blank. */
  function WrapLine(line: string): (r: string)
    ensures AllSpace(line, IsPySpace) ==> r == []
    ensures !AllSpace(line, IsPySpace) ==> r == SpanOpen + PyStrip(line) + SpanClose
  {
    var l := PyStrip(line);
    if l != [] then SpanOpen + l + SpanClose else []
  }

  function WrapLines(lines: seq<string>): (r: seq<string>)
    ensures |r| == |lines|
    ensures forall i :: 0 <= i < |lines| ==> r[i] == WrapLine(lines[i])
  {
    seq(|lines|, i requires 0 <= i < |lines| => WrapLine(lines[i]))
  }

  /** `replace_with_span` for the text between the tags: nothing when it is
      blank, otherwise its lines (after stripping the whole) wrapped one by
      one and joined by line breaks. */
  function SpanBlock(inner: string): (r: string)
    ensures AllSpace(inner, IsPySpace) ==> r == []
  {
    var t := PyStrip(inner);
    if t == [] then [] else Join(WrapLines(Split(t, '\n')), "\n")
  }

  /** A wrapped line holds no line break when the line has none. */
  lemma WrapLineNoBreak(line: string)
    requires '\n' !in line
    ensures '\n' !in WrapLine(line)
  {
    TrimKeepsChars(line, IsPySpace);
    var l := PyStrip(line);
    if l != [] {
      SpanTagsSingleLine();
      CharNotInAppend('\n', SpanOpen, l);
      CharNotInAppend('\n', SpanOpen + l, SpanClose);
    }
  }

  lemma SpanTagsSingleLine()
    ensures '\n' !in SpanOpen && '\n' !in SpanClose
  {
    assert forall i :: 0 <= i < |SpanOpen| ==> SpanOpen[i] != '\n';
    assert forall i :: 0 <= i < |SpanClose| ==> SpanClose[i] != '\n';
  }

  /** The lines of a non-blank block's replacement are exactly the wrapped
      lines of its stripped text: each non-blank line in a span, each blank
      line empty. */
  lemma SpanBlockLines(inner: string)
    requires !AllSpace(inner, IsPySpace)
    ensures Split(SpanBlock(inner), '\n') == WrapLines(Split(PyStrip(inner), '\n'))
  {
    var lines := Split(PyStrip(inner), '\n');
    var wrapped := WrapLines(lines);
    forall i | 0 <= i < |wrapped|
      ensures '\n' !in wrapped[i]
    {
      assert lines[i] in lines;
      WrapLineNoBreak(lines[i]);
    }
    assert "\n" == ['\n'];
    SplitOfJoin(wrapped, '\n');
  }

  /** `re.sub(r'<think>(.*?)</think>', replace_with_span, s, flags=re.DOTALL)`:
      each opening tag that has a closing tag after it, left to right,
      together with the first such closing tag, becomes the span block of
      the text between them. */
  function Substitute(s: string): (r: string)
    ensures Summarizers.Find(s, Summarizers.ThinkOpen).None? ==> r == s
    ensures Summarizers.Find(s, Summarizers.ThinkOpen).Some? ==> StartsWith(r, s[..Summarizers.Find(s, Summarizers.ThinkOpen).value])
    ensures (Summarizers.Find(s, Summarizers.ThinkOpen).Some?
      && Summarizers.Find(s[Summarizers.Find(s, Summarizers.ThinkOpen).value + |Summarizers.ThinkOpen|..], Summarizers.ThinkClose).None?)
      ==> r == s
    decreases |s|
  {
    match Summarizers.Find(s, Summarizers.ThinkOpen)
    case None => s
    case Some(i) =>
      var after := s[i + |Summarizers.ThinkOpen|..];
      match Summarizers.Find(after, Summarizers.ThinkClose)
      case None => s
      case Some(j) =>
        s[..i] + SpanBlock(after[..j]) + Substitute(after[j + |Summarizers.ThinkClose|..])
  }

  /** One block whose opening tag is the first in the text: the text before
      it stays, the block becomes its span block, and the rewriting goes on
      after it. */
  lemma SubstituteOneBlock(a: string, b: string, c: string)
    requires Summarizers.Find(a + Summarizers.ThinkOpen, Summarizers.ThinkOpen) == Some(|a|)
    requires Summarizers.Find(b + Summarizers.ThinkClose, Summarizers.ThinkClose) == Some(|b|)
    ensures Substitute(a + Summarizers.ThinkOpen + b + Summarizers.ThinkClose + c) == a + SpanBlock(b) + Substitute(c)
  {
    var open, close := Summarizers.ThinkOpen, Summarizers.ThinkClose;
    var s := a + open + b + close + c;
    Summarizers.FindPrefix(a + open, open, b + close + c);
    assert s == (a + open) + (b + close + c);
    var after := s[|a| + |open|..];
    assert after == (b + close) + c;
    Summarizers.FindPrefix(b + close, close, c);
    assert after[..|b|] == b;
    assert after[|b| + |close|..] == c;
    assert s[..|a|] == a;
  }

  /** A block with nothing but whitespace inside disappears. */
  lemma BlankBlockRemoved(a: string, b: string, c: string)
    requires Summarizers.Find(a + Summarizers.ThinkOpen, Summarizers.ThinkOpen) == Some(|a|)
    requires Summarizers.Find(b + Summarizers.ThinkClose, Summarizers.ThinkClose) == Some(|b|)
    requires AllSpace(b, IsPySpace)
    ensures Substitute(a + Summarizers.ThinkOpen + b + Summarizers.ThinkClose + c) == a + Substitute(c)
  {
    SubstituteOneBlock(a, b, c);
    EmptyMiddle(a, SpanBlock(b), Substitute(c));
  }

  lemma EmptyMiddle(a: string, e: string, c: string)
    requires e == []
    ensures a + e + c == a + c
  {
  }

  // ---------------------------------------------------------------------------
  // Collapsing blank lines

  /** No three line breaks in a row. */
  predicate NoTripleBreak(s: string) {
    forall i :: 0 <= i < |s| - 2 ==> !(s[i] == '\n' && s[i + 1] == '\n' && s[i + 2] == '\n')
  }

  predicate IsBreak(c: char) {
    c == '\n'
  }

  /** `re.sub(r'\n{3,}', '\n\n', s)`: every run of three or more line
      breaks becomes two. */
  function CollapseBreaks(s: string): (r: string)
    ensures NoTripleBreak(r)
    ensures r == [] <==> s == []
    ensures r != [] ==> (r[0] == '\n' <==> s[0] == '\n')
    ensures ChatCore.RemoveWhere(r, IsBreak) == ChatCore.RemoveWhere(s, IsBreak)
    decreases |s|
  {
    if s == [] then []
    else if s[0] != '\n' then
      var rest := CollapseBreaks(s[1..]);
      NoTripleCons(s[0], rest);
      KeptAfterChar(s, rest);
      [s[0]] + rest
    else
      var k := LeadCount(s, IsBreak);
      var run := if k >= 3 then "\n\n" else s[..k];
      var rest := CollapseBreaks(s[k..]);
      NoTripleAfterRun(run, rest);
      KeptAfterRun(s, k, run, rest);
      run + rest
  }

  /** The text kept after a character that is no break. */
  lemma KeptAfterChar(s: string, rest: string)
    requires s != [] && !IsBreak(s[0])
    requires ChatCore.RemoveWhere(rest, IsBreak) == ChatCore.RemoveWhere(s[1..], IsBreak)
    ensures ChatCore.RemoveWhere([s[0]] + rest, IsBreak) == ChatCore.RemoveWhere(s, IsBreak)
  {
    assert ([s[0]] + rest)[1..] == rest;
  }

  /** The text kept after a run of breaks, however long the run is. */
  lemma KeptAfterRun(s: string, k: nat, run: string, rest: string)
    requires k <= |s| && AllSpace(s[..k], IsBreak) && AllSpace(run, IsBreak)
    requires ChatCore.RemoveWhere(rest, IsBreak) == ChatCore.RemoveWhere(s[k..], IsBreak)
    ensures ChatCore.RemoveWhere(run + rest, IsBreak) == ChatCore.RemoveWhere(s, IsBreak)
  {
    assert s == s[..k] + s[k..];
    ChatCore.RemoveWhereAppend(s[..k], s[k..], IsBreak);
    ChatCore.RemoveAll(s[..k], IsBreak);
    ChatCore.RemoveWhereAppend(run, rest, IsBreak);
    ChatCore.RemoveAll(run, IsBreak);
  }

  /** `k` line breaks. */
  function Breaks(k: nat): (r: string)
    ensures |r| == k && AllSpace(r, IsBreak)
  {
    seq(k, i => '\n')
  }

  /** How runs come out: a run of breaks in front of a character that is no
      break is kept when it is one or two long and becomes two breaks
      otherwise; any other character is kept. */
  lemma CollapseRun(k: nat, t: string)
    requires k > 0 && (t == [] || t[0] != '\n')
    ensures CollapseBreaks(Breaks(k) + t) == Breaks(if k >= 3 then 2 else k) + CollapseBreaks(t)
  {
    var s := Breaks(k) + t;
    assert s[..k] == Breaks(k) && s[k..] == t;
    LeadCountAfter(Breaks(k), t, IsBreak);
    if k >= 3 {
      assert "\n\n" == Breaks(2);
    }
  }

  lemma CollapseChar(c: char, t: string)
    requires c != '\n'
    ensures CollapseBreaks([c] + t) == [c] + CollapseBreaks(t)
  {
    assert ([c] + t)[1..] == t;
  }

  lemma NoTripleCons(c: char, rest: string)
    requires c != '\n' && NoTripleBreak(rest)
    ensures NoTripleBreak([c] + rest)
  {
    var r := [c] + rest;
    forall i | 1 <= i < |r| - 2
      ensures !(r[i] == '\n' && r[i + 1] == '\n' && r[i + 2] == '\n')
    {
      assert r[i] == rest[i - 1] && r[i + 1] == rest[i] && r[i + 2] == rest[i + 1];
    }
  }

  lemma NoTripleAfterRun(run: string, rest: string)
    requires |run| <= 2 && NoTripleBreak(rest)
    requires rest == [] || rest[0] != '\n'
    ensures NoTripleBreak(run + rest)
  {
    var r := run + rest;
    forall i | 0 <= i < |r| - 2
      ensures !(r[i] == '\n' && r[i + 1] == '\n' && r[i + 2] == '\n')
    {
      if i >= |run| {
        assert r[i] == rest[i - |run|] && r[i + 1] == rest[i - |run| + 1] && r[i + 2] == rest[i - |run| + 2];
      } else if i + 1 == |run| {
        assert r[i + 1] == rest[0];
      } else {
        assert r[i + 2] == rest[0];
      }
    }
  }

  /** Text without three breaks in a row is left as it is, so collapsing
      twice is collapsing once. */
  lemma {:induction false} CollapseKeepsClean(s: string)
    requires NoTripleBreak(s)
    ensures CollapseBreaks(s) == s
    decreases |s|
  {
    if s != [] {
      assert NoTripleBreak(s[1..]) by {
        forall i | 0 <= i < |s[1..]| - 2
          ensures !(s[1..][i] == '\n' && s[1..][i + 1] == '\n' && s[1..][i + 2] == '\n')
        {
          assert s[1..][i] == s[i + 1] && s[1..][i + 1] == s[i + 2] && s[1..][i + 2] == s[i + 3];
        }
      }
      if s[0] != '\n' {
        CollapseKeepsClean(s[1..]);
        assert s == [s[0]] + s[1..];
      } else {
        var k := LeadCount(s, IsBreak);
        RunBound(s);
        SuffixNoTriple(s, k);
        CollapseKeepsClean(s[k..]);
        assert s == s[..k] + s[k..];
      }
    }
  }

  /** In text without three breaks in a row a run of breaks is at most two
      long. */
  lemma RunBound(s: string)
    requires NoTripleBreak(s)
    ensures LeadCount(s, IsBreak) <= 2
  {
    assert |s| < 3 || !(IsBreak(s[0]) && IsBreak(s[1]) && IsBreak(s[2]));
  }

  lemma SuffixNoTriple(s: string, k: nat)
    requires k <= |s| && NoTripleBreak(s)
    ensures NoTripleBreak(s[k..])
  {
    forall i | 0 <= i < |s[k..]| - 2
      ensures !(s[k..][i] == '\n' && s[k..][i + 1] == '\n' && s[k..][i + 2] == '\n')
    {
      assert s[k..][i] == s[i + k] && s[k..][i + 1] == s[i + k + 1] && s[k..][i + 2] == s[i + k + 2];
    }
  }

  lemma SliceNoTriple(s: string, a: nat, b: nat)
    requires a <= b <= |s| && NoTripleBreak(s)
    ensures NoTripleBreak(s[a..b])
  {
    var t := s[a..b];
    forall i | 0 <= i < |t| - 2
      ensures !(t[i] == '\n' && t[i + 1] == '\n' && t[i + 2] == '\n')
    {
      assert t[i] == s[a + i] && t[i + 1] == s[a + i + 1] && t[i + 2] == s[a + i + 2];
    }
  }

  /** Stripping cuts a slice out, so it keeps the property. */
  lemma StripNoTriple(s: string)
    requires NoTripleBreak(s)
    ensures NoTripleBreak(PyStrip(s))
  {
    var a := TrimStart(s, IsPySpace);
    SliceNoTriple(s, |s| - |a|, |s|);
    var r := TrimEnd(a, IsPySpace);
    SliceNoTriple(a, 0, |r|);
    assert PyStrip(s) == r;
  }

  // ---------------------------------------------------------------------------
  // The whole rewrite

  /** `ThinkingHandler.process`: blocks rewritten, stray tags deleted, runs
      of three or more line breaks cut to two, the result stripped. */
  function Process(text: string): (r: string)
    ensures NoTripleBreak(r)
    ensures PyStrip(r) == r
  {
    var t := Substitute(text);
    var t := ReplaceAll(ReplaceAll(t, Summarizers.ThinkOpen, ""), Summarizers.ThinkClose, "");
    var c := CollapseBreaks(t);
    StripNoTriple(c);
    TrimIdempotent(c, IsPySpace);
    PyStrip(c)
  }

  /** Text with neither tag is changed only by the line-break collapse and
      the strip. */
  lemma NoTagsOnlyCollapse(text: string)
    requires Summarizers.Find(text, Summarizers.ThinkOpen).None?
    requires Summarizers.Find(text, Summarizers.ThinkClose).None?
    ensures Process(text) == PyStrip(CollapseBreaks(text))
  {
    assert Substitute(text) == text;
    Summarizers.NotFoundNotContained(text, Summarizers.ThinkOpen);
    Summarizers.NotFoundNotContained(text, Summarizers.ThinkClose);
    ReplaceAbsent(text, Summarizers.ThinkOpen, "");
    ReplaceAbsent(text, Summarizers.ThinkClose, "");
  }

  /** Plain text that is already stripped and has no three breaks in a row
      comes out unchanged, and processing twice is processing once for text
      without tags. */
  lemma PlainTextKept(text: string)
    requires Summarizers.Find(text, Summarizers.ThinkOpen).None?
    requires Summarizers.Find(text, Summarizers.ThinkClose).None?
    requires NoTripleBreak(text) && PyStrip(text) == text
    ensures Process(text) == text
  {
    NoTagsOnlyCollapse(text);
    CollapseKeepsClean(text);
  }
}

=== FILE: ui_logic.dfy ===
/** The pure helpers behind the dropdown-based chat switcher (logic/ui_handlers.py)
    and the chat title shown above the conversation (handlers/naming_utils.py):
    display-name cleaning and truncation, the `"<name> (<id>)"` labels, reading
    the id and the name back out of a label, and the index of the current
    dialog in the list. */
module UiLogic {
  import opened Wrappers
  import opened Text
  import opened Dialogs
  import opened DialogStore
  import opened DialogManager
  import opened Grouper

  /** The title used when there is no dialog to name. */
  const FallbackChatName: string := "Чат"

  const Ellipsis: string := "..."

  /** Titles above the conversation: at most 30 characters, 27 kept when cut. */
  const HeaderLimit: nat := 30
  const HeaderKeep: nat := 27

  /** Dropdown entries: at most 50 characters, 47 kept when cut. */
  const DropdownLimit: nat := 50
  const DropdownKeep: nat := 47

  // ---------------------------------------------------------------------------
  // Display names

  /** `' '.join(name.replace('\n', ' ').replace('\r', ' ').split())`. */
  function Cleaned(name: string): string {
    CollapseSpaces(LineBreaksToSpaces(name))
  }

  /** The cleaned name, cut to `keep` characters plus an ellipsis when it is
      longer than `limit`. */
  function DisplayName(name: string, limit: nat, keep: nat): (r: string)
    requires keep + |Ellipsis| <= limit
    ensures |r| <= limit
    ensures SingleSpaced(r) && '\n' !in r && '\r' !in r
    ensures |Cleaned(name)| <= limit ==> r == Cleaned(name)
    ensures |Cleaned(name)| > limit ==> |r| == keep + |Ellipsis| && r[..keep] == Cleaned(name)[..keep] && r[keep..] == Ellipsis
  {
    var c := Cleaned(name);
    if |c| > limit then
      CutSingleSpaced(c, keep);
      c[..keep] + Ellipsis
    else c
  }

  /** A prefix of a single-spaced string followed by dots is single-spaced. */
  lemma CutSingleSpaced(c: string, keep: nat)
    requires SingleSpaced(c) && keep <= |c|
    ensures SingleSpaced(c[..keep] + Ellipsis)
  {
    var r := c[..keep] + Ellipsis;
    assert forall i :: 0 <= i < keep ==> r[i] == c[i];
    assert forall i :: keep <= i < |r| ==> r[i] == '.';
  }

  /** Cleaning and cutting a name that is already displayed changes nothing:
      the displayed form is a fixed point. */
  lemma DisplayNameIdempotent(name: string, limit: nat, keep: nat)
    requires keep + |Ellipsis| <= limit
    ensures DisplayName(DisplayName(name, limit, keep), limit, keep) == DisplayName(name, limit, keep)
  {
    var r := DisplayName(name, limit, keep);
    assert LineBreaksToSpaces(r) == r;
    CollapseSingleSpaced(r);
  }

  /** `get_chat_name_from_id` and the title in `init_app_handler`: the
      fallback for an empty or unknown id, otherwise the dialog's name cut to
      30 characters. */
  function HeaderName(m: Manager, id: string): (r: string)
    ensures |r| <= HeaderLimit && SingleSpaced(r) && '\n' !in r && '\r' !in r
    ensures id == [] || !HasKey(m.dialogs, id) ==> r == FallbackChatName
    ensures id != [] && HasKey(m.dialogs, id) ==> r == DisplayName(Get(m.dialogs, id).value.name, HeaderLimit, HeaderKeep)
  {
    if id == [] then FallbackChatName
    else match Get(m.dialogs, id)
      case Some(d) => DisplayName(d.name, HeaderLimit, HeaderKeep)
      case None => FallbackChatName
  }

  // ---------------------------------------------------------------------------
  // Labels and reading them back

  /** `f"{name} ({id})"`. */
  function Label(name: string, id: string): (r: string)
    ensures StartsWith(r, name) && EndsWith(r, " (" + id + ")")
  {
    name + " (" + id + ")"
  }

  /** The dropdown entry: the display name cut to 50 characters, then the
      id, which reads back out of the entry when it holds no parenthesis. */
  function DropdownLabel(name: string, id: string): (r: string)
    ensures |r| <= DropdownLimit + |id| + 3
    ensures '(' !in id && ')' !in id ==> IdFromSelection(r) == id
  {
    var shown := DisplayName(name, DropdownLimit, DropdownKeep);
    assert '(' !in id && ')' !in id ==> IdFromSelection(Label(shown, id)) == id by {
      if '(' !in id && ')' !in id {
        IdFromLabel(shown, id);
      }
    }
    Label(shown, id)
  }

  predicate IsCloseParen(c: char) {
    c == ')'
  }

  /** `selection.split("(")[-1].rstrip(")")`. */
  function IdFromSelection(selection: string): (r: string)
    ensures ')' !in r || r[|r| - 1] != ')'
  {
    var parts := Split(selection, '(');
    TrimEnd(parts[|parts| - 1], IsCloseParen)
  }

  /** The id read back out of any label is the id it was built with, when
      the id holds no parenthesis, whatever the name holds. */
  lemma IdFromLabel(name: string, id: string)
    requires '(' !in id && ')' !in id
    ensures IdFromSelection(Label(name, id)) == id
  {
    var b := id + [')'];
    CharNotInAppend('(', id, [')']);
    assert Label(name, id) == (name + " ") + ['('] + b;
    IdAfterLastParen(name + " ", b);
    TrimEndOneMore(id, ')', IsCloseParen);
  }

  /** The id is read from the part after the last parenthesis. */
  lemma IdAfterLastParen(a: string, b: string)
    requires '(' !in b
    ensures IdFromSelection(a + ['('] + b) == TrimEnd(b, IsCloseParen)
  {
    SplitLastPart(a, '(', b);
  }

  /** `get_chat_name_from_selection` for a non-empty selection, as written:
      `selection.split("(")[0].strip()`, which ends the name at its first
      parenthesis. */
  function NameFromSelection(selection: string): (r: string)
    ensures '(' !in r && PyStrip(r) == r
    ensures '(' !in selection ==> r == PyStrip(selection)
  {
    var head := Split(selection, '(')[0];
    assert head in Split(selection, '(');
    TrimKeepsChars(head, IsPySpace);
    TrimIdempotent(head, IsPySpace);
    PyStrip(head)
  }

  /** A name with a parenthesis loses everything from it on. */
  lemma NameFromSelectionCutsAtParen()
    ensures NameFromSelection(Label("a (b)", "1")) == "a"
  {
    assert "a" + " (" + "b)" == "a (b)";
    assert PyStrip("a") == "a" by {
      TrimOfTrimmed("a", IsPySpace);
    }
    NameFromSelectionCutsAtFirstParen("a", "b)", "1");
  }

  /** As written, a name `n (rest` whose head `n` has no parenthesis and no
      surrounding whitespace reads back as `n` alone. */
  lemma NameFromSelectionCutsAtFirstParen(name: string, rest: string, id: string)
    requires '(' !in name && PyStrip(name) == name
    ensures NameFromSelection(Label(name + " (" + rest, id)) == name
  {
    var head := name + " ";
    var tail := rest + " (" + id + ")";
    assert Label(name + " (" + rest, id) == head + ['('] + tail;
    SplitFirstPart(head, '(', tail);
    StripTrailingSpace(name);
  }

  /** As written, the name does come back when it holds no '(' and no
      surrounding whitespace. */
  lemma NameFromSelectionWithoutParen(name: string, id: string)
    requires '(' !in name && PyStrip(name) == name
    ensures NameFromSelection(Label(name, id)) == name
  {
    assert Label(name, id) == (name + " ") + ['('] + (id + ")");
    SplitFirstPart(name + " ", '(', id + ")");
    StripTrailingSpace(name);
  }

  /** The evidently intended reading, `selection.rsplit("(", 1)[0].strip()`:
      everything before the last parenthesis. */
  function NameFromSelectionCorrected(selection: string): (r: string)
    ensures PyStrip(r) == r
    ensures '(' !in selection ==> r == PyStrip(selection)
  {
    var parts := Split(selection, '(');
    var head := if |parts| == 1 then selection else Join(parts[..|parts| - 1], "(");
    TrimIdempotent(head, IsPySpace);
    PyStrip(head)
  }

  /** The corrected reading gives back every name without surrounding
      whitespace, parentheses included, for ids without '('. */
  lemma NameFromSelectionCorrectedRoundTrip(name: string, id: string)
    requires '(' !in id && PyStrip(name) == name
    ensures NameFromSelectionCorrected(Label(name, id)) == name
  {
    var a := name + " ";
    var sel := Label(name, id);
    assert sel == a + ['('] + (id + ")");
    SplitAppend(a, '(', id + ")");
    var parts := Split(sel, '(');
    assert parts[..|parts| - 1] == Split(a, '(');
    StripTrailingSpace(name);
  }

  // ---------------------------------------------------------------------------
  // The current entry

  /** The loop `for i, d in enumerate(dialogs): if d["id"] == id: index = i; break`
      starting from index 0: the first position of `id`, or 0 when absent. */
  function CurrentIndex(ids: seq<string>, id: string): (i: nat)
    ensures id in ids ==> i < |ids| && ids[i] == id && id !in ids[..i]
    ensures id !in ids ==> i == 0
  {
    if ids == [] || ids[0] == id then 0
    else
      var j := CurrentIndex(ids[1..], id);
      if id in ids[1..] then
        assert ids[..j + 1] == [ids[0]] + ids[1..][..j];
        j + 1
      else 0
  }

  function IdsOf(list: seq<DialogInfo>): (r: seq<string>)
    ensures |r| == |list| && forall i :: 0 <= i < |list| ==> r[i] == list[i].id
  {
    seq(|list|, i requires 0 <= i < |list| => list[i].id)
  }

  /** The choices of the dropdown and its selected value, if any. */
  datatype Dropdown = Dropdown(choices: seq<string>, value: Option<string>)

  /** `get_dialog_list_for_dropdown`: one cleaned label per listed dialog; the
      value is the current dialog's label, or the first label when the
      current dialog is not listed; no value without a current dialog or
      without entries. */
  function DropdownFor(list: seq<DialogInfo>, current: Option<Dialog>): (r: Dropdown)
    ensures |r.choices| == |list|
    ensures forall i :: 0 <= i < |list| ==> r.choices[i] == DropdownLabel(list[i].name, list[i].id)
    ensures r.value.Some? <==> current.Some? && list != []
    ensures r.value.Some? ==> r.value.value == r.choices[CurrentIndex(IdsOf(list), current.value.id)]
  {
    var choices := seq(|list|, i requires 0 <= i < |list| => DropdownLabel(list[i].name, list[i].id));
    if current.Some? && choices != [] then
      Dropdown(choices, Some(choices[CurrentIndex(IdsOf(list), current.value.id)]))
    else Dropdown(choices, None)
  }

  /** The dropdown built from a valid manager selects the current dialog:
      reading the id back out of the selected label gives the current id. */
  lemma DropdownSelectsCurrent(m: Manager)
    requires Valid(m) && GetCurrentDialog(m).Some?
    ensures var r := DropdownFor(GetDialogList(m.dialogs, m.current), GetCurrentDialog(m));
      r.value.Some? && IdFromSelection(r.value.value) == m.current.value
  {
    var list := GetDialogList(m.dialogs, m.current);
    var d := GetCurrentDialog(m).value;
    var r := DropdownFor(list, GetCurrentDialog(m));
    CurrentListed(m);
    var k := CurrentIndex(IdsOf(list), d.id);
    assert r.value.value == DropdownLabel(list[k].name, list[k].id);
    assert list[k].id == d.id;
    PyIntChars(d.id);
    IdFromLabel(DisplayName(list[k].name, DropdownLimit, DropdownKeep), d.id);
  }

  /** The current dialog of a valid manager is listed. */
  lemma CurrentListed(m: Manager)
    requires Valid(m) && GetCurrentDialog(m).Some?
    ensures GetCurrentDialog(m).value.id in IdsOf(GetDialogList(m.dialogs, m.current))
  {
    var list := GetDialogList(m.dialogs, m.current);
    var d := GetCurrentDialog(m).value;
    var i :| 0 <= i < |m.dialogs| && m.dialogs[i] == d;
    assert Info(d, m.current) in multiset(Infos(m.dialogs, m.current));
    assert Info(d, m.current) in list;
    var ids := IdsOf(list);
    var j :| 0 <= j < |list| && list[j] == Info(d, m.current);
    assert ids[j] == d.id;
  }

  /** The header label after a message (`send_message_handler`): the name
      read back, as written, from the raw label of the chat the reply names;
      no label when the list is empty (the index error the source catches). */
  function HeaderAfterSend(list: seq<DialogInfo>, chatId: string): (r: Option<string>)
    ensures r.None? <==> list == []
  {
    if list == [] then None
    else
      var k := CurrentIndex(IdsOf(list), chatId);
      Some(NameFromSelection(Label(list[k].name, list[k].id)))
  }

  /** As written, the header after a send is the named chat's own name when
      that name holds no parenthesis and no surrounding whitespace. */
  lemma HeaderAfterSendNamesChat(list: seq<DialogInfo>, chatId: string, j: nat)
    requires j < |list| && list[j].id == chatId
    requires forall i :: 0 <= i < |list| ==> PyStrip(list[i].name) == list[i].name && '(' !in list[i].name
    ensures exists i :: 0 <= i < |list| && list[i].id == chatId && HeaderAfterSend(list, chatId) == Some(list[i].name)
  {
    var ids := IdsOf(list);
    assert ids[j] == chatId;
    var k := CurrentIndex(ids, chatId);
    NameFromSelectionWithoutParen(list[k].name, list[k].id);
  }

  /** As written, a chat named "a (b)" gets the header "a" after a send. */
  lemma HeaderAfterSendCutsName(now: int)
    ensures HeaderAfterSend([DialogInfo("1", "a (b)", 0, now, now, false, false, None)], "1") == Some("a")
  {
    var list := [DialogInfo("1", "a (b)", 0, now, now, false, false, None)];
    assert IdsOf(list) == ["1"];
    assert CurrentIndex(IdsOf(list), "1") == 0;
    NameFromSelectionCutsAtParen();
  }

  /** The header after a send with the corrected reading of the label. */
  function HeaderAfterSendCorrected(list: seq<DialogInfo>, chatId: string): (r: Option<string>)
    ensures r.None? <==> list == []
  {
    if list == [] then None
    else
      var k := CurrentIndex(IdsOf(list), chatId);
      Some(NameFromSelectionCorrected(Label(list[k].name, list[k].id)))
  }

  /** With the corrected reading, the header after a send is the named
      chat's own name, parentheses included, whenever that name has no
      surrounding whitespace. */
  lemma HeaderAfterSendCorrectedNamesChat(list: seq<DialogInfo>, chatId: string, j: nat)
    requires j < |list| && list[j].id == chatId && '(' !in chatId
    requires forall i :: 0 <= i < |list| ==> PyStrip(list[i].name) == list[i].name
    ensures exists i :: 0 <= i < |list| && list[i].id == chatId && HeaderAfterSendCorrected(list, chatId) == Some(list[i].name)
  {
    var ids := IdsOf(list);
    assert ids[j] == chatId;
    var k := CurrentIndex(ids, chatId);
    NameFromSelectionCorrectedRoundTrip(list[k].name, list[k].id);
  }
}

=== FILE: wrappers.dfy ===
/** Option and Result, the failure-carrying datatypes the rest of the model uses
    in place of Python's None and raised exceptions. */
module Wrappers {

  datatype Option<+T> = None | Some(value: T) {
    /** The value, or `default` when absent (Python's `x or default`
        for values that are never falsy). */
    function GetOr(default: T): T {
      match this
      case Some(v) => v
      case None => default
    }
  }

  datatype Result<+T, +E> = Success(value: T) | Failure(error: E)
}
